=== FILE: README.md ===
# workhealthy in Dafny

A model of the core of workhealthy, a workstation health monitor. Cameras
(ESP32 boards and ordinary video sources) send JPEG frames to a Python
backend. The backend detects a person and a cup in each frame and keeps
debounced "at work" / "drinking" / "active" flags per camera. It records work
sessions and health events in a database and pushes each camera's state to
browser clients over WebSockets.

The model has one module per source file:

- the firmware senders: `SendRetry`, `LcdEvSender`, `CamUdpClient`, `CamServer`;
- the legacy reassembler and the LCD-EV-to-legacy bridge: `LegacyReassembler`, `LcdEvToLegacy`;
- the shared-port UDP server: `UdpServer`;
- the capture abstraction and its OpenCV transport: `CaptureBase`, `Cv2Capture`;
- the per-camera processing loop: `VideoProcessor`;
- the detectors: `Detector`, `YoloDetector`, `YoloLive`, `WorkLabel`, `FaceSignin`;
- the APIs and the monitor registry: `SigninApi`, `MonitorRegistry`, `MonitorApi`;
- the monitor and the health services: `Monitor`, `HealthAnalyze`, `HealthMonitor`;
- the database queries and the test data: `Crud`, `TestData`;
- the serial and SSE readers: `SerialFraming`, `SensorStream`;
- the timing log: `ActivityLogger`;
- the frontend event bus and WebSocket reconnection: `EventBus`, `WsReconnect`.

`Common` holds the shared vocabulary: bytes, `Option` and `Result`, filtering, string
splitting, joining and stripping, and decimal integer parsing and printing.

Modelling conventions:

- Bytes are naturals below 256. 16- and 32-bit fields are subset types, and
  every wrap-around the source relies on is written out.
- Python floats are reals.
- Several things become parameters of the operations that use them:
  - the wall clock;
  - the output of ML inference (YOLO boxes, face encodings, label scores);
  - JPEG decoding and the frame-difference ratio;
  - the JSON parser;
  - random choices.
- Threads, sockets, locks and sleeps become explicit state and event sequences.
- Operations that write to a socket, a file or a callback return what they
  would write or call, in order.

Where the code's comments and the code disagree, the model follows the code.
The comment at backend/video_processor.py:88 says frames older than one
second are dropped. The comparison it annotates subtracts a stamp in seconds
from a millisecond clock, so it drops every frame. `VideoProcessor.Tick` is that loop as
written; `VideoProcessor.TickIntended` is the same pass with the intended
one-second test. In the same way, `HealthMonitor.PassAsWritten`,
`HealthMonitor.StartAsWritten` and `HealthMonitor.StopAsWritten` model the
health service as written, whose database and processor calls raise. The
members without that suffix model what it evidently means to do (see
Findings).

## Model

| member | source | states |
|---|---|---|
| SendRetry.SendWithRetry | firmware-esp-lcd-ev/src/udp_client.cpp:17-36 | the helper still loops exactly when every attempt so far failed with ENOMEM; otherwise it returned at the first attempt that was a full send or a failure other than ENOMEM, with the length on a full send and -1 on anything else |
| SendRetry.NoMemoryPrefixIsTransparent | firmware-esp-cam/src/udp_client.cpp:23-42 | any number of ENOMEM failures before a deciding attempt do not change the result; only the position of the deciding attempt moves |
| SendRetry.DeliveredIsFullSend | firmware-esp-lcd-ev/src/udp_client.cpp:17-36 | the senders' `ret < 0` test passes exactly when the loop returned at an attempt that sent the whole buffer |
| SendRetry.FirstUndelivered | firmware-esp-lcd-ev/src/udp_client.cpp:102-125 | the first chunk that its retry loop did not deliver: every chunk before it was delivered and it was not, or the number of chunks when all were |
| SendRetry.FirstUndeliveredIs | firmware-esp-lcd-ev/src/udp_client.cpp:102-125 | that index is the only one with every chunk before it delivered and itself undelivered |
| LcdEvSender.ChunkTotal | firmware-esp-lcd-ev/src/udp_client.cpp:98-100 | the chunk count covers the image (count × 1464 ≥ length, one chunk fewer would not) whenever it fits in 16 bits |
| LcdEvSender.ChunkTotalIsCeiling | firmware-esp-lcd-ev/src/udp_client.cpp:98-100 | for 0 < len ≤ 65535·1464 the count is the ceiling of len / 1464 |
| LcdEvSender.ChunkTotalWraps | firmware-esp-lcd-ev/src/udp_client.cpp:100 | the count is stored in a `uint16_t`: 65536 full chunks give 0, one byte more gives 1 |
| LcdEvSender.Header | firmware-esp-lcd-ev/src/udp_client.cpp:74-80 | the packed header is 8 bytes long |
| LcdEvSender.Payload | firmware-esp-lcd-ev/src/udp_client.cpp:104-106 | each chunk's payload is non-empty and at most 1464 bytes |
| LcdEvSender.PayloadSizes | firmware-esp-lcd-ev/src/udp_client.cpp:102-114 | every chunk but the last carries exactly 1464 bytes; the last carries the remainder |
| LcdEvSender.DatagramShape | firmware-esp-lcd-ev/src/udp_client.cpp:109-119 | a datagram is the header followed by the payload, and its length (payload + 8) never exceeds 1472 |
| LcdEvSender.PayloadPrefix | firmware-esp-lcd-ev/src/udp_client.cpp:102-114 | the first k payloads concatenate to the first min(k·1464, len) bytes of the image |
| LcdEvSender.PayloadsConcat | firmware-esp-lcd-ev/src/udp_client.cpp:102-114 | concatenating the payloads in chunk order gives back the image |
| LcdEvSender.DatagramHeaders | firmware-esp-lcd-ev/src/udp_client.cpp:102-112 | datagram k carries this call's frame index, chunk index k and the common total, then payload k |
| LcdEvSender.PushImg | firmware-esp-lcd-ev/src/udp_client.cpp:82-131 | no socket gives ESP_ERR_INVALID_STATE and missing or empty data gives ESP_ERR_INVALID_ARG, both sending nothing; otherwise, with j the first chunk whose `send_with_retry` loop did not deliver it, exactly the datagrams before j reach the socket; the call returns ESP_OK iff every chunk was delivered, ESP_FAIL iff chunk j's loop returned -1, and does not return while chunk j's loop keeps retrying on ENOMEM; only ESP_OK advances the 32-bit frame index by one, wrapping |
| CamUdpClient.Slices | firmware-esp-cam/src/udp_client.cpp:94-122 | len / 1472 full 1472-byte slices, then one slice of len mod 1472 bytes when that is non-zero |
| CamUdpClient.FullPrefix | firmware-esp-cam/src/udp_client.cpp:99-101 | the first k full slices are the first k·1472 bytes of the image |
| CamUdpClient.SlicesConcat | firmware-esp-cam/src/udp_client.cpp:99-114 | the slices carry no header: joined in send order they are exactly the image |
| CamUdpClient.ExactMultipleHasNoTail | firmware-esp-cam/src/udp_client.cpp:96-112 | an image of a whole number of slices sends no short tail |
| CamUdpClient.PushImg | firmware-esp-cam/src/udp_client.cpp:80-134 | the two argument errors send nothing; otherwise, with j the first slice whose `send_with_retry` loop did not deliver it, exactly the slices before j reach the socket; the call returns ESP_OK iff every slice was delivered, ESP_FAIL iff slice j's loop returned -1, and does not return while slice j's loop keeps retrying on ENOMEM; only ESP_OK advances `frame_count` by one, wrapping at 32 bits |
| CamUdpClient.SliceAt | firmware-esp-cam/src/udp_client.cpp:96-122 | slice i is bytes [1472·i, 1472·(i+1)) while i is below len / 1472, and the last len mod 1472 bytes at i = len / 1472 |
| CamServer.TotalPackets | firmware-esp-cam/src/CamServer.cpp:26-27 | the packet count covers the image and is zero only for an empty image, whenever it fits in 16 bits |
| CamServer.Be16 | firmware-esp-cam/src/CamServer.cpp:38-43 | a 16-bit field is written as two bytes |
| CamServer.Be16RoundTrip | firmware-esp-cam/src/CamServer.cpp:38-43 | reading the two bytes back big-endian gives the value: the high byte goes first |
| CamServer.Packet | firmware-esp-cam/src/CamServer.cpp:32-34 | every packet is non-empty and at most 1024 bytes |
| CamServer.DatagramShape | firmware-esp-cam/src/CamServer.cpp:36-46 | datagram i is 6 + packet size bytes; its header decodes to the frame id, i and the packet count, and the rest is packet i |
| CamServer.PacketPrefix | firmware-esp-cam/src/CamServer.cpp:30-44 | the first k packets concatenate to the first min(k·1024, len) bytes |
| CamServer.PacketsConcat | firmware-esp-cam/src/CamServer.cpp:30-46 | the packets joined in index order are the image, while the count does not wrap |
| CamServer.BroadcastImg | firmware-esp-cam/src/CamServer.cpp:22-50 | every datagram is handed over in index order, whatever `writeTo` returns, and `frame_id` advances by one, wrapping at 16 bits; the result is that of the function `CamServer.Broadcast`, so runs of calls can be reasoned about |
| CamServer.EmptyImageSendsNothing | firmware-esp-cam/src/CamServer.cpp:27-30 | an empty image sends no datagram |
| CamServer.TotalPacketsWraps | firmware-esp-cam/src/CamServer.cpp:27 | the count is a `uint16_t`: an image of exactly 65536 packets sends none, one byte more sends one |
| CamServer.FrameIdAfter | firmware-esp-cam/src/CamServer.cpp:22-50 | over any run of calls, one per image, the frame id ends at the starting id plus the number of calls, modulo 65536, and the datagrams handed over are, in order, those of image k under id start + k |
| LegacyReassembler.ParseHeader | firmware-esp-cam/legacy-server/__main__.py:58-64 | the fields are little-endian reads of bytes [0,4), [4,6), [6,8) and the payload is bytes [8,…); there is no length check, so a short datagram reads empty slices as 0 and an empty payload |
| LegacyReassembler.Step | firmware-esp-cam/legacy-server/__main__.py:69-81 | when the distinct stored chunk indices reach the declared total, both entries of the frame are deleted and the latest frame becomes the assembly; otherwise the frame holds the stored chunk map and the latest total and the latest frame is kept; no other frame changes |
| LegacyReassembler.AssembleSkipsMissing | firmware-esp-cam/legacy-server/__main__.py:75-78 | assembly concatenates the payloads present for indices 0..total-1 in ascending order and skips missing indices |
| LegacyReassembler.DeliverIsReplay | firmware-esp-cam/legacy-server/__main__.py:56-81 | receiving datagrams one by one is replaying their parsed headers in the same order |
| LegacyReassembler.ReplayKeepsFrame | firmware-esp-cam/legacy-server/__main__.py:53-81 | datagrams naming one frame index leave every other frame's entry as it was, whoever sent them |
| LegacyReassembler.TotalZeroCompletesEmpty | firmware-esp-cam/legacy-server/__main__.py:74-81 | a declared total of 0 completes the frame at once with empty bytes |
| LegacyReassembler.RepeatOverwrites | firmware-esp-cam/legacy-server/__main__.py:70-71 | a repeated (frame, chunk) pair replaces the stored payload without adding an index, and the latest total wins |
| LegacyReassembler.NoEviction | firmware-esp-cam/legacy-server/__main__.py:70-81 | while nothing completes, no frame ever leaves the buffer and the latest frame is unchanged |
| LegacyReassembler.DuplicateMaskingStillAssembles | firmware-esp-cam/legacy-server/__main__.py:74-78 | chunks 0 and 2 of a frame declaring 2 chunks complete it, and the assembly holds chunk 0 alone: completion counts indices, not the right ones |
| LcdEvToLegacy.HeaderParses | firmware-esp-cam/legacy-server/__main__.py:61-64 | the receiver reads back exactly the frame index, chunk index, total and payload the LCD-EV sender packed |
| LcdEvToLegacy.ArrivalParses | firmware-esp-cam/legacy-server/__main__.py:61-64 | every arriving LCD-EV datagram parses to its frame, its chunk index, the chunk count and its payload |
| LcdEvToLegacy.StepStores | firmware-esp-cam/legacy-server/__main__.py:70-74 | storing the j-th distinct chunk extends the frame's map by that chunk, and the frame completes exactly at the last one |
| LcdEvToLegacy.ReplayPrefixState | firmware-esp-cam/legacy-server/__main__.py:70-74 | before the last chunk arrives, the frame holds exactly the chunks seen so far and the latest frame is untouched |
| LcdEvToLegacy.LastStep | firmware-esp-cam/legacy-server/__main__.py:74-81 | the last chunk completes the frame with every payload joined in index order and removes its entry |
| LcdEvToLegacy.ReplayAll | firmware-esp-cam/legacy-server/__main__.py:70-81 | replaying every chunk of a frame once, in any order, leaves the payloads joined in index order as the latest frame |
| LcdEvToLegacy.RoundTrip | firmware-esp-cam/legacy-server/__main__.py:70-78 | the datagrams of one LCD-EV `udp_client_push_img` call, each delivered once in any order, give back the original image as the latest frame, drop the frame's entry and leave every other frame as it was |
| LcdEvToLegacy.StaleRetryCompletes | firmware-esp-cam/legacy-server/__main__.py:61-81 | a three-chunk frame whose chunks 0 and 1 arrived, followed under the same frame index by the first datagram of a two-chunk image, completes at once as that chunk joined with the old image's chunk 1 |
| UdpServer.Recv | backend/camera_capture/udpserver.py:20-37 | `recvfrom(1023)` hands back the first min(len, 1023) bytes of a datagram |
| UdpServer.OnDatagram | backend/camera_capture/udpserver.py:37-66 | an end datagram (length ≠ 1023, at least 2, ending FF D9) empties the buffer whether or not the decode succeeds; only a successful decode updates the slot, with the clock reading, and sets connected; any other datagram leaves the slot alone and leaves the buffer as the (possibly reset) buffer plus the datagram |
| UdpServer.MiddleAppends | backend/camera_capture/udpserver.py:39-46 | a datagram that neither starts nor ends a frame only appends to the buffer |
| UdpServer.StartIsNotEnd | backend/camera_capture/udpserver.py:39-49 | the start test demands 1023 bytes and the end test forbids them, so no datagram is both |
| UdpServer.LongDatagramNeverEnds | backend/camera_capture/udpserver.py:37-49 | anything of 1023 bytes or more arrives as exactly 1023 bytes and can never end a frame; it starts one exactly when it begins FF D8 FF |
| UdpServer.FeedMiddles | backend/camera_capture/udpserver.py:46 | a run of middle datagrams appends exactly their received bytes, in order, and leaves the slot alone |
| UdpServer.FeedOpen | backend/camera_capture/udpserver.py:39-46 | after a start datagram and middle datagrams the buffer is exactly their received bytes, whatever it held before |
| UdpServer.FrameDecodes | backend/camera_capture/udpserver.py:39-66 | a start datagram, middle datagrams and an end datagram hand the decoder exactly the frame's received bytes and leave the buffer empty; a successful decode stores the picture with the clock reading and sets connected, a failed one leaves the slot as it was |
| UdpServer.FullSliceTruncated | backend/camera_capture/udpserver.py:20-37 | a 1472-byte slice is cut to its first 1023 bytes, losing 449, and never ends a frame |
| UdpServer.Start | backend/camera_capture/udpserver.py:77-96 | without the "udpserver://" prefix nothing changes and the start fails; a rest that does not split on ':' into exactly two parts fails; otherwise the host is stored, a port that `int()` rejects fails with the port left as text, and a good port is stored as a number, sets running and spawns a listener only when not already running |
| UdpServer.Stop | backend/camera_capture/udpserver.py:98-101 | running and connected are cleared; the frame, address and thread count are kept |
| UdpServer.ListenerExit | backend/camera_capture/udpserver.py:74-75 | the listener leaving its loop clears connected and nothing else |
| UdpServer.StartTwiceSpawnsOnce | backend/camera_capture/udpserver.py:83-96 | starting twice with a good address parses it twice but spawns one listener |
| UdpServer.StartHostPort | backend/camera_capture/udpserver.py:79-84 | on `udpserver://host:port` with colon-free parts the host is stored and the port is parsed |
| UdpServer.PathAfterPortFails | backend/camera_capture/udpserver.py:83-84 | a path after the port reaches `int()` together with the port and fails there, leaving the capture as it was |
| UdpServer.RegisteredUrlFails | backend/api/monitor.py:20-21 | both addresses the application registers, `udpserver://0.0.0.0:8099/192.168.10.102` and `…/192.168.10.100`, make `start` fail |
| UdpServer.PrefixPicksUdp | backend/camera_capture/__init__.py:58-59 | every URL with the `udpserver://` prefix is handed to the UDP capture |
| UdpServer.DecimalPortStarts | backend/camera_capture/udpserver.py:83-88 | a decimal port after a colon-free host starts the capture with that port number |
| CaptureBase.GetLatestFrame | backend/camera_capture/__init__.py:30-35 | (None, None) until the first update, then the frame together with its time stamp |
| CaptureBase.UpdateFrame | backend/camera_capture/__init__.py:41-45 | the frame and its seconds stamp are set together, so the next read returns both; the flags are untouched |
| CaptureBase.FreshIsEmpty | backend/camera_capture/__init__.py:12-18 | a fresh capture is not running, not connected and has no frame |
| CaptureBase.EitherFlagDisconnects | backend/camera_capture/__init__.py:37-39 | connected means running and connected, so clearing either flag disconnects |
| CaptureBase.LastUpdateWins | backend/camera_capture/__init__.py:41-45 | of two updates, the later frame and stamp are the ones read |
| CaptureBase.CreateCameraCapture | backend/camera_capture/__init__.py:54-61 | "ws://" or "wss://" picks WebSocket, otherwise "udpserver://" picks UDP, and anything else picks OpenCV: the choice is total and exclusive |
| CaptureBase.FactoryExamples | backend/camera_capture/__init__.py:54-61 | the registered camera URL picks UDP, while an upper-case scheme and an RTSP URL fall through to OpenCV: the match is case-sensitive |
| Cv2Capture.Backoff | backend/camera_capture/cv2cam.py:69 | the back-off never exceeds 5 s and is n·0.5 s up to the tenth failure |
| Cv2Capture.Fail | backend/camera_capture/cv2cam.py:55-69 | a failure clears connected, releases the handle and counts one more; the loop ends exactly when the count reaches 10, and otherwise sleeps the back-off for the new count |
| Cv2Capture.Step | backend/camera_capture/cv2cam.py:28-69 | a refused open is a failure at the current count; a successful open sets connected and resets the count before the read; a good read stores the frame with its stamp and sleeps 0.033 s; a bad read is a failure, counted from 0 when the stream was just opened |
| Cv2Capture.Run | backend/camera_capture/cv2cam.py:28-69 | each pass reads the clock anew (one reading per pass); the thread stays put once it has left the loop, and never clears `is_running` itself |
| Cv2Capture.StepKeepsInv | backend/camera_capture/cv2cam.py:40-67 | one pass keeps: connected only with a handle, the count at most 10, and the loop left exactly when the count reached 10 |
| Cv2Capture.RunKeepsInv | backend/camera_capture/cv2cam.py:28-69 | any run of passes keeps that invariant |
| Cv2Capture.BackoffRange | backend/camera_capture/cv2cam.py:65-69 | every sleep after a failure that does not end the loop lies between 0.5 s and 4.5 s |
| Cv2Capture.OpenResets | backend/camera_capture/cv2cam.py:44-58 | a pass that opens the stream leaves the count at 0, or at 1 when its read fails, whatever it was before, and never ends the loop |
| Cv2Capture.RefusedCounts | backend/camera_capture/cv2cam.py:40-67 | with nothing opening, each pass adds one failure until the tenth ends the loop; the capture stays running and disconnected |
| Cv2Capture.Start | backend/camera_capture/cv2cam.py:71-79 | the URL is always recorded; a thread is spawned, and connected cleared, only when not already running |
| Cv2Capture.Stop | backend/camera_capture/cv2cam.py:81-88 | running and connected are cleared and the handle released; the URL and frame stay |
| Cv2Capture.DeadThreadBlocksStart | backend/camera_capture/cv2cam.py:65-79 | ten refused opens end the thread but leave `is_running` set, so `start` spawns nothing until `stop` is called, after which it spawns again |
| VideoProcessor.UpdateHeld | backend/video_processor.py:172-202 | a positive sets the flag with the pass's time; a negative keeps the time, and keeps the flag exactly when it was up with a non-zero time no more than the hold (2 s for a person, 5 s for a cup) ago |
| VideoProcessor.LastPositive | backend/video_processor.py:176-178 | finds the last positive reading of a run, or says there is none |
| VideoProcessor.TrackIsHeld | backend/video_processor.py:172-202 | over any run of readings from a cleared status, the debounced flag equals the hold rule stated without the loop (up iff there was a positive and every later reading came within the hold of it), and its time is that of the last positive |
| VideoProcessor.UpdateActivity | backend/video_processor.py:143-167 | with fewer than two buffered frames nothing changes; movement sets the activity flag with the time; stillness drops it only once a non-zero activity time is more than 10 s old; the person and cup fields never change |
| VideoProcessor.ActivityIsHeld | backend/video_processor.py:143-167 | over any run of readings from a cleared status, the activity flag is up exactly when there was movement and either it was the latest reading, its time was not positive, or every later reading came within 10 s of it; the activity time is that of the last movement, or 0 |
| VideoProcessor.ActivityMatchesHold | backend/video_processor.py:143-189 | with a positive clock throughout, activity is held by the same rule as the person and cup flags, with a 10 s hold |
| VideoProcessor.Push | backend/video_processor.py:91-93 | the buffer gains the frame at the end and, once past 30, loses its oldest, so it is the last min(n+1, 30) of the old buffer plus the frame |
| VideoProcessor.Window | backend/video_processor.py:91-93 | the reference window: the last min(n, 30) frames |
| VideoProcessor.PushAll | backend/video_processor.py:91-93 | the buffer never exceeds 30 frames however many arrive |
| VideoProcessor.BufferIsWindow | backend/video_processor.py:91-93 | from an empty buffer, the buffer after any run of frames is exactly the newest 30 in arrival order |
| VideoProcessor.WindowSnoc | backend/video_processor.py:91-93 | one push moves the reference window forward by one frame |
| VideoProcessor.ThrottleIsNoAdvance | backend/video_processor.py:72-74 | on integer milliseconds the "5 frames a second" test skips exactly when the clock has not advanced, so it does not throttle to 5 Hz |
| VideoProcessor.AsWrittenDropsEveryFrame | backend/video_processor.py:69-88 | as written, once the clock is past 2 s after the epoch, every frame counts as older than 1 s however recent its stamp, because the stamp is in seconds and the clock in milliseconds |
| VideoProcessor.StaleMeansOlderThanOneSecond | backend/video_processor.py:84-88 | with the stamp in milliseconds, a frame stamped within 0.999 s is kept and one older than 1.001 s is dropped |
| VideoProcessor.Analyze | backend/video_processor.py:100-141 | with detection off the raw frame is displayed and the person and cup fields stay; an exception in the detection block ends the thread, because the handler's `with_traceback` call itself raises, so nothing but `alive` changes and activity is not updated; otherwise the drawn frame is shown and both flags follow the hold rule on the detector's verdict; whenever the thread survives, the activity flag and its time are updated |
| VideoProcessor.Pass | backend/video_processor.py:65-98 | one loop pass for a given age verdict: a dead loop does nothing; it is skipped iff the clock has not advanced, and then nothing changes; otherwise the clock is recorded, and a missing frame or a stale one ends the pass with nothing else changed; a fresh frame is pushed and counted and then either analysed or, on an exception in the detection block, ends the thread with the status untouched |
| VideoProcessor.Tick | backend/video_processor.py:65-98 | the loop as written: a pass pushes and analyses a frame exactly when the thread is alive, the clock advanced, there is a frame and the millisecond clock minus the seconds stamp is at most 1000; stale frames only record the clock |
| VideoProcessor.TickIntended | backend/video_processor.py:65-98 | the same pass with the stamp converted to milliseconds before the age test |
| VideoProcessor.DeadLoopIsInert | backend/video_processor.py:65-98 | once the thread has ended, any run of later passes leaves the processor exactly as it was |
| VideoProcessor.CrashIsFinal | backend/video_processor.py:117-123 | after a pass that crashes in the detection block, every later run of passes keeps the status the crash left, which is the status before that pass, and the thread stays dead |
| VideoProcessor.AsWrittenNeverAnalyses | backend/video_processor.py:69-88 | as written, a pass whose clock is past 2 s after the epoch never analyses: status, window and frame counter are unchanged |
| VideoProcessor.IntendedKeepsFreshFrames | backend/video_processor.py:84-98 | with the age test corrected, a live pass whose clock advanced pushes and analyses any frame stamped within the last 0.999 s |
| VideoProcessor.DisplayFrame | backend/video_processor.py:204-211 | the annotated frame when there is one, else the camera's latest |
| VideoProcessor.PersonStaysOnceSeen | backend/video_processor.py:111-178 | with the age test corrected, once the live detector has reported a person, every analysed pass keeps the person status up with the pass's time |
| VideoProcessor.SkipLeavesStatus | backend/video_processor.py:72-88 | a pass of the loop as written that does not push a frame leaves the buffer, the frame counter and the whole status alone |
| YoloLive.Handled | backend/yolo_detector.py:83-113 | the number of boxes whose flags were applied never exceeds the boxes the model reported; all of them when nothing raised |
| YoloLive.SetFlags | backend/yolo_detector.py:86-91 | after the loop, the person flag is up iff it was up or some handled box has class 0, the cup flag likewise for class 41, and the stored frame is untouched |
| YoloLive.Detect | backend/yolo_detector.py:78-115 | without a model the stored result is returned unchanged; with one, flags are only ever raised by handled boxes of class 0 or 41, and the drawn copy replaces the annotated frame only when no exception escaped |
| YoloLive.FlagsMonotone | backend/yolo_detector.py:39-91 | a flag once set stays set: the result record is never reset between calls |
| YoloLive.DetectAll | backend/yolo_detector.py:65-115 | whether a model is loaded never changes over a run of calls |
| YoloLive.PersonLatches | backend/yolo_detector.py:39-89 | over a detector's lifetime the person flag is up iff it started up or some call handled a box of class 0 |
| YoloLive.OtherClassesIgnored | backend/yolo_detector.py:86-110 | a box of any class other than 0 and 41 only refreshes the annotated frame |
| YoloDetector.SeesSnoc | backend/detector/yolo_detector.py:79-88 | one more box adds a person (a cup) exactly when it is confident and of class 0 (39 or 41) |
| YoloDetector.Collect | backend/detector/yolo_detector.py:77-89 | the fresh result reports a person iff some box with confidence at least 0.5 is class 0, a cup iff some such box is class 39 or 41, and records no more boxes than the model gave |
| YoloDetector.CollectBoxes | backend/detector/yolo_detector.py:79-89 | the recorded boxes are exactly the confident ones, converted, in model order |
| YoloDetector.Detect | backend/detector/yolo_detector.py:72-96 | without a model the stored result comes back; a model call that raises leaves `result` unbound and the call fails; otherwise the fresh result is stored and returned |
| YoloDetector.FreshEachCall | backend/detector/yolo_detector.py:77-96 | with a model, the previous result has no influence on the new one |
| YoloDetector.LowConfidenceIgnored | backend/detector/yolo_detector.py:80-81 | inserting a box below 0.5 confidence anywhere in the model's output leaves the whole result (boxes and both flags) exactly as without it |
| YoloDetector.CupClasses | backend/detector/yolo_detector.py:82-88 | a single confident box reports a cup iff it is a bottle (39) or a cup (41), and a person iff it is class 0 |
| Detector.FromYoloBox | backend/detector/__init__.py:19-32 | corners, confidence and class id are carried over; the name is the model's for that id, or `class_<id>` when the model has none |
| Detector.GetBoxesByClass | backend/detector/__init__.py:40-41 | every box returned carries the name and came from the input, and every input box with the name is returned |
| Detector.GetBoxesByClassCounts | backend/detector/__init__.py:40-41 | each box named `name` is returned exactly as often as it occurs in the input, and no other box is returned |
| Detector.FilterConcat | backend/detector/__init__.py:40-41 | filtering a concatenation is the concatenation of the filtered parts, so order is kept |
| Detector.FilterIdempotent | backend/detector/__init__.py:40-41 | filtering twice by the same name gives what filtering once does |
| Detector.HasClass | backend/detector/__init__.py:43-44 | true iff some box carries the name |
| WorkLabel.Init | backend/detector/work_label.py:23-40 | the model is loaded only with an API key and a clean load; a `KeyError` while loading sets it to None; no key, or any other error, leaves it unassigned |
| WorkLabel.Trunc | backend/detector/work_label.py:66-69 | Python's `int()` on a float: the integer at or below a non-negative value, at or above a negative one |
| WorkLabel.ToBox | backend/detector/work_label.py:65-75 | corners are the centre minus and plus half the size, each cut toward zero; confidence is scaled to a percentage; the class id and name default to 0 and `work_label` when absent |
| WorkLabel.Scan | backend/detector/work_label.py:55-75 | a label is reported iff some prediction has confidence at least 0.5, which is exactly when some box was recorded, and no more boxes than predictions |
| WorkLabel.Detect | backend/detector/work_label.py:42-85 | an unassigned model makes every call fail; a None model, or inference that raises before any prediction, gives an empty result; an exception at prediction k keeps the boxes the first k predictions built, and the label flag is up iff one of them was confident or the exception came while building the box of a confident prediction k, after the flag was set; any box implies the flag |
| WorkLabel.LabelWithoutBox | backend/detector/work_label.py:61-75 | a failure while building the box of the first confident prediction reports a label with no box |
| WorkLabel.TestFaultAddsNothing | backend/detector/work_label.py:56-59 | a failure in the confidence test of prediction k gives exactly the result of the first k predictions |
| WorkLabel.ScanBoxes | backend/detector/work_label.py:56-75 | the recorded boxes are the confident predictions converted one for one, in order |
| WorkLabel.TruncExamples | backend/detector/work_label.py:66-74 | centre 10.5 width 3 gives corners 9 and 12; centre -1.5 width 2 gives -2 and 0 (cut toward zero, not floored); the default name is `work_label` |
| WorkLabel.InitPaths | backend/detector/work_label.py:28-47 | without an API key, or after a load error other than `KeyError`, every call fails; after a `KeyError`, every call returns the empty result |
| FaceSignin.FirstMinUnique | backend/detector/face_signin.py:71-72 | the first least distance is one index only |
| FaceSignin.ArgMin | backend/detector/face_signin.py:71-72 | `argmin` of a non-empty distance list is the first index holding its least value |
| FaceSignin.FirstArgMin | backend/detector/face_signin.py:71-72 | the left-to-right scan finds exactly that index |
| FaceSignin.FaceBox | backend/detector/face_signin.py:64-93 | the box has the face's corners; under the 0.5 bound it carries the closest known name, that index and (1 - d)·100; otherwise `unknown`, -1 and 0 |
| FaceSignin.Detect | backend/detector/face_signin.py:53-96 | with no known encodings a fresh result is returned and the stored one kept; otherwise one box per face in order, no work label, the name of the last face (or `unknown` with no faces), and the result is stored |
| FaceSignin.MatchIffClose | backend/detector/face_signin.py:69-86 | a face is named iff some known encoding is closer than 0.5, and then the name is the one at the box's class id |
| FaceSignin.TieGoesFirst | backend/detector/face_signin.py:72 | among equal least distances the earlier known face wins |
| SigninApi.DetectHat | backend/api.py:299-311 | without a `names` attribute no box ever matches; when every class id has a name, the answer is true iff some box is named `Hardhat`; a class id with no name raises `KeyError`, and only a `Hardhat` box seen before it can prevent that |
| SigninApi.Recognised | backend/api.py:343-354 | a name is recognised iff there are known faces, the photo holds a face, and the first face is closer than 0.4 to some known encoding; the name is that of the first least distance |
| SigninApi.Signin | backend/api.py:316-371 | exactly one record is written for every response, carrying its name, the photo path and the message; success iff the first face is recognised and, when the hat model is loaded, a hard hat is seen; an empty library, no face, an unknown face and a missing hat each give their own message; a hat check that raises writes nothing |
| SigninApi.SigninAgreesWithDetector | backend/api.py:352-354 | anyone the endpoint signs in, the stream's face detector names the same way with confidence above 60 % (its bound 0.5 is looser than 0.4, both take the first least distance) |
| SigninApi.NamelessModelRefuses | backend/api.py:305-362 | a hat model without `names` never confirms a hat, so every recognised worker is refused for a missing hat |
| SigninApi.PushPass | backend/api.py:219-251 | when reading the monitor's status raises, the handler ends the pass with nothing sent and no client removed; when another connection joins or leaves during a send and so changes the set's size (api.py:164, 203-204, 210-211, 214-215), the loop raises right after that send: exactly as many clients as sends so far are reached, no failed client is removed, and the set is left as the join or leave made it; otherwise every connected client is sent to, and exactly the clients whose send raised are gone after the pass |
| SigninApi.ResizesChangesSize | backend/api.py:239 | the loop is cut exactly when the join or leave changes the number of clients; a join of a client already there or a leave of one not there leaves the set as it was |
| MonitorRegistry.Register | backend/monitor_registry.py:15-23 | a URL already present leaves the table alone and returns None; for a new one whose monitor cannot be built the table is unchanged and the construction error propagates; otherwise the new monitor goes last and the registry is returned |
| MonitorRegistry.RegisterKeepsValid | backend/monitor_registry.py:15-23 | registration keeps keys distinct, earlier keys and their monitors in place, and never starts the new monitor; the URL is present afterwards exactly when it was before or its monitor could be built |
| MonitorRegistry.RegisterIdempotent | backend/monitor_registry.py:15-23 | registering a URL a second time changes nothing: it returns None, or raises the same error again when its monitor could not be built |
| MonitorRegistry.FirstOccurrences | backend/monitor_registry.py:15-23 | the reference order: the distinct URLs, each at its first occurrence |
| MonitorRegistry.FirstFailing | backend/monitor_registry.py:22 | the first URL of a run whose monitor construction raises: every earlier one builds |
| MonitorRegistry.RegisterAllOrder | backend/monitor_registry.py:15-23 | from an empty table, a run of registrations holds the distinct URLs before the first one whose monitor cannot be built, in order of first registration, and raises exactly when such a URL occurs |
| MonitorRegistry.StartAll | backend/monitor_registry.py:25-28 | every monitor is started, in insertion order, and the table keeps its keys |
| MonitorRegistry.StopAll | backend/monitor_registry.py:30-33 | every monitor is stopped in insertion order (not running, no tracked session); the session table neither gains nor loses rows |
| MonitorApi.Keywords | backend/api/monitor.py:44 | the keywords are non-empty, hold no comma, and are already stripped: `str.strip()` leaves each one as it is, so none starts or ends with whitespace in the sense of `str.isspace()` |
| MonitorApi.PaddedKeyword | backend/api/monitor.py:44 | a keyword padded with U+001C and U+001F, which `str.strip()` removes, is read without them |
| MonitorApi.NonEmptyStripped | backend/api/monitor.py:44 | keeps only the parts that are non-empty after stripping, each stripped and still comma-free, never more parts than it was given |
| MonitorApi.FirstMatch | backend/api/monitor.py:45-48 | finds the first URL containing every keyword, and there is none before it; or says no URL does |
| MonitorApi.Resolve | backend/api/monitor.py:29-52 | an exact key wins; otherwise the first registered URL in registration order containing all keywords; otherwise 404 |
| MonitorApi.ResolvedIsRegistered | backend/api/monitor.py:39-48 | whatever resolves is a registered URL |
| MonitorApi.NoKeywordsTakesFirst | backend/api/monitor.py:44-48 | a query that is not a key and has no keywords (all commas and blanks) resolves to the first registered URL |
| MonitorApi.CommaHasNoKeywords | backend/api/monitor.py:44 | the query "," carries no keywords |
| MonitorApi.KeywordOrderIrrelevant | backend/api/monitor.py:45-46 | only which keywords occur matters for the match, not their order or repetition |
| MonitorApi.Connect | backend/api/monitor.py:89-94 | the socket joins its URL's group, which is created last when absent; no other group changes |
| MonitorApi.Disconnect | backend/api/monitor.py:124-126 | the socket leaves its URL's group if it is there; the group and every other group stay |
| MonitorApi.ConnectThenDisconnect | backend/api/monitor.py:89-126 | a connection's whole lifetime leaves every group as it was, except that its URL's group now exists (possibly empty) |
| MonitorApi.ConnectResolvedKeepsRegistered | backend/api/monitor.py:87-94 | subscribing under a resolved URL keeps every subscribed URL registered |
| MonitorApi.FirstUnregistered | backend/api/monitor.py:133-135 | the position of the first subscribed URL the registry lacks: every URL before it is registered |
| MonitorApi.CutGroup | backend/api/monitor.py:151-155 | the group a join or leave cuts short lies before the first unregistered URL; it is the one the interleaving names, resized under its loop during one of its sends |
| MonitorApi.PushPass | backend/api/monitor.py:128-160 | URLs are visited in order and the pass ends at the first unregistered one ("Monitor not found") or at a group a join or leave resizes during one of its sends ("Set changed size"), whichever comes first; each group before that point loses exactly its failing sockets and every one of its sockets is sent to; a group cut short keeps its failed sockets, takes the join or leave, and is reached by exactly as many sockets as sends so far; later groups are untouched and unreached; the abort reason and URL are returned |
| MonitorApi.PushGroups | backend/api/monitor.py:133-158 | the send loop up to the first unregistered URL or the group cut short, with the same per-group outcome |
| MonitorApi.RegisteredNeverAborts | backend/api/monitor.py:87-135 | while every subscribed URL was registered, no pass raises "Monitor not found"; a pass then ends early only when a join or leave resizes a group under its loop |
| MonitorApi.ResizeCutsPass | backend/api/monitor.py:151-155 | with every subscribed URL registered, a join or leave that changes the size of the group being sent to cuts the pass at that group, whichever of its sends it runs during; a connection accepted (api/monitor.py:94) or dropped (api/monitor.py:125-126) in that group is such a join or leave |
| Monitor.Created | backend/monitor.py:16-32 | a monitor whose constructor returned is not running and its tracker is idle, with no session, for the given URL |
| Monitor.Create | backend/monitor.py:16-32 | the constructor builds its video processor first: it returns the created monitor exactly when the processor's camera start succeeds, and raises that start's error otherwise |
| VideoProcessor.StartCamera | backend/video_processor.py:40-43 | the processor starts the capture the factory picks as soon as it is built; only the UDP capture's `start` can raise, and then with that `start`'s error |
| MonitorApi.CameraUrlRaises | backend/api/monitor.py:20-21 | building the monitor for either registered address raises the UDP capture's port error |
| MonitorApi.ImportRegistrationRaises | backend/api/monitor.py:20-21 | the first registration at import raises and leaves the table unchanged, so from the empty registry the run stops there with nothing registered |
| Monitor.Start | backend/monitor.py:34-41 | a monitor ends up running; the tracker is started only when the monitor was not running, otherwise nothing changes |
| Monitor.Stop | backend/monitor.py:43-49 | the monitor and its tracker stop, and the tracker's open session, if any, is closed |
| Monitor.StartStopSpawns | backend/monitor.py:34-47 | a second `start` spawns nothing; a `start` after `stop` spawns one fresh analysis loop |
| Monitor.DurationMessage | backend/monitor.py:64-70 | the duration line is the prefix and formatted duration, with the long-shift suffix from 120 seconds on and the keep-going suffix below |
| Monitor.Insights | backend/monitor.py:51-90 | the duration line is present iff the database block completed; the summary line is the generator's text and the water line follows the cup flag, always; no other keys |
| Monitor.WaterOnlyFromCup | backend/monitor.py:84-88 | the water line depends on the cup flag alone |
| Monitor.DurationNeverShown | backend/monitor.py:57-73 | as written the database block always raises (it calls a query `crud` lacks, and another with a missing argument), so the duration line never appears and only two keys are pushed |
| Monitor.InsightsIntended | backend/monitor.py:56-70 | with the block working, the duration line is always present and reports this monitor's total for today |
| Monitor.IntendedLongShift | backend/monitor.py:67-70 | with the block working, the long-shift suffix appears exactly when today's total reaches 120 seconds |
| HealthAnalyze.Process | backend/health_analyze.py:89-107 | a person with no tracked session opens a new row for this URL and tracks its id; no person with a tracked session closes that row and forgets it; otherwise nothing changes |
| HealthAnalyze.ProcessKeepsConsistent | backend/health_analyze.py:89-107 | each call keeps ids as positions plus one, open rows without duration and the tracked id on an open row of this URL; afterwards a session is tracked exactly when a person was seen; no row is lost |
| HealthAnalyze.RunOpensOnArrival | backend/health_analyze.py:60-107 | over any run of calls, each arrival of a person opens exactly one new row and nothing else adds rows; the tracker ends with a session iff the last call saw a person |
| HealthAnalyze.Start | backend/health_analyze.py:31-40 | the tracker ends up running, and a loop is spawned only when it was not running; the session is untouched |
| HealthAnalyze.StartIdempotent | backend/health_analyze.py:33 | starting twice spawns one loop |
| HealthAnalyze.Stop | backend/health_analyze.py:42-58 | the tracker stops; a tracked session is closed in the table and forgotten; without one the table is untouched |
| HealthAnalyze.StopClosesSession | backend/health_analyze.py:49-56 | after `stop` the tracked row is closed at the stop time and the tracker is still consistent |
| HealthMonitor.CheckActivity | backend/health_monitor.py:142-168 | without a person nothing happens; an active check records activity with the inactivity length in minutes when the timer ran, and stops the timer; an inactive check records inactivity and starts the timer unless it already runs |
| HealthMonitor.CheckWater | backend/health_monitor.py:170-182 | the cup flag is recorded iff a person is present; otherwise no call |
| HealthMonitor.Working | backend/health_monitor.py:122-140 | with the session calls the database is meant to provide: a person with no session opens one and tracks its id; no person with a session ends that session and forgets it; otherwise nothing; no other field changes |
| HealthMonitor.ActivityGate | backend/health_monitor.py:89-93 | with `record_activity` available, the activity check runs, and its stamp moves to now, iff it never ran or 60 s have passed; otherwise nothing changes; it only records activity |
| HealthMonitor.WaterGate | backend/health_monitor.py:95-99 | with `record_water_intake` available, the water check runs, and its stamp moves to now, iff it never ran or 300 s have passed |
| HealthMonitor.MetricsGate | backend/health_monitor.py:101-105 | with `calculate_health_metrics` available, the metrics computation runs, and its stamp moves to now, iff it never ran or 3600 s have passed |
| HealthMonitor.Pass | backend/health_monitor.py:75-120 | the intended pass, with every database call available: a pass whose session opening raises ends there with nothing changed; otherwise the session rule applies, metrics are computed iff due, water is recorded iff a person is present and it is due, and each stamp moves iff its check was due |
| HealthMonitor.PassAsWritten | backend/health_monitor.py:75-168 | one pass against the database module as it is: the pass raises iff it reaches a call that is missing or called without its URL (opening a session, recording activity or water with a person present, or due metrics); only the last call it makes can be one that raises; the metrics stamp never moves; with a person present no stamp and no session changes, a person without a session gives only the failed opening, and with a session a due activity check still moves the inactivity timer; without a person an open session is ended and the activity and water stamps move iff due |
| HealthMonitor.NoSessionEverOpens | backend/health_monitor.py:133-135 | as written, from a state without a session no run of passes opens one, and the metrics stamp never moves |
| HealthMonitor.ActivityCheckRepeats | backend/health_monitor.py:89-99 | as written, while a person is present the activity and water stamps never move, so from a fresh service the activity check is due at every pass |
| HealthMonitor.StartAsWritten | backend/health_monitor.py:45-54 | as written, `start` sets the running flag and raises exactly when it was not running, without spawning the loop; the session is untouched |
| HealthMonitor.StopAsWritten | backend/health_monitor.py:58-71 | as written, `stop` clears the running flag and raises before ending the session, which stays open |
| HealthMonitor.AsWrittenNeverSpawns | backend/health_monitor.py:45-71 | as written, no run of `start` and `stop` calls spawns the loop or changes the session |
| HealthMonitor.SessionFollowsPerson | backend/health_monitor.py:122-140 | when the database hands out non-zero ids, a completed pass leaves a session open exactly when a person was seen |
| HealthMonitor.GateRuns | backend/health_monitor.py:90-105 | a gated check runs at most once per pass, and always at the first pass |
| HealthMonitor.GateRunsArePasses | backend/health_monitor.py:90-105 | every run of a gated check happens at a pass time |
| HealthMonitor.GateSpacing | backend/health_monitor.py:90-105 | consecutive runs of a gated check are at least its interval apart |
| HealthMonitor.GateCoverage | backend/health_monitor.py:90-105 | at every pass the check either runs or last ran less than one interval before |
| HealthMonitor.LastRunIsLastOfRuns | backend/health_monitor.py:90-105 | the stamp the service keeps is the time of the latest run |
| HealthMonitor.TrailingInactive | backend/health_monitor.py:155-166 | the start of the trailing run of inactive checks: all checks from there on are inactive, and the one before it is active |
| HealthMonitor.TimerMarksInactivityStart | backend/health_monitor.py:155-166 | from a stopped timer, the timer runs exactly when the latest checks were inactive, and holds the time of the first of them |
| HealthMonitor.Start | backend/health_monitor.py:45-54 | the intended `start`, with the processor able to start: the service ends up running, and a loop is spawned only when it was not running |
| HealthMonitor.StartIdempotent | backend/health_monitor.py:47 | while running, `start` does nothing |
| HealthMonitor.Stop | backend/health_monitor.py:58-71 | the intended `stop`, with the processor able to stop: the service stops; an open session is ended and forgotten; without one nothing is called |
| Crud.StartWorkingSession | database/crud.py:7-13 | the table gains one row at the end, holding only the start stamp and the URL, and every earlier row is kept; auto-increment ids stay positions plus one |
| Crud.Find | database/crud.py:17 | the first row with the id, and no earlier row has it; or no row has it |
| Crud.FindSameIds | database/crud.py:17 | the lookup depends only on the ids of the rows |
| Crud.Closed | database/crud.py:18-22 | closing stamps the end and, when the start is truthy, stores end minus start as the duration; id, start and URL stay |
| Crud.EndWorkingSession | database/crud.py:15-25 | a missing id or an already-closed row changes nothing; otherwise exactly that row is closed; rows and ids stay |
| Crud.EndIdempotent | database/crud.py:18 | a second end for the same id changes nothing, whatever its clock |
| Crud.Contribution | database/crud.py:42-49 | a closed row adds its stored duration; an open row adds now minus its start |
| Crud.TodayDurationConcat | database/crud.py:35-50 | today's total over a concatenation is the sum of the totals |
| Crud.SameContribution | database/crud.py:35-50 | replacing one row by another that is counted alike and adds the same keeps the total |
| Crud.EndKeepsToday | database/crud.py:15-50 | closing a session does not change today's total computed at the closing instant |
| Crud.TodayDurationMonotone | database/crud.py:41-49 | a later clock never lowers today's total: only open rows depend on the clock, and they only grow |
| Crud.SortBy | database/crud.py:58-70 | an `ORDER BY`: a permutation of the rows in ascending key order |
| Common.StripLeft | backend/api/monitor.py:44 | Python's `lstrip()`: a suffix of the text that does not start with whitespace, and everything removed before it is whitespace, whitespace being what `str.isspace()` counts (U+001C to U+001F and the Unicode spaces included) |
| Common.StripRight | backend/api/monitor.py:44 | Python's `rstrip()`: a prefix of the text that does not end with whitespace, and everything removed after it is whitespace, in the same sense |
| Common.Strip | backend/api/monitor.py:44 | Python's `strip()`: no longer than the text, with whitespace at neither end |
| Common.StripRemovesSeparators | backend/api/monitor.py:44 | `"\x1ckw\x1f".strip()` is `"kw"` |
| Common.IntKeepsSeparators | backend/camera_capture/udpserver.py:84 | `int()` on ASCII text skips only C's six whitespace characters, so `int("\x1c8099")` raises |
| Common.StripIdempotent | backend/api/monitor.py:44 | stripping a stripped text changes nothing |
| Common.StripWithout | backend/api/monitor.py:44 | stripping only removes characters, so a character absent from the text is absent from the result (no comma reappears in a keyword) |
| Common.Split | backend/camera_capture/udpserver.py:83 | Python's `split(sep)`: at least one part, and no part holds the separator |
| Common.SplitJoin | backend/camera_capture/udpserver.py:83 | splitting undoes joining for parts free of the separator |
| Common.ParseIntRoundTrip | backend/camera_capture/udpserver.py:84 | Python's `int()` on text reads back every integer's decimal rendering: `int(str(i)) == i` |
| Common.ParseDigitString | backend/camera_capture/udpserver.py:84 | a run of ASCII digits, with or without a leading minus, parses to its decimal value |
| Common.ParseIntRejects | backend/camera_capture/udpserver.py:84 | a character other than an ASCII digit once the ASCII whitespace is trimmed, a leading sign apart, makes `int()` raise, except for the underscores and non-ASCII digits `int()` also accepts |
| Common.Filter | database/crud.py:54-57 | a filter (the `WHERE` of the period query, and the confidence cut of both detectors): only elements satisfying the condition, every such element, drawn from the input; each passing element occurs exactly as often as in the input and no failing one occurs |
| Crud.SessionsForPeriod | database/crud.py:52-58 | exactly the URL's rows started within both bounds inclusive, by ascending start, drawn from the table |
| Crud.SigninRecords | database/crud.py:68-70 | min(limit, n) records, newest first, drawn from the table |
| Crud.SigninRecordsAreNewest | database/crud.py:68-70 | nothing left out of the listing is newer than anything in it |
| TestData.RandInt | database/add_test_data.py:24-54 | `random.randint(a, b)` stays within `[a, b]`, both ends included |
| TestData.RandIntReaches | database/add_test_data.py:24-54 | every value of `[a, b]` can be drawn |
| TestData.PlacedCons | database/add_test_data.py:35-65 | a row in the window followed by rows placed after its end gives rows placed in order |
| TestData.Slot | database/add_test_data.py:37-62 | a slot is skipped iff the start (last end plus a break of up to 30 minutes) is 30 minutes or less before the window's end; otherwise the row starts there, lasts 30 minutes to 3 hours, ends inside the window, carries the URL, and its duration is end minus start |
| TestData.Fill | database/add_test_data.py:35-65 | the inner loop adds at most one row per slot, each in the window after the previous row's end, with the URL |
| TestData.SecondGuardIsDead | database/add_test_data.py:41-52 | the second guard never fires: a start that passed the first leaves at least 30 minutes |
| TestData.SlotOfZeroPicks | database/add_test_data.py:37-55 | with zero picks a slot that fits starts at once and lasts the minimum half hour |
| TestData.FirstSlotKept | database/add_test_data.py:37-44 | a first slot whose longest break cannot reach the cut-off is always kept, at its drawn start |
| TestData.Day | database/add_test_data.py:20-65 | each day gets one to three rows, each inside 9:00 to 17:00 of that day, with the URL, in ascending non-overlapping order |
| TestData.HalfHours | database/add_test_data.py:48 | the reference: n back-to-back half-hour rows |
| TestData.ZeroPicksBackToBack | database/add_test_data.py:35-65 | with every pick zero and room enough, the day's rows are back-to-back half hours |
| TestData.FillZeroStep | database/add_test_data.py:35-65 | with zero picks one pass of the inner loop adds a half hour and moves the last end by 30 minutes |
| TestData.EarliestFullDay | database/add_test_data.py:24-65 | the count pick for three slots and no other picks give three back-to-back half hours from 9:00 |
| TestData.Populate | database/add_test_data.py:13-67 | at least one and at most three rows per day; nothing for a non-positive day count |
| TestData.PopulateInDays | database/add_test_data.py:18-65 | every generated row carries the URL and lies in the working window of one of the generated days |
| TestData.AddDay | database/add_test_data.py:18-65 | adding one more day's rows keeps every row in the window of one of the days so far |
| TestData.DaysDisjoint | database/add_test_data.py:20-31 | rows of different days never overlap: a later loop index is an earlier day, ending before the other starts |
| SerialFraming.Drain | backend/current/communication_ser.py:14-15 | the lines taken, each followed by its newline, and then the rest give back the buffer; no line holds a newline and neither does the rest |
| SerialFraming.JoinedAppend | backend/current/communication_ser.py:14-15 | framing distributes over concatenated line lists |
| SerialFraming.FramingUnique | backend/current/communication_ser.py:14-15 | a text has only one split into newline-terminated lines and a newline-free tail |
| SerialFraming.DrainIsTheFraming | backend/current/communication_ser.py:14-15 | draining lines joined with newlines, followed by a newline-free tail, gives back exactly those lines and that tail |
| SerialFraming.Yields | backend/current/communication_ser.py:16-23 | a batch of lines yields at most one value per line |
| SerialFraming.BlankLinesYieldNothing | backend/current/communication_ser.py:16-17 | lines that strip to nothing yield nothing |
| SerialFraming.EachLineYieldsItsParse | backend/current/communication_ser.py:16-23 | lines none of which is blank yield one value each, in order: the parse of the stripped line, None where it does not decode |
| SerialFraming.YieldOf | backend/current/communication_ser.py:16-23 | a blank line yields nothing; any other yields the parse of its stripped text |
| SerialFraming.YieldsAppend | backend/current/communication_ser.py:14-23 | the yields of two batches in a row are those of each batch, in order |
| SerialFraming.Step | backend/current/communication_ser.py:11-27 | a port failure yields exactly one None and leaves the buffer as it was; a chunk leaves a newline-free buffer and yields at most one value per character |
| SerialFraming.DrainAppend | backend/current/communication_ser.py:13-15 | draining after a chunk gives the lines already complete, then those the chunk completes, and the same tail |
| SerialFraming.SessionSnoc | backend/current/communication_ser.py:7-27 | the reader after one more event is one more iteration of the reader before it |
| SerialFraming.TailData | backend/current/communication_ser.py:13-15 | a chunk keeps the buffer equal to the newline-free tail of all text delivered |
| SerialFraming.TailFailure | backend/current/communication_ser.py:6-27 | a failure keeps the buffer and the text delivered, and adds one None |
| SerialFraming.SessionKeepsTail | backend/current/communication_ser.py:6-27 | failures lose none of the text that decoded: the buffer is always the newline-free tail of every chunk that decoded, whatever failed in between |
| SerialFraming.YieldData | backend/current/communication_ser.py:13-23 | a chunk extends the values yielded by the values of exactly the lines it completes |
| SerialFraming.SessionIsChunkingFree | backend/current/communication_ser.py:5-27 | however the decoded text was split into chunks and interrupted by failures, the values yielded are those of the complete lines of all text that decoded, plus one None per failure, and with no failure exactly those values in order |
| SensorStream.OpenConnection | backend/current/communication.py:11-24 | a held response is kept; without one, the attempt's response is held, or None when the request or its status check raised |
| SensorStream.OpenKeepsHeld | backend/current/communication.py:12 | once a response is held, further calls change nothing whatever their attempts would give |
| SensorStream.LineValue | backend/current/communication.py:57-61 | a line yields a value only when it starts with `data: ` and the rest parses, and then exactly that parse; other lines yield nothing |
| SensorStream.Values | backend/current/communication.py:56-61 | a run of lines yields at most one value per line |
| SensorStream.ValuesAppend | backend/current/communication.py:56-61 | the values of two runs of lines in a row are those of each run, in order |
| SensorStream.Framed | backend/current/communication.py:57-59 | the reference encoder: one `data: ` line per value |
| SensorStream.FramedRoundTrip | backend/current/communication.py:56-61 | lines framed from values with an encoder the parser inverts yield exactly those values, in order |
| SensorStream.PrefixedLine | backend/current/communication.py:57-59 | a `data: ` line yields what the parser makes of the remainder after the six-character prefix |
| SensorStream.OtherLinesYieldNothing | backend/current/communication.py:57 | comments, `event:` fields and blank keep-alives yield nothing |
| SensorStream.Lift | backend/current/communication.py:59 | every stream value is yielded as itself, never as None |
| SensorStream.LifeStep | backend/current/communication.py:54-68 | with a response held its values are yielded; without one the loop raises at once; either way the response is dropped, reopened and one None yielded |
| SensorStream.CountNoneAppend | backend/current/communication.py:54-68 | the Nones of two outputs in a row add up |
| SensorStream.LiftHasNoNone | backend/current/communication.py:59 | stream values contribute no None |
| SensorStream.OneNonePerFailure | backend/current/communication.py:62-68 | every failure of the stream yields exactly one None, and nothing else does |
| SensorStream.NoLineLost | backend/current/communication.py:54-68 | with a response held at the start and every reopening successful, the values yielded, Nones aside, are those of all the lines the sensor sent, in order |
| SensorStream.SomesAppend | backend/current/communication.py:54-68 | dropping Nones distributes over concatenated outputs |
| SensorStream.SomesOfLift | backend/current/communication.py:59 | dropping Nones from lifted values gives the values back |
| SensorStream.NeverConnectedYieldsNones | backend/current/communication.py:56-68 | with no response and every reopening failing, the generator yields only Nones, one per attempt |
| ActivityLogger.Timing | backend/logger.py:38-48 | the key takes the value; every other key keeps its value; a key already present keeps its place and a new one goes last |
| ActivityLogger.TimingKeepsValid | backend/logger.py:38-48 | keys stay distinct and the map holds exactly the listed keys |
| ActivityLogger.TimingOverwrites | backend/logger.py:38-48 | setting a key twice leaves the later value in the place of the first setting |
| ActivityLogger.Get | backend/logger.py:60-67 | `dict.get`: the value when present, the default otherwise |
| ActivityLogger.CompactFields | backend/logger.py:60-67 | the compact line has exactly four fields |
| ActivityLogger.CompactReadsFourKeys | backend/logger.py:60-67 | the compact line depends only on frame id, fetch, yolo and total; other keys and the insertion order do not show |
| ActivityLogger.CompactOfEmpty | backend/logger.py:60-67 | a push with nothing timed writes -1 for every field |
| ActivityLogger.CompactReadsBack | backend/logger.py:60-67 | the compact line ends in a newline and, when no value holds a space, splitting it at spaces recovers the timestamp's pieces and the four fields |
| ActivityLogger.Fields | backend/logger.py:68-76 | one `key=value` field per key, in insertion order |
| ActivityLogger.VerboseReadsBack | backend/logger.py:68-76 | the verbose line ends in a newline and, when no key or value holds a space, splitting it at spaces recovers the timestamp's pieces and then every field in insertion order |
| ActivityLogger.Push | backend/logger.py:50-85 | the line is the compact or verbose form as asked, and the entry starts afresh |
| ActivityLogger.PushForgets | backend/logger.py:83 | after a push, the next entry depends only on the timings that follow it, and stays well formed |
| EventBus.Initial | frontend/src/services/eventBus.js:4-6 | a new bus has no current camera and no listeners |
| EventBus.Emit | frontend/src/services/eventBus.js:9-13 | an unknown event calls nothing; otherwise one call per registered callback, in registration order, each with the same arguments |
| EventBus.Calls | frontend/src/services/eventBus.js:11-12 | one call per callback, in order, each with the arguments |
| EventBus.On | frontend/src/services/eventBus.js:16-21 | the callback goes last in the event's list, created when absent; other events and the camera are untouched |
| EventBus.Off | frontend/src/services/eventBus.js:24-31 | the first occurrence of the callback leaves the event's list, which stays even when empty; an unregistered callback changes nothing; other events are untouched |
| EventBus.SetCurrentCamera | frontend/src/services/eventBus.js:34-37 | the camera is stored before `camera-changed` is emitted with it |
| EventBus.EmitCallsEachRegistration | frontend/src/services/eventBus.js:9-21 | a callback registered n times is called n times by one emit |
| EventBus.CallsCount | frontend/src/services/eventBus.js:11-12 | the calls hold each callback as often as the list does |
| EventBus.OnCounts | frontend/src/services/eventBus.js:16-21 | each `on` adds one registration of its callback and none of any other |
| EventBus.OffCounts | frontend/src/services/eventBus.js:24-31 | each `off` of a registered callback removes exactly one registration of it and none of any other; of an unregistered one, nothing |
| EventBus.OnThenOffRestores | frontend/src/services/eventBus.js:16-31 | registering a new callback and removing it leaves every emit as it was |
| EventBus.OffRemovesEarliest | frontend/src/services/eventBus.js:24-31 | `off` after `on` is not an undo for a callback already registered: the earlier registration goes, so the order changes |
| EventBus.CameraListenersSeeNewCamera | frontend/src/services/eventBus.js:34-37 | camera listeners each hear the new camera, and the bus already holds it when they do |
| WsReconnect.Schedule | frontend/src/services/api.js:91-112 | scheduling adds one pending timer and makes it the named one; the count, sockets and flags are untouched |
| WsReconnect.Connect | frontend/src/services/api.js:25-114 | at five or more counted failures nothing is constructed or changed; otherwise a socket is constructed, or the constructor's failure is counted and a reconnect scheduled exactly when the new count is at most five |
| WsReconnect.OnOpen | frontend/src/services/api.js:59-67 | an open clears the named timer and resets the count; nothing else changes |
| WsReconnect.OnClose | frontend/src/services/api.js:80-98 | a close retires one live socket, counts one failure and schedules a reconnect exactly when the new count is at most five; after the corrected `close()` it only retires the socket |
| WsReconnect.ReleaseAsWritten | frontend/src/services/api.js:116-127 | the handle as written clears the named timer and resets the count, but the socket stays live until its `onclose` |
| WsReconnect.Release | frontend/src/services/api.js:116-127 | the corrected handle does the same and also marks the client stopped |
| WsReconnect.Step | frontend/src/services/api.js:25-127 | one event constructs at most one socket, and only a call or a timer below the limit does |
| WsReconnect.StepAsWritten | frontend/src/services/api.js:116-127 | the client as written differs from the corrected one only in what the handle's `close()` does |
| WsReconnect.RefusesAtLimit | frontend/src/services/api.js:32-35 | at the limit a call constructs nothing and changes nothing |
| WsReconnect.FailureSchedules | frontend/src/services/api.js:103-113 | a constructor failure below the limit is counted and always schedules a reconnect |
| WsReconnect.SixthCloseStops | frontend/src/services/api.js:86-97 | the close that takes the count past five is the first that schedules nothing |
| WsReconnect.Conservation | frontend/src/services/api.js:25-114 | without opens or handle closes, count plus live sockets grows by exactly the construction attempts |
| WsReconnect.StepConserves | frontend/src/services/api.js:56-114 | each such event keeps that balance |
| WsReconnect.SequentialBudget | frontend/src/services/api.js:32-113 | when each attempt waits for the previous socket to close, at most five sockets are constructed between two resets, fewer by what is already counted |
| WsReconnect.AtMostFiveFromStart | frontend/src/services/api.js:19-35 | from a fresh client at most five sockets are constructed before the first open |
| WsReconnect.OpenResets | frontend/src/services/api.js:59-67 | an open resets the count and cancels the named timer; only stray timers stay pending |
| WsReconnect.AsWrittenHandleReconnects | frontend/src/services/api.js:80-127 | as written, closing through the handle does not stop the client: the socket's own close event arrives afterwards, counts one, schedules a reconnect, and the timer constructs a new socket |
| WsReconnect.HandleStopsReconnects | frontend/src/services/api.js:116-127 | with the corrected handle, whatever the browser delivers afterwards, no socket is constructed until the application calls again |

## Left out

- Sockets, threads, locks, sleeps and `join` timeouts are left out. Each loop is a step function over explicit state, and time is a parameter.
- JPEG decoding and encoding (`cv2.imdecode`/`imencode`) are inputs: the model takes whether a decode succeeded, and the image it produced.
- The frame-difference ratio computation is floating-point pixel arithmetic, so only the comparison of its result with 0.4 is modelled.
- YOLO, face_recognition and Roboflow inference are inputs: class ids, confidences, boxes and face distances.
- The SQLAlchemy session and `database/models.py` are left out. The declared schema disagrees with `database/crud.py` (no `monitor_video_url`, no `duration_seconds`, `DateTime` columns). Records are plain lists using crud's field names.
- `urllib.parse.unquote` is not modelled. It is percent-decoding (section 2.1 of RFC 3986), and the monitor path is taken as already decoded.
- `str(timedelta)` is not modelled. The formatted duration text is an input.
- JSON parsing in the serial and SSE readers is a parameter.
- `random.randint` in the test-data generator is a parameter: each call is a pick, reduced into the requested range.
- `database/add_test_data.py` ends with a stray code fence at line 93, so the file as a whole does not import. Only the logic of `populate_test_data` is modelled.
- The WebSocket capture transport (`backend/camera_capture/websocket.py`) and the shadowed `backend/camera_capture.py` are not part of this model, beyond the factory choosing them.
- Also not part of this model:
  - `backend/genterator.py`, the OpenAI client;
  - the video proxy and the MJPEG endpoints;
  - the process bootstrap (`start_all.py`, `main.py`);
  - `backend/current/__init__.py`;
  - the firmware's hardware, UI and HTTP glue;
  - the frontend router.
- Log output is left out everywhere (`print`, `logging`, `console.log`, `log_activity`), except for the line `ActivityLogger.Push` produces.
- `backend/health_monitor.py` reads the processor's state through `video_processor.get_status()`, which the processor does not define. The status it would return is an input to both `HealthMonitor.Pass` and `HealthMonitor.PassAsWritten`. The `AttributeError` that call raises on every pass, and the `finally` that then tests a `db` never bound on the first pass and so ends the thread, are not modelled.
- Common.ParseInt / Common.ParseIntRejects: underscores between digits (`int("1_000")`), non-ASCII digits and non-ASCII whitespace are accepted by `int()` but refused here. In text holding a non-ASCII character `int()` also skips U+001C to U+001F, which the model refuses. `Common.ParseInt` accepts an optional sign and ASCII digits inside C's six ASCII whitespace characters.
- TestData.DayStart: a day is 86400 seconds, so days that change length at daylight-saving transitions are not modelled.
- EventBus.Registered: listeners are a map from event name to callbacks. A JavaScript object also answers keys it inherits, such as `constructor`, and those are not modelled.
- EventBus.Emit: the calls are computed from the listener list at the moment of the emit. A callback that registers or removes listeners while the emit is running is not modelled.
- WsReconnect.Connect: at the limit the source returns `undefined` instead of a handle. The model reports that no handle was returned and changes nothing.
- HealthMonitor.CheckActivity: the pass's clock is used where the source reads `datetime.now()` a second time, and minutes are real-valued rather than truncated by formatting.
- YoloDetector.Detect: only a model call that raises before returning boxes is modelled. An exception inside the box loop is not.
- YoloLive.Detect: the class-name lookup and drawing are abstracted. An exception part-way through the boxes is given as the index of the box where it happened.
- Crud.SigninRecords: the limit is a natural number. A negative `LIMIT` is not modelled.
- Crud.SortBy: the result is sorted and a permutation of the input, but the order among equal keys is left open, as SQL leaves it.
- The constant `RECONNECT_INTERVAL` in `frontend/src/services/api.js` only sets the timer delay. Timers are events, so the delay is not modelled.
- SensorStream.OneNonePerFailure: a `data: null` line parses to Python's None and is yielded bare, exactly like the None of a failure. The model keeps it as a parsed value, so "one None per failure" holds only for a sensor that never sends JSON null.
- Monitor.Create: only the camera start is modelled as a way for the constructor to raise. Loading the YOLO model and building the summary generator are outside the model, and so is the capture thread that a successful start spawns.
- SerialFraming.Step: a read is given as its decoded text, and UTF-8 decoding is not modelled. A read whose bytes do not decode on their own, such as one that splits a multibyte character, is a `Failure` event: its bytes are dropped and one None is yielded. So the session lemmas speak only of the text that decoded.
- SigninApi.PushPass: one join or leave per pass is an input, together with the send it runs during. Several during one send that leave the size unchanged would let the loop go on over a changed set, in an order Python does not fix; that is not modelled.
- MonitorApi.PushPass: only a join or leave in the group being sent to is an input. One in another group does not raise, but changes what that group's loop later sees; a first connection to a new URL adds a key the pass does not visit. Neither is modelled.
- SigninApi.PushPass: whether reading the status raises is an input. As written it always raises, because `health_monitor.get_status` calls the processor's `get_status`, which `VideoProcessor` does not define, so no status is ever pushed.
- LcdEvToLegacy.RoundTrip: requires the frame index to be absent from the receiver's buffer. A failed `udp_client_push_img` keeps the index and the receiver keeps the chunks that arrived, so this does not hold after a failure; `LcdEvToLegacy.StaleRetryCompletes` shows the next image then completing with an old chunk.
- The legacy reassembler is given each datagram as `recvfrom(1472)` returns it. Truncation of longer datagrams is not modelled, and the LCD-EV sender never sends one.

## Findings

| source | as written | input that shows it | evidently intended | confidence | as-written member | corrected member |
|---|---|---|---|---|---|---|
| backend/video_processor.py:69,85-89 with backend/camera_capture/__init__.py:45 | a frame's age is the millisecond clock minus a stamp taken with `time.time()` in seconds | any frame, at any wall-clock time after 2 s past the epoch: the age is then more than 1000 | the stamp converted to milliseconds, so that only frames older than one second are dropped | not executed | VideoProcessor.AsWrittenNeverAnalyses | VideoProcessor.IntendedKeepsFreshFrames |
| backend/monitor.py:57-61 | the database block first calls `crud.get_latest_health_metrics`, which `database/crud.py` does not define, and calls `get_today_work_duration` without the monitor's URL | any call of `output_insights`: the block always raises, so `today_work_duration_message` is never set | today's duration for this monitor's URL, with the long-shift suffix from 120 seconds | not executed | Monitor.DurationNeverShown | Monitor.IntendedLongShift |
| backend/health_monitor.py:104,134,162,168,182 with database/crud.py:7 | the pass calls `start_working_session(db)` without the URL the database module requires, and `record_activity`, `record_water_intake` and `calculate_health_metrics`, which the database module does not define | a status with a person present and no open session: the opening raises, so no session ever starts; with one open, a due activity check raises before its stamp is written, so it runs again at every pass | a session opened per person, each check run once per interval | not executed | HealthMonitor.NoSessionEverOpens | HealthMonitor.SessionFollowsPerson |
| backend/health_monitor.py:45-71 with backend/video_processor.py:33-213 | `start` and `stop` call the processor's `start` and `stop`, which `VideoProcessor` does not define | `start` on a fresh service raises after setting the flag and spawns nothing; `stop` with a session open raises before ending it | `start` spawns the loop once; `stop` ends the open session | not executed | HealthMonitor.AsWrittenNeverSpawns | HealthMonitor.Stop |
| frontend/src/services/api.js:80-97,116-127 | the handle's `close()` closes the socket and resets the count, but the socket's `onclose` then counts one failure and schedules a reconnect | `close()` on an open connection, followed by the browser's close event and the timer | closing through the handle stops reconnecting until the application connects again | not executed | WsReconnect.AsWrittenHandleReconnects | WsReconnect.HandleStopsReconnects |

=== FILE: activity_logger.dfy ===
/**
 * The timing log of `backend/logger.py`: `timing(key, value)` fills an
 * entry, `push()` turns the entry into one log line and starts a new
 * entry. Values are held already formatted (their `str`), the timestamp is
 * a parameter, and the file append under the lock is left out: `push`
 * returns the line it would write.
 */
module ActivityLogger {
  import opened Common

  /** `current_log_entry`: the keys in insertion order and each key's value. */
  datatype Entry = Entry(keys: seq<string>, values: map<string, string>)

  const Empty := Entry([], map[])

  /** Keys are distinct and the map holds exactly the listed keys. */
  ghost predicate Valid(e: Entry)
  {
    && (forall i, j :: 0 <= i < j < |e.keys| ==> e.keys[i] != e.keys[j])
    && e.values.Keys == set k | k in e.keys
  }

  /**
   * `timing(key, value)`: sets the key; a key already present keeps its
   * place, a new one goes last. The logger itself is returned, so calls
   * chain: the result is the logger with this entry.
   */
  function Timing(e: Entry, key: string, value: string): (r: Entry)
    ensures key in r.values && r.values[key] == value
    ensures forall k :: k in e.values && k != key ==> k in r.values && r.values[k] == e.values[k]
    ensures r.values.Keys == e.values.Keys + {key}
    ensures key in e.values ==> r.keys == e.keys
    ensures key !in e.values ==> r.keys == e.keys + [key]
  {
    if key in e.values then Entry(e.keys, e.values[key := value])
    else Entry(e.keys + [key], e.values[key := value])
  }

  /** Timing keeps the entry well formed. */
  lemma TimingKeepsValid(e: Entry, key: string, value: string)
    requires Valid(e)
    ensures Valid(Timing(e, key, value))
  {
    if key !in e.values {
      assert key !in e.keys by {
        assert key !in set k | k in e.keys;
      }
    }
  }

  /** Setting a key twice leaves the later value, in the place of the first setting. */
  lemma TimingOverwrites(e: Entry, key: string, v1: string, v2: string)
    ensures Timing(Timing(e, key, v1), key, v2) == Timing(e, key, v2)
  {
  }

  /** `dict.get(key, default)`. */
  function Get(e: Entry, key: string, default: string): (v: string)
    ensures key in e.values ==> v == e.values[key]
    ensures key !in e.values ==> v == default
  {
    if key in e.values then e.values[key] else default
  }

  /** The compact fields: frame id, then the fetch, detection and total times in milliseconds, each -1 when missing. */
  function CompactFields(e: Entry): (fs: seq<string>)
    ensures |fs| == 4
  {
    [ "frame_id=" + Get(e, "frame_id", "-1"),
      "fetch=" + Get(e, "fetch", "-1") + "ms",
      "yolo=" + Get(e, "yolo", "-1") + "ms",
      "total=" + Get(e, "total", "-1") + "ms" ]
  }

  /** The compact line: the bracketed timestamp and the four compact fields, joined by single spaces. */
  function CompactLine(e: Entry, timestamp: string): (line: string)
  {
    Join(["[" + timestamp + "]"] + CompactFields(e), ' ') + "\n"
  }

  /** The compact line reads only its four keys: other keys and the insertion order do not show. */
  lemma CompactReadsFourKeys(e1: Entry, e2: Entry, timestamp: string)
    requires Get(e1, "frame_id", "-1") == Get(e2, "frame_id", "-1")
    requires Get(e1, "fetch", "-1") == Get(e2, "fetch", "-1")
    requires Get(e1, "yolo", "-1") == Get(e2, "yolo", "-1")
    requires Get(e1, "total", "-1") == Get(e2, "total", "-1")
    ensures CompactLine(e1, timestamp) == CompactLine(e2, timestamp)
  {
  }

  /** A push with nothing timed writes -1 for every field. */
  lemma CompactOfEmpty()
    ensures CompactFields(Empty) == ["frame_id=-1", "fetch=-1ms", "yolo=-1ms", "total=-1ms"]
  {
    assert "fetch=" + "-1" + "ms" == "fetch=-1ms";
    assert "yolo=" + "-1" + "ms" == "yolo=-1ms";
    assert "total=" + "-1" + "ms" == "total=-1ms";
    assert "frame_id=" + "-1" == "frame_id=-1";
  }

  /** The compact line can be read back: when the four values hold no space, splitting at spaces recovers its fields. */
  lemma CompactReadsBack(e: Entry, timestamp: string)
    requires forall k :: k in e.values ==> ' ' !in e.values[k]
    ensures var line := CompactLine(e, timestamp);
      && line[|line| - 1] == '\n'
      && Split(line[..|line| - 1], ' ') == Split("[" + timestamp + "]", ' ') + CompactFields(e)
  {
    var fs := CompactFields(e);
    var line := CompactLine(e, timestamp);
    assert line[..|line| - 1] == Join(["[" + timestamp + "]"] + fs, ' ');
    assert ' ' !in fs[0] && ' ' !in fs[1] && ' ' !in fs[2] && ' ' !in fs[3] by {
      assert ' ' !in "-1";
      assert ' ' !in "frame_id=" && ' ' !in "fetch=" && ' ' !in "yolo=" && ' ' !in "total=" && ' ' !in "ms";
    }
    SplitJoinAfter("[" + timestamp + "]", fs, ' ');
  }

  /** One `key=value` field per key, in insertion order. */
  function Fields(e: Entry): (fs: seq<string>)
    requires forall k :: k in e.keys ==> k in e.values
    ensures |fs| == |e.keys|
    ensures forall i :: 0 <= i < |e.keys| ==> fs[i] == e.keys[i] + "=" + e.values[e.keys[i]]
    decreases |e.keys|
  {
    if |e.keys| == 0 then []
    else Fields(Entry(e.keys[..|e.keys| - 1], e.values)) + [e.keys[|e.keys| - 1] + "=" + e.values[e.keys[|e.keys| - 1]]]
  }

  /** The verbose line: the bracketed timestamp and every field, joined by single spaces. */
  function VerboseLine(e: Entry, timestamp: string): (line: string)
    requires forall k :: k in e.keys ==> k in e.values
  {
    Join(["[" + timestamp + "]"] + Fields(e), ' ') + "\n"
  }

  /**
   * The verbose line can be read back: when no key or value holds a space,
   * splitting it at spaces gives the timestamp's pieces, then exactly the
   * fields in insertion order.
   */
  lemma VerboseReadsBack(e: Entry, timestamp: string)
    requires forall k :: k in e.keys ==> k in e.values
    requires forall k :: k in e.keys ==> ' ' !in k && ' ' !in e.values[k]
    ensures var line := VerboseLine(e, timestamp);
      && line[|line| - 1] == '\n'
      && Split(line[..|line| - 1], ' ') == Split("[" + timestamp + "]", ' ') + Fields(e)
  {
    var line := VerboseLine(e, timestamp);
    var fs := Fields(e);
    assert line[..|line| - 1] == Join(["[" + timestamp + "]"] + fs, ' ');
    forall i | 0 <= i < |fs| ensures ' ' !in fs[i] {
      var k := e.keys[i];
      assert k in e.keys;
      assert fs[i] == k + "=" + e.values[k];
    }
    SplitJoinAfter("[" + timestamp + "]", fs, ' ');
  }

  /**
   * `push(verbose)`: the line for the current entry, compact or verbose, and
   * a fresh empty entry; the logger itself is returned for chaining.
   */
  function Push(e: Entry, verbose: bool, timestamp: string): (r: (Entry, string))
    requires forall k :: k in e.keys ==> k in e.values
    ensures r.0 == Empty
    ensures !verbose ==> r.1 == CompactLine(e, timestamp)
    ensures verbose ==> r.1 == VerboseLine(e, timestamp)
  {
    (Empty, if verbose then VerboseLine(e, timestamp) else CompactLine(e, timestamp))
  }

  /** The timings of one frame in a chain, applied in order. */
  function TimingAll(e: Entry, kvs: seq<(string, string)>): Entry
    decreases |kvs|
  {
    if |kvs| == 0 then e else Timing(TimingAll(e, kvs[..|kvs| - 1]), kvs[|kvs| - 1].0, kvs[|kvs| - 1].1)
  }

  /**
   * After a push, the next entry depends only on the timings that follow:
   * nothing set before the push reaches the next line.
   */
  lemma {:induction false} PushForgets(e: Entry, verbose: bool, timestamp: string, kvs: seq<(string, string)>)
    requires forall k :: k in e.keys ==> k in e.values
    ensures TimingAll(Push(e, verbose, timestamp).0, kvs) == TimingAll(Empty, kvs)
    ensures Valid(TimingAll(Empty, kvs))
    decreases |kvs|
  {
    if |kvs| > 0 {
      PushForgets(e, verbose, timestamp, kvs[..|kvs| - 1]);
      TimingKeepsValid(TimingAll(Empty, kvs[..|kvs| - 1]), kvs[|kvs| - 1].0, kvs[|kvs| - 1].1);
    }
  }
}

=== FILE: cam_server.dfy ===
/**
 * The ESP-CAM board's UDP broadcaster (`CamServer::broadcastImg`).
 *
 * An image is cut into packets of at most 1024 bytes; each datagram is a
 * 6-byte big-endian header (frame id, packet index, packet count, two bytes
 * each) followed by the packet. `writeTo`'s result is ignored, so every
 * packet is handed over and the 16-bit frame id always advances.
 */
module CamServer {
  import opened Common

  const MAX_PACKET: nat := 1024
  const HEADER_LEN: nat := 6

  /** The largest image whose packet count still fits the 16-bit `total_packets`. */
  const MAX_UNWRAPPED_LEN: nat := 65535 * 1024

  /** The broadcaster's static state: `frame_id`, starting at 0. */
  datatype Cam = Cam(frameId: u16)

  const Boot := Cam(0)

  /** `img_len / 1024 + (img_len % 1024 != 0)`, stored in a `uint16_t`. */
  function TotalPackets(len: nat): (r: u16)
    ensures r > 0 ==> (r - 1) * MAX_PACKET < len
    ensures len <= MAX_UNWRAPPED_LEN ==> (r == 0 <==> len == 0) && len <= r * MAX_PACKET
  {
    (len / MAX_PACKET + (if len % MAX_PACKET != 0 then 1 else 0)) % U16
  }

  /** A 16-bit value as two bytes, high byte first (`x >> 8`, `x & 0xFF`). */
  function Be16(x: u16): (b: seq<byte>)
    ensures |b| == 2
  {
    [(x / 256) as byte, (x % 256) as byte]
  }

  function Header(frame: u16, i: u16, total: u16): (h: seq<byte>)
    ensures |h| == HEADER_LEN
  {
    Be16(frame) + Be16(i) + Be16(total)
  }

  /** Packet `i`: bytes `[i * 1024, min((i + 1) * 1024, len))`. */
  function Packet(img: seq<byte>, i: nat): (p: seq<byte>)
    requires i * MAX_PACKET < |img|
    ensures 0 < |p| <= MAX_PACKET
  {
    img[i * MAX_PACKET..Min((i + 1) * MAX_PACKET, |img|)]
  }

  /** Every datagram of one call, in send order. */
  function Datagrams(img: seq<byte>, frame: u16): (ds: seq<seq<byte>>)
    ensures |ds| == TotalPackets(|img|)
  {
    var total := TotalPackets(|img|);
    seq(total, i requires 0 <= i < total => Header(frame, i, total) + Packet(img, i))
  }

  /** One call of `broadcastImg` as a function: the state after it and the datagrams it hands over. */
  function Broadcast(c: Cam, img: seq<byte>): (Cam, seq<seq<byte>>)
  {
    (Cam((c.frameId + 1) % U16), Datagrams(img, c.frameId))
  }

  /** `CamServer::broadcastImg`: send every packet, then advance `frame_id`. */
  method BroadcastImg(c: Cam, img: seq<byte>) returns (c': Cam, sent: seq<seq<byte>>)
    ensures sent == Datagrams(img, c.frameId)
    ensures c'.frameId == (c.frameId + 1) % U16
    ensures (c', sent) == Broadcast(c, img)
  {
    var total := TotalPackets(|img|);
    sent := [];
    var i: nat := 0;
    while i < total
      invariant i <= total
      invariant sent == Datagrams(img, c.frameId)[..i]
    {
      var start := i * MAX_PACKET;
      var end := Min(start + MAX_PACKET, |img|);
      sent := sent + [Header(c.frameId, i, total) + img[start..end]];
      i := i + 1;
    }
    assert Datagrams(img, c.frameId)[..total] == Datagrams(img, c.frameId);
    c' := c.(frameId := (c.frameId + 1) % U16);
  }

  /** The receiving side's reading of a 16-bit big-endian field gives back the value. */
  lemma Be16RoundTrip(x: u16)
    ensures BeNat(Be16(x)) == x
  {
    var b := Be16(x);
    var hi: byte := (x / 256) as byte;
    assert b[..1] == [hi];
    assert [hi][..0] == [];
    assert BeNat([hi]) == hi as nat;
    assert BeNat(b) == BeNat(b[..1]) * 256 + b[1] as nat;
  }

  /** Each datagram is its header then its packet, at most 1030 bytes, and the header decodes to the three fields. */
  lemma DatagramShape(img: seq<byte>, frame: u16, i: nat)
    requires i < TotalPackets(|img|)
    ensures var dg := Datagrams(img, frame)[i];
      && |dg| == HEADER_LEN + |Packet(img, i)| <= HEADER_LEN + MAX_PACKET
      && BeNat(dg[0..2]) == frame
      && BeNat(dg[2..4]) == i
      && BeNat(dg[4..6]) == TotalPackets(|img|)
      && dg[HEADER_LEN..] == Packet(img, i)
  {
    var dg := Datagrams(img, frame)[i];
    var total := TotalPackets(|img|);
    assert dg[0..2] == Be16(frame);
    assert dg[2..4] == Be16(i);
    assert dg[4..6] == Be16(total);
    Be16RoundTrip(frame);
    Be16RoundTrip(i);
    Be16RoundTrip(total);
  }

  function Packets(img: seq<byte>): (ps: seq<seq<byte>>)
    ensures |ps| == TotalPackets(|img|)
  {
    var total := TotalPackets(|img|);
    seq(total, i requires 0 <= i < total => Packet(img, i))
  }

  /** The first `k` packets concatenate to the first `k * 1024` bytes of the image. */
  lemma {:induction false} PacketPrefix(img: seq<byte>, k: nat)
    requires k <= TotalPackets(|img|)
    ensures Concat(Packets(img)[..k]) == img[..Min(k * MAX_PACKET, |img|)]
  {
    if k > 0 {
      var ps := Packets(img);
      PacketPrefix(img, k - 1);
      assert ps[..k] == ps[..k - 1] + [ps[k - 1]];
      ConcatAppend(ps[..k - 1], ps[k - 1]);
      assert (k - 1) * MAX_PACKET < |img|;
      assert img[..(k - 1) * MAX_PACKET] + Packet(img, k - 1) == img[..Min(k * MAX_PACKET, |img|)];
    }
  }

  /** Packets joined in index order reproduce the image, as long as the count does not wrap. */
  lemma PacketsConcat(img: seq<byte>)
    requires |img| <= MAX_UNWRAPPED_LEN
    ensures Concat(Packets(img)) == img
  {
    var ps := Packets(img);
    PacketPrefix(img, |ps|);
    assert ps[..|ps|] == ps;
  }

  /** An empty image sends nothing (`BroadcastImg` still advances the frame id). */
  lemma EmptyImageSendsNothing(c: Cam)
    ensures Datagrams([], c.frameId) == []
    ensures TotalPackets(0) == 0
  {
  }

  /** Past 65535 packets the count wraps: an image of exactly 65536 packets sends none. */
  lemma TotalPacketsWraps()
    ensures TotalPackets(U16 * MAX_PACKET) == 0
    ensures TotalPackets(U16 * MAX_PACKET + 1) == 1
  {
  }

  /** A run of calls, one per image, and everything they hand over in order. */
  function BroadcastAll(c: Cam, imgs: seq<seq<byte>>): (Cam, seq<seq<byte>>)
    decreases |imgs|
  {
    if |imgs| == 0 then (c, [])
    else
      var (c1, sent1) := BroadcastAll(c, imgs[..|imgs| - 1]);
      var (c2, sent2) := Broadcast(c1, imgs[|imgs| - 1]);
      (c2, sent1 + sent2)
  }

  /** The datagrams the k-th of a run of calls should hand over: image k under frame id `start + k`. */
  function Expected(start: u16, imgs: seq<seq<byte>>): (groups: seq<seq<seq<byte>>>)
    ensures |groups| == |imgs|
  {
    seq(|imgs|, k requires 0 <= k < |imgs| => Datagrams(imgs[k], (start + k) % U16))
  }

  /**
   * After a run of calls `frame_id` is the starting id plus the number of
   * calls, modulo 65536, whatever the images were; and the k-th call's
   * datagrams, in order, carry image k under id `start + k`.
   */
  lemma {:induction false} FrameIdAfter(c: Cam, imgs: seq<seq<byte>>)
    ensures BroadcastAll(c, imgs).0.frameId == (c.frameId + |imgs|) % U16
    ensures BroadcastAll(c, imgs).1 == Concat(Expected(c.frameId, imgs))
    decreases |imgs|
  {
    if |imgs| > 0 {
      var n := |imgs|;
      FrameIdAfter(c, imgs[..n - 1]);
      WrapStep(c.frameId + n - 1);
      var e := Expected(c.frameId, imgs);
      assert Expected(c.frameId, imgs[..n - 1]) == e[..n - 1];
      assert e == e[..n - 1] + [e[n - 1]];
      ConcatAppend(e[..n - 1], e[n - 1]);
    }
  }

  lemma WrapStep(x: nat)
    ensures (x % 0x1_0000 + 1) % 0x1_0000 == (x + 1) % 0x1_0000
  {
  }
}

=== FILE: cam_udp_client.dfy ===
/**
 * The ESP-CAM board's plain UDP sender (`udp_client_push_img` in the
 * ESP-CAM firmware): no header at all, the image is sent as `len / 1472`
 * full 1472-byte slices followed by one slice holding the `len % 1472`
 * remaining bytes when there are any. `frame_count` (an `unsigned long`,
 * 32 bits on the ESP32) counts only fully sent images.
 */
module CamUdpClient {
  import opened Common
  import opened SendRetry

  const CHUNK_LENGTH: nat := 1472

  /** The sender's static state: the socket descriptor (-1 before init) and `frame_count`. */
  datatype Client = Client(socket: int, frameCount: u32)

  /** Full slice `i`: bytes `[i * 1472, (i + 1) * 1472)`. */
  function FullSlice(data: seq<byte>, i: nat): seq<byte>
    requires (i + 1) * CHUNK_LENGTH <= |data|
  {
    data[i * CHUNK_LENGTH..(i + 1) * CHUNK_LENGTH]
  }

  /** The datagrams of one call, in send order, when no send fails. */
  function Slices(data: seq<byte>): (ss: seq<seq<byte>>)
    ensures |ss| == |data| / CHUNK_LENGTH + (if |data| % CHUNK_LENGTH != 0 then 1 else 0)
    ensures forall k :: 0 <= k < |data| / CHUNK_LENGTH ==> |ss[k]| == CHUNK_LENGTH
    ensures |data| % CHUNK_LENGTH != 0 ==> |ss[|ss| - 1]| == |data| % CHUNK_LENGTH
  {
    var full := |data| / CHUNK_LENGTH;
    var rest := |data| % CHUNK_LENGTH;
    var fulls := seq(full, i requires 0 <= i < full => FullSlice(data, i));
    if rest != 0 then fulls + [data[|data| - rest..]] else fulls
  }

  /** The length of each slice of one call, in send order. */
  function SliceLengths(data: seq<byte>): (lens: seq<nat>)
    ensures |lens| == |Slices(data)|
    ensures forall k :: 0 <= k < |lens| ==> lens[k] == |Slices(data)[k]|
  {
    var ss := Slices(data);
    seq(|ss|, k requires 0 <= k < |ss| => |ss[k]|)
  }

  /**
   * `udp_client_push_img`. `tries[i]` lists the `sendto` results that the
   * retry loop of slice `i` sees. The status is None when the call has not
   * returned: the retry loop of the first undelivered slice is still
   * retrying after ENOMEM. `sent` holds the slices that reached the socket.
   * The full slices and the tail go out in one pass over `Slices`, which
   * cuts them as the source's two loops do (see `SliceAt`).
   */
  method PushImg(c: Client, data: Option<seq<byte>>, tries: seq<seq<Attempt>>)
    returns (status: Option<Status>, c': Client, sent: seq<seq<byte>>)
    ensures status == Some(ErrInvalidState) <==> c.socket < 0
    ensures status == Some(ErrInvalidArg) <==> c.socket >= 0 && (data.None? || |data.value| == 0)
    ensures status in {Some(ErrInvalidState), Some(ErrInvalidArg)} ==> sent == [] && c' == c
    ensures c.socket >= 0 && data.Some? && |data.value| > 0 ==>
              var ss := Slices(data.value);
              var j := FirstUndelivered(SliceLengths(data.value), tries, 0);
              && sent == ss[..j]
              && (status == Some(EspOk) <==> j == |ss|)
              && (status == Some(EspFail) <==> j < |ss| && ChunkOutcome(|ss[j]|, tries, j).Returned?)
              && (status.None? <==> j < |ss| && ChunkOutcome(|ss[j]|, tries, j).StillRetrying?)
    ensures status == Some(EspOk) ==> c'.frameCount == (c.frameCount + 1) % U32 && c'.socket == c.socket
    ensures status != Some(EspOk) ==> c' == c
  {
    if c.socket < 0 {
      return Some(ErrInvalidState), c, [];
    }
    if data.None? || |data.value| == 0 {
      return Some(ErrInvalidArg), c, [];
    }
    var d := data.value;
    var ss := Slices(d);
    ghost var lens := SliceLengths(d);
    sent := [];
    var i: nat := 0;
    while i < |ss|
      invariant i <= |ss|
      invariant sent == ss[..i]
      invariant forall k :: 0 <= k < i ==> Delivered(ChunkOutcome(lens[k], tries, k))
    {
      var o := ChunkOutcome(|ss[i]|, tries, i);
      if o.StillRetrying? {
        FirstUndeliveredIs(lens, tries, i);
        return None, c, sent;
      }
      if o.value < 0 {
        FirstUndeliveredIs(lens, tries, i);
        return Some(EspFail), c, sent;
      }
      sent := sent + [ss[i]];
      i := i + 1;
    }
    FirstUndeliveredIs(lens, tries, |ss|);
    assert ss[..|ss|] == ss;
    c' := c.(frameCount := (c.frameCount + 1) % U32);
    status := Some(EspOk);
  }

  /** Slice `i` as the sender cuts it: a full 1472 bytes before the tail, then the remainder. */
  lemma SliceAt(data: seq<byte>, i: nat)
    requires i < |Slices(data)|
    ensures i < |data| / CHUNK_LENGTH ==> Slices(data)[i] == data[i * CHUNK_LENGTH..(i + 1) * CHUNK_LENGTH]
    ensures i == |data| / CHUNK_LENGTH ==> Slices(data)[i] == data[|data| - |data| % CHUNK_LENGTH..]
    ensures |Slices(data)[i]| == (if i < |data| / CHUNK_LENGTH then CHUNK_LENGTH else |data| % CHUNK_LENGTH)
  {
  }

  /** The first `k` full slices are the first `k * 1472` bytes. */
  lemma {:induction false} FullPrefix(data: seq<byte>, k: nat)
    requires k <= |data| / CHUNK_LENGTH
    ensures Concat(Slices(data)[..k]) == data[..k * CHUNK_LENGTH]
  {
    if k > 0 {
      var ss := Slices(data);
      FullPrefix(data, k - 1);
      assert ss[..k] == ss[..k - 1] + [ss[k - 1]];
      ConcatAppend(ss[..k - 1], ss[k - 1]);
      assert ss[k - 1] == FullSlice(data, k - 1);
      assert data[..(k - 1) * CHUNK_LENGTH] + FullSlice(data, k - 1) == data[..k * CHUNK_LENGTH];
    }
  }

  /** The datagrams carry no header: joined in send order they are exactly the image. */
  lemma SlicesConcat(data: seq<byte>)
    ensures Concat(Slices(data)) == data
  {
    var ss := Slices(data);
    var full := |data| / CHUNK_LENGTH;
    var rest := |data| % CHUNK_LENGTH;
    FullPrefix(data, full);
    if rest != 0 {
      assert ss == ss[..full] + [ss[full]];
      ConcatAppend(ss[..full], ss[full]);
      assert data[..full * CHUNK_LENGTH] + data[|data| - rest..] == data;
    } else {
      assert ss[..full] == ss;
      assert data[..full * CHUNK_LENGTH] == data;
    }
  }

  /** A whole number of slices sends no short tail. */
  lemma ExactMultipleHasNoTail(data: seq<byte>)
    requires |data| > 0 && |data| % CHUNK_LENGTH == 0
    ensures forall k :: 0 <= k < |Slices(data)| ==> |Slices(data)[k]| == CHUNK_LENGTH
  {
  }
}

=== FILE: capture_base.dfy ===
/**
 * `BaseCameraCapture`: the latest-frame slot every capture backend shares,
 * the connected test, and `create_camera_capture`, which picks a backend
 * from the URL's scheme prefix. Time stamps are `time.time()` seconds,
 * modelled as reals supplied by the caller.
 */
module CaptureBase {
  import opened Common

  /** The frame slot and the two flags; `stamp` is the `time.time()` of the last update. */
  datatype Capture = Capture(frame: Option<Image>, stamp: Option<real>, running: bool, connected: bool)

  /** A freshly constructed capture. */
  const Fresh := Capture(None, None, false, false)

  /** The frame and its stamp are set together, so one is present exactly when the other is. */
  predicate Valid(c: Capture)
  {
    c.frame.Some? <==> c.stamp.Some?
  }

  /** `get_latest_frame`: `(None, None)` before any update, otherwise the frame and its stamp. */
  function GetLatestFrame(c: Capture): (r: (Option<Image>, Option<real>))
    requires Valid(c)
    ensures r.0.None? ==> r.1.None?
    ensures r.0.Some? ==> r.1.Some?
    ensures r.0.Some? <==> c.frame.Some?
    ensures c.frame.Some? ==> r.0.value == c.frame.value && r.1.value == c.stamp.value
  {
    if c.frame.Some? then (c.frame, c.stamp) else (None, None)
  }

  /** `_update_frame`: store the frame and the current time (seconds) together. */
  function UpdateFrame(c: Capture, f: Image, nowSec: real): (c': Capture)
    ensures Valid(c')
    ensures GetLatestFrame(c') == (Some(f), Some(nowSec))
    ensures c'.running == c.running && c'.connected == c.connected
  {
    c.(frame := Some(f), stamp := Some(nowSec))
  }

  /** `is_connected`: running and connected. */
  function IsConnected(c: Capture): (r: bool)
  {
    c.running && c.connected
  }

  /** A fresh capture is valid, not running, not connected, and has no frame. */
  lemma FreshIsEmpty()
    ensures Valid(Fresh) && !IsConnected(Fresh)
    ensures GetLatestFrame(Fresh) == (None, None)
  {
  }

  /** Clearing either flag makes the capture report disconnected, whatever the other says. */
  lemma EitherFlagDisconnects(c: Capture)
    ensures !IsConnected(c.(running := false))
    ensures !IsConnected(c.(connected := false))
    ensures IsConnected(c) <==> c.running && c.connected
  {
  }

  /** The later of two updates wins. */
  lemma LastUpdateWins(c: Capture, f1: Image, t1: real, f2: Image, t2: real)
    ensures GetLatestFrame(UpdateFrame(UpdateFrame(c, f1, t1), f2, t2)) == (Some(f2), Some(t2))
  {
  }

  /** The backend classes the factory can return. */
  datatype Backend = WebSocketBackend | UdpBackend | Cv2Backend

  /** `create_camera_capture`: the URL's prefix, case-sensitive, picks the backend. */
  function CreateCameraCapture(url: string): (b: Backend)
    ensures b == WebSocketBackend <==> StartsWith(url, "ws://") || StartsWith(url, "wss://")
    ensures b == UdpBackend <==> !StartsWith(url, "ws://") && !StartsWith(url, "wss://") && StartsWith(url, "udpserver://")
    ensures b == Cv2Backend <==> !StartsWith(url, "ws://") && !StartsWith(url, "wss://") && !StartsWith(url, "udpserver://")
  {
    if StartsWith(url, "ws://") || StartsWith(url, "wss://") then WebSocketBackend
    else if StartsWith(url, "udpserver://") then UdpBackend
    else Cv2Backend
  }

  /** The registered camera URLs and an upper-case scheme, which falls through to OpenCV. */
  lemma FactoryExamples()
    ensures CreateCameraCapture("udpserver://0.0.0.0:8099/192.168.10.102") == UdpBackend
    ensures CreateCameraCapture("UDPSERVER://0.0.0.0:8099") == Cv2Backend
    ensures CreateCameraCapture("rtsp://192.168.10.102/stream") == Cv2Backend
    ensures CreateCameraCapture("wss://cam.local/ws") == WebSocketBackend
  {
    var reg := "udpserver://0.0.0.0:8099/192.168.10.102";
    assert reg[..12] == "udpserver://";
    assert reg[0] == 'u' && "ws://"[0] == 'w' && "wss://"[0] == 'w';
    assert reg[..5][0] != "ws://"[0];
    assert reg[..6][0] != "wss://"[0];
    assert "wss://cam.local/ws"[..6] == "wss://";
    var upper := "UDPSERVER://0.0.0.0:8099";
    assert upper[..5][0] != "ws://"[0];
    assert upper[..6][0] != "wss://"[0];
    assert upper[0] == 'U' && "udpserver://"[0] == 'u';
    assert upper[..12][0] != "udpserver://"[0];
    var rtsp := "rtsp://192.168.10.102/stream";
    assert rtsp[..5][0] != "ws://"[0];
    assert rtsp[..6][0] != "wss://"[0];
    assert rtsp[..12][0] != "udpserver://"[0];
  }
}

=== FILE: common.dfy ===
/**
 * Shared vocabulary: optional values and error results, bytes and their
 * little/big-endian integer readings, Python-style slicing, and the Python
 * builtins the modelled code leans on: `int()` on text, `str()` of an
 * integer, `str.split` and `str.join` with a one-character separator,
 * `str.strip`, and list-comprehension filtering.
 */
module Common {

  datatype Option<+T> = None | Some(value: T)

  datatype Result<+T, +E> = Ok(value: T) | Err(error: E)

  /** One octet, as Python's `bytes` and C's `uint8_t` hold it. */
  type byte = x: nat | x < 256

  /** An encoded or decoded video frame; the model never looks inside it. */
  type Image = seq<byte>

  const U16: nat := 0x1_0000
  const U32: nat := 0x1_0000_0000

  /** C's `uint16_t` and `uint32_t`; arithmetic on them wraps explicitly with `% U16` / `% U32`. */
  type u16 = x: nat | x < 0x1_0000
  type u32 = x: nat | x < 0x1_0000_0000

  function Min(a: int, b: int): (r: int)
    ensures r <= a && r <= b && (r == a || r == b)
  {
    if a <= b then a else b
  }

  function Pow256(w: nat): (r: nat)
    ensures r >= 1
  {
    if w == 0 then 1 else 256 * Pow256(w - 1)
  }

  /** Unsigned little-endian reading of a byte string (Python's `int.from_bytes(b, 'little')`). */
  function LeNat(s: seq<byte>): nat
  {
    if |s| == 0 then 0 else s[0] as nat + 256 * LeNat(s[1..])
  }

  /** Unsigned big-endian reading of a byte string. */
  function BeNat(s: seq<byte>): nat
  {
    if |s| == 0 then 0 else BeNat(s[..|s| - 1]) * 256 + s[|s| - 1] as nat
  }

  /** The low `w` bytes of `n`, least significant first (a native little-endian store). */
  function LeBytes(n: nat, w: nat): (r: seq<byte>)
    ensures |r| == w
  {
    if w == 0 then [] else [(n % 256) as byte] + LeBytes(n / 256, w - 1)
  }

  lemma {:induction false} LeBytesRoundTrip(n: nat, w: nat)
    requires n < Pow256(w)
    ensures LeNat(LeBytes(n, w)) == n
  {
    if w == 0 {
    } else {
      var r := LeBytes(n, w);
      assert r[1..] == LeBytes(n / 256, w - 1);
      assert n / 256 < Pow256(w - 1) by {
        assert Pow256(w) == 256 * Pow256(w - 1);
      }
      LeBytesRoundTrip(n / 256, w - 1);
      assert LeNat(r) == r[0] as nat + 256 * LeNat(r[1..]);
    }
  }

  lemma LeNatBound(s: seq<byte>)
    ensures LeNat(s) < Pow256(|s|)
  {
    if |s| > 0 {
      LeNatBound(s[1..]);
    }
  }

  /** Python slice `s[a:b]` for `0 <= a <= b`: indices past the end are clipped. */
  function Slice<T>(s: seq<T>, a: nat, b: nat): (r: seq<T>)
    requires a <= b
    ensures |r| == if b <= |s| then b - a else if a <= |s| then |s| - a else 0
    ensures forall k :: 0 <= k < |r| ==> r[k] == s[a + k]
  {
    if |s| <= a then [] else if |s| <= b then s[a..] else s[a..b]
  }

  /** Python `s[a:]`. */
  function Drop<T>(s: seq<T>, a: nat): (r: seq<T>)
    ensures |r| == if a <= |s| then |s| - a else 0
    ensures forall k :: 0 <= k < |r| ==> r[k] == s[a + k]
  {
    if |s| <= a then [] else s[a..]
  }

  function Concat<T>(ss: seq<seq<T>>): seq<T>
  {
    if |ss| == 0 then [] else Concat(ss[..|ss| - 1]) + ss[|ss| - 1]
  }

  lemma {:induction false} ConcatAppend<T>(ss: seq<seq<T>>, t: seq<T>)
    ensures Concat(ss + [t]) == Concat(ss) + t
  {
    assert (ss + [t])[..|ss|] == ss;
  }

  /** Regrouping a concatenation; stated once so that proofs can use it without a proof by extensionality. */
  lemma AppendAssoc<T>(a: seq<T>, b: seq<T>, c: seq<T>)
    ensures a + (b + c) == (a + b) + c
  {
  }

  predicate StartsWith<T(==)>(s: seq<T>, p: seq<T>)
  {
    |p| <= |s| && s[..|p|] == p
  }

  /** Python's `in` on strings: `k` occurs as a contiguous substring of `s`. */
  predicate Contains<T(==)>(s: seq<T>, k: seq<T>)
  {
    exists i :: 0 <= i <= |s| && OccursAt(s, k, i)
  }

  predicate OccursAt<T(==)>(s: seq<T>, k: seq<T>, i: nat)
  {
    i + |k| <= |s| && s[i..i + |k|] == k
  }

  function DigitChar(d: nat): (c: char)
    requires d < 10
    ensures '0' <= c <= '9'
  {
    ('0' as int + d) as char
  }

  function NatToString(n: nat): (s: string)
    ensures |s| >= 1
    ensures forall k :: 0 <= k < |s| ==> '0' <= s[k] <= '9'
  {
    if n < 10 then [DigitChar(n)] else NatToString(n / 10) + [DigitChar(n % 10)]
  }

  /** Python's `str(i)` / `f"{i}"` for an integer. */
  function IntToString(i: int): (s: string)
    ensures |s| >= 1
  {
    if i < 0 then "-" + NatToString(-i) else NatToString(i)
  }

  function DigitValue(c: char): nat
    requires '0' <= c <= '9'
  {
    c as int - '0' as int
  }

  /** The decimal value of an all-digit string. */
  function DigitsValue(s: string): nat
    requires forall k :: 0 <= k < |s| ==> '0' <= s[k] <= '9'
  {
    if |s| == 0 then 0 else DigitsValue(s[..|s| - 1]) * 10 + DigitValue(s[|s| - 1])
  }

  lemma {:induction false} NatToStringValue(n: nat)
    ensures DigitsValue(NatToString(n)) == n
  {
    if n >= 10 {
      var s := NatToString(n);
      assert s[..|s| - 1] == NatToString(n / 10);
      assert DigitValue(s[|s| - 1]) == n % 10;
      NatToStringValue(n / 10);
    }
  }

  /**
   * Python's `str.isspace()`, the characters `str.strip()` removes: the ASCII
   * controls U+0009 to U+000D and U+001C to U+001F, the space, and the
   * Unicode spaces and separators.
   */
  predicate IsSpace(c: char)
  {
    || ('\t' <= c <= '\r') || ('\U{1C}' <= c <= ' ')
    || c == '\U{85}' || c == '\U{A0}' || c == '\U{1680}'
    || ('\U{2000}' <= c <= '\U{200A}') || c == '\U{2028}' || c == '\U{2029}'
    || c == '\U{202F}' || c == '\U{205F}' || c == '\U{3000}'
  }

  /** The whitespace `int()` skips around the digits of ASCII text: C's `isspace`, a subset of `IsSpace`. */
  predicate IsAsciiSpace(c: char)
    ensures IsAsciiSpace(c) ==> IsSpace(c)
  {
    c == ' ' || ('\t' <= c <= '\r')
  }

  /** `s.lstrip()`: the suffix left after the leading whitespace, all of which is removed. */
  function StripLeft(s: string): (r: string)
    ensures |r| <= |s| && r == s[|s| - |r|..]
    ensures |r| > 0 ==> !IsSpace(r[0])
    ensures forall k :: 0 <= k < |s| - |r| ==> IsSpace(s[k])
  {
    if |s| > 0 && IsSpace(s[0]) then StripLeft(s[1..]) else s
  }

  /** `s.rstrip()`: the prefix left before the trailing whitespace, all of which is removed. */
  function StripRight(s: string): (r: string)
    ensures |r| <= |s| && r == s[..|r|]
    ensures |r| > 0 ==> !IsSpace(r[|r| - 1])
    ensures forall k :: |r| <= k < |s| ==> IsSpace(s[k])
  {
    if |s| > 0 && IsSpace(s[|s| - 1]) then StripRight(s[..|s| - 1]) else s
  }

  /** Stripping adds no character: one missing from the text is missing from the result. */
  lemma StripWithout(s: string, c: char)
    requires c !in s
    ensures c !in Strip(s)
  {
    var l := StripLeft(s);
    assert c !in l by { assert l == s[|s| - |l|..]; }
  }

  /** Python `s.strip()`. */
  function Strip(s: string): (r: string)
    ensures |r| <= |s|
    ensures |r| > 0 ==> !IsSpace(r[0]) && !IsSpace(r[|r| - 1])
  {
    StripRight(StripLeft(s))
  }

  /** Stripping twice strips nothing more. */
  lemma StripIdempotent(s: string)
    ensures Strip(Strip(s)) == Strip(s)
  {
    var t := Strip(s);
    if |t| > 0 {
      StripUnpadded(t);
    } else {
      assert t == [];
      assert StripLeft(t) == t && StripRight(t) == t;
    }
  }

  /** `s.strip()` removes U+001C to U+001F, which C's `isspace` does not count. */
  lemma StripRemovesSeparators()
    ensures Strip("\U{1C}kw\U{1F}") == "kw"
  {
    LeadingSeparator();
    TrailingSeparator();
  }

  lemma LeadingSeparator()
    ensures StripLeft("\U{1C}kw\U{1F}") == "kw\U{1F}"
  {
    var s := "\U{1C}kw\U{1F}";
    var t := "kw\U{1F}";
    assert IsSpace(s[0]) && s[1..] == t;
    assert !IsSpace(t[0]);
  }

  lemma TrailingSeparator()
    ensures StripRight("kw\U{1F}") == "kw"
  {
    var t := "kw\U{1F}";
    assert IsSpace(t[2]) && t[..2] == "kw";
    assert !IsSpace("kw"[1]);
  }

  /** `int()` keeps them: `int("\x1c8099")` raises. */
  lemma IntKeepsSeparators()
    ensures ParseInt("\U{1C}8099") == None
  {
    var n := "\U{1C}8099";
    assert IntTrim(n) == n by {
      assert !IsAsciiSpace(n[0]) && !IsAsciiSpace(n[|n| - 1]);
      IntTrimUnpadded(n);
    }
    ParseStrippedRejects(n, 0);
  }

  /** The text `int()` reads its sign and digits from: ASCII whitespace removed at both ends. */
  function IntTrim(s: string): (r: string)
    ensures |r| <= |s|
    ensures |r| > 0 ==> !IsAsciiSpace(r[0]) && !IsAsciiSpace(r[|r| - 1])
  {
    IntTrimRight(IntTrimLeft(s))
  }

  function IntTrimLeft(s: string): (r: string)
    ensures |r| <= |s| && r == s[|s| - |r|..]
    ensures |r| > 0 ==> !IsAsciiSpace(r[0])
  {
    if |s| > 0 && IsAsciiSpace(s[0]) then IntTrimLeft(s[1..]) else s
  }

  function IntTrimRight(s: string): (r: string)
    ensures |r| <= |s| && r == s[..|r|]
    ensures |r| > 0 ==> !IsAsciiSpace(r[|r| - 1])
  {
    if |s| > 0 && IsAsciiSpace(s[|s| - 1]) then IntTrimRight(s[..|s| - 1]) else s
  }

  predicate AllDigits(s: string)
  {
    forall k :: 0 <= k < |s| ==> '0' <= s[k] <= '9'
  }

  /**
   * Python's `int(s)` on ASCII text: surrounding ASCII whitespace is ignored,
   * an optional sign, then one or more ASCII digits; anything else is a
   * `ValueError` (None).
   */
  function ParseInt(s: string): (r: Option<int>)
    ensures r.Some? ==> |IntTrim(s)| > 0
  {
    ParseStripped(IntTrim(s))
  }

  /** `int()` on text that has no surrounding whitespace left. */
  function ParseStripped(t: string): (r: Option<int>)
    ensures r.Some? ==> |t| > 0
  {
    if |t| > 0 && (t[0] == '-' || t[0] == '+') then
      var ds := t[1..];
      if |ds| > 0 && AllDigits(ds) then Some(if t[0] == '-' then -(DigitsValue(ds) as int) else DigitsValue(ds)) else None
    else if |t| > 0 && AllDigits(t) then Some(DigitsValue(t))
    else None
  }

  /** `int(str(i)) == i`. */
  lemma ParseIntRoundTrip(i: int)
    ensures ParseInt(IntToString(i)) == Some(i)
  {
    var digits := NatToString(if i < 0 then -i else i);
    ParseDigitString(digits);
    NatToStringValue(if i < 0 then -i else i);
  }

  /** A non-empty run of digits, with or without a leading minus, parses to its value. */
  lemma ParseDigitString(ds: string)
    requires |ds| > 0 && AllDigits(ds)
    ensures ParseInt(ds) == Some(DigitsValue(ds) as int)
    ensures ParseInt("-" + ds) == Some(-(DigitsValue(ds) as int))
  {
    IntTrimUnpadded(ds);
    IntTrimUnpadded("-" + ds);
    ParseStrippedDigits(ds);
  }

  lemma ParseStrippedDigits(ds: string)
    requires |ds| > 0 && AllDigits(ds)
    ensures ParseStripped(ds) == Some(DigitsValue(ds) as int)
    ensures ParseStripped("-" + ds) == Some(-(DigitsValue(ds) as int))
  {
    var s := "-" + ds;
    assert s[0] == '-' && s[1..] == ds;
  }

  lemma StripUnpadded(s: string)
    requires |s| > 0 && !IsSpace(s[0]) && !IsSpace(s[|s| - 1])
    ensures Strip(s) == s
  {
  }

  lemma IntTrimUnpadded(s: string)
    requires |s| > 0 && !IsAsciiSpace(s[0]) && !IsAsciiSpace(s[|s| - 1])
    ensures IntTrim(s) == s && ParseInt(s) == ParseStripped(s)
  {
  }

  /**
   * A character other than an ASCII digit (or a leading sign) once the ASCII
   * whitespace is trimmed makes the model's `int()` fail. Python's `int()`
   * also accepts an underscore between digits and non-ASCII digits.
   */
  lemma ParseIntRejects(s: string, k: nat)
    requires k < |IntTrim(s)|
    requires !('0' <= IntTrim(s)[k] <= '9')
    requires k > 0 || (IntTrim(s)[0] != '-' && IntTrim(s)[0] != '+')
    ensures ParseInt(s) == None
  {
    ParseStrippedRejects(IntTrim(s), k);
  }

  lemma ParseStrippedRejects(t: string, k: nat)
    requires k < |t| && !('0' <= t[k] <= '9')
    requires k > 0 || (t[0] != '-' && t[0] != '+')
    ensures ParseStripped(t) == None
  {
    if k > 0 {
      assert t[1..][k - 1] == t[k];
    }
  }

  /** Python `s.split(sep)`: every maximal run between separators, empty runs kept. */
  function Split(s: string, sep: char): (parts: seq<string>)
    ensures |parts| >= 1
    ensures forall k :: 0 <= k < |parts| ==> sep !in parts[k]
    decreases |s|
  {
    if sep !in s then [s]
    else
      var i := IndexOf(s, sep);
      [s[..i]] + Split(s[i + 1..], sep)
  }

  /** Python `sep.join(parts)` for a one-character separator. */
  function Join(parts: seq<string>, sep: char): (s: string)
    decreases |parts|
  {
    if |parts| == 0 then ""
    else if |parts| == 1 then parts[0]
    else parts[0] + [sep] + Join(parts[1..], sep)
  }

  /** Splitting at a separator placed between two texts splits each of them. */
  lemma {:induction false} SplitAround(a: string, sep: char, b: string)
    ensures Split(a + [sep] + b, sep) == Split(a, sep) + Split(b, sep)
    decreases |a|
  {
    if sep !in a {
      SplitAroundPlain(a, sep, b);
    } else {
      var i := IndexOf(a, sep);
      SplitAround(a[i + 1..], sep, b);
      SplitAroundFirst(a, sep, b, i);
      AppendAssoc([a[..i]], Split(a[i + 1..], sep), Split(b, sep));
    }
  }

  /** The first piece of `a`, `sep`, `b` is the first piece of `a` when `a` holds the separator. */
  lemma SplitAroundFirst(a: string, sep: char, b: string, i: nat)
    requires sep in a && i == IndexOf(a, sep)
    ensures Split(a + [sep] + b, sep) == [a[..i]] + Split(a[i + 1..] + [sep] + b, sep)
    ensures Split(a, sep) == [a[..i]] + Split(a[i + 1..], sep)
  {
    var s := a + [sep] + b;
    SlicesAround(a, sep, b, i);
    SplitAtFirst(s, sep, i);
    SplitAtFirst(a, sep, i);
  }

  /** Splitting at the first separator, found at index `i`. */
  lemma SplitAtFirst(s: string, sep: char, i: nat)
    requires i < |s| && s[i] == sep && sep !in s[..i]
    ensures Split(s, sep) == [s[..i]] + Split(s[i + 1..], sep)
  {
    IndexOfFirst(s, sep, i);
  }

  /** The first occurrence is the only index with `c` and no `c` before it. */
  lemma IndexOfFirst<T>(s: seq<T>, c: T, i: nat)
    requires i < |s| && s[i] == c && c !in s[..i]
    ensures IndexOf(s, c) == i
  {
  }

  lemma SplitAroundPlain(a: string, sep: char, b: string)
    requires sep !in a
    ensures Split(a + [sep] + b, sep) == [a] + Split(b, sep)
  {
    FirstAfter(a, sep, b);
    SlicesAround(a, sep, b, |a|);
    assert a[..|a|] == a;
  }

  lemma SlicesAround<T>(a: seq<T>, c: T, b: seq<T>, i: nat)
    requires i <= |a|
    ensures (a + [c] + b)[..i] == a[..i]
    ensures i < |a| ==> (a + [c] + b)[i + 1..] == a[i + 1..] + [c] + b
    ensures i == |a| ==> (a + [c] + b)[i + 1..] == b
  {
  }

  /** Split undoes Join when no part holds the separator. */
  lemma {:induction false} SplitJoin(parts: seq<string>, sep: char)
    requires |parts| > 0
    requires forall k :: 0 <= k < |parts| ==> sep !in parts[k]
    ensures Split(Join(parts, sep), sep) == parts
    decreases |parts|
  {
    if |parts| == 1 {
      assert sep !in parts[0];
    } else {
      var rest := parts[1..];
      assert forall k :: 0 <= k < |rest| ==> rest[k] == parts[k + 1];
      SplitJoin(rest, sep);
      SplitJoinCons(parts[0], rest, sep);
      assert parts == [parts[0]] + rest;
    }
  }

  lemma SplitJoinCons(head: string, rest: seq<string>, sep: char)
    requires sep !in head && |rest| > 0
    requires Split(Join(rest, sep), sep) == rest
    ensures Split(Join([head] + rest, sep), sep) == [head] + rest
  {
    assert ([head] + rest)[0] == head && ([head] + rest)[1..] == rest;
    assert Join([head] + rest, sep) == head + [sep] + Join(rest, sep);
    SplitAroundPlain(head, sep, Join(rest, sep));
  }

  /** Splitting a join whose head may hold the separator: the head's pieces, then the other parts. */
  lemma SplitJoinAfter(head: string, parts: seq<string>, sep: char)
    requires forall k :: 0 <= k < |parts| ==> sep !in parts[k]
    ensures Split(Join([head] + parts, sep), sep) == Split(head, sep) + parts
  {
    if |parts| == 0 {
      assert [head] + parts == [head];
    } else {
      assert ([head] + parts)[1..] == parts;
      SplitJoin(parts, sep);
      SplitAround(head, sep, Join(parts, sep));
    }
  }

  /** The first `c` in `a`, `c`, `b` is the one after `a` when `a` has none. */
  lemma FirstAfter<T>(a: seq<T>, c: T, b: seq<T>)
    requires c !in a
    ensures c in a + [c] + b && IndexOf(a + [c] + b, c) == |a|
  {
    var s := a + [c] + b;
    assert s[|a|] == c;
    assert forall j :: 0 <= j < |a| ==> s[j] == a[j];
    var i := IndexOf(s, c);
    assert i <= |a| by {
      assert forall j :: 0 <= j < i ==> s[..i][j] == s[j];
    }
  }

  /** Index of the first occurrence of `c` in `s`. */
  function IndexOf<T(==)>(s: seq<T>, c: T): (i: nat)
    requires c in s
    ensures i < |s| && s[i] == c && c !in s[..i]
  {
    if s[0] == c then 0 else 1 + IndexOf(s[1..], c)
  }

  /**
   * `r` holds only elements satisfying `p`, every element of `xs` that does,
   * and nothing `xs` does not hold; each passing element as often as in
   * `xs`, and no other (an element outside `xs` is excluded by the
   * multiset inclusion).
   */
  ghost predicate Filtered<T>(xs: seq<T>, p: T -> bool, r: seq<T>)
  {
    && (forall k :: 0 <= k < |r| ==> p(r[k]))
    && (forall x :: x in xs && p(x) ==> x in r)
    && multiset(r) <= multiset(xs)
    && (forall x :: x in xs ==> multiset(r)[x] == if p(x) then multiset(xs)[x] else 0)
  }

  /** The elements satisfying `p`, in their original order. */
  function Filter<T>(xs: seq<T>, p: T -> bool): (r: seq<T>)
    ensures Filtered(xs, p, r)
  {
    if |xs| == 0 then []
    else
      assert xs == xs[..|xs| - 1] + [xs[|xs| - 1]];
      Filter(xs[..|xs| - 1], p) + (if p(xs[|xs| - 1]) then [xs[|xs| - 1]] else [])
  }

  /** Filtering a non-empty sequence filters all but its last element, then adds the last when it passes. */
  lemma FilterSnoc<T>(xs: seq<T>, p: T -> bool)
    requires |xs| > 0
    ensures Filter(xs, p) == Filter(xs[..|xs| - 1], p) + (if p(xs[|xs| - 1]) then [xs[|xs| - 1]] else [])
  {
  }
}

=== FILE: crud.dfy ===
/**
 * The record queries of `database/crud.py`, over plain lists of rows with
 * crud's field names. Working sessions carry an auto-increment id, start
 * and end stamps in whole seconds, the monitored URL and the stored
 * duration; sign-in records carry their creation stamp. Clocks are
 * parameters and the SQL session is replaced by the list it holds.
 */
module Crud {
  import opened Common

  /** A `WorkingSession` row; `None` is SQL NULL. */
  datatype Session = Session(id: nat, start: Option<int>, end: Option<int>, url: string, duration: Option<int>)

  /** The working-session table. */
  datatype Db = Db(sessions: seq<Session>)

  /** Auto-increment ids: the row at position `k` has id `k + 1` (rows are never deleted). */
  predicate WellFormed(db: Db)
  {
    forall k :: 0 <= k < |db.sessions| ==> db.sessions[k].id == k + 1
  }

  /** `start_working_session`: a new row with only the start stamp and the URL set; returns its id. */
  function StartWorkingSession(db: Db, url: string, now: int): (r: (Db, nat))
    ensures |r.0.sessions| == |db.sessions| + 1 && r.0.sessions[..|db.sessions|] == db.sessions
    ensures var s := r.0.sessions[|db.sessions|];
      s.id == r.1 && s.start == Some(now) && s.url == url && s.end.None? && s.duration.None?
    ensures WellFormed(db) ==> WellFormed(r.0)
  {
    var id := |db.sessions| + 1;
    (Db(db.sessions + [Session(id, Some(now), None, url, None)]), id)
  }

  /** The position of the first row with the given id (the `.first()` of the query). */
  function Find(ss: seq<Session>, id: nat): (r: Option<nat>)
    ensures r.Some? ==> r.value < |ss| && ss[r.value].id == id && forall j :: 0 <= j < r.value ==> ss[j].id != id
    ensures r.None? ==> forall j :: 0 <= j < |ss| ==> ss[j].id != id
  {
    if |ss| == 0 then None
    else if ss[0].id == id then Some(0)
    else
      match Find(ss[1..], id)
      case None => None
      case Some(k) => Some(k + 1)
  }

  /** Positions whose ids agree find the same row. */
  lemma {:induction false} FindSameIds(ss: seq<Session>, ts: seq<Session>, id: nat)
    requires |ss| == |ts| && forall k :: 0 <= k < |ss| ==> ss[k].id == ts[k].id
    ensures Find(ss, id) == Find(ts, id)
  {
    if |ss| > 0 {
      FindSameIds(ss[1..], ts[1..], id);
    }
  }

  /** The row `end_working_session` writes: the end stamp and, when the start is truthy, the duration. */
  function Closed(s: Session, now: int): (c: Session)
    ensures c.end == Some(now) && (c.id, c.start, c.url) == (s.id, s.start, s.url)
    ensures s.start.Some? && s.start.value != 0 ==> c.duration == Some(now - s.start.value)
    ensures s.start.None? || s.start.value == 0 ==> c.duration == s.duration
  {
    s.(end := Some(now), duration := if s.start.Some? && s.start.value != 0 then Some(now - s.start.value) else s.duration)
  }

  /** `end_working_session`: closes the row with that id if it is still open; otherwise nothing changes. */
  function EndWorkingSession(db: Db, id: nat, now: int): (r: Db)
    ensures |r.sessions| == |db.sessions|
    ensures forall k :: 0 <= k < |db.sessions| ==> r.sessions[k].id == db.sessions[k].id
    ensures match Find(db.sessions, id)
      case None => r == db
      case Some(k) =>
        && (db.sessions[k].end.Some? ==> r == db)
        && (db.sessions[k].end.None? ==> r.sessions == db.sessions[k := Closed(db.sessions[k], now)])
  {
    match Find(db.sessions, id)
    case None => db
    case Some(k) =>
      if db.sessions[k].end.Some? then db
      else Db(db.sessions[k := Closed(db.sessions[k], now)])
  }

  /** A second `end_working_session` for the same id changes nothing, whatever its clock. */
  lemma EndIdempotent(db: Db, id: nat, t1: int, t2: int)
    ensures EndWorkingSession(EndWorkingSession(db, id, t1), id, t2) == EndWorkingSession(db, id, t1)
  {
    var once := EndWorkingSession(db, id, t1);
    FindSameIds(db.sessions, once.sessions, id);
  }

  /** A session `get_today_work_duration` counts: same URL, started at or after midnight. */
  predicate Counted(s: Session, url: string, midnight: int)
  {
    s.url == url && s.start.Some? && s.start.value >= midnight
  }

  /** What one counted session adds: its stored duration when closed, otherwise (end or now) minus start. */
  function Contribution(s: Session, now: int): (c: int)
    ensures s.end.Some? && s.duration.Some? ==> c == s.duration.value
    ensures s.end.None? && s.start.Some? ==> c == now - s.start.value
  {
    if s.end.Some? && s.duration.Some? then s.duration.value
    else if s.start.Some? then (if s.end.Some? then s.end.value else now) - s.start.value
    else 0
  }

  /** `get_today_work_duration`: the sum over the counted sessions. */
  function TodayDuration(ss: seq<Session>, url: string, midnight: int, now: int): int
  {
    if |ss| == 0 then 0
    else
      var last := ss[|ss| - 1];
      TodayDuration(ss[..|ss| - 1], url, midnight, now) + (if Counted(last, url, midnight) then Contribution(last, now) else 0)
  }

  /** The total over a concatenation is the sum of the totals. */
  lemma {:induction false} TodayDurationConcat(a: seq<Session>, b: seq<Session>, url: string, midnight: int, now: int)
    ensures TodayDuration(a + b, url, midnight, now) == TodayDuration(a, url, midnight, now) + TodayDuration(b, url, midnight, now)
    decreases |b|
  {
    if |b| == 0 {
      assert a + b == a;
    } else {
      assert (a + b)[..|a + b| - 1] == a + b[..|b| - 1];
      assert (a + b)[|a + b| - 1] == b[|b| - 1];
      TodayDurationConcat(a, b[..|b| - 1], url, midnight, now);
    }
  }

  /** Replacing one row by another that adds the same amount keeps the total. */
  lemma {:induction false} SameContribution(ss: seq<Session>, k: nat, s: Session, url: string, midnight: int, now: int)
    requires k < |ss|
    requires Counted(s, url, midnight) == Counted(ss[k], url, midnight)
    requires Counted(s, url, midnight) ==> Contribution(s, now) == Contribution(ss[k], now)
    ensures TodayDuration(ss[k := s], url, midnight, now) == TodayDuration(ss, url, midnight, now)
  {
    var n := |ss|;
    if k < n - 1 {
      assert ss[k := s][..n - 1] == ss[..n - 1][k := s];
      SameContribution(ss[..n - 1], k, s, url, midnight, now);
    } else {
      assert ss[k := s][..n - 1] == ss[..n - 1];
    }
  }

  /** Every row `start_working_session` creates, until it is closed, has no stored duration. */
  predicate OpenRowsHaveNoDuration(db: Db)
  {
    forall k :: 0 <= k < |db.sessions| && db.sessions[k].end.None? ==> db.sessions[k].duration.None?
  }

  /**
   * Closing an open session does not change today's total computed at the
   * closing instant: the stored duration equals what the open session was
   * counted for.
   */
  lemma EndKeepsToday(db: Db, id: nat, url: string, midnight: int, now: int)
    requires OpenRowsHaveNoDuration(db)
    ensures TodayDuration(EndWorkingSession(db, id, now).sessions, url, midnight, now) == TodayDuration(db.sessions, url, midnight, now)
  {
    match Find(db.sessions, id)
    case None =>
    case Some(k) =>
      if db.sessions[k].end.None? {
        SameContribution(db.sessions, k, Closed(db.sessions[k], now), url, midnight, now);
      }
  }

  /** A later clock never lowers today's total: open sessions only grow. */
  lemma {:induction false} TodayDurationMonotone(ss: seq<Session>, url: string, midnight: int, now1: int, now2: int)
    requires now1 <= now2
    ensures TodayDuration(ss, url, midnight, now1) <= TodayDuration(ss, url, midnight, now2)
  {
    if |ss| > 0 {
      TodayDurationMonotone(ss[..|ss| - 1], url, midnight, now1, now2);
    }
  }

  /** Ascending order of a key. */
  predicate SortedBy<T>(xs: seq<T>, key: T -> int)
  {
    forall i, j :: 0 <= i < j < |xs| ==> key(xs[i]) <= key(xs[j])
  }

  function Insert<T>(x: T, xs: seq<T>, key: T -> int): (r: seq<T>)
    requires SortedBy(xs, key)
    ensures multiset(r) == multiset(xs) + multiset{x}
    ensures |r| == |xs| + 1 && (r[0] == x || (|xs| > 0 && r[0] == xs[0]))
    ensures SortedBy(r, key)
  {
    if |xs| == 0 then [x]
    else if key(x) <= key(xs[0]) then [x] + xs
    else
      var rest := Insert(x, xs[1..], key);
      assert xs == [xs[0]] + xs[1..];
      [xs[0]] + rest
  }

  /** The rows in ascending key order (an `ORDER BY`; the order among equal keys is not specified by SQL). */
  function SortBy<T>(xs: seq<T>, key: T -> int): (r: seq<T>)
    ensures multiset(r) == multiset(xs) && |r| == |xs|
    ensures SortedBy(r, key)
  {
    if |xs| == 0 then []
    else
      assert xs == xs[..|xs| - 1] + [xs[|xs| - 1]];
      Insert(xs[|xs| - 1], SortBy(xs[..|xs| - 1], key), key)
  }

  function StartKey(s: Session): int
  {
    if s.start.Some? then s.start.value else 0
  }

  predicate InPeriod(s: Session, url: string, lo: int, hi: int)
  {
    s.url == url && s.start.Some? && lo <= s.start.value <= hi
  }

  /** `get_work_sessions_for_period`: the URL's sessions started within `[lo, hi]`, both ends included, by ascending start. */
  function SessionsForPeriod(ss: seq<Session>, url: string, lo: int, hi: int): (r: seq<Session>)
    ensures forall k :: 0 <= k < |r| ==> InPeriod(r[k], url, lo, hi)
    ensures forall s :: s in ss && InPeriod(s, url, lo, hi) ==> s in r
    ensures forall i, j :: 0 <= i < j < |r| ==> StartKey(r[i]) <= StartKey(r[j])
    ensures multiset(r) <= multiset(ss)
  {
    var kept := Filter(ss, s => InPeriod(s, url, lo, hi));
    var r := SortBy(kept, StartKey);
    assert forall k :: 0 <= k < |r| ==> InPeriod(r[k], url, lo, hi) by {
      forall k | 0 <= k < |r| ensures InPeriod(r[k], url, lo, hi) {
        assert r[k] in multiset(kept);
      }
    }
    assert forall s :: s in kept ==> s in r by {
      forall s | s in kept ensures s in r {
        assert s in multiset(r);
      }
    }
    r
  }

  /** A `SigninRecord` row with its creation stamp. */
  datatype SigninRecord = SigninRecord(timestamp: int, name: Option<string>, imagePath: string, result: string)

  function Newness(r: SigninRecord): int
  {
    -r.timestamp
  }

  /** Every record is at least as recent as the ones after it. */
  predicate NewestFirst(rs: seq<SigninRecord>)
  {
    forall i, j :: 0 <= i < j < |rs| ==> rs[i].timestamp >= rs[j].timestamp
  }

  /** `get_signin_records`: the newest `limit` records, newest first. */
  function SigninRecords(rs: seq<SigninRecord>, limit: nat): (r: seq<SigninRecord>)
    ensures |r| == Min(limit, |rs|)
    ensures NewestFirst(r)
    ensures multiset(r) <= multiset(rs)
  {
    var sorted := SortBy(rs, Newness);
    var n := Min(limit, |rs|);
    assert sorted == sorted[..n] + sorted[n..];
    sorted[..n]
  }

  /** In a sorted sequence everything before a cut has a key no larger than everything after it. */
  lemma SortedCut<T>(xs: seq<T>, key: T -> int, n: nat, x: T, y: T)
    requires SortedBy(xs, key) && n <= |xs|
    requires x in xs[..n] && y in xs[n..]
    ensures key(x) <= key(y)
  {
    var i :| 0 <= i < n && xs[..n][i] == x;
    var j :| 0 <= j < |xs| - n && xs[n..][j] == y;
    assert xs[i] == x && xs[n + j] == y;
  }

  /** Nothing left out of the listing is newer than anything in it. */
  lemma SigninRecordsAreNewest(rs: seq<SigninRecord>, limit: nat)
    ensures var r := SigninRecords(rs, limit);
      forall x, y :: x in r && y in multiset(rs) - multiset(r) ==> y.timestamp <= x.timestamp
  {
    var sorted := SortBy(rs, Newness);
    var n := Min(limit, |rs|);
    var r := sorted[..n];
    assert sorted == r + sorted[n..];
    assert multiset(rs) - multiset(r) == multiset(sorted[n..]);
    forall x, y | x in r && y in multiset(rs) - multiset(r)
      ensures y.timestamp <= x.timestamp
    {
      assert y in sorted[n..];
      SortedCut(sorted, Newness, n, x, y);
    }
  }
}

=== FILE: cv2_capture.dfy ===
/**
 * `CV2CameraCapture`: the OpenCV capture thread's retry state machine. Each
 * pass of `_capture_loop` opens the stream if no handle is held, then reads
 * one frame; any failure clears `connected`, releases the handle and counts
 * one more failure, and the tenth failure without a successful open in
 * between ends the loop for good. What the device answers is an explicit
 * input per pass; the sleeps are returned as numbers.
 */
module Cv2Capture {
  import opened Common
  import opened CaptureBase

  const MAX_FAILURES: nat := 10

  /** The object's fields: the shared slot and flags, whether `self.cap` holds a handle, the URL, threads spawned. */
  datatype Cv2 = Cv2(cap: Capture, handle: bool, url: Option<string>, spawned: nat)

  const Created := Cv2(Fresh, false, None, 0)

  /** The capture thread: the object it drives, its local `failure_count`, and whether it has left the loop. */
  datatype Loop = Loop(cam: Cv2, failures: nat, exited: bool)

  /** What the device does in one pass: whether opening would succeed, and the frame a read returns. */
  datatype Probe = Probe(opens: bool, read: Option<Image>)

  /** `min(failure_count * 0.5, 5)` seconds. */
  function Backoff(n: nat): (d: real)
    ensures d <= 5.0
    ensures n <= 10 ==> d == n as real * 0.5
  {
    if n as real * 0.5 <= 5.0 then n as real * 0.5 else 5.0
  }

  /** The outcome of one pass: the next thread state and how long it sleeps (0 when it leaves). */
  datatype Pass = Pass(next: Loop, sleep: real)

  /** The `except` branch: disconnect, release the handle, count, and leave at the tenth failure. */
  function Fail(l: Loop, failures: nat): (p: Pass)
    ensures !p.next.cam.cap.connected && !p.next.cam.handle
    ensures p.next.failures == failures + 1
    ensures p.next.exited <==> failures + 1 >= MAX_FAILURES
    ensures !p.next.exited ==> p.sleep == Backoff(failures + 1)
    ensures p.next.cam.cap.running == l.cam.cap.running && p.next.cam.cap.frame == l.cam.cap.frame
  {
    var cam := l.cam.(cap := l.cam.cap.(connected := false), handle := false);
    var n := failures + 1;
    if n >= MAX_FAILURES then Pass(Loop(cam, n, true), 0.0)
    else Pass(Loop(cam, n, false), Backoff(n))
  }

  /**
   * One pass of the loop body while `is_running`. A missing handle is opened
   * first: success sets `connected` and resets the count; then a frame is
   * read, and a good frame is stored with the clock reading.
   */
  function Step(l: Loop, pr: Probe, nowSec: real): (p: Pass)
    requires !l.exited && l.cam.cap.running
    ensures p.next.cam.cap.running
    ensures !l.cam.handle && !pr.opens ==> p == Fail(l, l.failures)
    ensures (l.cam.handle || pr.opens) && pr.read.Some? ==>
              && p.next.cam.handle && p.next.cam.cap.connected == (l.cam.cap.connected || !l.cam.handle)
              && p.next.failures == (if l.cam.handle then l.failures else 0)
              && Valid(p.next.cam.cap) && GetLatestFrame(p.next.cam.cap) == (pr.read, Some(nowSec))
              && !p.next.exited && p.sleep == 0.033
    ensures (l.cam.handle || pr.opens) && pr.read.None? ==>
              p == Fail(l, if l.cam.handle then l.failures else 0)
  {
    if !l.cam.handle && !pr.opens then Fail(l, l.failures)
    else
      var ready := if l.cam.handle then l else Loop(l.cam.(cap := l.cam.cap.(connected := true), handle := true), 0, false);
      match pr.read
      case None => Fail(ready, ready.failures)
      case Some(frame) =>
        Pass(ready.(cam := ready.cam.(cap := UpdateFrame(ready.cam.cap, frame, nowSec))), 0.033)
  }

  /** The thread over a sequence of passes, `clock[k]` being the time read in pass `k`, stopping at the exit. */
  function Run(l: Loop, probes: seq<Probe>, clock: seq<real>): (r: Loop)
    requires l.cam.cap.running && |clock| == |probes|
    ensures r.cam.cap.running
    ensures l.exited ==> r == l
    decreases |probes|
  {
    if l.exited || |probes| == 0 then l
    else Run(Step(l, probes[0], clock[0]).next, probes[1..], clock[1..])
  }

  /** What the loop keeps true: `connected` only with a handle, and fewer than ten failures until it leaves. */
  predicate Inv(l: Loop)
  {
    && (l.cam.cap.connected ==> l.cam.handle)
    && (l.exited <==> l.failures >= MAX_FAILURES)
    && l.failures <= MAX_FAILURES
  }

  lemma StepKeepsInv(l: Loop, pr: Probe, nowSec: real)
    requires !l.exited && l.cam.cap.running && Inv(l)
    ensures Inv(Step(l, pr, nowSec).next)
  {
  }

  lemma {:induction false} RunKeepsInv(l: Loop, probes: seq<Probe>, clock: seq<real>)
    requires l.cam.cap.running && Inv(l) && |clock| == |probes|
    ensures Inv(Run(l, probes, clock))
    decreases |probes|
  {
    if !l.exited && |probes| > 0 {
      StepKeepsInv(l, probes[0], clock[0]);
      RunKeepsInv(Step(l, probes[0], clock[0]).next, probes[1..], clock[1..]);
    }
  }

  /** Every sleep after a failure that does not end the loop lies between 0.5 s and 4.5 s. */
  lemma BackoffRange(l: Loop, pr: Probe, nowSec: real)
    requires !l.exited && l.cam.cap.running && Inv(l)
    requires !Step(l, pr, nowSec).next.exited && !Step(l, pr, nowSec).next.cam.handle
    ensures 0.5 <= Step(l, pr, nowSec).sleep <= 4.5
  {
  }

  /** A pass that opens the stream leaves the count at 0 or 1, whatever it was before. */
  lemma OpenResets(l: Loop, pr: Probe, nowSec: real)
    requires !l.exited && l.cam.cap.running && !l.cam.handle && pr.opens
    ensures Step(l, pr, nowSec).next.failures <= 1
    ensures !Step(l, pr, nowSec).next.exited
  {
  }

  /** A run of passes in which nothing can be opened. */
  predicate AllRefused(probes: seq<Probe>)
  {
    forall k :: 0 <= k < |probes| ==> !probes[k].opens
  }

  /** With no handle and nothing opening, each pass adds one failure until the tenth ends the loop. */
  lemma {:induction false} RefusedCounts(l: Loop, probes: seq<Probe>, clock: seq<real>)
    requires l.cam.cap.running && !l.exited && !l.cam.handle && Inv(l)
    requires AllRefused(probes) && |clock| == |probes|
    ensures var r := Run(l, probes, clock);
      && r.failures == Min(l.failures + |probes|, MAX_FAILURES)
      && (r.exited <==> l.failures + |probes| >= MAX_FAILURES)
      && r.cam.cap.running && !r.cam.cap.connected
    decreases |probes|
  {
    if |probes| > 0 {
      var l1 := Step(l, probes[0], clock[0]).next;
      if !l1.exited {
        assert AllRefused(probes[1..]) by {
          assert forall k :: 0 <= k < |probes| - 1 ==> probes[1..][k] == probes[k + 1];
        }
        RefusedCounts(l1, probes[1..], clock[1..]);
      }
    }
  }

  /** `start`: always records the URL; spawns the thread and clears `connected` only when not running. */
  function Start(c: Cv2, url: string): (c': Cv2)
    ensures c'.url == Some(url) && c'.cap.running
    ensures c.cap.running ==> c'.cap == c.cap && c'.spawned == c.spawned && c'.handle == c.handle
    ensures !c.cap.running ==> !c'.cap.connected && c'.spawned == c.spawned + 1
    ensures c'.cap.frame == c.cap.frame
  {
    var c1 := c.(url := Some(url));
    if c1.cap.running then c1
    else c1.(cap := c1.cap.(running := true, connected := false), spawned := c1.spawned + 1)
  }

  /** `stop`: clear both flags and release the handle. */
  function Stop(c: Cv2): (c': Cv2)
    ensures !c'.cap.running && !c'.cap.connected && !c'.handle
    ensures !IsConnected(c'.cap)
    ensures c'.url == c.url && c'.cap.frame == c.cap.frame && c'.spawned == c.spawned
  {
    c.(cap := c.cap.(running := false, connected := false), handle := false)
  }

  /**
   * Ten refused opens end the thread but leave `is_running` set, so a later
   * `start` spawns nothing until `stop` is called; after `stop` it spawns again.
   */
  lemma DeadThreadBlocksStart(l: Loop, probes: seq<Probe>, clock: seq<real>, url: string)
    requires l.cam.cap.running && !l.exited && !l.cam.handle && l.failures == 0 && !l.cam.cap.connected
    requires |probes| == MAX_FAILURES && AllRefused(probes) && |clock| == |probes|
    ensures var r := Run(l, probes, clock);
      && r.exited && r.cam.cap.running && !IsConnected(r.cam.cap)
      && Start(r.cam, url).spawned == r.cam.spawned
      && Start(Stop(r.cam), url).spawned == r.cam.spawned + 1
  {
    RefusedCounts(l, probes, clock);
  }
}

=== FILE: detector.dfy ===
/**
 * The detector package's shared records (`backend/detector/__init__.py`):
 * a detection box with its class name, the conversion from a YOLO box, and
 * the class-name queries every detector result offers.
 */
module Detector {
  import opened Common

  /** `DetectionBox` (the empty `extra_info` is not modelled). */
  datatype Box = Box(x1: int, y1: int, x2: int, y2: int, confidence: real, classId: int, className: string)

  /** What a YOLO box reports: its corners (already cast to int), confidence and class id. */
  datatype YoloBox = YoloBox(x1: int, y1: int, x2: int, y2: int, conf: real, cls: int)

  /** `from_yolo_box`: the model's name for the class id, or `class_<id>` when the id has none. */
  function FromYoloBox(b: YoloBox, names: map<int, string>): (r: Box)
    ensures r.classId == b.cls && r.confidence == b.conf
    ensures (r.x1, r.y1, r.x2, r.y2) == (b.x1, b.y1, b.x2, b.y2)
    ensures b.cls in names ==> r.className == names[b.cls]
    ensures b.cls !in names ==> r.className == "class_" + IntToString(b.cls)
  {
    var name := if b.cls in names then names[b.cls] else "class_" + IntToString(b.cls);
    Box(b.x1, b.y1, b.x2, b.y2, b.conf, b.cls, name)
  }

  /** `get_boxes_by_class`: the boxes named `name`, in their original order. */
  function GetBoxesByClass(boxes: seq<Box>, name: string): (r: seq<Box>)
    ensures |r| <= |boxes|
    ensures forall k :: 0 <= k < |r| ==> r[k].className == name
    ensures forall k :: 0 <= k < |boxes| && boxes[k].className == name ==> boxes[k] in r
    ensures forall b :: b in r ==> b in boxes
  {
    if |boxes| == 0 then []
    else GetBoxesByClass(boxes[..|boxes| - 1], name) + (if boxes[|boxes| - 1].className == name then [boxes[|boxes| - 1]] else [])
  }

  /** Each box named `name` is kept as often as it occurs, and no other box is kept. */
  lemma {:induction false} GetBoxesByClassCounts(boxes: seq<Box>, name: string)
    ensures forall b :: multiset(GetBoxesByClass(boxes, name))[b] == if b.className == name then multiset(boxes)[b] else 0
  {
    if |boxes| > 0 {
      var n := |boxes|;
      GetBoxesByClassCounts(boxes[..n - 1], name);
      assert boxes == boxes[..n - 1] + [boxes[n - 1]];
    }
  }

  /** Filtering a concatenation filters each part and keeps them in order. */
  lemma {:induction false} FilterConcat(a: seq<Box>, b: seq<Box>, name: string)
    ensures GetBoxesByClass(a + b, name) == GetBoxesByClass(a, name) + GetBoxesByClass(b, name)
    decreases |b|
  {
    if |b| == 0 {
      assert a + b == a;
    } else {
      var n := |b|;
      assert (a + b)[..|a + b| - 1] == a + b[..n - 1];
      assert (a + b)[|a + b| - 1] == b[n - 1];
      FilterConcat(a, b[..n - 1], name);
    }
  }

  /** Filtering twice by the same name changes nothing more. */
  lemma {:induction false} FilterIdempotent(boxes: seq<Box>, name: string)
    ensures GetBoxesByClass(GetBoxesByClass(boxes, name), name) == GetBoxesByClass(boxes, name)
  {
    if |boxes| > 0 {
      var n := |boxes|;
      var init := GetBoxesByClass(boxes[..n - 1], name);
      FilterIdempotent(boxes[..n - 1], name);
      var tail := if boxes[n - 1].className == name then [boxes[n - 1]] else [];
      FilterConcat(init, tail, name);
      assert GetBoxesByClass(tail, name) == tail by {
        if |tail| == 1 {
          assert tail[..0] == [];
        }
      }
    }
  }

  /** `has_class`: at least one box carries the name. */
  function HasClass(boxes: seq<Box>, name: string): (r: bool)
    ensures r <==> exists k :: 0 <= k < |boxes| && boxes[k].className == name
  {
    var found := GetBoxesByClass(boxes, name);
    if |found| > 0 then
      assert found[0] in boxes;
      true
    else false
  }
}

=== FILE: event_bus.dfy ===
/**
 * The frontend event bus of `frontend/src/services/eventBus.js`: a table
 * from event name to the callbacks registered for it, and the current
 * camera. Callbacks are compared by identity, as `indexOf` does, so they are
 * any type with equality here. `emit` returns the calls it makes, in order,
 * instead of making them.
 */
module EventBus {
  import opened Common

  /** `currentCamera` (None for the initial `null`) and `listeners`. */
  datatype Bus<C, A> = Bus(currentCamera: Option<A>, listeners: map<string, seq<C>>)

  function Initial<C, A>(): (b: Bus<C, A>)
    ensures b.currentCamera.None? && b.listeners == map[]
  {
    Bus(None, map[])
  }

  /** The callbacks registered for an event, in registration order; none for an unknown event. */
  function Registered<C, A>(b: Bus<C, A>, event: string): seq<C>
  {
    if event in b.listeners then b.listeners[event] else []
  }

  /** `emit(event, ...args)`: one call per registered callback, in registration order, each with the same arguments. */
  function Emit<C, A>(b: Bus<C, A>, event: string, args: seq<A>): (calls: seq<(C, seq<A>)>)
    ensures event !in b.listeners ==> calls == []
    ensures |calls| == |Registered(b, event)|
    ensures forall k :: 0 <= k < |calls| ==> calls[k] == (Registered(b, event)[k], args)
  {
    if event in b.listeners then Calls(b.listeners[event], args) else []
  }

  function Calls<C, A>(cbs: seq<C>, args: seq<A>): (calls: seq<(C, seq<A>)>)
    ensures |calls| == |cbs|
    ensures forall k :: 0 <= k < |cbs| ==> calls[k] == (cbs[k], args)
  {
    if |cbs| == 0 then [] else [(cbs[0], args)] + Calls(cbs[1..], args)
  }

  /** `on(event, callback)`: the callback goes last in the event's list, which is created when absent. */
  function On<C, A>(b: Bus<C, A>, event: string, cb: C): (r: Bus<C, A>)
    ensures r.currentCamera == b.currentCamera
    ensures event in r.listeners && r.listeners[event] == Registered(b, event) + [cb]
    ensures r.listeners.Keys == b.listeners.Keys + {event}
    ensures forall e :: e in b.listeners && e != event ==> r.listeners[e] == b.listeners[e]
  {
    Bus(b.currentCamera, b.listeners[event := Registered(b, event) + [cb]])
  }

  /** `off(event, callback)`: the first occurrence of the callback leaves the list; the list itself stays, even empty. */
  function Off<C(==), A>(b: Bus<C, A>, event: string, cb: C): (r: Bus<C, A>)
    ensures r.currentCamera == b.currentCamera
    ensures r.listeners.Keys == b.listeners.Keys
    ensures forall e :: e in b.listeners && e != event ==> r.listeners[e] == b.listeners[e]
    ensures event in b.listeners && cb !in b.listeners[event] ==> r == b
    ensures event in b.listeners && cb in b.listeners[event] ==>
              var l := b.listeners[event];
              var i := IndexOf(l, cb);
              r.listeners[event] == l[..i] + l[i + 1..]
  {
    if event in b.listeners then
      var l := b.listeners[event];
      if cb in l then
        var i := IndexOf(l, cb);
        Bus(b.currentCamera, b.listeners[event := l[..i] + l[i + 1..]])
      else b
    else b
  }

  /** `setCurrentCamera(camera)`: the camera is set first, then 'camera-changed' is emitted with it. */
  function SetCurrentCamera<C, A>(b: Bus<C, A>, camera: A): (r: (Bus<C, A>, seq<(C, seq<A>)>))
    ensures r.0 == Bus(Some(camera), b.listeners)
    ensures r.1 == Emit(b, "camera-changed", [camera])
  {
    var b' := Bus(Some(camera), b.listeners);
    (b', Emit(b', "camera-changed", [camera]))
  }

  /** How many times one emit calls the callback. */
  function Times<C(==), A>(b: Bus<C, A>, event: string, cb: C): nat
  {
    multiset(Registered(b, event))[cb]
  }

  /** The calls of one emit hold each callback as often as it is registered: a callback registered twice is called twice. */
  lemma EmitCallsEachRegistration<C, A>(b: Bus<C, A>, event: string, cb: C, args: seq<A>)
    ensures multiset(Emit(b, event, args))[(cb, args)] == Times(b, event, cb)
  {
    var cbs := Registered(b, event);
    CallsCount(cbs, args, cb);
  }

  lemma {:induction false} CallsCount<C, A>(cbs: seq<C>, args: seq<A>, cb: C)
    ensures multiset(Calls(cbs, args))[(cb, args)] == multiset(cbs)[cb]
    decreases |cbs|
  {
    if |cbs| > 0 {
      assert cbs == [cbs[0]] + cbs[1..];
      CallsCount(cbs[1..], args, cb);
    }
  }

  /** Each `on` adds one registration of its callback and none of any other. */
  lemma OnCounts<C, A>(b: Bus<C, A>, event: string, cb: C, other: C)
    ensures Times(On(b, event, cb), event, cb) == Times(b, event, cb) + 1
    ensures other != cb ==> Times(On(b, event, cb), event, other) == Times(b, event, other)
  {
  }

  /** Each `off` of a registered callback removes exactly one registration; of an unregistered one, none. */
  lemma OffCounts<C, A>(b: Bus<C, A>, event: string, cb: C, other: C)
    ensures Times(b, event, cb) > 0 ==> Times(Off(b, event, cb), event, cb) == Times(b, event, cb) - 1
    ensures Times(b, event, cb) == 0 ==> Off(b, event, cb) == b
    ensures other != cb ==> Times(Off(b, event, cb), event, other) == Times(b, event, other)
  {
    if event in b.listeners && cb in b.listeners[event] {
      var l := b.listeners[event];
      var i := IndexOf(l, cb);
      assert l == l[..i] + [cb] + l[i + 1..];
    }
  }

  /**
   * Registering a callback that was not registered for the event and then
   * removing it leaves every emit as it was; only an empty list may remain
   * where there was none.
   */
  lemma OnThenOffRestores<C, A>(b: Bus<C, A>, event: string, cb: C, e: string, args: seq<A>)
    requires cb !in Registered(b, event)
    ensures Registered(Off(On(b, event, cb), event, cb), event) == Registered(b, event)
    ensures Emit(Off(On(b, event, cb), event, cb), e, args) == Emit(b, e, args)
  {
    var l := Registered(b, event);
    FirstAfter(l, cb, []);
    assert l + [cb] + [] == l + [cb];
    assert (l + [cb])[..|l|] == l;
  }

  /**
   * `off` after `on` is not an undo when the callback was already
   * registered: the earlier registration goes, so the order changes.
   */
  lemma OffRemovesEarliest<C, A>(b: Bus<C, A>, event: string, c: C, d: C)
    requires c != d && Registered(b, event) == [c, d]
    ensures Registered(Off(On(b, event, c), event, c), event) == [d, c]
  {
    assert Registered(On(b, event, c), event) == [c, d, c];
  }

  /** Listeners of the camera event hear the new camera, and the bus already holds it. */
  lemma CameraListenersSeeNewCamera<C, A>(b: Bus<C, A>, camera: A)
    ensures var r := SetCurrentCamera(b, camera);
      && r.0.currentCamera == Some(camera)
      && |r.1| == |Registered(b, "camera-changed")|
      && forall k :: 0 <= k < |r.1| ==> r.1[k].1 == [camera]
  {
  }
}

=== FILE: face_signin.dfy ===
/**
 * Face recognition post-processing (`backend/detector/face_signin.py`,
 * `FaceSignin.detect`). For every detected face the distances to the known
 * encodings are given; the chosen index is the first minimum (numpy's
 * `argmin`), and it is a match when that distance is below 0.5. Face
 * location and encoding are inputs.
 */
module FaceSignin {
  import opened Common
  import opened Detector

  const THRESHOLD: real := 0.5
  const UNKNOWN: string := "unknown"

  /** `i` is the first index holding the least value of `ds`. */
  predicate IsFirstMin(ds: seq<real>, i: nat)
  {
    && i < |ds|
    && (forall k :: 0 <= k < |ds| ==> ds[i] <= ds[k])
    && (forall k :: 0 <= k < i ==> ds[i] < ds[k])
  }

  /** At most one index is the first minimum. */
  lemma FirstMinUnique(ds: seq<real>, i: nat, j: nat)
    requires IsFirstMin(ds, i) && IsFirstMin(ds, j)
    ensures i == j
  {
    assert ds[i] == ds[j];
  }

  /** `argmin` as a definition: the first minimum of a non-empty sequence. */
  function ArgMin(ds: seq<real>): (i: nat)
    requires |ds| > 0
    ensures IsFirstMin(ds, i)
  {
    if |ds| == 1 then 0
    else
      var j := ArgMin(ds[..|ds| - 1]);
      assert IsFirstMin(ds[..|ds| - 1], j);
      if ds[|ds| - 1] < ds[j] then |ds| - 1 else j
  }

  /** A left-to-right scan for the first minimum, as `argmin` computes it. */
  method FirstArgMin(ds: seq<real>) returns (best: nat)
    requires |ds| > 0
    ensures IsFirstMin(ds, best)
    ensures best == ArgMin(ds)
  {
    best := 0;
    var i := 1;
    while i < |ds|
      invariant 1 <= i <= |ds|
      invariant best < i
      invariant forall k :: 0 <= k < i ==> ds[best] <= ds[k]
      invariant forall k :: 0 <= k < best ==> ds[best] < ds[k]
    {
      if ds[i] < ds[best] {
        best := i;
      }
      i := i + 1;
    }
    FirstMinUnique(ds, best, ArgMin(ds));
  }

  /** One detected face: its `(top, right, bottom, left)` location and its distance to every known encoding. */
  datatype Face = Face(top: int, right: int, bottom: int, left: int, distances: seq<real>)

  /** `FaceResult`: `has_work_label` is never set by `detect`. */
  datatype FaceResult = FaceResult(boxes: seq<Box>, who: string, hasLabel: bool)

  const Fresh := FaceResult([], UNKNOWN, false)

  /** The box one face produces. */
  function FaceBox(names: seq<string>, f: Face): (b: Box)
    requires |f.distances| == |names| > 0
    ensures (b.x1, b.y1, b.x2, b.y2) == (f.left, f.top, f.right, f.bottom)
    ensures var i := ArgMin(f.distances); var d := f.distances[i];
      && (d < THRESHOLD ==> b.className == names[i] && b.classId == i && b.confidence == (1.0 - d) * 100.0)
      && (!(d < THRESHOLD) ==> b.className == UNKNOWN && b.classId == -1 && b.confidence == 0.0)
  {
    var i := ArgMin(f.distances);
    var d := f.distances[i];
    if d < THRESHOLD then Box(f.left, f.top, f.right, f.bottom, (1.0 - d) * 100.0, i, names[i])
    else Box(f.left, f.top, f.right, f.bottom, 0.0, -1, UNKNOWN)
  }

  predicate Comparable(names: seq<string>, faces: seq<Face>)
  {
    forall k :: 0 <= k < |faces| ==> |faces[k].distances| == |names|
  }

  /**
   * `detect(frame)`: returns the new result and the value of `self.result`
   * afterwards. With no known faces it returns a fresh result and leaves
   * `self.result` alone; otherwise one box per face, in order, and the name
   * of the last face.
   */
  method Detect(stored: FaceResult, names: seq<string>, faces: seq<Face>) returns (r: FaceResult, stored': FaceResult)
    requires Comparable(names, faces)
    ensures |names| == 0 ==> r == Fresh && stored' == stored
    ensures |names| > 0 ==>
              && stored' == r && |r.boxes| == |faces| && !r.hasLabel
              && (forall k :: 0 <= k < |faces| ==> r.boxes[k] == FaceBox(names, faces[k]))
              && r.who == (if |faces| == 0 then UNKNOWN else r.boxes[|faces| - 1].className)
  {
    if |names| == 0 {
      return Fresh, stored;
    }
    r := Fresh;
    var i := 0;
    while i < |faces|
      invariant 0 <= i <= |faces|
      invariant |r.boxes| == i && !r.hasLabel
      invariant forall k :: 0 <= k < i ==> r.boxes[k] == FaceBox(names, faces[k])
      invariant r.who == (if i == 0 then UNKNOWN else r.boxes[i - 1].className)
    {
      var f := faces[i];
      var idx := FirstArgMin(f.distances);
      var d := f.distances[idx];
      var box;
      if d < THRESHOLD {
        box := Box(f.left, f.top, f.right, f.bottom, (1.0 - d) * 100.0, idx, names[idx]);
      } else {
        box := Box(f.left, f.top, f.right, f.bottom, 0.0, -1, UNKNOWN);
      }
      r := r.(boxes := r.boxes + [box], who := box.className);
      i := i + 1;
    }
    stored' := r;
  }

  /** A face is named iff its closest known encoding is closer than 0.5, and the name is that encoding's. */
  lemma MatchIffClose(names: seq<string>, f: Face)
    requires |f.distances| == |names| > 0
    ensures FaceBox(names, f).classId >= 0 <==> exists k :: 0 <= k < |names| && f.distances[k] < THRESHOLD
    ensures FaceBox(names, f).classId >= 0 ==> FaceBox(names, f).className == names[FaceBox(names, f).classId]
  {
    var i := ArgMin(f.distances);
    if exists k :: 0 <= k < |names| && f.distances[k] < THRESHOLD {
      var k :| 0 <= k < |names| && f.distances[k] < THRESHOLD;
      assert f.distances[i] <= f.distances[k];
    }
  }

  /** Ties go to the earlier known face. */
  lemma TieGoesFirst()
    ensures ArgMin([0.3, 0.2, 0.2]) == 1
  {
    assert [0.3, 0.2, 0.2][..2] == [0.3, 0.2];
    assert [0.3, 0.2][..1] == [0.3];
  }
}

=== FILE: health_analyze.dfy ===
/**
 * The working-session tracker of `backend/health_analyze.py`. Once a
 * second the analysis loop passes the person flag to
 * `process_working_session`, which opens a session when a person appears
 * and closes it when they leave. The thread and its sleeps are not
 * modelled; each call takes the clock reading the database layer would
 * take.
 */
module HealthAnalyze {
  import opened Common
  import opened Crud

  /** The tracker: the running flag, the number of loop threads spawned, the monitored URL and the open session's id. */
  datatype Analyze = Analyze(running: bool, spawned: nat, url: string, sessionId: Option<nat>)

  function Created(url: string): Analyze
  {
    Analyze(false, 0, url, None)
  }

  /** `current_working_session_id` is truthy: set and not 0. */
  predicate HasSession(a: Analyze)
  {
    a.sessionId.Some? && a.sessionId.value != 0
  }

  /** `process_working_session(is_person_detected)`: the tracker and the session table afterwards. */
  function Process(a: Analyze, db: Db, person: bool, now: int): (r: (Analyze, Db))
    ensures person && !HasSession(a) ==>
              var (db', id) := StartWorkingSession(db, a.url, now);
              r == (a.(sessionId := Some(id)), db')
    ensures !person && HasSession(a) ==>
              r == (a.(sessionId := None), EndWorkingSession(db, a.sessionId.value, now))
    ensures person == HasSession(a) ==> r == (a, db)
  {
    if person && !HasSession(a) then
      var (db', id) := StartWorkingSession(db, a.url, now);
      (a.(sessionId := Some(id)), db')
    else if !person && HasSession(a) then
      (a.(sessionId := None), EndWorkingSession(db, a.sessionId.value, now))
    else (a, db)
  }

  /**
   * What the tracker relies on: ids are positions plus one, open rows carry
   * no duration, and a tracked id names an open row of this URL.
   */
  predicate Consistent(a: Analyze, db: Db)
  {
    && WellFormed(db)
    && OpenRowsHaveNoDuration(db)
    && (a.sessionId.Some? ==> 1 <= a.sessionId.value <= |db.sessions| && db.sessions[a.sessionId.value - 1].end.None?)
  }

  /** After each call a session is open exactly when a person was seen, and the tracker stays consistent. */
  lemma ProcessKeepsConsistent(a: Analyze, db: Db, person: bool, now: int)
    requires Consistent(a, db)
    ensures var (a', db') := Process(a, db, person, now);
      && Consistent(a', db')
      && (HasSession(a') <==> person)
      && |db.sessions| <= |db'.sessions|
  {
    var (a', db') := Process(a, db, person, now);
    if !person && HasSession(a) {
      var id := a.sessionId.value;
      assert Find(db.sessions, id) == Some(id - 1) by {
        assert db.sessions[id - 1].id == id;
      }
      assert db'.sessions == db.sessions[id - 1 := Closed(db.sessions[id - 1], now)];
    }
  }

  /** The person flag observed at each call, with the clock reading of that call. */
  datatype Tick = Tick(person: bool, now: int)

  function Run(a: Analyze, db: Db, ts: seq<Tick>): (r: (Analyze, Db))
    decreases |ts|
  {
    if |ts| == 0 then (a, db)
    else
      var (a', db') := Run(a, db, ts[..|ts| - 1]);
      Process(a', db', ts[|ts| - 1].person, ts[|ts| - 1].now)
  }

  /** The number of calls at which a person appears after a call without one (or at the start, with no session). */
  function Arrivals(open: bool, ts: seq<Tick>): nat
    decreases |ts|
  {
    if |ts| == 0 then 0
    else
      var before := if |ts| == 1 then open else ts[|ts| - 2].person;
      Arrivals(open, ts[..|ts| - 1]) + (if ts[|ts| - 1].person && !before then 1 else 0)
  }

  /** Each arrival of a person opens exactly one new session row, and nothing else adds rows. */
  lemma {:induction false} RunOpensOnArrival(a: Analyze, db: Db, ts: seq<Tick>)
    requires Consistent(a, db)
    ensures var (a', db') := Run(a, db, ts);
      && Consistent(a', db')
      && |db'.sessions| == |db.sessions| + Arrivals(HasSession(a), ts)
      && (|ts| > 0 ==> (HasSession(a') <==> ts[|ts| - 1].person))
      && (|ts| == 0 ==> (a', db') == (a, db))
    decreases |ts|
  {
    if |ts| > 0 {
      var n := |ts|;
      RunOpensOnArrival(a, db, ts[..n - 1]);
      var (b, dbb) := Run(a, db, ts[..n - 1]);
      ProcessKeepsConsistent(b, dbb, ts[n - 1].person, ts[n - 1].now);
      if n > 1 {
        assert ts[..n - 1][n - 2] == ts[n - 2];
      }
    }
  }

  /** `start`: spawns the loop only when not running. */
  function Start(a: Analyze): (r: Analyze)
    ensures r.running
    ensures r.spawned == a.spawned + (if a.running then 0 else 1)
    ensures r.sessionId == a.sessionId && r.url == a.url
  {
    if a.running then a else a.(running := true, spawned := a.spawned + 1)
  }

  /** Starting twice spawns one loop. */
  lemma StartIdempotent(a: Analyze)
    ensures Start(Start(a)) == Start(a)
  {
  }

  /** `stop`: clears the running flag and closes the tracked session if there is one. */
  function Stop(a: Analyze, db: Db, now: int): (r: (Analyze, Db))
    ensures !r.0.running && !HasSession(r.0) && r.0.spawned == a.spawned
    ensures HasSession(a) ==> r.1 == EndWorkingSession(db, a.sessionId.value, now)
    ensures !HasSession(a) ==> r.1 == db && r.0.sessionId == a.sessionId
  {
    if HasSession(a) then (a.(running := false, sessionId := None), EndWorkingSession(db, a.sessionId.value, now))
    else (a.(running := false), db)
  }

  /** After `stop` the tracked row, if any, is closed and the tracker is still consistent. */
  lemma StopClosesSession(a: Analyze, db: Db, now: int)
    requires Consistent(a, db) && HasSession(a)
    ensures var (a', db') := Stop(a, db, now);
      Consistent(a', db') && db'.sessions[a.sessionId.value - 1].end == Some(now)
  {
    var id := a.sessionId.value;
    assert Find(db.sessions, id) == Some(id - 1) by {
      assert db.sessions[id - 1].id == id;
    }
  }
}

=== FILE: health_monitor.dfy ===
/**
 * The older single-camera service of `backend/health_monitor.py`. Each
 * pass of its loop applies the working-session rule, then three checks
 * gated by their own intervals (activity every 60 s, water every 300 s,
 * health metrics every 3600 s). The database calls a pass makes are
 * returned as a list instead of performed; the video status is an input,
 * and so is the clock, read once per pass.
 */
module HealthMonitor {
  import opened Common

  const ACTIVITY_INTERVAL: real := 60.0
  const WATER_INTERVAL: real := 300.0
  const METRICS_INTERVAL: real := 3600.0

  /** The flags a pass reads from the video processor. */
  datatype VideoStatus = VideoStatus(person: bool, active: bool, cup: bool)

  /** A database call made by a pass, in the order made. */
  datatype Call =
    | StartSession
    | EndSession(id: nat)
    | RecordActivity(active: bool, inactiveMinutes: Option<real>)
    | RecordWater(cup: bool)
    | ComputeMetrics

  datatype Hm = Hm(running: bool, spawned: nat, sessionId: Option<nat>,
                   lastActivity: Option<real>, lastWater: Option<real>, lastMetrics: Option<real>,
                   inactiveStart: Option<real>)

  const Created := Hm(false, 0, None, None, None, None, None)

  /** `current_session_id` is truthy. */
  predicate HasSession(h: Hm)
  {
    h.sessionId.Some? && h.sessionId.value != 0
  }

  /** A check runs when it never ran or its interval has elapsed since it last ran. */
  predicate Due(last: Option<real>, now: real, interval: real)
  {
    last.None? || now - last.value >= interval
  }

  /**
   * `_check_activity_status` with a person present: an active check reports
   * how many minutes the inactivity lasted (if it was timed) and clears the
   * timer; an inactive check starts the timer unless it is already running.
   * Without a person nothing happens.
   */
  function CheckActivity(h: Hm, st: VideoStatus, now: real): (r: (Hm, seq<Call>))
    ensures !st.person ==> r == (h, [])
    ensures st.person && st.active ==>
              && r.0 == h.(inactiveStart := None)
              && r.1 == [RecordActivity(true, if h.inactiveStart.Some? then Some((now - h.inactiveStart.value) / 60.0) else None)]
    ensures st.person && !st.active ==>
              && r.0 == h.(inactiveStart := if h.inactiveStart.Some? then h.inactiveStart else Some(now))
              && r.1 == [RecordActivity(false, None)]
  {
    if !st.person then (h, [])
    else if st.active then
      var minutes := if h.inactiveStart.Some? then Some((now - h.inactiveStart.value) / 60.0) else None;
      (h.(inactiveStart := None), [RecordActivity(true, minutes)])
    else
      (h.(inactiveStart := if h.inactiveStart.Some? then h.inactiveStart else Some(now)), [RecordActivity(false, None)])
  }

  /** `_check_water_intake`: records the cup flag only when a person is present. */
  function CheckWater(st: VideoStatus): (calls: seq<Call>)
    ensures st.person <==> calls == [RecordWater(st.cup)]
    ensures !st.person <==> calls == []
  {
    if st.person then [RecordWater(st.cup)] else []
  }

  /** The outcome of `start_working_session`: the new row's id, or None when the call raised. */
  type StartOutcome = Option<nat>

  /** `_check_working_status` when it does not raise: open on a person, close on none, otherwise nothing. */
  function Working(h: Hm, st: VideoStatus, newId: StartOutcome): (r: (Hm, seq<Call>))
    requires !(st.person && !HasSession(h) && newId.None?)
    ensures r.0 == h.(sessionId := r.0.sessionId)
    ensures st.person && !HasSession(h) ==> r.0.sessionId == newId && r.1 == [StartSession]
    ensures !st.person && HasSession(h) ==> r.0.sessionId.None? && r.1 == [EndSession(h.sessionId.value)]
    ensures st.person == HasSession(h) ==> r == (h, [])
  {
    if st.person && !HasSession(h) then (h.(sessionId := newId), [StartSession])
    else if !st.person && HasSession(h) then (h.(sessionId := None), [EndSession(h.sessionId.value)])
    else (h, [])
  }

  /** The activity check behind its 60-second gate. */
  function ActivityGate(h: Hm, st: VideoStatus, now: real): (r: (Hm, seq<Call>))
    ensures r.0 == h.(lastActivity := r.0.lastActivity, inactiveStart := r.0.inactiveStart)
    ensures r.0.lastActivity == (if Due(h.lastActivity, now, ACTIVITY_INTERVAL) then Some(now) else h.lastActivity)
    ensures Due(h.lastActivity, now, ACTIVITY_INTERVAL) ==> (r.0.inactiveStart, r.1) == (CheckActivity(h, st, now).0.inactiveStart, CheckActivity(h, st, now).1)
    ensures !Due(h.lastActivity, now, ACTIVITY_INTERVAL) ==> r == (h, [])
    ensures forall k :: 0 <= k < |r.1| ==> r.1[k].RecordActivity?
  {
    if Due(h.lastActivity, now, ACTIVITY_INTERVAL) then
      var (ha, ca) := CheckActivity(h, st, now);
      (ha.(lastActivity := Some(now)), ca)
    else (h, [])
  }

  /** The water check behind its 300-second gate. */
  function WaterGate(h: Hm, st: VideoStatus, now: real): (r: (Hm, seq<Call>))
    ensures r.0 == h.(lastWater := if Due(h.lastWater, now, WATER_INTERVAL) then Some(now) else h.lastWater)
    ensures r.1 == (if Due(h.lastWater, now, WATER_INTERVAL) then CheckWater(st) else [])
  {
    if Due(h.lastWater, now, WATER_INTERVAL) then (h.(lastWater := Some(now)), CheckWater(st))
    else (h, [])
  }

  /** The health-metrics computation behind its 3600-second gate. */
  function MetricsGate(h: Hm, now: real): (r: (Hm, seq<Call>))
    ensures r.0 == h.(lastMetrics := if Due(h.lastMetrics, now, METRICS_INTERVAL) then Some(now) else h.lastMetrics)
    ensures r.1 == (if Due(h.lastMetrics, now, METRICS_INTERVAL) then [ComputeMetrics] else [])
  {
    if Due(h.lastMetrics, now, METRICS_INTERVAL) then (h.(lastMetrics := Some(now)), [ComputeMetrics])
    else (h, [])
  }

  /**
   * One pass of `_monitor_loop`: the tracker afterwards, the calls made, and
   * whether the pass ended early because opening a session raised.
   */
  function Pass(h: Hm, st: VideoStatus, now: real, newId: StartOutcome): (r: (Hm, seq<Call>, bool))
    ensures r.2 <==> st.person && !HasSession(h) && newId.None?
    ensures r.2 ==> r.0 == h && r.1 == [StartSession]
    ensures !r.2 ==>
              && r.0.sessionId == Working(h, st, newId).0.sessionId
              && r.0.lastActivity == (if Due(h.lastActivity, now, ACTIVITY_INTERVAL) then Some(now) else h.lastActivity)
              && r.0.lastWater == (if Due(h.lastWater, now, WATER_INTERVAL) then Some(now) else h.lastWater)
              && r.0.lastMetrics == (if Due(h.lastMetrics, now, METRICS_INTERVAL) then Some(now) else h.lastMetrics)
              && (ComputeMetrics in r.1 <==> Due(h.lastMetrics, now, METRICS_INTERVAL))
              && (RecordWater(st.cup) in r.1 <==> st.person && Due(h.lastWater, now, WATER_INTERVAL))
              && (!Due(h.lastActivity, now, ACTIVITY_INTERVAL) ==> r.0.inactiveStart == h.inactiveStart)
    ensures (r.0.running, r.0.spawned) == (h.running, h.spawned)
  {
    if st.person && !HasSession(h) && newId.None? then (h, [StartSession], true)
    else
      var (h1, c1) := Working(h, st, newId);
      var (h2, c2) := ActivityGate(h1, st, now);
      var (h3, c3) := WaterGate(h2, st, now);
      var (h4, c4) := MetricsGate(h3, now);
      assert ComputeMetrics !in c1 + c2 + c3;
      assert RecordWater(st.cup) !in c1 + c2 && RecordWater(st.cup) !in c4;
      (h4, c1 + c2 + c3 + c4, false)
  }

  /** When the database hands out non-zero ids, a completed pass leaves a session open exactly when a person was seen. */
  lemma SessionFollowsPerson(h: Hm, st: VideoStatus, now: real, newId: StartOutcome)
    requires newId.Some? ==> newId.value != 0
    ensures var (h', _, raised) := Pass(h, st, now, newId);
      !raised ==> (HasSession(h') <==> st.person)
  {
  }

  /** The run times of one gated check over a sequence of pass times, starting from "never ran". */
  function GateRuns(times: seq<real>, interval: real): (runs: seq<real>)
    ensures |runs| <= |times|
    ensures |times| > 0 ==> |runs| > 0 && runs[0] == times[0]
    decreases |times|
  {
    if |times| == 0 then []
    else
      var prev := GateRuns(times[..|times| - 1], interval);
      var t := times[|times| - 1];
      if Due(if |prev| == 0 then None else Some(prev[|prev| - 1]), t, interval) then prev + [t] else prev
  }

  /** Pass times never go backwards. */
  predicate Ascending(times: seq<real>)
  {
    forall i, j :: 0 <= i < j < |times| ==> times[i] <= times[j]
  }

  /** Every run happens at one of the pass times. */
  lemma {:induction false} GateRunsArePasses(times: seq<real>, interval: real)
    ensures forall i :: 0 <= i < |GateRuns(times, interval)| ==> GateRuns(times, interval)[i] in times
    decreases |times|
  {
    if |times| > 0 {
      var n := |times|;
      GateRunsArePasses(times[..n - 1], interval);
      assert forall t :: t in times[..n - 1] ==> t in times;
    }
  }

  /** Consecutive entries are at least `interval` apart. */
  predicate Spaced(runs: seq<real>, interval: real)
  {
    forall i :: 0 <= i < |runs| - 1 ==> runs[i + 1] - runs[i] >= interval
  }

  /** Consecutive runs of a gated check are at least its interval apart. */
  lemma {:induction false} GateSpacing(times: seq<real>, interval: real)
    ensures Spaced(GateRuns(times, interval), interval)
    decreases |times|
  {
    if |times| > 0 {
      var n := |times|;
      GateSpacing(times[..n - 1], interval);
      var prev := GateRuns(times[..n - 1], interval);
      var runs := GateRuns(times, interval);
      var t := times[n - 1];
      var last := if |prev| == 0 then None else Some(prev[|prev| - 1]);
      if Due(last, t, interval) {
        assert runs == prev + [t];
        forall i | 0 <= i < |runs| - 1 ensures runs[i + 1] - runs[i] >= interval {
          if i < |prev| - 1 {
            assert runs[i] == prev[i] && runs[i + 1] == prev[i + 1];
          } else {
            assert i == |prev| - 1 && runs[i] == last.value && runs[i + 1] == t;
          }
        }
      } else {
        assert runs == prev;
      }
    }
  }

  /** At every pass the check either runs or last ran less than one interval ago. */
  lemma GateCoverage(times: seq<real>, interval: real)
    requires |times| > 0
    ensures var runs := GateRuns(times, interval);
      runs[|runs| - 1] == times[|times| - 1] || times[|times| - 1] - runs[|runs| - 1] < interval
  {
  }

  /** The gate as the service applies it, folded over pass times. */
  function LastRun(last: Option<real>, times: seq<real>, interval: real): Option<real>
    decreases |times|
  {
    if |times| == 0 then last
    else
      var prev := LastRun(last, times[..|times| - 1], interval);
      if Due(prev, times[|times| - 1], interval) then Some(times[|times| - 1]) else prev
  }

  /** The tracker's last-run stamp is the last element of the run list. */
  lemma {:induction false} LastRunIsLastOfRuns(times: seq<real>, interval: real)
    ensures var runs := GateRuns(times, interval);
      LastRun(None, times, interval) == if |runs| == 0 then None else Some(runs[|runs| - 1])
    decreases |times|
  {
    if |times| > 0 {
      LastRunIsLastOfRuns(times[..|times| - 1], interval);
    }
  }

  /** An activity check with a person present, and its clock reading. */
  datatype Check = Check(active: bool, now: real)

  /** The timer after a sequence of checks with a person present. */
  function Timer(start: Option<real>, cs: seq<Check>): Option<real>
    decreases |cs|
  {
    if |cs| == 0 then start
    else
      var prev := Timer(start, cs[..|cs| - 1]);
      var c := cs[|cs| - 1];
      (CheckActivity(Created.(inactiveStart := prev), VideoStatus(true, c.active, false), c.now).0).inactiveStart
  }

  /** The position where the trailing run of inactive checks begins. */
  function TrailingInactive(cs: seq<Check>): (j: nat)
    ensures j <= |cs|
    ensures forall k :: j <= k < |cs| ==> !cs[k].active
    ensures j > 0 ==> cs[j - 1].active
    decreases |cs|
  {
    if |cs| == 0 || cs[|cs| - 1].active then |cs|
    else TrailingInactive(cs[..|cs| - 1])
  }

  /**
   * From a stopped timer, the timer runs exactly when the latest checks were
   * inactive, and it shows the time of the first of them.
   */
  lemma {:induction false} TimerMarksInactivityStart(cs: seq<Check>)
    ensures var j := TrailingInactive(cs);
      Timer(None, cs) == if j == |cs| then None else Some(cs[j].now)
    decreases |cs|
  {
    if |cs| > 0 {
      var n := |cs|;
      TimerMarksInactivityStart(cs[..n - 1]);
      var j := TrailingInactive(cs[..n - 1]);
      if !cs[n - 1].active && j < n - 1 {
        assert cs[..n - 1][j] == cs[j];
      }
    }
  }

  /** `start`: spawns the loop only when not running. */
  function Start(h: Hm): (r: Hm)
    ensures r.running
    ensures r.spawned == h.spawned + (if h.running then 0 else 1)
  {
    if h.running then h else h.(running := true, spawned := h.spawned + 1)
  }

  /** While running, `start` does nothing. */
  lemma StartIdempotent(h: Hm)
    ensures Start(Start(h)) == Start(h)
  {
  }

  /** `stop`: clears the flag and ends the open session, if any. */
  function Stop(h: Hm): (r: (Hm, seq<Call>))
    ensures !r.0.running && !HasSession(r.0)
    ensures HasSession(h) ==> r.1 == [EndSession(h.sessionId.value)]
    ensures !HasSession(h) ==> r.1 == [] && r.0.sessionId == h.sessionId
  {
    if HasSession(h) then (h.(running := false, sessionId := None), [EndSession(h.sessionId.value)])
    else (h.(running := false), [])
  }

  /**
   * The database calls as the pass makes them: `start_working_session` is
   * called without its URL argument, and `record_activity`,
   * `record_water_intake` and `calculate_health_metrics` are not defined in
   * `database/crud.py`. Every call but `end_working_session` raises, and the
   * loop's handler then ends the pass.
   */
  predicate Raises(c: Call)
  {
    !c.EndSession?
  }

  /**
   * One pass of `_monitor_loop` against the database module as it is: the
   * first call that raises ends the pass, and the stamp of the check that
   * made it is never written.
   */
  function PassAsWritten(h: Hm, st: VideoStatus, now: real): (r: (Hm, seq<Call>, bool))
    ensures r.2 <==> || (st.person && !HasSession(h))
                     || (st.person && Due(h.lastActivity, now, ACTIVITY_INTERVAL))
                     || (st.person && Due(h.lastWater, now, WATER_INTERVAL))
                     || Due(h.lastMetrics, now, METRICS_INTERVAL)
    ensures r.2 <==> |r.1| > 0 && Raises(r.1[|r.1| - 1])
    ensures forall k :: 0 <= k < |r.1| - 1 ==> !Raises(r.1[k])
    ensures r.0.lastMetrics == h.lastMetrics
    ensures st.person ==> r.0.sessionId == h.sessionId && r.0.lastActivity == h.lastActivity && r.0.lastWater == h.lastWater
    ensures st.person && !HasSession(h) ==> r == (h, [StartSession], true)
    ensures st.person && HasSession(h) && Due(h.lastActivity, now, ACTIVITY_INTERVAL) ==>
              && r.0 == h.(inactiveStart := CheckActivity(h, st, now).0.inactiveStart)
              && r.1 == CheckActivity(h, st, now).1
    ensures !st.person ==>
              && r.0.inactiveStart == h.inactiveStart
              && !HasSession(r.0)
              && (HasSession(h) ==> |r.1| > 0 && r.1[0] == EndSession(h.sessionId.value))
              && (!HasSession(h) ==> forall k :: 0 <= k < |r.1| ==> !r.1[k].EndSession?)
              && r.0.lastActivity == (if Due(h.lastActivity, now, ACTIVITY_INTERVAL) then Some(now) else h.lastActivity)
              && r.0.lastWater == (if Due(h.lastWater, now, WATER_INTERVAL) then Some(now) else h.lastWater)
    ensures (r.0.running, r.0.spawned) == (h.running, h.spawned)
  {
    if st.person && !HasSession(h) then (h, [StartSession], true)
    else
      var (h1, c1) := Working(h, st, None);
      if st.person && Due(h1.lastActivity, now, ACTIVITY_INTERVAL) then
        var (h2, c2) := CheckActivity(h1, st, now);
        (h2, c1 + c2, true)
      else
        var (h2, _) := ActivityGate(h1, st, now);
        if st.person && Due(h2.lastWater, now, WATER_INTERVAL) then (h2, c1 + CheckWater(st), true)
        else
          var (h3, _) := WaterGate(h2, st, now);
          if Due(h3.lastMetrics, now, METRICS_INTERVAL) then (h3, c1 + [ComputeMetrics], true)
          else (h3, c1, false)
  }

  /** A pass's status and clock reading. */
  datatype Reading = Reading(st: VideoStatus, now: real)

  /** The loop as written over a run of passes. */
  function RunAsWritten(h: Hm, rs: seq<Reading>): Hm
    decreases |rs|
  {
    if |rs| == 0 then h else RunAsWritten(PassAsWritten(h, rs[0].st, rs[0].now).0, rs[1..])
  }

  /**
   * As written no work session is ever opened and the health metrics are
   * never stamped, whatever the passes see.
   */
  lemma {:induction false} NoSessionEverOpens(h: Hm, rs: seq<Reading>)
    requires !HasSession(h)
    ensures !HasSession(RunAsWritten(h, rs))
    ensures RunAsWritten(h, rs).lastMetrics == h.lastMetrics
    decreases |rs|
  {
    if |rs| > 0 {
      NoSessionEverOpens(PassAsWritten(h, rs[0].st, rs[0].now).0, rs[1..]);
    }
  }

  /**
   * As written, while a person is present the activity and water stamps
   * never move, so from a fresh service both checks are due at every pass
   * instead of once a minute and once every five minutes.
   */
  lemma {:induction false} ActivityCheckRepeats(h: Hm, rs: seq<Reading>)
    requires forall k :: 0 <= k < |rs| ==> rs[k].st.person
    ensures RunAsWritten(h, rs).lastActivity == h.lastActivity
    ensures RunAsWritten(h, rs).lastWater == h.lastWater
    ensures h.lastActivity.None? ==> forall t :: Due(RunAsWritten(h, rs).lastActivity, t, ACTIVITY_INTERVAL)
    decreases |rs|
  {
    if |rs| > 0 {
      ActivityCheckRepeats(PassAsWritten(h, rs[0].st, rs[0].now).0, rs[1..]);
    }
  }

  /**
   * `start` as written: it sets the flag and then calls the processor's
   * `start`, which `VideoProcessor` does not define, so it raises before the
   * loop is spawned. The second result says whether the call raised.
   */
  function StartAsWritten(h: Hm): (r: (Hm, bool))
    ensures r.0.running && r.0.spawned == h.spawned && r.0.sessionId == h.sessionId
    ensures r.1 <==> !h.running
  {
    if h.running then (h, false) else (h.(running := true), true)
  }

  /**
   * `stop` as written: it clears the flag and then raises on the processor's
   * missing `stop`, before the open session is ended.
   */
  function StopAsWritten(h: Hm): (r: Hm)
    ensures !r.running && r.spawned == h.spawned && r.sessionId == h.sessionId
  {
    h.(running := false)
  }

  datatype Command = StartCommand | StopCommand

  /** A run of `start` and `stop` calls as written. */
  function ControlAsWritten(h: Hm, cmds: seq<Command>): Hm
    decreases |cmds|
  {
    if |cmds| == 0 then h
    else
      var h1 := if cmds[0].StartCommand? then StartAsWritten(h).0 else StopAsWritten(h);
      ControlAsWritten(h1, cmds[1..])
  }

  /** As written, no run of `start` and `stop` calls spawns the loop or ends a session. */
  lemma {:induction false} AsWrittenNeverSpawns(h: Hm, cmds: seq<Command>)
    ensures ControlAsWritten(h, cmds).spawned == h.spawned
    ensures ControlAsWritten(h, cmds).sessionId == h.sessionId
    decreases |cmds|
  {
    if |cmds| > 0 {
      var h1 := if cmds[0].StartCommand? then StartAsWritten(h).0 else StopAsWritten(h);
      AsWrittenNeverSpawns(h1, cmds[1..]);
    }
  }
}

=== FILE: lcd_ev_sender.dfy ===
/**
 * The LCD-EV board's UDP image sender (`udp_client_push_img`).
 *
 * A JPEG is cut into chunks of at most 1464 payload bytes; each datagram is
 * an 8-byte packed header `{u32 frame_index, u16 chunk_index, u16 chunk_total}`
 * copied in the ESP32's native little-endian order, followed by the payload.
 * The 32-bit `frame_index` and the 16-bit `chunk_total` wrap explicitly here.
 */
module LcdEvSender {
  import opened Common
  import opened SendRetry

  const CHUNK_LENGTH: nat := 1472
  const HEADER_LEN: nat := 8
  /** 1472 - sizeof(udp_img_header_t) */
  const PAYLOAD_LEN: nat := CHUNK_LENGTH - HEADER_LEN

  /** The largest image whose chunk count still fits the 16-bit `chunk_total`. */
  const MAX_UNWRAPPED_LEN: nat := 65535 * 1464

  /** The sender's static state: the socket descriptor (-1 before init) and the frame counter. */
  datatype Client = Client(socket: int, frameIndex: u32)

  /** `(data_len + chunk_payload_len - 1) / chunk_payload_len`, stored in a `uint16_t`. */
  function ChunkTotal(len: nat): (r: u16)
    ensures r > 0 ==> (r - 1) * PAYLOAD_LEN < len
    ensures 0 < len <= MAX_UNWRAPPED_LEN ==> r > 0 && len <= r * PAYLOAD_LEN
  {
    var q := (len + PAYLOAD_LEN - 1) / PAYLOAD_LEN;
    assert q * PAYLOAD_LEN <= len + PAYLOAD_LEN - 1 < q * PAYLOAD_LEN + PAYLOAD_LEN;
    q % U16
  }

  /** The packed header as `memcpy` lays it out on a little-endian core. */
  function Header(frame: u32, chunk: u16, total: u16): (h: seq<byte>)
    ensures |h| == HEADER_LEN
  {
    LeBytes(frame, 4) + LeBytes(chunk, 2) + LeBytes(total, 2)
  }

  /** The payload of chunk `i`: `this_len` bytes from `offset = i * 1464`. */
  function Payload(data: seq<byte>, i: nat): (p: seq<byte>)
    requires i * PAYLOAD_LEN < |data|
    ensures 0 < |p| <= PAYLOAD_LEN
  {
    var offset := i * PAYLOAD_LEN;
    var thisLen := if offset + PAYLOAD_LEN > |data| then |data| - offset else PAYLOAD_LEN;
    data[offset..offset + thisLen]
  }

  function Datagram(data: seq<byte>, frame: u32, total: u16, i: u16): seq<byte>
    requires i * PAYLOAD_LEN < |data|
  {
    Header(frame, i, total) + Payload(data, i)
  }

  /** Every datagram of one call, in send order, when no send fails. */
  function Datagrams(data: seq<byte>, frame: u32): (ds: seq<seq<byte>>)
    ensures |ds| == ChunkTotal(|data|)
  {
    var total := ChunkTotal(|data|);
    seq(total, i requires 0 <= i < total => Datagram(data, frame, total, i))
  }

  /** The length of each datagram of one call, in send order. */
  function DatagramLengths(data: seq<byte>, frame: u32): (lens: seq<nat>)
    ensures |lens| == ChunkTotal(|data|)
    ensures forall k :: 0 <= k < |lens| ==> lens[k] == |Datagrams(data, frame)[k]|
  {
    var ds := Datagrams(data, frame);
    seq(|ds|, k requires 0 <= k < |ds| => |ds[k]|)
  }

  /**
   * `udp_client_push_img`. `tries[i]` lists the `sendto` results that the
   * retry loop of chunk `i` sees. The status is None when the call has not
   * returned: the retry loop of the first undelivered chunk is still
   * retrying after ENOMEM. `sent` holds the datagrams that reached the
   * socket.
   */
  method PushImg(c: Client, data: Option<seq<byte>>, tries: seq<seq<Attempt>>)
    returns (status: Option<Status>, c': Client, sent: seq<seq<byte>>)
    ensures status == Some(ErrInvalidState) <==> c.socket < 0
    ensures status == Some(ErrInvalidArg) <==> c.socket >= 0 && (data.None? || |data.value| == 0)
    ensures status in {Some(ErrInvalidState), Some(ErrInvalidArg)} ==> sent == [] && c' == c
    ensures c.socket >= 0 && data.Some? && |data.value| > 0 ==>
              var ds := Datagrams(data.value, c.frameIndex);
              var j := FirstUndelivered(DatagramLengths(data.value, c.frameIndex), tries, 0);
              && sent == ds[..j]
              && (status == Some(EspOk) <==> j == |ds|)
              && (status == Some(EspFail) <==> j < |ds| && ChunkOutcome(|ds[j]|, tries, j).Returned?)
              && (status.None? <==> j < |ds| && ChunkOutcome(|ds[j]|, tries, j).StillRetrying?)
    ensures status == Some(EspOk) ==> c'.frameIndex == (c.frameIndex + 1) % U32 && c'.socket == c.socket
    ensures status != Some(EspOk) ==> c' == c
  {
    if c.socket < 0 {
      return Some(ErrInvalidState), c, [];
    }
    if data.None? || |data.value| == 0 {
      return Some(ErrInvalidArg), c, [];
    }
    var d := data.value;
    var total := ChunkTotal(|d|);
    ghost var lens := DatagramLengths(d, c.frameIndex);
    sent := [];
    var i: nat := 0;
    while i < total
      invariant i <= total
      invariant sent == Datagrams(d, c.frameIndex)[..i]
      invariant forall k :: 0 <= k < i ==> Delivered(ChunkOutcome(lens[k], tries, k))
    {
      var dg := Datagram(d, c.frameIndex, total, i);
      var o := ChunkOutcome(|dg|, tries, i);
      if o.StillRetrying? {
        FirstUndeliveredIs(lens, tries, i);
        return None, c, sent;
      }
      if o.value < 0 {
        FirstUndeliveredIs(lens, tries, i);
        return Some(EspFail), c, sent;
      }
      sent := sent + [dg];
      i := i + 1;
    }
    FirstUndeliveredIs(lens, tries, total);
    assert Datagrams(d, c.frameIndex)[..total] == Datagrams(d, c.frameIndex);
    c' := c.(frameIndex := (c.frameIndex + 1) % U32);
    status := Some(EspOk);
  }

  /** `chunk_total` is the ceiling of `len / 1464` whenever it does not wrap. */
  lemma ChunkTotalIsCeiling(len: nat)
    requires 0 < len <= MAX_UNWRAPPED_LEN
    ensures var t := ChunkTotal(len); (t - 1) * PAYLOAD_LEN < len <= t * PAYLOAD_LEN
  {
  }

  /** Beyond 65535 full chunks the 16-bit count wraps and the tail of the image is never sent. */
  lemma ChunkTotalWraps()
    ensures ChunkTotal(U16 * PAYLOAD_LEN) == 0
    ensures ChunkTotal(U16 * PAYLOAD_LEN + 1) == 1
  {
  }

  /** Every chunk but the last is full; the last carries the remainder. */
  lemma PayloadSizes(data: seq<byte>, i: nat)
    requires 0 < |data| <= MAX_UNWRAPPED_LEN
    requires i < ChunkTotal(|data|)
    ensures i * PAYLOAD_LEN < |data|
    ensures i < ChunkTotal(|data|) - 1 ==> |Payload(data, i)| == PAYLOAD_LEN
    ensures i == ChunkTotal(|data|) - 1 ==> |Payload(data, i)| == |data| - i * PAYLOAD_LEN
  {
  }

  /** A datagram is header then payload and never exceeds the 1472-byte buffer. */
  lemma DatagramShape(data: seq<byte>, frame: u32, total: u16, i: u16)
    requires i * PAYLOAD_LEN < |data|
    ensures var dg := Datagram(data, frame, total, i);
      && |dg| == |Payload(data, i)| + HEADER_LEN <= CHUNK_LENGTH
      && dg[..HEADER_LEN] == Header(frame, i, total)
      && dg[HEADER_LEN..] == Payload(data, i)
  {
  }

  function Payloads(data: seq<byte>): (ps: seq<seq<byte>>)
    ensures |ps| == ChunkTotal(|data|)
  {
    var total := ChunkTotal(|data|);
    seq(total, i requires 0 <= i < total => Payload(data, i))
  }

  /** The first `k` payloads concatenate to the first `k * 1464` bytes of the image. */
  lemma {:induction false} PayloadPrefix(data: seq<byte>, k: nat)
    requires k <= ChunkTotal(|data|)
    ensures Concat(Payloads(data)[..k]) == data[..Min(k * PAYLOAD_LEN, |data|)]
  {
    if k > 0 {
      var ps := Payloads(data);
      PayloadPrefix(data, k - 1);
      assert ps[..k] == ps[..k - 1] + [ps[k - 1]];
      ConcatAppend(ps[..k - 1], ps[k - 1]);
      assert (k - 1) * PAYLOAD_LEN < |data|;
      assert data[..(k - 1) * PAYLOAD_LEN] + Payload(data, k - 1) == data[..Min(k * PAYLOAD_LEN, |data|)];
    }
  }

  /** Concatenating the payloads in chunk order reproduces the image. */
  lemma PayloadsConcat(data: seq<byte>)
    requires 0 < |data| <= MAX_UNWRAPPED_LEN
    ensures Concat(Payloads(data)) == data
  {
    var ps := Payloads(data);
    PayloadPrefix(data, |ps|);
    assert ps[..|ps|] == ps;
  }

  /** All datagrams of one call share frame index and total, and chunk indices run 0..total-1. */
  lemma DatagramHeaders(data: seq<byte>, frame: u32, k: nat)
    requires k < ChunkTotal(|data|)
    ensures Datagrams(data, frame)[k][..HEADER_LEN] == Header(frame, k, ChunkTotal(|data|))
    ensures Datagrams(data, frame)[k][HEADER_LEN..] == Payloads(data)[k]
  {
  }
}

=== FILE: lcd_ev_to_legacy.dfy ===
/**
 * The one header-compatible pairing in the repository: the LCD-EV sender's
 * datagrams fed to the legacy receiver. Delivered exactly once each, in any
 * order, they rebuild the original image, leaving the other frames' entries
 * untouched.
 */
module LcdEvToLegacy {
  import opened Common
  import opened LcdEvSender
  import opened LegacyReassembler

  /** The receiver reads back exactly the fields the sender packed. */
  lemma HeaderParses(frame: u32, chunk: u16, total: u16, p: seq<byte>)
    ensures ParseHeader(Header(frame, chunk, total) + p) == Parsed(frame, chunk, total, p)
  {
    var d := Header(frame, chunk, total) + p;
    assert Slice(d, 0, 4) == LeBytes(frame, 4);
    assert Slice(d, 4, 6) == LeBytes(chunk, 2);
    assert Slice(d, 6, 8) == LeBytes(total, 2);
    assert Drop(d, 8) == p;
    assert Pow256(2) == 0x1_0000;
    assert Pow256(4) == 0x1_0000_0000;
    LeBytesRoundTrip(frame, 4);
    LeBytesRoundTrip(chunk, 2);
    LeBytesRoundTrip(total, 2);
  }

  /** `order` lists every index below `n` exactly once. */
  predicate IsPermutation(order: seq<nat>, n: nat)
  {
    && |order| == n
    && (forall k :: 0 <= k < n ==> order[k] < n)
    && (forall a, b :: 0 <= a < b < n ==> order[a] != order[b])
  }

  /** The datagrams of one `udp_client_push_img` call, arriving in the order `order`. */
  function Arrival(data: seq<byte>, frame: u32, order: seq<nat>): (ds: seq<seq<byte>>)
    requires forall k :: 0 <= k < |order| ==> order[k] < ChunkTotal(|data|)
    ensures |ds| == |order|
  {
    var dgs := Datagrams(data, frame);
    seq(|order|, k requires 0 <= k < |order| => dgs[order[k]])
  }

  /** The chunk map after the first `j` arrivals, when arrival `k` carries payload `ps[order[k]]`. */
  function ChunkMap(ps: seq<seq<byte>>, order: seq<nat>, j: nat): map<nat, seq<byte>>
    requires j <= |order|
    requires forall k :: 0 <= k < |order| ==> order[k] < |ps|
  {
    if j == 0 then map[]
    else ChunkMap(ps, order, j - 1)[order[j - 1] := ps[order[j - 1]]]
  }

  /** Every frame other than `frame` is as it was. */
  ghost predicate OthersUnchanged(s: State, t: State, frame: nat)
  {
    forall f :: f != frame ==>
      && (f in t.buffer <==> f in s.buffer)
      && (f in s.buffer ==> t.buffer[f] == s.buffer[f])
  }

  /** The indices below `n`. */
  function Range(n: nat): (r: set<nat>)
    ensures forall i: nat :: i in r <==> i < n
    ensures |r| == n
  {
    if n == 0 then {} else Range(n - 1) + {n - 1}
  }

  lemma SubsetSameSize(a: set<nat>, b: set<nat>)
    requires a <= b && |a| == |b|
    ensures a == b
  {
    assert b == a + (b - a);
    assert |b| == |a| + |b - a|;
  }

  /** The keys after `j` arrivals are the chunk indices of those arrivals. */
  lemma {:induction false} ChunkMapKeys(ps: seq<seq<byte>>, order: seq<nat>, j: nat)
    requires forall k :: 0 <= k < |order| ==> order[k] < |ps|
    requires j <= |order|
    ensures forall x :: x in ChunkMap(ps, order, j) <==> x in order[..j]
  {
    if j > 0 {
      ChunkMapKeys(ps, order, j - 1);
      assert order[..j] == order[..j - 1] + [order[j - 1]];
    }
  }

  /** Each stored chunk holds its own payload. */
  lemma {:induction false} ChunkMapValues(ps: seq<seq<byte>>, order: seq<nat>, j: nat)
    requires forall k :: 0 <= k < |order| ==> order[k] < |ps|
    requires j <= |order|
    ensures forall x :: x in ChunkMap(ps, order, j) ==> x < |ps| && ChunkMap(ps, order, j)[x] == ps[x]
  {
    if j > 0 {
      ChunkMapValues(ps, order, j - 1);
    }
  }

  /** Distinct arrivals give one key each. */
  lemma {:induction false} ChunkMapSize(ps: seq<seq<byte>>, order: seq<nat>, j: nat)
    requires IsPermutation(order, |ps|)
    requires j <= |order|
    ensures |ChunkMap(ps, order, j).Keys| == j
  {
    if j > 0 {
      ChunkMapSize(ps, order, j - 1);
      ChunkMapKeys(ps, order, j - 1);
      var y := order[j - 1];
      assert y !in order[..j - 1];
      assert ChunkMap(ps, order, j).Keys == ChunkMap(ps, order, j - 1).Keys + {y};
    }
  }

  /** The first `j` arrivals have stored exactly their own payloads, one key each. */
  lemma ChunkMapContents(ps: seq<seq<byte>>, order: seq<nat>, j: nat)
    requires IsPermutation(order, |ps|)
    requires j <= |order|
    ensures forall x :: x in ChunkMap(ps, order, j) <==> x in order[..j]
    ensures forall x :: x in ChunkMap(ps, order, j) ==> x < |ps| && ChunkMap(ps, order, j)[x] == ps[x]
    ensures |ChunkMap(ps, order, j).Keys| == j
  {
    ChunkMapKeys(ps, order, j);
    ChunkMapValues(ps, order, j);
    ChunkMapSize(ps, order, j);
  }

  /** After every index arrived, the chunk map holds exactly the payloads `0..|ps|-1`. */
  lemma CompleteMapIsAll(ps: seq<seq<byte>>, order: seq<nat>)
    requires IsPermutation(order, |ps|)
    ensures forall i :: 0 <= i < |ps| ==>
              i in ChunkMap(ps, order, |ps|) && ChunkMap(ps, order, |ps|)[i] == ps[i]
  {
    var n := |ps|;
    ChunkMapContents(ps, order, n);
    var keys := ChunkMap(ps, order, n).Keys;
    assert keys <= Range(n);
    SubsetSameSize(keys, Range(n));
  }

  lemma {:induction false} AssembleAll(m: map<nat, seq<byte>>, ps: seq<seq<byte>>, n: nat)
    requires n <= |ps|
    requires forall i :: 0 <= i < n ==> i in m && m[i] == ps[i]
    ensures Assemble(m, n) == Concat(ps[..n])
  {
    if n > 0 {
      AssembleAll(m, ps, n - 1);
      assert ps[..n] == ps[..n - 1] + [ps[n - 1]];
      ConcatAppend(ps[..n - 1], ps[n - 1]);
    }
  }

  /** Arrival `j` parses to the frame index, its chunk index, the total and its payload. */
  lemma ArrivalParses(data: seq<byte>, frame: u32, order: seq<nat>, j: nat)
    requires 0 < |data| <= MAX_UNWRAPPED_LEN
    requires IsPermutation(order, ChunkTotal(|data|))
    requires j < |order|
    ensures ParseHeader(Arrival(data, frame, order)[j]) == Parsed(frame, order[j], |order|, Payloads(data)[order[j]])
  {
    var total := ChunkTotal(|data|);
    var i := order[j];
    PayloadSizes(data, i);
    HeaderParses(frame, i, total, Payload(data, i));
    assert Arrival(data, frame, order)[j] == Header(frame, i, total) + Payload(data, i);
  }

  /** Storing arrival `j` extends the chunk map by one key and completes exactly at the last arrival. */
  lemma StepStores(prev: State, q: Parsed, frame: nat, ps: seq<seq<byte>>, order: seq<nat>, j: nat)
    requires IsPermutation(order, |ps|)
    requires j < |order|
    requires q == Parsed(frame, order[j], |ps|, ps[order[j]])
    requires HoldsPrefix(prev, frame, ps, order, j)
    ensures Stored(prev, q) == ChunkMap(ps, order, j + 1)
    ensures Completes(prev, q) <==> j + 1 == |order|
  {
    var before: map<nat, seq<byte>> := if frame in prev.buffer then prev.buffer[frame] else map[];
    assert before == ChunkMap(ps, order, j);
    assert Stored(prev, q) == before[order[j] := ps[order[j]]];
    ChunkMapSize(ps, order, j + 1);
  }

  /** Header `k` of `qs` carries chunk `order[k]` of `ps` for frame `frame`. */
  predicate CarriesChunks(qs: seq<Parsed>, frame: nat, ps: seq<seq<byte>>, order: seq<nat>)
  {
    && |qs| == |order|
    && (forall k :: 0 <= k < |order| ==> order[k] < |ps|)
    && (forall k :: 0 <= k < |qs| ==> qs[k] == Parsed(frame, order[k], |ps|, ps[order[k]]))
  }

  /** After `j` arrivals the frame's entry holds exactly the first `j` chunks (no entry before the first). */
  predicate HoldsPrefix(st: State, frame: nat, ps: seq<seq<byte>>, order: seq<nat>, j: nat)
    requires j <= |order|
    requires forall k :: 0 <= k < |order| ==> order[k] < |ps|
  {
    if j == 0 then frame !in st.buffer
    else frame in st.buffer && st.buffer[frame] == ChunkMap(ps, order, j)
  }

  /** One step of the prefix argument before the last arrival: the frame's map grows by one chunk. */
  lemma PrefixGrows(prev: State, q: Parsed, frame: nat, ps: seq<seq<byte>>, order: seq<nat>, j: nat)
    requires IsPermutation(order, |ps|)
    requires j + 1 < |order|
    requires q == Parsed(frame, order[j], |ps|, ps[order[j]])
    requires HoldsPrefix(prev, frame, ps, order, j)
    ensures HoldsPrefix(Step(prev, q), frame, ps, order, j + 1)
    ensures Step(prev, q).latest == prev.latest
  {
    StepStores(prev, q, frame, ps, order, j);
    assert Step(prev, q) == Hold(prev, q);
  }

  /** The last arrival completes the frame with the full chunk map. */
  lemma PrefixCompletes(prev: State, q: Parsed, frame: nat, ps: seq<seq<byte>>, order: seq<nat>, j: nat)
    requires IsPermutation(order, |ps|)
    requires j + 1 == |order|
    requires q == Parsed(frame, order[j], |ps|, ps[order[j]])
    requires HoldsPrefix(prev, frame, ps, order, j)
    ensures frame !in Step(prev, q).buffer
    ensures Step(prev, q).latest == Some(Assemble(ChunkMap(ps, order, j + 1), |ps|))
  {
    StepStores(prev, q, frame, ps, order, j);
    assert Step(prev, q) == Finish(prev, q);
  }

  /** After `j` of the headers (not all), the frame holds the chunks seen so far and nothing completed. */
  lemma {:induction false} ReplayPrefixState(s: State, qs: seq<Parsed>, frame: nat, ps: seq<seq<byte>>, order: seq<nat>, j: nat)
    requires frame !in s.buffer
    requires IsPermutation(order, |ps|)
    requires CarriesChunks(qs, frame, ps, order)
    requires j < |order|
    ensures Replay(s, qs[..j]).latest == s.latest
    ensures HoldsPrefix(Replay(s, qs[..j]), frame, ps, order, j)
  {
    if j > 0 {
      ReplayPrefixState(s, qs, frame, ps, order, j - 1);
      ReplayPrefix(s, qs, j);
      PrefixGrows(Replay(s, qs[..j - 1]), qs[j - 1], frame, ps, order, j - 1);
    } else {
      assert qs[..0] == [];
    }
  }

  /** The last arrival completes the frame with every payload in index order. */
  lemma LastStep(prev: State, q: Parsed, frame: nat, ps: seq<seq<byte>>, order: seq<nat>)
    requires |ps| > 0
    requires IsPermutation(order, |ps|)
    requires q == Parsed(frame, order[|ps| - 1], |ps|, ps[order[|ps| - 1]])
    requires HoldsPrefix(prev, frame, ps, order, |ps| - 1)
    ensures Step(prev, q).latest == Some(Concat(ps))
    ensures frame !in Step(prev, q).buffer
  {
    PrefixCompletes(prev, q, frame, ps, order, |ps| - 1);
    CompleteAssembles(ps, order);
  }

  /** Once every chunk is in, assembly joins all payloads in index order. */
  lemma CompleteAssembles(ps: seq<seq<byte>>, order: seq<nat>)
    requires IsPermutation(order, |ps|)
    ensures Assemble(ChunkMap(ps, order, |ps|), |ps|) == Concat(ps)
  {
    var n := |ps|;
    CompleteMapIsAll(ps, order);
    AssembleAll(ChunkMap(ps, order, n), ps, n);
    assert ps[..n] == ps;
  }

  /** Replaying every chunk of a frame once, in any order, yields the chunks joined in index order. */
  lemma ReplayAll(s: State, qs: seq<Parsed>, frame: nat, ps: seq<seq<byte>>, order: seq<nat>)
    requires frame !in s.buffer
    requires |ps| > 0
    requires IsPermutation(order, |ps|)
    requires CarriesChunks(qs, frame, ps, order)
    ensures Replay(s, qs).latest == Some(Concat(ps))
    ensures frame !in Replay(s, qs).buffer
  {
    var n := |order|;
    ReplayPrefixState(s, qs, frame, ps, order, n - 1);
    var prev := Replay(s, qs[..n - 1]);
    LastStep(prev, qs[n - 1], frame, ps, order);
    assert Replay(s, qs) == Step(prev, qs[n - 1]);
  }

  /** The key round trip: all chunks once, any order, give back the image. */
  lemma RoundTrip(s: State, data: seq<byte>, frame: u32, order: seq<nat>)
    requires 0 < |data| <= MAX_UNWRAPPED_LEN
    requires frame !in s.buffer
    requires IsPermutation(order, ChunkTotal(|data|))
    ensures var s' := Deliver(s, Arrival(data, frame, order));
      && s'.latest == Some(data)
      && frame !in s'.buffer
      && OthersUnchanged(s, s', frame)
  {
    var arr := Arrival(data, frame, order);
    var ps := Payloads(data);
    var qs := ParseAll(arr);
    forall k | 0 <= k < |qs|
      ensures qs[k] == Parsed(frame, order[k], |ps|, ps[order[k]])
    {
      ArrivalParses(data, frame, order, k);
    }
    DeliverIsReplay(s, arr);
    ReplayAll(s, qs, frame, ps, order);
    PayloadsConcat(data);
    forall f | f != frame
      ensures f in Replay(s, qs).buffer <==> f in s.buffer
      ensures f in s.buffer ==> Replay(s, qs).buffer[f] == s.buffer[f]
    {
      ReplayKeepsFrame(s, qs, frame, f);
    }
  }

  /**
   * A failed call keeps the sender's frame index, and the receiver keeps the
   * chunks that arrived. If a three-chunk image got chunks 0 and 1 through
   * before chunk 2 failed, the first datagram of a two-chunk image sent next
   * under the same index completes the frame with the old image's chunk 1.
   */
  lemma StaleRetryCompletes(f: u32, a0: seq<byte>, a1: seq<byte>, b0: seq<byte>)
    ensures var s1 := Deliver(Initial, [Header(f, 0, 3) + a0, Header(f, 1, 3) + a1]);
      && f in s1.buffer
      && Receive(s1, Header(f, 0, 2) + b0).latest == Some(b0 + a1)
  {
    var d0, d1 := Header(f, 0, 3) + a0, Header(f, 1, 3) + a1;
    var s0 := Deliver(Initial, [d0]);
    DeliverTwo(Initial, d0, d1);
    ReceiveHeader(Initial, f, 0, 3, a0);
    ReceiveHeader(s0, f, 1, 3, a1);
    ReceiveHeader(Deliver(Initial, [d0, d1]), f, 0, 2, b0);
    StaleSteps(f, a0, a1, b0);
  }

  /** Two datagrams delivered in order are received one after the other. */
  lemma DeliverTwo(s: State, d0: seq<byte>, d1: seq<byte>)
    ensures Deliver(s, [d0]) == Receive(s, d0)
    ensures Deliver(s, [d0, d1]) == Receive(Receive(s, d0), d1)
  {
    var none: seq<seq<byte>> := [];
    assert [d0][..0] == none;
    assert [d0, d1][..1] == [d0];
  }

  /** Receiving an LCD-EV datagram is one step on the fields its header packs. */
  lemma ReceiveHeader(s: State, f: u32, c: u16, t: u16, p: seq<byte>)
    ensures Receive(s, Header(f, c, t) + p) == Step(s, Parsed(f, c, t, p))
  {
    HeaderParses(f, c, t, p);
  }

  /** The same three arrivals after parsing. */
  lemma StaleSteps(f: nat, a0: seq<byte>, a1: seq<byte>, b0: seq<byte>)
    ensures var s1 := Step(Step(Initial, Parsed(f, 0, 3, a0)), Parsed(f, 1, 3, a1));
      && f in s1.buffer && s1.buffer[f] == map[0 := a0, 1 := a1]
      && Step(s1, Parsed(f, 0, 2, b0)).latest == Some(b0 + a1)
  {
    var s0 := Step(Initial, Parsed(f, 0, 3, a0));
    assert Stored(Initial, Parsed(f, 0, 3, a0)) == map[0 := a0];
    assert map[0 := a0].Keys == {0};
    var s1 := Step(s0, Parsed(f, 1, 3, a1));
    assert Stored(s0, Parsed(f, 1, 3, a1)) == map[0 := a0, 1 := a1];
    assert map[0 := a0, 1 := a1].Keys == {0, 1};
    assert Stored(s1, Parsed(f, 0, 2, b0)) == map[0 := b0, 1 := a1];
    assert map[0 := b0, 1 := a1].Keys == {0, 1};
    AssembleTwo(b0, a1);
  }

  lemma AssembleTwo(b0: seq<byte>, a1: seq<byte>)
    ensures Assemble(map[0 := b0, 1 := a1], 2) == b0 + a1
  {
    var m := map[0 := b0, 1 := a1];
    assert Assemble(m, 1) == Assemble(m, 0) + b0;
  }
}

=== FILE: legacy_reassembler.dfy ===
/**
 * The legacy MJPEG relay's UDP receiver (`udp_receiver`): it reads the
 * 8-byte little-endian header, files the payload under
 * `frame_buffer[frame][chunk]`, records the frame's declared total, and as
 * soon as the frame holds at least that many distinct chunk indices it joins
 * the chunks present for indices `0..total-1` into `latest_frame` and forgets
 * the frame. One buffer serves every sender: the source address is unused,
 * nothing is evicted, and short datagrams are parsed anyway.
 */
module LegacyReassembler {
  import opened Common

  datatype Parsed = Parsed(frame: nat, chunk: nat, total: nat, payload: seq<byte>)

  /** `int.from_bytes(data[0:4] / [4:6] / [6:8], 'little')` and `data[8:]`. */
  function ParseHeader(d: seq<byte>): (p: Parsed)
    ensures |d| >= 8 ==> p.payload == d[8..] && |p.payload| == |d| - 8
    ensures |d| <= 8 ==> p.payload == []
    ensures |d| <= 6 ==> p.total == 0
    ensures |d| <= 4 ==> p.chunk == 0 && p.total == 0
    ensures |d| == 0 ==> p.frame == 0
    ensures p.frame < 0x1_0000_0000 && p.chunk < 0x1_0000 && p.total < 0x1_0000
  {
    LeNatBound(Slice(d, 0, 4));
    LeNatBound(Slice(d, 4, 6));
    LeNatBound(Slice(d, 6, 8));
    Parsed(LeNat(Slice(d, 0, 4)), LeNat(Slice(d, 4, 6)), LeNat(Slice(d, 6, 8)), Drop(d, 8))
  }

  /**
   * The receiver's state: `frame_buffer`, `frame_chunk_count` and
   * `latest_frame` (None until the first completion).
   */
  datatype State = State(buffer: map<nat, map<nat, seq<byte>>>, counts: map<nat, nat>, latest: Option<seq<byte>>)

  const Initial := State(map[], map[], None)

  /** `b"".join(chunks[i] for i in range(total) if i in chunks)`. */
  function Assemble(chunks: map<nat, seq<byte>>, total: nat): seq<byte>
  {
    if total == 0 then []
    else Assemble(chunks, total - 1) + (if total - 1 in chunks then chunks[total - 1] else [])
  }

  /** The chunk map of a frame after storing one more payload (`defaultdict` makes it on first use). */
  function Stored(s: State, p: Parsed): map<nat, seq<byte>>
  {
    (if p.frame in s.buffer then s.buffer[p.frame] else map[])[p.chunk := p.payload]
  }

  /** `chunk_total - len(frame_buffer[frame_index]) <= 0` after storing. */
  predicate Completes(s: State, p: Parsed)
  {
    |Stored(s, p).Keys| >= p.total
  }

  /** The body of the receive loop after the header has been parsed into `p`. */
  function Step(s: State, p: Parsed): (s': State)
    ensures Completes(s, p) ==>
              && p.frame !in s'.buffer && p.frame !in s'.counts
              && s'.latest == Some(Assemble(Stored(s, p), p.total))
    ensures !Completes(s, p) ==>
              && p.frame in s'.buffer && s'.buffer[p.frame] == Stored(s, p)
              && p.frame in s'.counts && s'.counts[p.frame] == p.total
              && s'.latest == s.latest
    ensures forall f :: f != p.frame ==> (f in s'.buffer <==> f in s.buffer)
    ensures forall f :: f != p.frame && f in s.buffer ==> s'.buffer[f] == s.buffer[f]
    ensures forall f :: f != p.frame ==> (f in s'.counts <==> f in s.counts)
    ensures forall f :: f != p.frame && f in s.counts ==> s'.counts[f] == s.counts[f]
  {
    if p.total - |Stored(s, p).Keys| <= 0 then Finish(s, p) else Hold(s, p)
  }

  /** A completed frame: assembled into `latest` and dropped from both tables. */
  function Finish(s: State, p: Parsed): (s': State)
    ensures s'.buffer == s.buffer - {p.frame} && s'.counts.Keys == s.counts.Keys - {p.frame}
    ensures s'.latest == Some(Assemble(Stored(s, p), p.total))
  {
    State(s.buffer - {p.frame}, s.counts[p.frame := p.total] - {p.frame}, Some(Assemble(Stored(s, p), p.total)))
  }

  /** An incomplete frame: its chunk map and declared total are stored. */
  function Hold(s: State, p: Parsed): (s': State)
    ensures s'.buffer == s.buffer[p.frame := Stored(s, p)] && s'.counts == s.counts[p.frame := p.total]
    ensures s'.latest == s.latest
  {
    State(s.buffer[p.frame := Stored(s, p)], s.counts[p.frame := p.total], s.latest)
  }

  /** One pass of the receive loop for datagram `d`. */
  function Receive(s: State, d: seq<byte>): State
  {
    Step(s, ParseHeader(d))
  }

  /** Datagrams received in order, the last one last. */
  function Deliver(s: State, ds: seq<seq<byte>>): State
  {
    if |ds| == 0 then s else Receive(Deliver(s, ds[..|ds| - 1]), ds[|ds| - 1])
  }

  /** Parsed headers processed in order. */
  function Replay(s: State, qs: seq<Parsed>): State
  {
    if |qs| == 0 then s else Step(Replay(s, qs[..|qs| - 1]), qs[|qs| - 1])
  }

  function ParseAll(ds: seq<seq<byte>>): (qs: seq<Parsed>)
    ensures |qs| == |ds|
    ensures forall k :: 0 <= k < |ds| ==> qs[k] == ParseHeader(ds[k])
  {
    seq(|ds|, k requires 0 <= k < |ds| => ParseHeader(ds[k]))
  }

  /** Receiving datagrams is replaying their parsed headers. */
  lemma {:induction false} DeliverIsReplay(s: State, ds: seq<seq<byte>>)
    ensures Deliver(s, ds) == Replay(s, ParseAll(ds))
  {
    if |ds| > 0 {
      var n := |ds|;
      var qs := ParseAll(ds);
      DeliverIsReplay(s, ds[..n - 1]);
      assert qs[..n - 1] == ParseAll(ds[..n - 1]);
      assert qs[n - 1] == ParseHeader(ds[n - 1]);
      assert Replay(s, qs) == Step(Replay(s, qs[..n - 1]), qs[n - 1]);
    }
  }

  /** Replaying one more header of a sequence is one more step. */
  lemma ReplayPrefix(s: State, qs: seq<Parsed>, j: nat)
    requires 0 < j <= |qs|
    ensures Replay(s, qs[..j]) == Step(Replay(s, qs[..j - 1]), qs[j - 1])
  {
    assert qs[..j][..j - 1] == qs[..j - 1];
  }

  /** Headers that all name `frame` leave any other frame `f` exactly as it was. */
  lemma {:induction false} ReplayKeepsFrame(s: State, qs: seq<Parsed>, frame: nat, f: nat)
    requires f != frame
    requires forall k :: 0 <= k < |qs| ==> qs[k].frame == frame
    ensures f in Replay(s, qs).buffer <==> f in s.buffer
    ensures f in s.buffer ==> Replay(s, qs).buffer[f] == s.buffer[f]
  {
    if |qs| > 0 {
      ReplayKeepsFrame(s, qs[..|qs| - 1], frame, f);
    }
  }

  /** Assembly concatenates only the chunks that are present, in ascending index order. */
  lemma {:induction false} AssembleSkipsMissing(chunks: map<nat, seq<byte>>, total: nat)
    ensures Assemble(chunks, total) == Concat(PresentChunks(chunks, total))
  {
    if total > 0 {
      AssembleSkipsMissing(chunks, total - 1);
      if total - 1 in chunks {
        ConcatAppend(PresentChunks(chunks, total - 1), chunks[total - 1]);
      } else {
        assert PresentChunks(chunks, total) == PresentChunks(chunks, total - 1);
      }
    }
  }

  /** The payloads of the indices below `total` that are present, in ascending order. */
  function PresentChunks(chunks: map<nat, seq<byte>>, total: nat): (ps: seq<seq<byte>>)
    ensures |ps| <= total
  {
    if total == 0 then []
    else PresentChunks(chunks, total - 1) + (if total - 1 in chunks then [chunks[total - 1]] else [])
  }

  /** A datagram declaring a total of 0 completes its frame at once, with empty bytes. */
  lemma TotalZeroCompletesEmpty(s: State, p: Parsed)
    requires p.total == 0
    ensures Step(s, p).latest == Some([])
    ensures p.frame !in Step(s, p).buffer
  {
  }

  /** A repeated (frame, chunk) pair replaces the stored payload; the latest total wins. */
  lemma RepeatOverwrites(s: State, p1: Parsed, p2: Parsed)
    requires p1.frame == p2.frame && p1.chunk == p2.chunk
    requires !Completes(s, p1) && !Completes(Step(s, p1), p2)
    ensures var s2 := Step(Step(s, p1), p2);
      s2.buffer[p2.frame][p2.chunk] == p2.payload && s2.counts[p2.frame] == p2.total
      && |s2.buffer[p2.frame].Keys| == |Step(s, p1).buffer[p2.frame].Keys|
  {
    var s1 := Step(s, p1);
    assert Stored(s1, p2).Keys == s1.buffer[p1.frame].Keys;
  }

  /** No header of `qs`, replayed in order from `s`, completes its frame. */
  predicate NoneCompletes(s: State, qs: seq<Parsed>)
  {
    |qs| == 0 || (NoneCompletes(s, qs[..|qs| - 1]) && !Completes(Replay(s, qs[..|qs| - 1]), qs[|qs| - 1]))
  }

  /** Entries leave the buffer only on completion: while nothing completes, every frame stays. */
  lemma {:induction false} NoEviction(s: State, qs: seq<Parsed>)
    requires NoneCompletes(s, qs)
    ensures s.buffer.Keys <= Replay(s, qs).buffer.Keys
    ensures Replay(s, qs).latest == s.latest
  {
    if |qs| > 0 {
      NoEviction(s, qs[..|qs| - 1]);
    }
  }

  /** A frame whose chunk 1 never arrives is still assembled, from chunk 0 alone, once two distinct chunks are present. */
  lemma DuplicateMaskingStillAssembles()
    ensures var d0 := [0 as byte, 0, 0, 0, 0, 0, 2, 0, 0xAA];
      var d2 := [0 as byte, 0, 0, 0, 2, 0, 2, 0, 0xBB];
      Deliver(Initial, [d0, d2]).latest == Some([0xAA])
  {
    var d0: seq<byte> := [0, 0, 0, 0, 0, 0, 2, 0, 0xAA];
    var d2: seq<byte> := [0, 0, 0, 0, 2, 0, 2, 0, 0xBB];
    var none: seq<seq<byte>> := [];
    assert [d0, d2][..1] == [d0];
    assert [d0][..0] == none;
    ExampleHeaders(d0, d2);
    var s1 := Receive(Initial, d0);
    assert s1.buffer == map[0 := map[0 := [0xAA]]];
    assert Deliver(Initial, [d0]) == s1;
    ExampleCompletes(s1, ParseHeader(d2));
    assert Deliver(Initial, [d0, d2]) == Receive(s1, d2);
  }

  lemma ExampleHeaders(d0: seq<byte>, d2: seq<byte>)
    requires d0 == [0, 0, 0, 0, 0, 0, 2, 0, 0xAA]
    requires d2 == [0, 0, 0, 0, 2, 0, 2, 0, 0xBB]
    ensures ParseHeader(d0) == Parsed(0, 0, 2, [0xAA])
    ensures ParseHeader(d2) == Parsed(0, 2, 2, [0xBB])
  {
    assert Slice(d0, 0, 4) == [0, 0, 0, 0] == Slice(d2, 0, 4);
    assert Slice(d0, 4, 6) == [0, 0];
    assert Slice(d2, 4, 6) == [2, 0];
    assert Slice(d0, 6, 8) == [2, 0] == Slice(d2, 6, 8);
    ExampleNumbers();
  }

  lemma ExampleNumbers()
    ensures LeNat([0, 0, 0, 0]) == 0 && LeNat([0, 0]) == 0 && LeNat([2, 0]) == 2
  {
    assert LeNat([0]) == 0;
    assert [0 as byte, 0, 0, 0][1..] == [0, 0, 0];
    assert [0 as byte, 0, 0][1..] == [0, 0];
    assert [0 as byte, 0][1..] == [0];
    assert [2 as byte, 0][1..] == [0];
  }

  lemma ExampleCompletes(s1: State, p2: Parsed)
    requires s1.buffer == map[0 := map[0 := [0xAA]]]
    requires p2 == Parsed(0, 2, 2, [0xBB])
    ensures Step(s1, p2).latest == Some([0xAA])
  {
    var m := Stored(s1, p2);
    assert m == map[0 := [0xAA], 2 := [0xBB]];
    assert m.Keys == {0, 2};
    assert Assemble(m, 1) == [0xAA];
    assert 1 !in m;
    assert Assemble(m, 2) == [0xAA];
    assert |m.Keys| == 2;
  }
}

=== FILE: monitor.dfy ===
/**
 * One camera's monitor (`backend/monitor.py`): it owns the session
 * tracker, starts and stops it, and composes the text messages pushed to
 * the dashboard. The video processor and the summary generator are
 * represented by the two values the messages read: the cup flag and the
 * current summary text.
 */
module Monitor {
  import opened Common
  import Crud
  import HealthAnalyze
  import UdpServer
  import VideoProcessor

  datatype Monitor = Monitor(url: string, running: bool, analyze: HealthAnalyze.Analyze)

  /** A monitor as `Monitor(video_url=...)` builds it when the constructor returns: not running, tracker idle. */
  function Created(url: string): (m: Monitor)
    ensures !m.running && !m.analyze.running && m.analyze.sessionId.None? && m.analyze.url == url
  {
    Monitor(url, false, HealthAnalyze.Created(url))
  }

  /**
   * `Monitor(video_url=...)`: the constructor builds its video processor
   * first, whose camera start may raise; then nothing is built and the
   * error propagates to the caller.
   */
  function Create(url: string): (r: Result<Monitor, UdpServer.StartError>)
    ensures r.Ok? <==> VideoProcessor.StartCamera(url).Ok?
    ensures r.Ok? ==> r.value == Created(url)
    ensures r.Err? ==> r.error == VideoProcessor.StartCamera(url).error
  {
    match VideoProcessor.StartCamera(url)
    case Ok(_) => Ok(Created(url))
    case Err(e) => Err(e)
  }

  /** `start`: starts the tracker only when the monitor is not already running. */
  function Start(m: Monitor): (r: Monitor)
    ensures r.running && r.url == m.url
    ensures !m.running ==> r.analyze == HealthAnalyze.Start(m.analyze)
    ensures m.running ==> r == m
  {
    if m.running then m else m.(running := true, analyze := HealthAnalyze.Start(m.analyze))
  }

  /** `stop`: clears the flag and stops the tracker, which closes any open session. */
  function Stop(m: Monitor, db: Crud.Db, now: int): (r: (Monitor, Crud.Db))
    ensures !r.0.running && !r.0.analyze.running && !HealthAnalyze.HasSession(r.0.analyze) && r.0.url == m.url
    ensures (r.0.analyze, r.1) == HealthAnalyze.Stop(m.analyze, db, now)
  {
    var (a, db') := HealthAnalyze.Stop(m.analyze, db, now);
    (m.(running := false, analyze := a), db')
  }

  /** A second `start` spawns nothing; a `start` after `stop` spawns a fresh loop. */
  lemma StartStopSpawns(m: Monitor, db: Crud.Db, now: int)
    ensures Start(Start(m)) == Start(m)
    ensures Start(Stop(m, db, now).0).analyze.spawned == m.analyze.spawned + 1
  {
  }

  const DURATION_KEY: string := "today_work_duration_message"
  const SUMMARY_KEY: string := "generator_summary_health_message"
  const WATER_KEY: string := "water_intake_message"

  const CUP_SEEN: string := "检测到水杯，请及时喝水！"
  const NO_CUP: string := "未检测到水杯，请注意补水！"
  const LONG_SHIFT: string := "，已工作较长时间"
  const KEEP_GOING: string := "，请继续保持！"

  /** How the database block ended: it raised, or it read today's duration (with its `str(timedelta)` text). */
  datatype DbBlock = DbRaised | Duration(seconds: int, text: string)

  /** The duration line: prefix, the formatted duration, and a suffix chosen at 120 seconds. */
  function DurationMessage(seconds: int, text: string): (s: string)
    ensures seconds >= 120 ==> s == "今日在岗: " + text + LONG_SHIFT
    ensures seconds < 120 ==> s == "今日在岗: " + text + KEEP_GOING
  {
    "今日在岗: " + text + (if seconds >= 120 then LONG_SHIFT else KEEP_GOING)
  }

  /**
   * `output_insights`: the duration line only when the database block
   * completed; the summary and water lines always.
   */
  function Insights(db: DbBlock, summary: string, cup: bool): (r: map<string, string>)
    ensures DURATION_KEY in r <==> db.Duration?
    ensures db.Duration? ==> r[DURATION_KEY] == DurationMessage(db.seconds, db.text)
    ensures SUMMARY_KEY in r && r[SUMMARY_KEY] == summary
    ensures WATER_KEY in r && r[WATER_KEY] == (if cup then CUP_SEEN else NO_CUP)
    ensures r.Keys <= {DURATION_KEY, SUMMARY_KEY, WATER_KEY}
  {
    var base := map[SUMMARY_KEY := summary, WATER_KEY := if cup then CUP_SEEN else NO_CUP];
    match db
    case DbRaised => base
    case Duration(seconds, text) => base[DURATION_KEY := DurationMessage(seconds, text)]
  }

  /** The water line depends on the cup flag alone. */
  lemma WaterOnlyFromCup(db1: DbBlock, db2: DbBlock, s1: string, s2: string, cup: bool)
    ensures Insights(db1, s1, cup)[WATER_KEY] == Insights(db2, s2, cup)[WATER_KEY]
  {
  }

  /**
   * The database block as written: its first call names a query the crud
   * module does not define, so it always raises before the duration is read.
   */
  function InsightsAsWritten(summary: string, cup: bool): map<string, string>
  {
    Insights(DbRaised, summary, cup)
  }

  /** As written, the duration line never appears, whatever the sessions. */
  lemma DurationNeverShown(summary: string, cup: bool)
    ensures DURATION_KEY !in InsightsAsWritten(summary, cup)
    ensures |InsightsAsWritten(summary, cup).Keys| == 2
  {
    var r := InsightsAsWritten(summary, cup);
    assert r.Keys == {SUMMARY_KEY, WATER_KEY};
  }

  /**
   * The block as intended: today's duration for this monitor's URL, read
   * from the session table at `now` with `midnight` the start of the day,
   * and `text` its `str(timedelta)` form.
   */
  function InsightsIntended(m: Monitor, sessions: seq<Crud.Session>, midnight: int, now: int, text: string,
                            summary: string, cup: bool): (r: map<string, string>)
    ensures DURATION_KEY in r
    ensures r[DURATION_KEY] == DurationMessage(Crud.TodayDuration(sessions, m.url, midnight, now), text)
  {
    Insights(Duration(Crud.TodayDuration(sessions, m.url, midnight, now), text), summary, cup)
  }

  /** With the intended block the long-shift suffix appears exactly when today's total reaches 120 seconds. */
  lemma IntendedLongShift(m: Monitor, sessions: seq<Crud.Session>, midnight: int, now: int, text: string,
                          summary: string, cup: bool)
    ensures var line := InsightsIntended(m, sessions, midnight, now, text, summary, cup)[DURATION_KEY];
      line == "今日在岗: " + text + LONG_SHIFT <==> Crud.TodayDuration(sessions, m.url, midnight, now) >= 120
  {
    var line := InsightsIntended(m, sessions, midnight, now, text, summary, cup)[DURATION_KEY];
    var p := "今日在岗: " + text;
    if Crud.TodayDuration(sessions, m.url, midnight, now) < 120 {
      assert line == p + KEEP_GOING;
      assert line[|p|..] == KEEP_GOING && (p + LONG_SHIFT)[|p|..] == LONG_SHIFT;
    }
  }
}

=== FILE: monitor_api.dfy ===
/**
 * The per-camera routes of `backend/api/monitor.py`: resolving the URL in
 * a request path to a registered monitor, the WebSocket subscriber table
 * grouped by resolved URL, and one pass of the status push. Percent
 * decoding of the path is left to the web framework; the query reaches
 * `Resolve` already decoded.
 */
module MonitorApi {
  import opened Common
  import Monitor
  import MonitorRegistry
  import SigninApi
  import UdpServer
  import VideoProcessor

  /** The two camera addresses the module registers when it is imported, in order. */
  const CAMERA_URLS: seq<string> := [
    UdpServer.PREFIX + "0.0.0.0" + ":" + "8099" + "/192.168.10.102",
    UdpServer.PREFIX + "0.0.0.0" + ":" + "8099" + "/192.168.10.100"
  ]

  /** Both addresses carry a path after the port, so building either monitor raises in the UDP capture's `start`. */
  lemma CameraUrlRaises(k: nat)
    requires k < |CAMERA_URLS|
    ensures Monitor.Create(CAMERA_URLS[k]) == Err(UdpServer.PortNotInteger)
  {
    var camera := if k == 0 then "/192.168.10.102" else "/192.168.10.100";
    var rest := "0.0.0.0" + ":" + "8099" + camera;
    assert CAMERA_URLS[k] == UdpServer.PREFIX + rest;
    UdpServer.PrefixPicksUdp(rest);
    UdpServer.RegisteredUrlFails(UdpServer.Created, camera);
  }

  /**
   * Importing the module therefore fails: the first registration raises and
   * leaves any table without that address unchanged, and from the empty
   * table the run stops there with nothing registered.
   */
  lemma ImportRegistrationRaises(r: MonitorRegistry.Registry)
    ensures CAMERA_URLS[0] !in r.urls ==> MonitorRegistry.Register(r, CAMERA_URLS[0]) == (r, MonitorRegistry.Raised(UdpServer.PortNotInteger))
    ensures MonitorRegistry.RegisterAll(MonitorRegistry.Empty, CAMERA_URLS) == (MonitorRegistry.Empty, Some(UdpServer.PortNotInteger))
  {
    CameraUrlRaises(0);
    var first := CAMERA_URLS[..1];
    assert first[..0] == [];
    assert first[0] == CAMERA_URLS[0];
    assert MonitorRegistry.RegisterAll(MonitorRegistry.Empty, first) == (MonitorRegistry.Empty, Some(UdpServer.PortNotInteger));
    assert CAMERA_URLS[..|CAMERA_URLS| - 1] == first;
  }

  /** A keyword as the query yields it: non-empty, comma-free, and already stripped. */
  predicate IsKeyword(w: string)
  {
    |w| > 0 && ',' !in w && Strip(w) == w
  }

  /** The stripped, non-empty comma-separated parts, in order. */
  function Keywords(query: string): (kws: seq<string>)
    ensures forall k :: 0 <= k < |kws| ==> IsKeyword(kws[k])
  {
    NonEmptyStripped(Split(query, ','))
  }

  function NonEmptyStripped(parts: seq<string>): (kws: seq<string>)
    requires forall k :: 0 <= k < |parts| ==> ',' !in parts[k]
    ensures forall k :: 0 <= k < |kws| ==> IsKeyword(kws[k])
    ensures |kws| <= |parts|
  {
    if |parts| == 0 then []
    else
      var rest := NonEmptyStripped(parts[1..]);
      var p := Strip(parts[0]);
      StripWithout(parts[0], ',');
      StripIdempotent(parts[0]);
      if |p| > 0 then [p] + rest else rest
  }

  /** Every keyword occurs in the URL (Python's `all(kw in url for kw in keywords)`). */
  predicate AllIn(kws: seq<string>, url: string)
  {
    forall k :: 0 <= k < |kws| ==> Contains(url, kws[k])
  }

  /** The position of the first URL containing every keyword. */
  function FirstMatch(urls: seq<string>, kws: seq<string>): (r: Option<nat>)
    ensures r.Some? ==> r.value < |urls| && AllIn(kws, urls[r.value]) && forall j :: 0 <= j < r.value ==> !AllIn(kws, urls[j])
    ensures r.None? ==> forall j :: 0 <= j < |urls| ==> !AllIn(kws, urls[j])
  {
    if |urls| == 0 then None
    else if AllIn(kws, urls[0]) then Some(0)
    else
      match FirstMatch(urls[1..], kws)
      case None => None
      case Some(k) => Some(k + 1)
  }

  /** The 404 `get_monitor` raises. */
  datatype NotFound = NotFound

  /**
   * `get_monitor`: an exact key wins; otherwise the first registered URL, in
   * registration order, that contains all the keywords; otherwise 404.
   */
  function Resolve(reg: MonitorRegistry.Registry, query: string): (r: Result<string, NotFound>)
    ensures query in reg.monitors ==> r == Ok(query)
    ensures query !in reg.monitors ==>
              match FirstMatch(reg.urls, Keywords(query))
              case Some(k) => r == Ok(reg.urls[k])
              case None => r == Err(NotFound)
  {
    if query in reg.monitors then Ok(query)
    else
      match FirstMatch(reg.urls, Keywords(query))
      case Some(k) => Ok(reg.urls[k])
      case None => Err(NotFound)
  }

  /** A resolved URL is always a registered one. */
  lemma ResolvedIsRegistered(reg: MonitorRegistry.Registry, query: string)
    requires MonitorRegistry.Valid(reg)
    requires Resolve(reg, query).Ok?
    ensures Resolve(reg, query).value in reg.monitors
  {
    if query !in reg.monitors {
      var k := FirstMatch(reg.urls, Keywords(query)).value;
      assert reg.urls[k] in set u | u in reg.urls;
    }
  }

  /** A query with no keywords that is not itself a key resolves to the first registered URL. */
  lemma NoKeywordsTakesFirst(reg: MonitorRegistry.Registry, query: string)
    requires Keywords(query) == [] && query !in reg.monitors && |reg.urls| > 0
    ensures Resolve(reg, query) == Ok(reg.urls[0])
  {
  }

  /** The query "," carries no keywords. */
  lemma CommaHasNoKeywords()
    ensures Keywords(",") == []
  {
    assert ',' in ",";
    assert IndexOf(",", ',') == 0;
    assert ","[1..] == "";
    assert Split(",", ',') == ["", ""];
  }

  /** A keyword padded with U+001C and U+001F is read without them, as `str.strip()` does. */
  lemma PaddedKeyword()
    ensures Keywords("\U{1C}kw\U{1F}") == ["kw"]
  {
    var q := "\U{1C}kw\U{1F}";
    assert Split(q, ',') == [q] by {
      assert ',' !in q;
    }
    PaddedField(q);
  }

  lemma PaddedField(q: string)
    requires q == "\U{1C}kw\U{1F}"
    ensures NonEmptyStripped([q]) == ["kw"]
  {
    var p := Strip(q);
    assert p == "kw" by {
      StripRemovesSeparators();
    }
    assert [q][1..] == [];
  }

  /** Only which keywords are present matters, not their order or repetition. */
  lemma {:induction false} KeywordOrderIrrelevant(urls: seq<string>, a: seq<string>, b: seq<string>)
    requires forall w :: w in a <==> w in b
    ensures FirstMatch(urls, a) == FirstMatch(urls, b)
  {
    assert forall u :: AllIn(a, u) <==> AllIn(b, u) by {
      forall u ensures AllIn(a, u) <==> AllIn(b, u) {
        if AllIn(a, u) {
          forall k | 0 <= k < |b| ensures Contains(u, b[k]) {
            assert b[k] in a;
            var j :| 0 <= j < |a| && a[j] == b[k];
          }
        }
        if AllIn(b, u) {
          forall k | 0 <= k < |a| ensures Contains(u, a[k]) {
            assert a[k] in b;
            var j :| 0 <= j < |b| && b[j] == a[k];
          }
        }
      }
    }
    if |urls| > 0 {
      KeywordOrderIrrelevant(urls[1..], a, b);
    }
  }

  /** `connected_clients`: the resolved URLs in insertion order and each URL's set of sockets. */
  datatype Subs<C> = Subs(keys: seq<string>, groups: map<string, set<C>>)

  ghost predicate ValidSubs<C>(s: Subs<C>)
  {
    && (forall i, j :: 0 <= i < j < |s.keys| ==> s.keys[i] != s.keys[j])
    && s.groups.Keys == set u | u in s.keys
  }

  /** The socket is accepted and added under its resolved URL, creating the group if needed. */
  function Connect<C>(s: Subs<C>, url: string, ws: C): (r: Subs<C>)
    ensures url in r.groups && ws in r.groups[url]
    ensures url in s.groups ==> r.keys == s.keys && r.groups == s.groups[url := s.groups[url] + {ws}]
    ensures url !in s.groups ==> r.keys == s.keys + [url] && r.groups == s.groups[url := {ws}]
  {
    if url in s.groups then Subs(s.keys, s.groups[url := s.groups[url] + {ws}])
    else Subs(s.keys + [url], s.groups[url := {ws}])
  }

  /** The `finally` clause: the socket leaves its group if it is there; the group itself stays. */
  function Disconnect<C>(s: Subs<C>, url: string, ws: C): (r: Subs<C>)
    ensures r.keys == s.keys && r.groups.Keys == s.groups.Keys
    ensures url in s.groups ==> r.groups[url] == s.groups[url] - {ws}
    ensures forall u :: u in s.groups && u != url ==> r.groups[u] == s.groups[u]
  {
    if url in s.groups && ws in s.groups[url] then Subs(s.keys, s.groups[url := s.groups[url] - {ws}])
    else s
  }

  /** A connection's lifetime leaves the table as before, except that its URL's group now exists. */
  lemma ConnectThenDisconnect<C>(s: Subs<C>, url: string, ws: C)
    requires ValidSubs(s)
    ensures var r := Disconnect(Connect(s, url, ws), url, ws);
      && ValidSubs(r)
      && url in r.groups
      && (url in s.groups ==> r.groups[url] == s.groups[url] - {ws})
      && (url !in s.groups ==> r.groups[url] == {})
      && (forall u :: u in s.groups && u != url ==> r.groups[u] == s.groups[u])
  {
    if url !in s.groups {
      assert url !in s.keys by {
        assert url !in set u | u in s.keys;
      }
    }
  }

  /** Every subscribed URL is registered. */
  ghost predicate Registered<C>(s: Subs<C>, reg: MonitorRegistry.Registry)
  {
    forall k :: 0 <= k < |s.keys| ==> s.keys[k] in reg.monitors
  }

  /** Subscribing under a resolved URL keeps every key registered. */
  lemma ConnectResolvedKeepsRegistered<C>(s: Subs<C>, reg: MonitorRegistry.Registry, query: string, ws: C)
    requires MonitorRegistry.Valid(reg) && Registered(s, reg) && Resolve(reg, query).Ok?
    ensures Registered(Connect(s, Resolve(reg, query).value, ws), reg)
  {
    ResolvedIsRegistered(reg, query);
  }

  /** The position of the first subscribed URL missing from the registry, or the number of keys. */
  function FirstUnregistered<C>(s: Subs<C>, reg: MonitorRegistry.Registry): (a: nat)
    ensures a <= |s.keys|
    ensures forall k :: 0 <= k < a ==> s.keys[k] in reg.monitors
    ensures a < |s.keys| ==> s.keys[a] !in reg.monitors
    decreases |s.keys|
  {
    if |s.keys| == 0 then 0
    else
      var a := FirstUnregistered(Subs(s.keys[..|s.keys| - 1], s.groups), reg);
      if a < |s.keys| - 1 then a
      else if s.keys[|s.keys| - 1] in reg.monitors then |s.keys| else |s.keys| - 1
  }

  /** A connection joining or leaving the group at position `group` while one of that group's sends is awaited. */
  datatype GroupInterleaving<C> = InGroup(group: nat, during: SigninApi.Interleaving<C>)

  /** Why a pass ended early: an unregistered URL raised, or a group's set changed size under its loop. */
  datatype Abort = MonitorMissing(url: string) | SetChanged(url: string)

  /** The position of the group whose loop the interleaving cuts short, if the pass reaches it and it resizes the group. */
  function CutGroup<C>(s: Subs<C>, reg: MonitorRegistry.Registry, during: Option<GroupInterleaving<C>>): (g: Option<nat>)
    requires ValidSubs(s)
    ensures g.Some? ==> g.value < FirstUnregistered(s, reg) && g.value < |s.keys| && s.keys[g.value] in s.groups
  {
    if during.Some? && during.value.group < FirstUnregistered(s, reg) then
      var url := s.keys[during.value.group];
      assert url in set u | u in s.keys;
      if SigninApi.Cuts(s.groups[url], Some(during.value.during)) then Some(during.value.group) else None
    else None
  }

  /**
   * One pass of `push_status_updates`: the URLs are visited in order; an
   * unregistered one raises and ends the pass; otherwise every socket of the
   * group is sent to and the failed ones are removed after the group's
   * sends. A socket of the group being sent to that joins or leaves during a
   * send makes that group's loop raise, which also ends the pass: the group
   * keeps its failed sockets and the later groups are not reached. Returns
   * the table, the sockets of the groups sent in full, the sockets reached
   * in a group cut short, and why the pass ended early, if it did.
   */
  method PushPass<C>(s: Subs<C>, reg: MonitorRegistry.Registry, failing: set<C>, during: Option<GroupInterleaving<C>>)
    returns (s': Subs<C>, reached: set<C>, cut: set<C>, aborted: Option<Abort>)
    requires ValidSubs(s)
    ensures var a := FirstUnregistered(s, reg);
      var g := CutGroup(s, reg, during);
      var e := if g.Some? then g.value else a;
      && s'.keys == s.keys && s'.groups.Keys == s.groups.Keys
      && (forall k :: 0 <= k < e ==> s'.groups[s.keys[k]] == s.groups[s.keys[k]] - failing)
      && (forall k :: e < k < |s.keys| ==> s'.groups[s.keys[k]] == s.groups[s.keys[k]])
      && (forall c :: c in reached <==> exists k :: 0 <= k < e && c in s.groups[s.keys[k]])
      && (g.None? ==> cut == {} && (a < |s.keys| ==> s'.groups[s.keys[a]] == s.groups[s.keys[a]]))
      && (g.None? ==> aborted == (if a < |s.keys| then Some(MonitorMissing(s.keys[a])) else None))
      && (g.Some? ==>
            && s'.groups[s.keys[e]] == SigninApi.Apply(s.groups[s.keys[e]], during.value.during.event)
            && cut <= s.groups[s.keys[e]] && |cut| == during.value.during.send + 1
            && aborted == Some(SetChanged(s.keys[e])))
  {
    var a := FirstUnregistered(s, reg);
    var gs;
    gs, reached, cut := PushGroups(s, reg, failing, during);
    var g := CutGroup(s, reg, during);
    aborted := if g.Some? then Some(SetChanged(s.keys[g.value]))
      else if a < |s.keys| then Some(MonitorMissing(s.keys[a])) else None;
    s' := Subs(s.keys, gs);
    var e := if g.Some? then g.value else a;
    forall c
      ensures c in reached <==> exists k :: 0 <= k < e && c in s.groups[s.keys[k]]
    {
      UnionMembers(s, e, c);
    }
  }

  /** The loop of the pass, up to the first unregistered URL or the group cut short, where the pass raises. */
  method PushGroups<C>(s: Subs<C>, reg: MonitorRegistry.Registry, failing: set<C>, during: Option<GroupInterleaving<C>>)
    returns (gs: map<string, set<C>>, reached: set<C>, cut: set<C>)
    requires ValidSubs(s)
    ensures CutGroup(s, reg, during).None? ==>
      && GroupsAfter(s, gs, FirstUnregistered(s, reg), failing)
      && reached == Union(s, FirstUnregistered(s, reg)) && cut == {}
    ensures CutGroup(s, reg, during).Some? ==>
      var g := CutGroup(s, reg, during).value;
      var url := s.keys[g];
      && CutAfter(s, gs, g, failing)
      && url in gs && gs[url] == SigninApi.Apply(s.groups[url], during.value.during.event)
      && reached == Union(s, g)
      && cut <= s.groups[url] && |cut| == during.value.during.send + 1
  {
    var a := FirstUnregistered(s, reg);
    var g := CutGroup(s, reg, during);
    var e := if g.Some? then g.value else a;
    forall i | 0 <= i < e
      ensures s.keys[i] in s.groups && !SigninApi.Cuts(s.groups[s.keys[i]], Here(during, i))
    {
      NotCutBefore(s, reg, during, i);
    }
    gs, reached := SendBefore(s, s.groups, {}, 0, e, failing, during);
    cut := {};
    if g.Some? {
      gs, cut := SendCut(s, gs, e, failing, during.value.during);
    }
  }

  /** The sends to the group at `i`, which what runs during them cuts short: the group keeps its failed sockets and takes the join or leave. */
  method SendCut<C>(s: Subs<C>, gs: map<string, set<C>>, i: nat, failing: set<C>, here: SigninApi.Interleaving<C>)
    returns (gs': map<string, set<C>>, cut: set<C>)
    requires ValidSubs(s) && i < |s.keys| && GroupsAfter(s, gs, i, failing)
    requires s.keys[i] in s.groups && SigninApi.Cuts(s.groups[s.keys[i]], Some(here))
    ensures CutAfter(s, gs', i, failing)
    ensures s.keys[i] in gs' && gs'[s.keys[i]] == SigninApi.Apply(s.groups[s.keys[i]], here.event)
    ensures cut <= s.groups[s.keys[i]] && |cut| == here.send + 1
  {
    var url := s.keys[i];
    var remaining, raised;
    cut, remaining, raised := SigninApi.PushPass(gs[url], failing, false, Some(here));
    GroupCut(s, gs, i, failing, remaining);
    gs' := gs[url := remaining];
  }

  /** What runs during the sends to the group at `i`, if anything does. */
  function Here<C>(during: Option<GroupInterleaving<C>>, i: nat): (here: Option<SigninApi.Interleaving<C>>)
    ensures here.Some? <==> during.Some? && during.value.group == i
  {
    if during.Some? && during.value.group == i then Some(during.value.during) else None
  }

  /** The sends to the groups from `i` up to `e`, none of which what runs during them cuts. */
  method SendBefore<C>(s: Subs<C>, gs: map<string, set<C>>, reached: set<C>, i: nat, e: nat, failing: set<C>, during: Option<GroupInterleaving<C>>)
    returns (gs': map<string, set<C>>, reached': set<C>)
    requires ValidSubs(s) && i <= e <= |s.keys|
    requires GroupsAfter(s, gs, i, failing) && reached == Union(s, i)
    requires forall k :: i <= k < e ==> s.keys[k] in s.groups && !SigninApi.Cuts(s.groups[s.keys[k]], Here(during, k))
    ensures GroupsAfter(s, gs', e, failing) && reached' == Union(s, e)
    decreases e - i
  {
    if i == e {
      gs', reached' := gs, reached;
    } else {
      var gs1, reached1 := SendGroup(s, gs, reached, i, failing, Here(during, i));
      gs', reached' := SendBefore(s, gs1, reached1, i + 1, e, failing, during);
    }
  }

  /** The sends to the group at `i`, which what runs during them does not cut: every socket is reached and the failed ones leave. */
  method SendGroup<C>(s: Subs<C>, gs: map<string, set<C>>, reached: set<C>, i: nat, failing: set<C>, here: Option<SigninApi.Interleaving<C>>)
    returns (gs': map<string, set<C>>, reached': set<C>)
    requires ValidSubs(s) && i < |s.keys| && GroupsAfter(s, gs, i, failing) && reached == Union(s, i)
    requires s.keys[i] in s.groups && !SigninApi.Cuts(s.groups[s.keys[i]], here)
    ensures GroupsAfter(s, gs', i + 1, failing)
    ensures reached' == Union(s, i + 1)
  {
    var url := s.keys[i];
    var attempted, remaining, raised := SigninApi.PushPass(gs[url], failing, false, here);
    GroupStep(s, gs, i, failing);
    gs' := gs[url := remaining];
    UnionStep(s, i);
    reached' := reached + attempted;
  }

  /** A group before the cut one is not cut by what runs during its sends. */
  lemma NotCutBefore<C>(s: Subs<C>, reg: MonitorRegistry.Registry, during: Option<GroupInterleaving<C>>, i: nat)
    requires ValidSubs(s) && i < FirstUnregistered(s, reg)
    requires CutGroup(s, reg, during).None? || i < CutGroup(s, reg, during).value
    ensures s.keys[i] in s.groups
    ensures !SigninApi.Cuts(s.groups[s.keys[i]], Here(during, i))
  {
    assert s.keys[i] in set u | u in s.keys;
  }

  /** Setting the group at `i` leaves the groups before it sent and those after it untouched. */
  lemma GroupCut<C>(s: Subs<C>, gs: map<string, set<C>>, i: nat, failing: set<C>, r: set<C>)
    requires ValidSubs(s) && i < |s.keys| && GroupsAfter(s, gs, i, failing)
    ensures CutAfter(s, gs[s.keys[i] := r], i, failing)
  {
    var url := s.keys[i];
    assert url in set u | u in s.keys;
    assert forall k :: 0 <= k < |s.keys| && k != i ==> s.keys[k] != url;
  }

  /** The groups before `g` have lost their failing sockets and those after it are as they were. */
  ghost predicate CutAfter<C>(s: Subs<C>, gs: map<string, set<C>>, g: nat, failing: set<C>)
    requires ValidSubs(s)
  {
    && gs.Keys == s.groups.Keys
    && (forall k :: 0 <= k < g && k < |s.keys| ==> gs[s.keys[k]] == s.groups[s.keys[k]] - failing)
    && (forall k :: g < k < |s.keys| ==> gs[s.keys[k]] == s.groups[s.keys[k]])
  }

  /** The URL at `i`, not past the first unregistered one, is registered exactly when it comes before it. */
  lemma FirstUnregisteredAt<C>(s: Subs<C>, reg: MonitorRegistry.Registry, i: nat)
    requires i < |s.keys| && i <= FirstUnregistered(s, reg)
    ensures s.keys[i] in reg.monitors <==> i < FirstUnregistered(s, reg)
  {
  }

  /** The groups of the first `i` URLs have lost their failing sockets; the rest are as they were. */
  ghost predicate GroupsAfter<C>(s: Subs<C>, gs: map<string, set<C>>, i: nat, failing: set<C>)
    requires ValidSubs(s)
  {
    && gs.Keys == s.groups.Keys
    && (forall k :: 0 <= k < i && k < |s.keys| ==> gs[s.keys[k]] == s.groups[s.keys[k]] - failing)
    && (forall k :: i <= k < |s.keys| ==> gs[s.keys[k]] == s.groups[s.keys[k]])
  }

  /** Every socket in the groups of the first `i` URLs. */
  ghost function Union<C>(s: Subs<C>, i: nat): set<C>
    requires ValidSubs(s) && i <= |s.keys|
  {
    if i == 0 then {}
    else
      assert s.keys[i - 1] in set u | u in s.keys;
      Union(s, i - 1) + s.groups[s.keys[i - 1]]
  }

  lemma UnionStep<C>(s: Subs<C>, i: nat)
    requires ValidSubs(s) && i < |s.keys|
    ensures s.keys[i] in s.groups && Union(s, i + 1) == Union(s, i) + s.groups[s.keys[i]]
  {
    assert s.keys[i] in set u | u in s.keys;
  }

  lemma {:induction false} UnionMembers<C>(s: Subs<C>, i: nat, c: C)
    requires ValidSubs(s) && i <= |s.keys|
    ensures c in Union(s, i) <==> exists k :: 0 <= k < i && c in s.groups[s.keys[k]]
  {
    if i > 0 {
      UnionMembers(s, i - 1, c);
      if c in s.groups[s.keys[i - 1]] {
        assert 0 <= i - 1 < i && c in s.groups[s.keys[i - 1]];
      }
    }
  }

  lemma GroupStep<C>(s: Subs<C>, gs: map<string, set<C>>, i: nat, failing: set<C>)
    requires ValidSubs(s) && i < |s.keys| && GroupsAfter(s, gs, i, failing)
    ensures s.keys[i] in gs
    ensures GroupsAfter(s, gs[s.keys[i] := gs[s.keys[i]] - failing], i + 1, failing)
  {
    var url := s.keys[i];
    assert url in set u | u in s.keys;
    assert forall k :: 0 <= k < |s.keys| && k != i ==> s.keys[k] != url;
  }

  /**
   * When every subscribed URL came from `Resolve`, no pass raises "Monitor
   * not found": a pass then ends early only when a group is resized under
   * its loop (`CutGroup` in `PushPass`).
   */
  lemma RegisteredNeverAborts<C>(s: Subs<C>, reg: MonitorRegistry.Registry)
    requires Registered(s, reg)
    ensures FirstUnregistered(s, reg) == |s.keys|
  {
  }

  /**
   * With every subscribed URL registered, a socket that joins or leaves the
   * group being sent to, and so changes its size, cuts the pass at that
   * group, whichever of its sends it runs during.
   */
  lemma ResizeCutsPass<C>(s: Subs<C>, reg: MonitorRegistry.Registry, g: nat, k: nat, e: SigninApi.Event<C>)
    requires ValidSubs(s) && Registered(s, reg) && g < |s.keys| && s.keys[g] in s.groups
    requires k < |s.groups[s.keys[g]]| && SigninApi.Resizes(s.groups[s.keys[g]], e)
    ensures CutGroup(s, reg, Some(InGroup(g, SigninApi.During(k, e)))) == Some(g)
  {
    RegisteredNeverAborts(s, reg);
  }
}

=== FILE: monitor_registry.dfy ===
/**
 * The per-camera monitor table (`backend/monitor_registry.py`): a
 * dictionary from video URL to monitor, filled by `register` and walked by
 * `start_all` and `stop_all`. Python dictionaries keep insertion order, so
 * the table is modelled as the key sequence in that order plus the map.
 */
module MonitorRegistry {
  import opened Common
  import Crud
  import HealthAnalyze
  import Monitor
  import UdpServer

  datatype Registry = Registry(urls: seq<string>, monitors: map<string, Monitor.Monitor>)

  const Empty := Registry([], map[])

  /** Keys are distinct and the map holds exactly the listed keys. */
  ghost predicate Valid(r: Registry)
  {
    && (forall i, j :: 0 <= i < j < |r.urls| ==> r.urls[i] != r.urls[j])
    && r.monitors.Keys == set u | u in r.urls
  }

  /** What `register` did: skipped a URL already present, added a new one, or raised while building its monitor. */
  datatype Registered = Skipped | Added | Raised(error: UdpServer.StartError)

  /**
   * `register(video_url)`: a URL already present leaves the table alone and
   * returns None. For a new one the monitor is built before the assignment,
   * so when its construction raises the table is unchanged and the error
   * propagates; otherwise the new monitor goes last and the registry itself
   * is returned.
   */
  function Register(r: Registry, url: string): (res: (Registry, Registered))
    ensures url in r.urls ==> res == (r, Skipped)
    ensures url !in r.urls && Monitor.Create(url).Err? ==> res == (r, Raised(Monitor.Create(url).error))
    ensures url !in r.urls && Monitor.Create(url).Ok? ==>
              && res.1 == Added
              && res.0.urls == r.urls + [url]
              && res.0.monitors == r.monitors[url := Monitor.Created(url)]
  {
    if url in r.urls then (r, Skipped)
    else
      match Monitor.Create(url)
      case Err(e) => (r, Raised(e))
      case Ok(m) => (Registry(r.urls + [url], r.monitors[url := m]), Added)
  }

  /**
   * Registration keeps the table valid, keeps earlier keys in place and
   * never starts the new monitor; the URL is present afterwards exactly when
   * it was before or its monitor could be built.
   */
  lemma RegisterKeepsValid(r: Registry, url: string)
    requires Valid(r)
    ensures var r' := Register(r, url).0;
      && Valid(r')
      && r'.urls[..|r.urls|] == r.urls
      && (url in r'.urls <==> url in r.urls || Monitor.Create(url).Ok?)
      && (url !in r.urls && url in r'.urls ==> !r'.monitors[url].running)
      && (forall u :: u in r.monitors ==> u in r'.monitors && r'.monitors[u] == r.monitors[u])
  {
  }

  /** Registering the same URL twice is the same as registering it once; the second call adds nothing. */
  lemma RegisterIdempotent(r: Registry, url: string)
    ensures Register(Register(r, url).0, url).0 == Register(r, url).0
    ensures Register(Register(r, url).0, url).1 == (if Register(r, url).1.Raised? then Register(r, url).1 else Skipped)
  {
  }

  /**
   * Registration calls made one after another, as at module level: the
   * first call that raises ends the run, and its error is returned.
   */
  function RegisterAll(r: Registry, us: seq<string>): (Registry, Option<UdpServer.StartError>)
    decreases |us|
  {
    if |us| == 0 then (r, None)
    else
      var (r0, e) := RegisterAll(r, us[..|us| - 1]);
      if e.Some? then (r0, e)
      else
        match Register(r0, us[|us| - 1])
        case (r1, Raised(err)) => (r1, Some(err))
        case (r1, _) => (r1, None)
  }

  /** From an empty table the keys are the distinct URLs in order of first registration. */
  function FirstOccurrences(us: seq<string>): (r: seq<string>)
    ensures forall u :: u in r <==> u in us
    decreases |us|
  {
    if |us| == 0 then []
    else
      var prev := FirstOccurrences(us[..|us| - 1]);
      assert forall u :: u in us ==> u in us[..|us| - 1] || u == us[|us| - 1];
      if us[|us| - 1] in prev then prev else prev + [us[|us| - 1]]
  }

  /** The index of the first URL whose monitor cannot be built, or the length when every one can. */
  function FirstFailing(us: seq<string>): (k: nat)
    ensures k <= |us|
    ensures forall j :: 0 <= j < k ==> Monitor.Create(us[j]).Ok?
    ensures k < |us| ==> Monitor.Create(us[k]).Err?
    decreases |us|
  {
    if |us| == 0 then 0
    else
      var k := FirstFailing(us[..|us| - 1]);
      if k < |us| - 1 then k
      else if Monitor.Create(us[|us| - 1]).Err? then |us| - 1
      else |us|
  }

  /**
   * From an empty table, any run of registrations holds the distinct URLs
   * before the first one whose monitor cannot be built, in order of first
   * registration, and raises exactly when such a URL occurs.
   */
  lemma {:induction false} RegisterAllOrder(us: seq<string>)
    ensures Valid(RegisterAll(Empty, us).0)
    ensures RegisterAll(Empty, us).0.urls == FirstOccurrences(us[..FirstFailing(us)])
    ensures RegisterAll(Empty, us).1.Some? <==> FirstFailing(us) < |us|
    decreases |us|
  {
    if |us| > 0 {
      var n := |us|;
      var init := us[..n - 1];
      RegisterAllOrder(init);
      var k := FirstFailing(init);
      assert init[..k] == us[..k];
      if k == n - 1 {
        assert init[..k] == init;
        var r0 := RegisterAll(Empty, init).0;
        RegisterKeepsValid(r0, us[n - 1]);
        if us[n - 1] in r0.urls {
          var j :| 0 <= j < n - 1 && init[j] == us[n - 1];
        }
        assert us[..n] == us;
        assert us[..n][..n - 1] == init;
      }
    }
  }

  /** `start_all`: starts every monitor, visiting them in insertion order. */
  method StartAll(r: Registry) returns (r': Registry, visited: seq<string>)
    requires Valid(r)
    ensures visited == r.urls && r'.urls == r.urls && Valid(r')
    ensures forall u :: u in r.monitors ==> r'.monitors[u] == Monitor.Start(r.monitors[u])
    ensures forall u :: u in r.monitors ==> r'.monitors[u].running
  {
    var ms := r.monitors;
    visited := [];
    var i := 0;
    while i < |r.urls|
      invariant 0 <= i <= |r.urls|
      invariant visited == r.urls[..i]
      invariant ms.Keys == r.monitors.Keys
      invariant forall k :: 0 <= k < i ==> ms[r.urls[k]] == Monitor.Start(r.monitors[r.urls[k]])
      invariant forall k :: i <= k < |r.urls| ==> ms[r.urls[k]] == r.monitors[r.urls[k]]
    {
      var u := r.urls[i];
      assert forall k :: 0 <= k < |r.urls| && k != i ==> r.urls[k] != u;
      ms := ms[u := Monitor.Start(r.monitors[u])];
      visited := visited + [u];
      i := i + 1;
    }
    assert visited == r.urls;
    forall u | u in r.monitors ensures ms[u] == Monitor.Start(r.monitors[u]) {
      var k :| 0 <= k < |r.urls| && r.urls[k] == u;
    }
    r' := Registry(r.urls, ms);
  }

  /** A monitor stopped from `orig`: not running, no tracked session, no new loop spawned. */
  predicate StoppedFrom(m: Monitor.Monitor, orig: Monitor.Monitor)
  {
    !m.running && !HealthAnalyze.HasSession(m.analyze) && m.analyze.spawned == orig.analyze.spawned
  }

  /**
   * `stop_all`: stops every monitor in insertion order; each stop may close
   * that monitor's open session in the shared table, at the same clock.
   */
  method StopAll(r: Registry, db: Crud.Db, now: int) returns (r': Registry, db': Crud.Db, visited: seq<string>)
    requires Valid(r)
    ensures visited == r.urls && r'.urls == r.urls && Valid(r')
    ensures forall u :: u in r.monitors ==> StoppedFrom(r'.monitors[u], r.monitors[u])
    ensures |db'.sessions| == |db.sessions|
  {
    var ms := r.monitors;
    db' := db;
    visited := [];
    var i := 0;
    while i < |r.urls|
      invariant 0 <= i <= |r.urls|
      invariant visited == r.urls[..i]
      invariant ms.Keys == r.monitors.Keys
      invariant |db'.sessions| == |db.sessions|
      invariant forall k :: 0 <= k < i ==> StoppedFrom(ms[r.urls[k]], r.monitors[r.urls[k]])
      invariant forall k :: i <= k < |r.urls| ==> ms[r.urls[k]] == r.monitors[r.urls[k]]
    {
      var u := r.urls[i];
      assert forall k :: 0 <= k < |r.urls| && k != i ==> r.urls[k] != u;
      var (m, d) := Monitor.Stop(ms[u], db', now);
      ms := ms[u := m];
      db' := d;
      visited := visited + [u];
      i := i + 1;
    }
    assert visited == r.urls;
    forall u | u in r.monitors
      ensures StoppedFrom(ms[u], r.monitors[u])
    {
      var k :| 0 <= k < |r.urls| && r.urls[k] == u;
    }
    r' := Registry(r.urls, ms);
  }
}

=== FILE: send_retry.dfy ===
/**
 * `send_with_retry`, the same static helper in both firmware UDP clients:
 * call `sendto` until it sends the whole buffer, sleeping 80 ms and retrying
 * while it fails with ENOMEM, and giving up with -1 on any other outcome.
 * The sequence of `sendto` results is an explicit input; the 80 ms sleep is
 * not modelled.
 */
module SendRetry {
  import opened Common

  /** The `esp_err_t` values `udp_client_push_img` returns. */
  datatype Status = EspOk | EspFail | ErrInvalidState | ErrInvalidArg

  /** lwIP's errno value for "out of memory". */
  const ENOMEM: int := 12

  /** What one `sendto` call reports: its return value and the errno it left behind. */
  datatype Attempt = Attempt(ret: int, errno: int)

  predicate IsNoMemory(a: Attempt)
  {
    a.ret == -1 && a.errno == ENOMEM
  }

  /**
   * The helper's outcome over a finite stream of `sendto` results:
   * it returned `value` after consuming `used` attempts, or it is still
   * looping because every attempt so far failed with ENOMEM.
   */
  datatype Outcome = Returned(value: int, used: nat) | StillRetrying

  function SendWithRetry(len: nat, attempts: seq<Attempt>): (r: Outcome)
    ensures r.StillRetrying? <==> forall k :: 0 <= k < |attempts| ==> IsNoMemory(attempts[k])
    ensures r.Returned? ==>
              && 1 <= r.used <= |attempts|
              && (forall k :: 0 <= k < r.used - 1 ==> IsNoMemory(attempts[k]))
              && !IsNoMemory(attempts[r.used - 1])
    ensures r.Returned? ==> (r.value == len <==> attempts[r.used - 1].ret == len)
    ensures r.Returned? ==> r.value == len || r.value == -1
  {
    if |attempts| == 0 then StillRetrying
    else if attempts[0].ret == len then Returned(len, 1)
    else if IsNoMemory(attempts[0]) then
      match SendWithRetry(len, attempts[1..])
      case StillRetrying => StillRetrying
      case Returned(v, u) => Returned(v, u + 1)
    else Returned(-1, 1)
  }

  /** Only the first attempt that is not an ENOMEM failure decides the outcome. */
  lemma {:induction false} NoMemoryPrefixIsTransparent(len: nat, waits: seq<Attempt>, a: Attempt, rest: seq<Attempt>)
    requires forall k :: 0 <= k < |waits| ==> IsNoMemory(waits[k])
    requires !IsNoMemory(a) || a.ret == len
    ensures SendWithRetry(len, waits + [a] + rest) == Returned(if a.ret == len then len else -1, |waits| + 1)
  {
    if |waits| > 0 {
      assert (waits + [a] + rest)[1..] == waits[1..] + [a] + rest;
      NoMemoryPrefixIsTransparent(len, waits[1..], a, rest);
    }
  }

  /** The senders' test `ret < 0`, negated: the retry loop returned a non-negative count. */
  predicate Delivered(o: Outcome)
  {
    o.Returned? && o.value >= 0
  }

  /** A chunk is delivered exactly when its retry loop returned after a full send. */
  lemma DeliveredIsFullSend(len: nat, attempts: seq<Attempt>)
    ensures var o := SendWithRetry(len, attempts);
      Delivered(o) <==> o.Returned? && attempts[o.used - 1].ret == len
  {
  }

  /**
   * The retry loop of chunk `i`, of `len` bytes, where `tries[i]` lists the
   * `sendto` results that loop sees; a chunk past the end of `tries` sees
   * none and is still being retried.
   */
  function ChunkOutcome(len: nat, tries: seq<seq<Attempt>>, i: nat): Outcome
  {
    if i < |tries| then SendWithRetry(len, tries[i]) else StillRetrying
  }

  /** The first chunk, of the lengths `lens`, that its retry loop did not deliver, or `|lens|` when all were. */
  function FirstUndelivered(lens: seq<nat>, tries: seq<seq<Attempt>>, from: nat): (r: nat)
    requires from <= |lens|
    requires forall k :: 0 <= k < from ==> Delivered(ChunkOutcome(lens[k], tries, k))
    ensures from <= r <= |lens|
    ensures forall k :: 0 <= k < r ==> Delivered(ChunkOutcome(lens[k], tries, k))
    ensures r < |lens| ==> !Delivered(ChunkOutcome(lens[r], tries, r))
    decreases |lens| - from
  {
    if from == |lens| || !Delivered(ChunkOutcome(lens[from], tries, from)) then from
    else FirstUndelivered(lens, tries, from + 1)
  }

  /** The first undelivered chunk is the only index with every chunk before it delivered and itself not. */
  lemma FirstUndeliveredIs(lens: seq<nat>, tries: seq<seq<Attempt>>, i: nat)
    requires i <= |lens|
    requires forall k :: 0 <= k < i ==> Delivered(ChunkOutcome(lens[k], tries, k))
    requires i < |lens| ==> !Delivered(ChunkOutcome(lens[i], tries, i))
    ensures FirstUndelivered(lens, tries, 0) == i
  {
    var r := FirstUndelivered(lens, tries, 0);
  }
}

=== FILE: sensor_stream.dfy ===
/**
 * The current sensor read over HTTP (`backend/current/communication.py`):
 * a streamed response of server-sent-event lines, of which only the
 * `data: ` lines carry a JSON value. The response is held as an option
 * (`self.response`), the outcome of a `requests.get` attempt is a
 * parameter, and the JSON parser is a parameter answering None where
 * `json.loads` raises.
 */
module SensorStream {
  import opened Common

  const PREFIX: string := "data: "

  /**
   * `open_connection`: a held response is kept; otherwise the attempt's
   * response is held, or None when the request or its status check raised.
   */
  function OpenConnection<R>(response: Option<R>, attempt: Option<R>): (r: Option<R>)
    ensures response.Some? ==> r == response
    ensures response.None? ==> r == attempt
  {
    if response.Some? then response else attempt
  }

  /** Once a response is held, further calls change nothing, whatever their attempts would have given. */
  lemma OpenKeepsHeld<R>(response: Option<R>, a: Option<R>, b: Option<R>)
    requires OpenConnection(response, a).Some?
    ensures OpenConnection(OpenConnection(response, a), b) == OpenConnection(response, a)
  {
  }

  /** The value one stream line yields: only a `data: ` line whose remainder parses. */
  function LineValue<V>(line: string, parse: string -> Option<V>): (r: Option<V>)
    ensures r.Some? ==> StartsWith(line, PREFIX) && parse(line[|PREFIX|..]) == r
    ensures StartsWith(line, PREFIX) ==> r == parse(line[|PREFIX|..])
    ensures !StartsWith(line, PREFIX) ==> r.None?
  {
    if |line| > 0 && StartsWith(line, PREFIX) then parse(line[6..]) else None
  }

  /** The values a run of lines yields, in order; other lines and malformed JSON are skipped. */
  function Values<V>(lines: seq<string>, parse: string -> Option<V>): (vs: seq<V>)
    ensures |vs| <= |lines|
    decreases |lines|
  {
    if |lines| == 0 then []
    else
      var rest := Values(lines[1..], parse);
      match LineValue(lines[0], parse)
      case Some(v) => [v] + rest
      case None => rest
  }

  lemma {:induction false} ValuesAppend<V>(a: seq<string>, b: seq<string>, parse: string -> Option<V>)
    ensures Values(a + b, parse) == Values(a, parse) + Values(b, parse)
    decreases |a|
  {
    if |a| > 0 {
      assert (a + b)[0] == a[0] && (a + b)[1..] == a[1..] + b;
      ValuesAppend(a[1..], b, parse);
    } else {
      assert a + b == b;
    }
  }

  /** The event lines a sensor sends for a run of values. */
  function Framed<V>(vs: seq<V>, encode: V -> string): (lines: seq<string>)
    ensures |lines| == |vs|
    ensures forall k :: 0 <= k < |vs| ==> lines[k] == PREFIX + encode(vs[k])
  {
    if |vs| == 0 then [] else [PREFIX + encode(vs[0])] + Framed(vs[1..], encode)
  }

  /** Round trip: framing values with an encoder the parser inverts yields exactly those values. */
  lemma {:induction false} FramedRoundTrip<V>(vs: seq<V>, encode: V -> string, parse: string -> Option<V>)
    requires forall v :: parse(encode(v)) == Some(v)
    ensures Values(Framed(vs, encode), parse) == vs
    decreases |vs|
  {
    if |vs| > 0 {
      var lines := Framed(vs, encode);
      assert lines[0] == PREFIX + encode(vs[0]);
      assert lines[1..] == Framed(vs[1..], encode);
      PrefixedLine(encode(vs[0]), parse);
      FramedRoundTrip(vs[1..], encode, parse);
    }
  }

  /** A `data: ` line yields what the parser makes of its remainder. */
  lemma PrefixedLine<V>(text: string, parse: string -> Option<V>)
    ensures LineValue(PREFIX + text, parse) == parse(text)
  {
    var line := PREFIX + text;
    assert line[..|PREFIX|] == PREFIX && line[|PREFIX|..] == text;
  }

  /** Lines that do not start with the prefix (comments, `event:` fields, blank keep-alives) yield nothing. */
  lemma {:induction false} OtherLinesYieldNothing<V>(lines: seq<string>, parse: string -> Option<V>)
    requires forall k :: 0 <= k < |lines| ==> !StartsWith(lines[k], PREFIX)
    ensures Values(lines, parse) == []
    decreases |lines|
  {
    if |lines| > 0 {
      assert !StartsWith(lines[0], PREFIX);
      assert forall k :: 0 <= k < |lines| - 1 ==> lines[1..][k] == lines[k + 1];
      OtherLinesYieldNothing(lines[1..], parse);
    }
  }

  /**
   * One life of a response: the lines it delivers before the stream raises,
   * and whether the reopening request that follows succeeds. A stream that
   * ends cleanly raises too, on the next `iter_lines` of the consumed
   * response, so every life ends the same way.
   */
  datatype Life = Life(lines: seq<string>, reopened: bool)

  function Lift<V>(vs: seq<V>): (r: seq<Option<V>>)
    ensures |r| == |vs| && forall k :: 0 <= k < |vs| ==> r[k] == Some(vs[k])
  {
    if |vs| == 0 then [] else [Some(vs[0])] + Lift(vs[1..])
  }

  /**
   * One life in `read_data`: with a response held, its values are yielded;
   * without one, the first attribute access raises at once and nothing is
   * read. Either way the response is dropped, reopened, and one None yielded.
   */
  function LifeStep<V>(held: bool, life: Life, parse: string -> Option<V>): (r: (bool, seq<Option<V>>))
    ensures r.0 == life.reopened
    ensures held ==> r.1 == Lift(Values(life.lines, parse)) + [None]
    ensures !held ==> r.1 == [None]
  {
    (life.reopened, (if held then Lift(Values(life.lines, parse)) else []) + [None])
  }

  /** The generator over a run of lives: whether a response is held at the end, and everything yielded. */
  function Read<V>(held: bool, lives: seq<Life>, parse: string -> Option<V>): (r: (bool, seq<Option<V>>))
    decreases |lives|
  {
    if |lives| == 0 then (held, [])
    else
      var (h, out) := Read(held, lives[..|lives| - 1], parse);
      var (h', more) := LifeStep(h, lives[|lives| - 1], parse);
      (h', out + more)
  }

  function CountNone<V>(out: seq<Option<V>>): nat
    decreases |out|
  {
    if |out| == 0 then 0 else CountNone(out[..|out| - 1]) + (if out[|out| - 1].None? then 1 else 0)
  }

  lemma {:induction false} CountNoneAppend<V>(a: seq<Option<V>>, b: seq<Option<V>>)
    ensures CountNone(a + b) == CountNone(a) + CountNone(b)
    decreases |b|
  {
    if |b| == 0 {
      assert a + b == a;
    } else {
      assert (a + b)[..|a + b| - 1] == a + b[..|b| - 1];
      CountNoneAppend(a, b[..|b| - 1]);
    }
  }

  lemma {:induction false} LiftHasNoNone<V>(vs: seq<V>)
    ensures CountNone(Lift(vs)) == 0
    decreases |vs|
  {
    if |vs| > 0 {
      var l := Lift(vs);
      assert l[..|l| - 1] == Lift(vs[..|vs| - 1]);
      LiftHasNoNone(vs[..|vs| - 1]);
    }
  }

  /**
   * Each failure of the stream yields exactly one None; values are never
   * None. A `data: null` line parses to Python's None, which the generator
   * yields bare, just like a failure; here it is a parsed value, so the
   * count matches the source only for a sensor that never sends JSON null.
   */
  lemma {:induction false} OneNonePerFailure<V>(held: bool, lives: seq<Life>, parse: string -> Option<V>)
    ensures CountNone(Read(held, lives, parse).1) == |lives|
    decreases |lives|
  {
    if |lives| > 0 {
      var n := |lives|;
      OneNonePerFailure(held, lives[..n - 1], parse);
      var (h, out) := Read(held, lives[..n - 1], parse);
      var more := LifeStep(h, lives[n - 1], parse).1;
      CountNoneAppend(out, more);
      if h {
        LiftHasNoNone(Values(lives[n - 1].lines, parse));
        CountNoneAppend(Lift(Values(lives[n - 1].lines, parse)), [None]);
      } else {
        var empty: seq<Option<V>> := [];
        assert more == empty + [None];
      }
    }
  }

  /** All the lines of the lives read with a response held, when every reopening succeeds. */
  function AllLines(lives: seq<Life>): seq<string>
    decreases |lives|
  {
    if |lives| == 0 then [] else AllLines(lives[..|lives| - 1]) + lives[|lives| - 1].lines
  }

  predicate Reopens(lives: seq<Life>)
  {
    forall k :: 0 <= k < |lives| ==> lives[k].reopened
  }

  /**
   * With a response held at the start and every reopening successful, no
   * line is lost: the values yielded, Nones aside, are those of all the
   * lines the sensor sent.
   */
  lemma {:induction false} NoLineLost<V>(lives: seq<Life>, parse: string -> Option<V>)
    requires Reopens(lives)
    ensures Read(true, lives, parse).0
    ensures Somes(Read(true, lives, parse).1) == Values(AllLines(lives), parse)
    decreases |lives|
  {
    if |lives| > 0 {
      var n := |lives|;
      assert Reopens(lives[..n - 1]) by {
        assert forall k :: 0 <= k < n - 1 ==> lives[..n - 1][k] == lives[k];
      }
      NoLineLost(lives[..n - 1], parse);
      var out := Read(true, lives[..n - 1], parse).1;
      var vs := Values(lives[n - 1].lines, parse);
      SomesAppend(out, Lift(vs) + [None]);
      SomesAppend(Lift(vs), [None]);
      SomesOfLift(vs);
      ValuesAppend(AllLines(lives[..n - 1]), lives[n - 1].lines, parse);
      var none: seq<Option<V>> := [None];
      assert Somes(none) == [];
    }
  }

  /** The values of an output, Nones dropped. */
  function Somes<V>(out: seq<Option<V>>): seq<V>
    decreases |out|
  {
    if |out| == 0 then []
    else Somes(out[..|out| - 1]) + (match out[|out| - 1] case Some(v) => [v] case None => [])
  }

  lemma {:induction false} SomesAppend<V>(a: seq<Option<V>>, b: seq<Option<V>>)
    ensures Somes(a + b) == Somes(a) + Somes(b)
    decreases |b|
  {
    if |b| == 0 {
      assert a + b == a;
    } else {
      assert (a + b)[..|a + b| - 1] == a + b[..|b| - 1];
      SomesAppend(a, b[..|b| - 1]);
    }
  }

  lemma {:induction false} SomesOfLift<V>(vs: seq<V>)
    ensures Somes(Lift(vs)) == vs
    decreases |vs|
  {
    if |vs| > 0 {
      var l := Lift(vs);
      assert l[..|l| - 1] == Lift(vs[..|vs| - 1]);
      SomesOfLift(vs[..|vs| - 1]);
    }
  }

  /** Without a response and with every reopening failing, the generator yields only Nones, one per attempt. */
  lemma {:induction false} NeverConnectedYieldsNones<V>(lives: seq<Life>, parse: string -> Option<V>)
    requires forall k :: 0 <= k < |lives| ==> !lives[k].reopened
    ensures Read(false, lives, parse) == (false, seq<Option<V>>(|lives|, _ => None))
    decreases |lives|
  {
    if |lives| > 0 {
      var n := |lives|;
      assert forall k :: 0 <= k < n - 1 ==> lives[..n - 1][k] == lives[k];
      NeverConnectedYieldsNones(lives[..n - 1], parse);
      assert !lives[n - 1].reopened;
      assert seq<Option<V>>(n - 1, _ => None) + [None] == seq<Option<V>>(n, _ => None);
    } else {
      assert seq<Option<V>>(0, _ => None) == [];
    }
  }
}

=== FILE: serial_framing.dfy ===
/**
 * The serial reader of `backend/current/communication_ser.py`. Text read from
 * the current sensor's serial port accumulates in a buffer; every complete
 * line is cut off at its newline, stripped, and parsed as JSON. The JSON
 * parser is a parameter that answers None where `json.loads` raises; the
 * port itself is a sequence of events, each either a decoded chunk of text
 * or a failure (the port could not be opened, read or decoded).
 */
module SerialFraming {
  import opened Common

  /** Each line followed by its newline, in order. */
  function Joined(lines: seq<string>): string
  {
    if |lines| == 0 then "" else lines[0] + "\n" + Joined(lines[1..])
  }

  /** No line holds a newline of its own. */
  predicate LinesOnly(lines: seq<string>)
  {
    forall k :: 0 <= k < |lines| ==> '\n' !in lines[k]
  }

  /**
   * The inner `while '\n' in buffer` loop: the text before the first newline
   * is taken as a line and the rest stays, until no newline is left.
   */
  function Drain(buffer: string): (r: (seq<string>, string))
    ensures Joined(r.0) + r.1 == buffer
    ensures LinesOnly(r.0) && '\n' !in r.1
    decreases |buffer|
  {
    if '\n' !in buffer then ([], buffer)
    else
      var i := IndexOf(buffer, '\n');
      var tail := Drain(buffer[i + 1..]);
      DrainCase(buffer, i, tail.0, tail.1);
      ([buffer[..i]] + tail.0, tail.1)
  }

  lemma DrainCase(buffer: string, i: nat, ls: seq<string>, rest: string)
    requires i < |buffer| && buffer[i] == '\n' && '\n' !in buffer[..i]
    requires Joined(ls) + rest == buffer[i + 1..] && LinesOnly(ls)
    ensures Joined([buffer[..i]] + ls) + rest == buffer && LinesOnly([buffer[..i]] + ls)
  {
    Cons(buffer[..i], ls);
    assert buffer == buffer[..i] + "\n" + buffer[i + 1..];
  }

  lemma Cons(line: string, ls: seq<string>)
    requires '\n' !in line && LinesOnly(ls)
    ensures Joined([line] + ls) == line + "\n" + Joined(ls)
    ensures LinesOnly([line] + ls)
  {
    assert ([line] + ls)[1..] == ls;
    assert forall k :: 1 <= k < |[line] + ls| ==> ([line] + ls)[k] == ls[k - 1];
  }

  lemma {:induction false} JoinedAppend(a: seq<string>, b: seq<string>)
    ensures Joined(a + b) == Joined(a) + Joined(b)
    decreases |a|
  {
    if |a| > 0 {
      assert (a + b)[0] == a[0] && (a + b)[1..] == a[1..] + b;
      JoinedAppend(a[1..], b);
      calc {
        Joined(a + b);
        a[0] + "\n" + Joined(a[1..] + b);
        a[0] + "\n" + (Joined(a[1..]) + Joined(b));
        (a[0] + "\n" + Joined(a[1..])) + Joined(b);
        Joined(a) + Joined(b);
      }
    } else {
      assert a + b == b;
    }
  }

  /** A text has only one split into newline-terminated lines and a newline-free tail. */
  lemma {:induction false} FramingUnique(ls1: seq<string>, r1: string, ls2: seq<string>, r2: string)
    requires Joined(ls1) + r1 == Joined(ls2) + r2
    requires LinesOnly(ls1) && LinesOnly(ls2) && '\n' !in r1 && '\n' !in r2
    ensures ls1 == ls2 && r1 == r2
    decreases |ls1|
  {
    var s := Joined(ls1) + r1;
    if |ls1| > 0 {
      ContainsNewline(ls1, r1);
    }
    if |ls2| > 0 {
      ContainsNewline(ls2, r2);
    }
    if |ls1| == 0 || |ls2| == 0 {
      assert ls1 == [] == ls2;
      assert Joined(ls1) == "" == Joined(ls2);
      assert s == r1 && s == r2;
    } else {
      var a, b := ls1[0], ls2[0];
      assert s == a + "\n" + (Joined(ls1[1..]) + r1);
      assert s == b + "\n" + (Joined(ls2[1..]) + r2);
      FirstAfter(a, '\n', Joined(ls1[1..]) + r1);
      FirstAfter(b, '\n', Joined(ls2[1..]) + r2);
      assert a == s[..|a|] == b;
      assert Joined(ls1[1..]) + r1 == s[|a| + 1..] == Joined(ls2[1..]) + r2;
      FramingUnique(ls1[1..], r1, ls2[1..], r2);
      assert ls1 == [a] + ls1[1..] && ls2 == [b] + ls2[1..];
    }
  }

  lemma ContainsNewline(ls: seq<string>, rest: string)
    requires |ls| > 0
    ensures '\n' in Joined(ls) + rest
  {
    assert (Joined(ls) + rest)[|ls[0]|] == '\n';
  }

  /** `Drain` is the framing: any split into complete lines and a newline-free tail is the one it finds. */
  lemma DrainIsTheFraming(lines: seq<string>, rest: string)
    requires LinesOnly(lines) && '\n' !in rest
    ensures Drain(Joined(lines) + rest) == (lines, rest)
  {
    var (ls, r) := Drain(Joined(lines) + rest);
    FramingUnique(ls, r, lines, rest);
  }

  /** A line yields nothing when it strips to the empty string. */
  predicate Blank(line: string)
  {
    |Strip(line)| == 0
  }

  /**
   * The yields for a batch of complete lines: blank lines yield nothing; any
   * other line yields its parse, which is None on a decode error.
   */
  function Yields<V>(lines: seq<string>, parse: string -> Option<V>): (out: seq<Option<V>>)
    ensures |out| <= |lines|
    decreases |lines|
  {
    if |lines| == 0 then []
    else YieldOf(lines[0], parse) + Yields(lines[1..], parse)
  }

  /** Lines that are all blank yield nothing. */
  lemma {:induction false} BlankLinesYieldNothing<V>(lines: seq<string>, parse: string -> Option<V>)
    requires forall k :: 0 <= k < |lines| ==> Blank(lines[k])
    ensures Yields(lines, parse) == []
    decreases |lines|
  {
    if |lines| > 0 {
      assert Blank(lines[0]);
      assert forall k :: 0 <= k < |lines| - 1 ==> lines[1..][k] == lines[k + 1];
      BlankLinesYieldNothing(lines[1..], parse);
    }
  }

  /** No line is blank. */
  predicate NoneBlank(lines: seq<string>)
  {
    forall k :: 0 <= k < |lines| ==> !Blank(lines[k])
  }

  /** `out` holds one parse per line, of the stripped line, in order. */
  ghost predicate ParsedEach<V>(lines: seq<string>, parse: string -> Option<V>, out: seq<Option<V>>)
  {
    |out| == |lines| && forall k :: 0 <= k < |lines| ==> out[k] == parse(Strip(lines[k]))
  }

  /** Lines none of which is blank yield one parse each, of the stripped line, in order. */
  lemma {:induction false} EachLineYieldsItsParse<V>(lines: seq<string>, parse: string -> Option<V>)
    requires NoneBlank(lines)
    ensures ParsedEach(lines, parse, Yields(lines, parse))
    decreases |lines|
  {
    if |lines| > 0 {
      var tail := lines[1..];
      assert !Blank(lines[0]);
      assert NoneBlank(tail) by {
        forall k | 0 <= k < |tail| ensures !Blank(tail[k]) {
          assert tail[k] == lines[k + 1];
        }
      }
      EachLineYieldsItsParse(tail, parse);
      var out, rest := Yields(lines, parse), Yields(tail, parse);
      assert out == [parse(Strip(lines[0]))] + rest;
      forall k | 1 <= k < |lines|
        ensures out[k] == parse(Strip(lines[k]))
      {
        assert out[k] == rest[k - 1] && tail[k - 1] == lines[k];
      }
    }
  }

  /** The yield of one complete line. */
  function YieldOf<V>(line: string, parse: string -> Option<V>): (out: seq<Option<V>>)
    ensures Blank(line) ==> out == []
    ensures !Blank(line) ==> out == [parse(Strip(line))]
  {
    var t := Strip(line);
    if |t| > 0 then [parse(t)] else []
  }

  lemma {:induction false} YieldsAppend<V>(a: seq<string>, b: seq<string>, parse: string -> Option<V>)
    ensures Yields(a + b, parse) == Yields(a, parse) + Yields(b, parse)
    decreases |a|
  {
    if |a| > 0 {
      assert (a + b)[0] == a[0] && (a + b)[1..] == a[1..] + b;
      YieldsAppend(a[1..], b, parse);
      var h, ta, tb := YieldOf(a[0], parse), Yields(a[1..], parse), Yields(b, parse);
      assert Yields(a + b, parse) == h + (ta + tb);
      assert Yields(a, parse) == h + ta;
      AppendAssoc(h, ta, tb);
    } else {
      assert a + b == b;
    }
  }

  /**
   * What one iteration of the reader sees: a chunk that decoded, or a
   * failure. A failure is the port failing or a read whose bytes do not
   * decode as UTF-8 on their own (one that splits a multibyte character,
   * say): the handler yields None and those bytes are lost.
   */
  datatype Event = Data(text: string) | Failure

  /**
   * One iteration: a chunk is appended and the complete lines are drained
   * and yielded; a failure yields a single None and, the buffer being
   * declared outside the reconnect loop, leaves the buffer as it was.
   */
  function Step<V>(buffer: string, e: Event, parse: string -> Option<V>): (r: (string, seq<Option<V>>))
    ensures e.Failure? ==> r == (buffer, [None])
    ensures e.Data? ==> '\n' !in r.0 && |r.1| <= |buffer + e.text|
  {
    match e
    case Failure => (buffer, [None])
    case Data(text) =>
      var (ls, rest) := Drain(buffer + text);
      assert |ls| <= |Joined(ls)| by {
        LinesLength(ls);
      }
      (rest, Yields(ls, parse))
  }

  lemma {:induction false} LinesLength(ls: seq<string>)
    ensures |ls| <= |Joined(ls)|
    decreases |ls|
  {
    if |ls| > 0 {
      LinesLength(ls[1..]);
    }
  }

  /** The reader over a sequence of events: the final buffer and everything yielded. */
  function Session<V>(buffer: string, es: seq<Event>, parse: string -> Option<V>): (string, seq<Option<V>>)
    decreases |es|
  {
    if |es| == 0 then (buffer, [])
    else
      var (b, out) := Session(buffer, es[..|es| - 1], parse);
      var (b', more) := Step(b, es[|es| - 1], parse);
      (b', out + more)
  }

  /** All the text the port delivered, in order. */
  function DataOf(es: seq<Event>): string
    decreases |es|
  {
    if |es| == 0 then ""
    else DataOf(es[..|es| - 1]) + (match es[|es| - 1] case Data(t) => t case Failure => "")
  }

  function Failures(es: seq<Event>): nat
    decreases |es|
  {
    if |es| == 0 then 0
    else Failures(es[..|es| - 1]) + (if es[|es| - 1].Failure? then 1 else 0)
  }

  /** Draining a text extended by a chunk: the lines already complete, then those the chunk completes. */
  lemma DrainAppend(x: string, t: string)
    ensures Drain(x + t).0 == Drain(x).0 + Drain(Drain(x).1 + t).0
    ensures Drain(x + t).1 == Drain(Drain(x).1 + t).1
  {
    var first := Drain(x);
    var second := Drain(first.1 + t);
    JoinedAppend(first.0, second.0);
    LinesOnlyAppend(first.0, second.0);
    AppendAssoc(Joined(first.0), first.1, t);
    AppendAssoc(Joined(first.0), Joined(second.0), second.1);
    assert x + t == Joined(first.0 + second.0) + second.1;
    DrainIsTheFraming(first.0 + second.0, second.1);
  }

  lemma LinesOnlyAppend(a: seq<string>, b: seq<string>)
    requires LinesOnly(a) && LinesOnly(b)
    ensures LinesOnly(a + b)
  {
    assert forall k :: 0 <= k < |a| + |b| ==>
      (a + b)[k] == if k < |a| then a[k] else b[k - |a|];
  }

  /** The reader after one more event, in terms of the reader before it. */
  lemma SessionSnoc<V>(buffer: string, es: seq<Event>, e: Event, parse: string -> Option<V>)
    ensures var prev := Session(buffer, es, parse);
      Session(buffer, es + [e], parse) == (Step(prev.0, e, parse).0, prev.1 + Step(prev.0, e, parse).1)
    ensures e.Data? ==> var prev := Session(buffer, es, parse);
      && Session(buffer, es + [e], parse).0 == Drain(prev.0 + e.text).1
      && Session(buffer, es + [e], parse).1 == prev.1 + Yields(Drain(prev.0 + e.text).0, parse)
    ensures DataOf(es + [e]) == DataOf(es) + (if e.Data? then e.text else "")
    ensures Failures(es + [e]) == Failures(es) + (if e.Failure? then 1 else 0)
  {
    assert (es + [e])[..|es|] == es;
  }

  /** A chunk keeps the buffer the tail of the text delivered. */
  lemma TailData<V>(buffer: string, es: seq<Event>, t: string, parse: string -> Option<V>)
    requires Session(buffer, es, parse).0 == Drain(buffer + DataOf(es)).1
    ensures Session(buffer, es + [Data(t)], parse).0 == Drain(buffer + DataOf(es + [Data(t)])).1
  {
    SessionSnoc(buffer, es, Data(t), parse);
    AppendAssoc(buffer, DataOf(es), t);
    DrainAppend(buffer + DataOf(es), t);
  }

  /** A failure keeps the buffer and the text delivered. */
  lemma TailFailure<V>(buffer: string, es: seq<Event>, parse: string -> Option<V>)
    ensures Session(buffer, es + [Failure], parse).0 == Session(buffer, es, parse).0
    ensures DataOf(es + [Failure]) == DataOf(es)
    ensures Session(buffer, es + [Failure], parse).1 == Session(buffer, es, parse).1 + [None]
  {
    SessionSnoc(buffer, es, Failure, parse);
    assert DataOf(es) + "" == DataOf(es);
  }

  /**
   * Failures lose no text: the buffer the reader keeps is the newline-free
   * tail of all the text delivered so far. The reader starts from the empty
   * buffer, and every buffer it keeps between iterations is free of newlines.
   */
  lemma {:induction false} SessionKeepsTail<V>(buffer: string, es: seq<Event>, parse: string -> Option<V>)
    requires '\n' !in buffer
    ensures Session(buffer, es, parse).0 == Drain(buffer + DataOf(es)).1
    decreases |es|
  {
    if |es| > 0 {
      var n := |es|;
      var es', e := es[..n - 1], es[n - 1];
      assert es == es' + [e];
      SessionKeepsTail(buffer, es', parse);
      if e.Data? {
        TailData(buffer, es', e.text, parse);
      } else {
        TailFailure(buffer, es', parse);
      }
    } else {
      assert buffer + DataOf(es) == buffer;
    }
  }

  /** A chunk adds the yields of the lines it completes. */
  lemma YieldData<V>(buffer: string, es: seq<Event>, t: string, parse: string -> Option<V>)
    requires Session(buffer, es, parse).0 == Drain(buffer + DataOf(es)).1
    ensures var before := Session(buffer, es, parse).1;
      var after := Session(buffer, es + [Data(t)], parse).1;
      && |before| <= |after|
      && after[..|before|] == before
      && Yields(Drain(buffer + DataOf(es + [Data(t)])).0, parse) == Yields(Drain(buffer + DataOf(es)).0, parse) + after[|before|..]
  {
    SessionSnoc(buffer, es, Data(t), parse);
    var x := buffer + DataOf(es);
    var prev := Session(buffer, es, parse);
    AppendAssoc(buffer, DataOf(es), t);
    DrainAppend(x, t);
    YieldsAppend(Drain(x).0, Drain(prev.0 + t).0, parse);
    var after := Session(buffer, es + [Data(t)], parse).1;
    assert after == prev.1 + Yields(Drain(prev.0 + t).0, parse);
    assert after[|prev.1|..] == Yields(Drain(prev.0 + t).0, parse);
  }

  /**
   * How the text arrived in chunks does not matter: the values yielded are
   * those of the complete lines of all the text delivered, and every failure
   * adds exactly one None.
   */
  lemma {:induction false} SessionIsChunkingFree<V>(buffer: string, es: seq<Event>, parse: string -> Option<V>)
    requires '\n' !in buffer
    ensures |Session(buffer, es, parse).1| == |Yields(Drain(buffer + DataOf(es)).0, parse)| + Failures(es)
    ensures Failures(es) == 0 ==> Session(buffer, es, parse).1 == Yields(Drain(buffer + DataOf(es)).0, parse)
    decreases |es|
  {
    if |es| > 0 {
      var n := |es|;
      var es', e := es[..n - 1], es[n - 1];
      assert es == es' + [e];
      SessionIsChunkingFree(buffer, es', parse);
      SessionKeepsTail(buffer, es', parse);
      if e.Data? {
        YieldData(buffer, es', e.text, parse);
        var before := Session(buffer, es', parse).1;
        var after := Session(buffer, es, parse).1;
        assert after == before + after[|before|..];
      } else {
        TailFailure(buffer, es', parse);
      }
    } else {
      assert buffer + DataOf(es) == buffer;
    }
  }
}

=== FILE: signin_api.dfy ===
/**
 * The sign-in endpoint and the status push of the older application module
 * (`backend/api.py`). A sign-in photo yields, for each face found, its
 * distances to the known encodings; only the first face counts. A face is
 * recognised when its least distance is below 0.4, and when the hard-hat
 * model is loaded the photo must also show a box named `Hardhat`. Every
 * path that returns writes exactly one sign-in record whose result is the
 * message returned. Saving the upload, face encoding and the hat model's
 * inference are inputs.
 */
module SigninApi {
  import opened Common
  import FaceSignin

  const THRESHOLD: real := 0.4
  const HARDHAT: string := "Hardhat"

  const EMPTY_LIBRARY: string := "人脸库为空，无法识别"
  const NO_FACE: string := "未检测到人脸"
  const NO_HAT: string := "签到失败，请携带安全设备上岗"
  const UNKNOWN_FACE: string := "未识别到已注册人脸"

  function Welcome(name: string): string
  {
    "欢迎，" + name + "！签到成功"
  }

  /** The hat model: its `names` attribute when it has one, and the class ids of every box of every result, in order. */
  datatype HatModel = HatModel(names: Option<map<int, string>>, classes: seq<int>)

  /** `KeyError` from looking up a class id the model has no name for. */
  datatype Failure = UnnamedClass(cls: int)

  /**
   * `detect_hat_with_yolo`: scans the boxes in order; true at the first box
   * named `Hardhat`. Without a `names` attribute no box can match. A class id
   * missing from `names` raises before any later box is looked at.
   */
  function DetectHat(classes: seq<int>, names: Option<map<int, string>>): (r: Result<bool, Failure>)
    ensures names.None? ==> r == Ok(false)
    ensures r == Ok(true) ==>
              names.Some? && exists k :: 0 <= k < |classes| && classes[k] in names.value && names.value[classes[k]] == HARDHAT
    ensures r.Err? ==> names.Some? && r.error.cls in classes && r.error.cls !in names.value
    ensures names.Some? && (forall k :: 0 <= k < |classes| ==> classes[k] in names.value) ==>
              && r.Ok?
              && (r.value <==> exists k :: 0 <= k < |classes| && names.value[classes[k]] == HARDHAT)
  {
    match names
    case None => Ok(false)
    case Some(m) =>
      if |classes| == 0 then Ok(false)
      else if classes[0] !in m then Err(UnnamedClass(classes[0]))
      else if m[classes[0]] == HARDHAT then Ok(true)
      else
        var rest := DetectHat(classes[1..], names);
        assert forall k :: 1 <= k < |classes| ==> classes[k] == classes[1..][k - 1];
        rest
  }

  /** The response body: success flag, message, and the optional name and distance. */
  datatype Response = Response(success: bool, message: string, name: Option<string>, distance: Option<real>)

  /** A sign-in record as `create_signin_record` stores it. */
  datatype Record = Record(name: Option<string>, imagePath: string, result: string)

  /** The names of the known faces and, per face found in the photo, its distances to their encodings. */
  predicate Aligned(names: seq<string>, faces: seq<seq<real>>)
  {
    forall k :: 0 <= k < |faces| ==> |faces[k]| == |names|
  }

  /** The recognised name, if the first face is close enough to a known one. */
  function Recognised(names: seq<string>, faces: seq<seq<real>>): (r: Option<string>)
    requires Aligned(names, faces)
    ensures r.Some? <==> |names| > 0 && |faces| > 0 && exists k :: 0 <= k < |names| && faces[0][k] < THRESHOLD
    ensures r.Some? ==> r.value == names[FaceSignin.ArgMin(faces[0])]
  {
    if |names| == 0 || |faces| == 0 then None
    else
      var i := FaceSignin.ArgMin(faces[0]);
      if faces[0][i] < THRESHOLD then Some(names[i])
      else
        assert forall k :: 0 <= k < |names| ==> faces[0][i] <= faces[0][k];
        None
  }

  /**
   * `face_signin`: the response and the one record written, or the
   * exception the hat check raised (then nothing is written).
   */
  function Signin(names: seq<string>, faces: seq<seq<real>>, hat: Option<HatModel>, path: string): (r: Result<(Response, Record), Failure>)
    requires Aligned(names, faces)
    ensures r.Err? ==> Recognised(names, faces).Some? && hat.Some? && DetectHat(hat.value.classes, hat.value.names).Err?
    ensures r.Ok? ==> var (resp, rec) := r.value;
              && rec == Record(resp.name, path, resp.message)
              && (resp.success <==> Recognised(names, faces).Some? &&
                                    (hat.None? || DetectHat(hat.value.classes, hat.value.names) == Ok(true)))
              && (resp.name.Some? ==> resp.name == Recognised(names, faces))
              && (|names| == 0 ==> resp == Response(false, EMPTY_LIBRARY, None, None))
              && (|names| > 0 && |faces| == 0 ==> resp == Response(false, NO_FACE, None, None))
              && (|names| > 0 && |faces| > 0 ==> resp.distance == Some(faces[0][FaceSignin.ArgMin(faces[0])]))
              && (|names| > 0 && |faces| > 0 && Recognised(names, faces).None? ==> resp.message == UNKNOWN_FACE && resp.name.None?)
              && (resp.success ==> resp.name.Some? && resp.message == Welcome(resp.name.value))
              && (Recognised(names, faces).Some? && !resp.success ==> resp.message == NO_HAT && resp.name.Some?)
  {
    if |names| == 0 then
      var resp := Response(false, EMPTY_LIBRARY, None, None);
      Ok((resp, Record(None, path, resp.message)))
    else if |faces| == 0 then
      var resp := Response(false, NO_FACE, None, None);
      Ok((resp, Record(None, path, resp.message)))
    else
      var i := FaceSignin.ArgMin(faces[0]);
      var d := faces[0][i];
      if d < THRESHOLD then
        var name := names[i];
        var hatCheck := if hat.None? then Ok(true) else DetectHat(hat.value.classes, hat.value.names);
        match hatCheck
        case Err(e) => Err(e)
        case Ok(hasHat) =>
          var resp := if hasHat then Response(true, Welcome(name), Some(name), Some(d))
                      else Response(false, NO_HAT, Some(name), Some(d));
          Ok((resp, Record(Some(name), path, resp.message)))
      else
        var resp := Response(false, UNKNOWN_FACE, None, Some(d));
        Ok((resp, Record(None, path, resp.message)))
  }

  /**
   * Anyone the endpoint signs in, the stream detector also names the same
   * way: the endpoint's bound 0.4 is stricter than the detector's 0.5 and
   * both take the first least distance.
   */
  lemma SigninAgreesWithDetector(names: seq<string>, faces: seq<seq<real>>, f: FaceSignin.Face)
    requires Aligned(names, faces) && |faces| > 0 && f.distances == faces[0]
    requires Recognised(names, faces).Some?
    ensures FaceSignin.FaceBox(names, f).className == Recognised(names, faces).value
    ensures FaceSignin.FaceBox(names, f).confidence > 60.0
  {
  }

  /** A model without a `names` attribute never confirms a hat, so a recognised worker is refused. */
  lemma NamelessModelRefuses(names: seq<string>, faces: seq<seq<real>>, classes: seq<int>, path: string)
    requires Aligned(names, faces) && Recognised(names, faces).Some?
    ensures Signin(names, faces, Some(HatModel(None, classes)), path).Ok?
    ensures Signin(names, faces, Some(HatModel(None, classes)), path).value.0.message == NO_HAT
  {
  }

  /** Another connection's handler, running while a send is awaited: its socket joins the set or leaves it. */
  datatype Event<C> = Joins(c: C) | Leaves(c: C)

  /** A join adds the socket; a leave removes it only when it is there (`if websocket in connected_clients`). */
  function Apply<C>(clients: set<C>, e: Event<C>): set<C>
  {
    match e
    case Joins(c) => clients + {c}
    case Leaves(c) => clients - {c}
  }

  /**
   * Whether the event changes how many clients there are. Python's set
   * iterator checks the size at every step, so the loop's next step then
   * raises `RuntimeError: Set changed size during iteration`, even after the
   * last client. An event that does not resize the set leaves it as it was.
   */
  predicate Resizes<C>(clients: set<C>, e: Event<C>)
  {
    if e.Joins? then e.c !in clients else e.c in clients
  }

  /** `Resizes` is exactly a change in the number of clients; an event that does not resize changes nothing. */
  lemma ResizesChangesSize<C>(clients: set<C>, e: Event<C>)
    ensures Resizes(clients, e) <==> |Apply(clients, e)| != |clients|
    ensures !Resizes(clients, e) ==> Apply(clients, e) == clients
  {
    if e.c in clients {
      assert clients + {e.c} == clients;
      assert |clients - {e.c}| == |clients| - 1;
    } else {
      assert clients - {e.c} == clients;
      assert |clients + {e.c}| == |clients| + 1;
    }
  }

  /** An event, and the send of the pass (counting from 0) it runs during. */
  datatype Interleaving<C> = During(send: nat, event: Event<C>)

  /** The interleaving falls within the pass's sends and resizes the set, so the pass is cut short. */
  predicate Cuts<C>(clients: set<C>, during: Option<Interleaving<C>>)
  {
    during.Some? && during.value.send < |clients| && Resizes(clients, during.value.event)
  }

  /**
   * One pass of `push_status_updates`. With clients connected it first reads
   * the monitor's status; when that raises (`statusRaises`) the handler ends
   * the pass before anything is sent. Otherwise the clients are sent to one
   * by one, and the clients whose send raises are collected and removed only
   * after the loop. Another connection joining or leaving during a send
   * (`during`) makes the loop raise right after that send: the clients not
   * yet reached get nothing and the failed ones are not removed. Returns the
   * clients attempted, the clients left connected, and whether the pass
   * raised.
   */
  method PushPass<C>(clients: set<C>, failing: set<C>, statusRaises: bool, during: Option<Interleaving<C>>)
    returns (attempted: set<C>, remaining: set<C>, raised: bool)
    ensures raised <==> (if statusRaises then clients != {} else Cuts(clients, during))
    ensures statusRaises ==> attempted == {} && remaining == clients
    ensures !statusRaises && !Cuts(clients, during) ==> attempted == clients && remaining == clients - failing
    ensures !statusRaises && Cuts(clients, during) ==>
      && attempted <= clients && |attempted| == during.value.send + 1
      && remaining == Apply(clients, during.value.event)
  {
    if clients == {} || statusRaises {
      return {}, clients, clients != {};
    }
    raised := Cuts(clients, during);
    var stop := if raised then during.value.send + 1 else |clients|;
    var disconnected: set<C> := {};
    attempted := {};
    while |attempted| < stop
      invariant attempted <= clients && |attempted| <= stop
      invariant disconnected == attempted * failing
      decreases stop - |attempted|
    {
      Rest(clients, attempted);
      var c :| c in clients - attempted;
      attempted := attempted + {c};
      if c in failing {
        disconnected := disconnected + {c};
      }
    }
    if raised {
      remaining := Apply(clients, during.value.event);
    } else {
      Rest(clients, attempted);
      assert clients - attempted == {};
      assert attempted == clients;
      remaining := clients - disconnected;
    }
  }

  /** The clients not yet attempted number the rest. */
  lemma Rest<C>(clients: set<C>, attempted: set<C>)
    requires attempted <= clients
    ensures |clients - attempted| == |clients| - |attempted|
  {
    var d := clients - attempted;
    assert clients == attempted + d;
    assert attempted * d == {};
  }
}

=== FILE: test_data.dfy ===
/**
 * The working-session generator of `database/add_test_data.py`
 * (`populate_test_data`). The clock is a parameter (the local midnight of
 * today, as a Unix timestamp) and every `random.randint(a, b)` draws from a
 * pick: `a + pick % (b - a + 1)`, so each value in `[a, b]` is some pick's.
 * The database session is left out: the generator returns the rows it would
 * add, in the order it adds them.
 */
module TestData {
  import opened Common

  const WORK_START: int := 32400 // 9:00, in seconds after midnight
  const WORK_END: int := 61200   // 17:00
  const MAX_BREAK: int := 1800     // 30 minutes
  const MIN_DURATION: int := 1800  // 30 minutes
  const MAX_DURATION: int := 10800 // 3 hours

  /** One `WorkingSession` row as added. */
  datatype Row = Row(start: int, end: int, duration: int, url: string)

  /** `random.randint(a, b)`, drawn from a pick. */
  function RandInt(a: int, b: int, pick: nat): (v: int)
    requires a <= b
    ensures a <= v <= b
  {
    a + pick % (b - a + 1)
  }

  /** Every value of the range is drawn by some pick. */
  lemma RandIntReaches(a: int, b: int, v: int)
    requires a <= v <= b
    ensures RandInt(a, b, (v - a) as nat) == v
  {
  }

  /** The picks of one slot: the break before it and its duration. */
  datatype SlotPicks = SlotPicks(breakPick: nat, durationPick: nat)

  /** The picks of one day: how many slots, then each slot's picks (missing ones read as 0). */
  datatype DayPicks = DayPicks(countPick: nat, slots: seq<SlotPicks>)

  function SlotAt(slots: seq<SlotPicks>, k: nat): SlotPicks
  {
    if k < |slots| then slots[k] else SlotPicks(0, 0)
  }

  /** A row lies in the working window, lasts between 30 minutes and 3 hours, and its duration is end minus start. */
  predicate InWindow(r: Row, dayStart: int, dayEnd: int)
  {
    && dayStart <= r.start
    && r.end <= dayEnd
    && r.duration == r.end - r.start
    && MIN_DURATION <= r.duration <= MAX_DURATION
  }

  /** Each row ends before the next one starts. */
  predicate Ascending(rows: seq<Row>)
  {
    forall k :: 0 <= k < |rows| - 1 ==> rows[k].end <= rows[k + 1].start
  }

  /** Rows that all start at or after `last`, lie in the window up to `dayEnd`, carry the URL, and ascend. */
  predicate Placed(rows: seq<Row>, last: int, dayEnd: int, url: string)
  {
    && (forall j :: 0 <= j < |rows| ==> last <= rows[j].start && InWindow(rows[j], last, dayEnd) && rows[j].url == url)
    && Ascending(rows)
  }

  lemma PlacedCons(row: Row, rest: seq<Row>, last: int, dayEnd: int, url: string)
    requires InWindow(row, last, dayEnd) && row.url == url
    requires Placed(rest, row.end, dayEnd, url)
    ensures Placed([row] + rest, last, dayEnd, url)
  {
    var rows := [row] + rest;
    assert forall j :: 0 <= j < |rest| ==> rows[j + 1] == rest[j];
    forall j | 0 <= j < |rows| ensures last <= rows[j].start && InWindow(rows[j], last, dayEnd) {
      if j > 0 {
        assert rows[j] == rest[j - 1];
      }
    }
  }

  /**
   * One pass of the inner loop: the start is the last end plus a break of up
   * to 30 minutes; a start 30 minutes or less before the end of the window
   * skips the slot (None); otherwise the duration is drawn between 30 minutes
   * and the smaller of 3 hours and the time left.
   */
  function Slot(last: int, dayEnd: int, p: SlotPicks, url: string): (r: Option<Row>)
    ensures var possible := last + RandInt(0, MAX_BREAK, p.breakPick);
      && (r.None? <==> possible >= dayEnd - MIN_DURATION)
      && (r.Some? ==> r.value.start == possible && InWindow(r.value, last, dayEnd) && r.value.url == url)
  {
    var possible := last + RandInt(0, MAX_BREAK, p.breakPick);
    if possible >= dayEnd - MIN_DURATION then None
    else
      var maxDuration := Min(MAX_DURATION, dayEnd - possible);
      if maxDuration < MIN_DURATION then None
      else
        var duration := RandInt(MIN_DURATION, maxDuration, p.durationPick);
        Some(Row(possible, possible + duration, duration, url))
  }

  /** The loop from slot `k` on, `remaining` slots to go; a skipped slot keeps the last end. */
  function Fill(last: int, dayEnd: int, remaining: nat, slots: seq<SlotPicks>, k: nat, url: string): (rows: seq<Row>)
    ensures |rows| <= remaining
    ensures Placed(rows, last, dayEnd, url)
    decreases remaining
  {
    if remaining == 0 then []
    else
      match Slot(last, dayEnd, SlotAt(slots, k), url)
      case None => Fill(last, dayEnd, remaining - 1, slots, k + 1, url)
      case Some(row) =>
        var rest := Fill(row.end, dayEnd, remaining - 1, slots, k + 1, url);
        PlacedCons(row, rest, last, dayEnd, url);
        [row] + rest
  }

  /** The second guard never fires: a start that passed the first one leaves at least 30 minutes. */
  lemma SecondGuardIsDead(possible: int, dayEnd: int)
    requires possible < dayEnd - MIN_DURATION
    ensures Min(MAX_DURATION, dayEnd - possible) >= MIN_DURATION
  {
  }

  /** With zero picks, a slot that fits starts at once and lasts the minimum half hour. */
  lemma SlotOfZeroPicks(last: int, dayEnd: int, url: string)
    requires last < dayEnd - MIN_DURATION
    ensures Slot(last, dayEnd, SlotPicks(0, 0), url) == Some(Row(last, last + MIN_DURATION, MIN_DURATION, url))
  {
    var p := SlotPicks(0, 0);
    assert p.breakPick == 0 && p.durationPick == 0;
    var possible := last + RandInt(0, MAX_BREAK, p.breakPick);
    assert possible == last;
    var maxDuration := Min(MAX_DURATION, dayEnd - possible);
    assert maxDuration >= MIN_DURATION;
    assert RandInt(MIN_DURATION, maxDuration, p.durationPick) == MIN_DURATION;
  }

  /** A slot whose break cannot reach the cut-off is never skipped. */
  lemma {:induction false} FirstSlotKept(last: int, dayEnd: int, remaining: nat, slots: seq<SlotPicks>, k: nat, url: string)
    requires remaining > 0 && last + MAX_BREAK < dayEnd - MIN_DURATION
    ensures var rows := Fill(last, dayEnd, remaining, slots, k, url);
      |rows| >= 1 && rows[0].start == last + RandInt(0, MAX_BREAK, SlotAt(slots, k).breakPick)
  {
  }

  /** The midnight `i` days (of 86400 seconds) before today's. */
  function DayStart(midnight: int, i: nat): int
  {
    midnight - i * 86400
  }

  /** The row lies in the 9:00 to 17:00 window of the day starting at `dayStart`. */
  predicate InDay(r: Row, dayStart: int)
  {
    InWindow(r, dayStart + WORK_START, dayStart + WORK_END)
  }

  /** One day: one to three slots, inside the 9:00 to 17:00 window of that day. */
  function Day(dayStart: int, picks: DayPicks, url: string): (rows: seq<Row>)
    ensures 1 <= |rows| <= 3
    ensures forall j :: 0 <= j < |rows| ==> InDay(rows[j], dayStart) && rows[j].url == url
    ensures Ascending(rows)
  {
    var first := dayStart + WORK_START;
    var n := RandInt(1, 3, picks.countPick);
    FirstSlotKept(first, dayStart + WORK_END, n, picks.slots, 0, url);
    Fill(first, dayStart + WORK_END, n, picks.slots, 0, url)
  }

  /** Half-hour sessions from `last` on, back to back. */
  function HalfHours(last: int, n: nat, url: string): (rows: seq<Row>)
    ensures |rows| == n
    decreases n
  {
    if n == 0 then [] else [Row(last, last + MIN_DURATION, MIN_DURATION, url)] + HalfHours(last + MIN_DURATION, n - 1, url)
  }

  /** With every pick 0, each slot that fits starts at once and lasts the minimum half hour. */
  lemma {:induction false} ZeroPicksBackToBack(last: int, dayEnd: int, remaining: nat, k: nat, url: string)
    requires last + remaining * 1800 < dayEnd
    ensures Fill(last, dayEnd, remaining, [], k, url) == HalfHours(last, remaining, url)
    decreases remaining
  {
    if remaining > 0 {
      FillZeroStep(last, dayEnd, remaining, k, url);
      ZeroPicksBackToBack(last + MIN_DURATION, dayEnd, remaining - 1, k + 1, url);
    }
  }

  lemma FillZeroStep(last: int, dayEnd: int, remaining: nat, k: nat, url: string)
    requires remaining > 0 && last < dayEnd - MIN_DURATION
    ensures Fill(last, dayEnd, remaining, [], k, url)
         == [Row(last, last + MIN_DURATION, MIN_DURATION, url)] + Fill(last + MIN_DURATION, dayEnd, remaining - 1, [], k + 1, url)
  {
    assert SlotAt([], k) == SlotPicks(0, 0);
    SlotOfZeroPicks(last, dayEnd, url);
  }

  /** A count pick of 2 and no other picks give the fullest earliest day: three back-to-back half hours from 9:00. */
  lemma EarliestFullDay(dayStart: int, url: string)
    ensures Day(dayStart, DayPicks(2, []), url) == HalfHours(dayStart + WORK_START, 3, url)
  {
    assert RandInt(1, 3, 2) == 3;
    ZeroPicksBackToBack(dayStart + WORK_START, dayStart + WORK_END, 3, 0, url);
  }

  /**
   * `populate_test_data`: the days from today back, each day's rows in the
   * order they are added. A non-positive day count adds nothing.
   */
  function Populate(midnight: int, numDays: int, days: seq<DayPicks>, url: string): (rows: seq<Row>)
    ensures numDays <= |rows| <= 3 * (if numDays > 0 then numDays else 0)
    decreases if numDays > 0 then numDays else 0
  {
    if numDays <= 0 then []
    else
      var i := numDays - 1;
      var picks := if i < |days| then days[i] else DayPicks(0, []);
      Populate(midnight, numDays - 1, days, url) + Day(DayStart(midnight, i), picks, url)
  }

  /** The row lies in the working window of some day among the `numDays` generated. */
  predicate InSomeDay(r: Row, midnight: int, numDays: int)
  {
    exists i: nat :: i < numDays && InDay(r, DayStart(midnight, i))
  }

  /** Every row carries the URL and lies in the working window of one of the first `numDays` days. */
  predicate AllInDays(rows: seq<Row>, midnight: int, numDays: int, url: string)
  {
    forall j :: 0 <= j < |rows| ==> rows[j].url == url && InSomeDay(rows[j], midnight, numDays)
  }

  /** Every generated row carries the URL and lies in the working window of one of the days. */
  lemma {:induction false} PopulateInDays(midnight: int, numDays: int, days: seq<DayPicks>, url: string)
    requires numDays >= 0
    ensures AllInDays(Populate(midnight, numDays, days, url), midnight, numDays, url)
    decreases numDays
  {
    if numDays > 0 {
      var i := numDays - 1;
      var picks := if i < |days| then days[i] else DayPicks(0, []);
      PopulateInDays(midnight, i, days, url);
      AddDay(Populate(midnight, i, days, url), Day(DayStart(midnight, i), picks, url), midnight, i, url);
    }
  }

  lemma AddDay(before: seq<Row>, today: seq<Row>, midnight: int, i: nat, url: string)
    requires AllInDays(before, midnight, i, url)
    requires forall j :: 0 <= j < |today| ==> today[j].url == url && InDay(today[j], DayStart(midnight, i))
    ensures AllInDays(before + today, midnight, i + 1, url)
  {
    var rows := before + today;
    forall j | 0 <= j < |rows| ensures rows[j].url == url && InSomeDay(rows[j], midnight, i + 1) {
      if j < |before| {
        assert rows[j] == before[j];
        var d: nat :| d < i && InDay(before[j], DayStart(midnight, d));
      } else {
        assert rows[j] == today[j - |before|];
        assert InDay(rows[j], DayStart(midnight, i));
      }
    }
  }

  /** Rows of different days never overlap: their working windows are a day apart. */
  lemma DaysDisjoint(midnight: int, i: nat, j: nat, a: Row, b: Row)
    requires i < j
    requires InDay(a, DayStart(midnight, i)) && InDay(b, DayStart(midnight, j))
    ensures b.end < a.start
  {
  }
}

=== FILE: udp_server.dfy ===
/**
 * `UdpCameraCapture`: a UDP listener that ignores any header and frames a
 * JPEG stream by its markers. A datagram of exactly 1023 bytes starting
 * `FF D8 FF` (start of image followed by a marker) restarts the buffer; every
 * datagram is appended; a datagram of any other length, at least 2 bytes,
 * ending `FF D9` (end of image) hands the buffer to the decoder and empties
 * it. The JPEG decoder is a parameter; the socket, thread and event loop are
 * not modelled.
 */
module UdpServer {
  import opened Common
  import opened CaptureBase

  /** `self.chunk_length`: both the `recvfrom` size and the framing length. */
  const CHUNK_LENGTH: nat := 1023

  /** What `recvfrom(1023)` hands back for a datagram: its first 1023 bytes. */
  function Recv(raw: seq<byte>): (d: seq<byte>)
    ensures |d| == Min(|raw|, CHUNK_LENGTH)
    ensures d == raw[..|d|]
  {
    if |raw| <= CHUNK_LENGTH then raw else raw[..CHUNK_LENGTH]
  }

  /** The start test: exactly 1023 bytes beginning with the SOI marker and the next marker's `FF`. */
  predicate IsStart(d: seq<byte>)
  {
    |d| == CHUNK_LENGTH && d[0] == 0xFF && d[1] == 0xD8 && d[2] == 0xFF
  }

  /** The end test: not 1023 bytes, at least 2, ending with the EOI marker. */
  predicate IsEnd(d: seq<byte>)
  {
    |d| != CHUNK_LENGTH && |d| >= 2 && d[|d| - 2] == 0xFF && d[|d| - 1] == 0xD9
  }

  /** The listener's state: the shared capture slot and the local `byte_vector`. */
  datatype Listener = Listener(cap: Capture, buffer: seq<byte>)

  /**
   * One pass of the receive loop: reset on a start datagram, append, and on
   * an end datagram decode and clear. `decode` stands for `cv2.imdecode`
   * (None when it returns None); `nowSec` for `time.time()`.
   */
  function OnDatagram(s: Listener, raw: seq<byte>, decode: seq<byte> -> Option<Image>, nowSec: real): (s': Listener)
    ensures var d := Recv(raw);
      var acc := (if IsStart(d) then [] else s.buffer) + d;
      && (IsEnd(d) ==> s'.buffer == [])
      && (!IsEnd(d) ==> s'.buffer == acc)
      && (IsEnd(d) && decode(acc).Some? ==>
            && Valid(s'.cap) && GetLatestFrame(s'.cap) == (decode(acc), Some(nowSec))
            && s'.cap.connected && s'.cap.running == s.cap.running)
      && (!IsEnd(d) || decode(acc).None? ==> s'.cap == s.cap)
    ensures Valid(s.cap) ==> Valid(s'.cap)
  {
    var d := Recv(raw);
    var acc := (if IsStart(d) then [] else s.buffer) + d;
    if IsEnd(d) then
      var frame := decode(acc);
      if frame.Some? then Listener(UpdateFrame(s.cap, frame.value, nowSec).(connected := true), [])
      else Listener(s.cap, [])
    else Listener(s.cap, acc)
  }

  /** Datagrams received in order (all at the same clock reading), the last one last. */
  function Feed(s: Listener, ds: seq<seq<byte>>, decode: seq<byte> -> Option<Image>, nowSec: real): Listener
  {
    if |ds| == 0 then s else OnDatagram(Feed(s, ds[..|ds| - 1], decode, nowSec), ds[|ds| - 1], decode, nowSec)
  }

  /** What `recvfrom` returned for each datagram. */
  function RecvAll(ds: seq<seq<byte>>): (rs: seq<seq<byte>>)
    ensures |rs| == |ds|
    ensures forall k :: 0 <= k < |ds| ==> rs[k] == Recv(ds[k])
  {
    seq(|ds|, k requires 0 <= k < |ds| => Recv(ds[k]))
  }

  lemma RecvAllSnoc(ds: seq<seq<byte>>)
    requires |ds| > 0
    ensures RecvAll(ds) == RecvAll(ds[..|ds| - 1]) + [Recv(ds[|ds| - 1])]
  {
  }

  /** A datagram that is neither a start nor an end only grows the buffer; the slot is untouched. */
  lemma MiddleAppends(s: Listener, raw: seq<byte>, decode: seq<byte> -> Option<Image>, nowSec: real)
    requires !IsStart(Recv(raw)) && !IsEnd(Recv(raw))
    ensures StartsWith(OnDatagram(s, raw, decode, nowSec).buffer, s.buffer)
    ensures OnDatagram(s, raw, decode, nowSec).cap == s.cap
  {
    var s' := OnDatagram(s, raw, decode, nowSec);
    assert s'.buffer[..|s.buffer|] == s.buffer;
  }

  /** A start datagram is never an end datagram: the two length tests exclude each other. */
  lemma StartIsNotEnd(d: seq<byte>)
    requires IsStart(d)
    ensures !IsEnd(d)
  {
  }

  /** Anything of 1023 bytes or more arrives as exactly 1023 bytes and so can never end a frame. */
  lemma LongDatagramNeverEnds(raw: seq<byte>)
    requires |raw| >= CHUNK_LENGTH
    ensures |Recv(raw)| == CHUNK_LENGTH && !IsEnd(Recv(raw))
    ensures IsStart(Recv(raw)) <==> raw[0] == 0xFF && raw[1] == 0xD8 && raw[2] == 0xFF
  {
  }

  /**
   * A run of middle datagrams after `s` leaves the slot alone and leaves the
   * buffer equal to the old buffer followed by what was received, in order.
   */
  lemma {:induction false} FeedMiddles(s: Listener, ds: seq<seq<byte>>, decode: seq<byte> -> Option<Image>, nowSec: real)
    requires forall k :: 0 <= k < |ds| ==> !IsStart(Recv(ds[k])) && !IsEnd(Recv(ds[k]))
    ensures Feed(s, ds, decode, nowSec).buffer == s.buffer + Concat(RecvAll(ds))
    ensures Feed(s, ds, decode, nowSec).cap == s.cap
  {
    if |ds| > 0 {
      var n := |ds|;
      FeedMiddles(s, ds[..n - 1], decode, nowSec);
      RecvAllSnoc(ds);
      ConcatAppend(RecvAll(ds[..n - 1]), Recv(ds[n - 1]));
    }
  }

  lemma FeedSplit(s: Listener, ds: seq<seq<byte>>, es: seq<seq<byte>>, decode: seq<byte> -> Option<Image>, nowSec: real)
    ensures Feed(s, ds + es, decode, nowSec) == Feed(Feed(s, ds, decode, nowSec), es, decode, nowSec)
    decreases |es|
  {
    if |es| > 0 {
      var n := |es|;
      assert (ds + es)[..|ds + es| - 1] == ds + es[..n - 1];
      assert (ds + es)[|ds + es| - 1] == es[n - 1];
      FeedSplit(s, ds, es[..n - 1], decode, nowSec);
    } else {
      assert ds + es == ds;
    }
  }

  /**
   * A whole frame: a start datagram, middle datagrams, then an end datagram.
   * Whatever the listener held before, the decoder sees exactly the received
   * bytes of the frame, in order, and the buffer is empty afterwards; a
   * successful decode puts the picture and the clock reading in the slot.
   */
  lemma FrameDecodes(s: Listener, first: seq<byte>, middle: seq<seq<byte>>, last: seq<byte>,
                     decode: seq<byte> -> Option<Image>, nowSec: real)
    requires IsStart(Recv(first))
    requires forall k :: 0 <= k < |middle| ==> !IsStart(Recv(middle[k])) && !IsEnd(Recv(middle[k]))
    requires IsEnd(Recv(last))
    ensures var bytes := Recv(first) + Concat(RecvAll(middle)) + Recv(last);
      var t := Feed(s, [first] + middle + [last], decode, nowSec);
      && t.buffer == []
      && (decode(bytes).Some? ==> Valid(t.cap) && GetLatestFrame(t.cap) == (decode(bytes), Some(nowSec)) && t.cap.connected)
      && (decode(bytes).None? ==> t.cap == s.cap)
  {
    FeedOpen(s, first, middle, decode, nowSec);
    var all := [first] + middle + [last];
    assert all[..|all| - 1] == [first] + middle;
  }

  /** After a start datagram and middle datagrams the buffer holds exactly their received bytes. */
  lemma FeedOpen(s: Listener, first: seq<byte>, middle: seq<seq<byte>>, decode: seq<byte> -> Option<Image>, nowSec: real)
    requires IsStart(Recv(first))
    requires forall k :: 0 <= k < |middle| ==> !IsStart(Recv(middle[k])) && !IsEnd(Recv(middle[k]))
    ensures Feed(s, [first] + middle, decode, nowSec).buffer == Recv(first) + Concat(RecvAll(middle))
    ensures Feed(s, [first] + middle, decode, nowSec).cap == s.cap
  {
    var s1 := OnDatagram(s, first, decode, nowSec);
    assert Feed(s, [first], decode, nowSec) == s1 by {
      assert [first][..0] == [];
    }
    StartIsNotEnd(Recv(first));
    assert s1.buffer == Recv(first) && s1.cap == s.cap;
    FeedMiddles(s1, middle, decode, nowSec);
    FeedSplit(s, [first], middle, decode, nowSec);
  }

  /**
   * The ESP-CAM firmware's headerless sender emits 1472-byte slices: each is
   * cut to 1023 bytes on receipt and none of them can end a frame.
   */
  lemma FullSliceTruncated(raw: seq<byte>)
    requires |raw| == 1472
    ensures Recv(raw) == raw[..CHUNK_LENGTH] && !IsEnd(Recv(raw))
    ensures |raw| - |Recv(raw)| == 449
  {
  }

  /** Why `start` rejects an address. */
  datatype StartError = MissingPrefix | NotHostAndPort | PortNotInteger

  /** `self.udp_port`: unset, the text `split` produced, or the integer `int()` made of it. */
  datatype Port = NoPort | PortText(text: string) | PortNumber(number: int)

  /** The capture object: the slot and flags, the parsed address, and how many listener threads were spawned. */
  datatype Server = Server(cap: Capture, ip: Option<string>, port: Port, spawned: nat)

  const Created := Server(Fresh, None, NoPort, 0)

  const PREFIX := "udpserver://"

  /**
   * `start(video_url)`. The prefix is required; `split(':')` must give
   * exactly two parts, and they are stored before `int()` runs on the second,
   * so a bad port leaves both as text. A listener thread is spawned only when
   * not already running.
   */
  function Start(s: Server, url: string): (r: (Result<(), StartError>, Server))
    ensures !StartsWith(url, PREFIX) ==> r == (Err(MissingPrefix), s)
    ensures StartsWith(url, PREFIX) && |Split(url[|PREFIX|..], ':')| != 2 ==> r == (Err(NotHostAndPort), s)
    ensures StartsWith(url, PREFIX) && |Split(url[|PREFIX|..], ':')| == 2 ==>
              var parts := Split(url[|PREFIX|..], ':');
              && r.1.ip == Some(parts[0])
              && (ParseInt(parts[1]).None? ==>
                    r == (Err(PortNotInteger), s.(ip := Some(parts[0]), port := PortText(parts[1]))))
              && (ParseInt(parts[1]).Some? ==>
                    && r.0 == Ok(())
                    && r.1.port == PortNumber(ParseInt(parts[1]).value)
                    && r.1.cap.running
                    && (s.cap.running ==> r.1.cap == s.cap && r.1.spawned == s.spawned)
                    && (!s.cap.running ==> !r.1.cap.connected && r.1.spawned == s.spawned + 1))
  {
    if !StartsWith(url, PREFIX) then (Err(MissingPrefix), s)
    else
      var parts := Split(url[|PREFIX|..], ':');
      if |parts| != 2 then (Err(NotHostAndPort), s)
      else
        var s1 := s.(ip := Some(parts[0]), port := PortText(parts[1]));
        match ParseInt(parts[1])
        case None => (Err(PortNotInteger), s1)
        case Some(n) =>
          var s2 := s1.(port := PortNumber(n));
          if s2.cap.running then (Ok(()), s2)
          else (Ok(()), s2.(cap := s2.cap.(running := true, connected := false), spawned := s2.spawned + 1))
  }

  /** `stop`: clear both flags; the listener then leaves its loop. */
  function Stop(s: Server): (s': Server)
    ensures !IsConnected(s'.cap) && !s'.cap.running && !s'.cap.connected
    ensures s'.cap.frame == s.cap.frame && s'.cap.stamp == s.cap.stamp
    ensures s'.ip == s.ip && s'.port == s.port && s'.spawned == s.spawned
  {
    s.(cap := s.cap.(running := false, connected := false))
  }

  /** The listener leaving its loop: the socket is closed and `connected` cleared. */
  function ListenerExit(s: Server): (s': Server)
    ensures !IsConnected(s'.cap)
    ensures s'.cap.running == s.cap.running && s'.cap.frame == s.cap.frame
  {
    s.(cap := s.cap.(connected := false))
  }

  /** Starting twice with a good address spawns one listener. */
  lemma StartTwiceSpawnsOnce(s: Server, url: string)
    requires !s.cap.running
    requires Start(s, url).0.Ok?
    ensures var s1 := Start(s, url).1;
      Start(s1, url).0.Ok? && Start(s1, url).1.spawned == s1.spawned == s.spawned + 1
  {
  }

  /** `start` on `udpserver://host:port` with colon-free parts stores `host` and parses `port`. */
  lemma StartHostPort(s: Server, host: string, port: string)
    requires ':' !in host && ':' !in port
    ensures var r := Start(s, PREFIX + host + ":" + port);
      && r.1.ip == Some(host)
      && (ParseInt(port).None? ==> r.0 == Err(PortNotInteger) && r.1.port == PortText(port))
      && (ParseInt(port).Some? ==> r.0 == Ok(()) && r.1.port == PortNumber(ParseInt(port).value))
      && r.1.spawned == (if ParseInt(port).Some? && !s.cap.running then s.spawned + 1 else s.spawned)
  {
    var url := PREFIX + host + ":" + port;
    assert url[..|PREFIX|] == PREFIX;
    assert url[|PREFIX|..] == host + ":" + port;
    SplitHostPort(host, port);
  }

  /**
   * A path after the port, as in the camera URLs the application registers
   * (`udpserver://0.0.0.0:8099/192.168.10.102`), reaches `int()` with the
   * port and fails there, leaving the host and the port text stored.
   */
  lemma PathAfterPortFails(s: Server, host: string, port: string, path: string)
    requires ':' !in host && ':' !in port && ':' !in path
    requires |port| > 0 && !IsSpace(port[0])
    requires |path| > 0 && path[0] == '/' && !IsSpace(path[|path| - 1])
    ensures Start(s, PREFIX + host + ":" + port + path).0 == Err(PortNotInteger)
    ensures Start(s, PREFIX + host + ":" + port + path).1.port == PortText(port + path)
    ensures Start(s, PREFIX + host + ":" + port + path).1.cap == s.cap
  {
    var t := port + path;
    PortPathRejected(port, path);
    assert PREFIX + host + ":" + port + path == PREFIX + host + ":" + t;
    StartHostPort(s, host, t);
  }

  lemma PortPathRejected(port: string, path: string)
    requires ':' !in port && ':' !in path
    requires |port| > 0 && !IsSpace(port[0])
    requires |path| > 0 && path[0] == '/' && !IsSpace(path[|path| - 1])
    ensures ':' !in port + path && ParseInt(port + path) == None
  {
    var t := port + path;
    assert ':' !in t by {
      assert forall k :: 0 <= k < |t| ==> t[k] == (if k < |port| then port[k] else path[k - |port|]);
    }
    assert ParseInt(t) == ParseStripped(t) by {
      assert t[0] == port[0] && t[|t| - 1] == path[|path| - 1];
      assert !IsAsciiSpace(t[0]) && !IsAsciiSpace(t[|t| - 1]);
      IntTrimUnpadded(t);
    }
    assert ParseStripped(t) == None by {
      assert t[|port|] == '/';
      ParseStrippedRejects(t, |port|);
    }
  }

  /** Each of the two registered addresses, `/192.168.10.102` and `/192.168.10.100` after the port. */
  lemma RegisteredUrlFails(s: Server, camera: string)
    requires camera == "/192.168.10.102" || camera == "/192.168.10.100"
    ensures Start(s, PREFIX + "0.0.0.0" + ":" + "8099" + camera).0 == Err(PortNotInteger)
  {
    PathAfterPortFails(s, "0.0.0.0", "8099", camera);
  }

  /** Any URL with the server's prefix is one the capture factory hands to this class. */
  lemma PrefixPicksUdp(rest: string)
    ensures CreateCameraCapture(PREFIX + rest) == UdpBackend
  {
    var url := PREFIX + rest;
    assert url[..|PREFIX|] == PREFIX;
    assert url[0] == 'u' && "ws://"[0] == 'w' && "wss://"[0] == 'w';
    assert url[..5][0] != "ws://"[0];
    assert url[..6][0] != "wss://"[0];
  }

  /** Two colon-free texts joined by one colon split back into exactly those two. */
  lemma SplitHostPort(host: string, port: string)
    requires ':' !in host && ':' !in port
    ensures Split(host + ":" + port, ':') == [host, port]
  {
    var s := host + ":" + port;
    assert s[|host|] == ':';
    assert ':' in s;
    assert s[..|host|] == host;
    IndexOfFirst(s, ':', |host|);
    assert s[|host| + 1..] == port;
  }

  /** A decimal port after the host starts the capture with that port number. */
  lemma DecimalPortStarts(s: Server, host: string, m: nat)
    requires ':' !in host
    ensures var r := Start(s, PREFIX + host + ":" + NatToString(m));
      r.0 == Ok(()) && r.1.port == PortNumber(m) && r.1.ip == Some(host) && r.1.cap.running
  {
    ParseIntRoundTrip(m);
    assert IntToString(m) == NatToString(m);
    StartHostPort(s, host, NatToString(m));
  }
}

=== FILE: video_processor.dfy ===
/**
 * `VideoProcessor`: the analysis loop and its three debounced flags.
 *
 * Each pass reads the millisecond clock, skips if it has not advanced, takes
 * the capture's latest frame, drops it when stale, appends it to a 30-frame
 * window and analyses it: the live detector's person and cup answers are held
 * for 2 s and 5 s after the last positive, and "active" is held for 10 s
 * after the last frame difference above 0.4 %. The pixel difference, the
 * clock and the detector's model output are inputs; every clock reading of
 * one pass is the same integer millisecond value.
 */
module VideoProcessor {
  import opened Common
  import opened YoloLive
  import CaptureBase
  import UdpServer

  const PERSON_HOLD_MS: int := 2000
  const CUP_HOLD_MS: int := 5000
  const ACTIVE_HOLD_MS: int := 10000
  const WINDOW: nat := 30
  const MAX_AGE: real := 1000.0

  /**
   * The constructor builds the capture the factory picks for the URL and
   * starts it at once. Only the UDP server's `start` can raise, when the URL
   * does not parse; the OpenCV and WebSocket captures record the URL and
   * spawn their thread.
   */
  function StartCamera(url: string): (r: Result<(), UdpServer.StartError>)
    ensures CaptureBase.CreateCameraCapture(url) != CaptureBase.UdpBackend ==> r.Ok?
    ensures CaptureBase.CreateCameraCapture(url) == CaptureBase.UdpBackend ==>
              r == UdpServer.Start(UdpServer.Created, url).0
  {
    if CaptureBase.CreateCameraCapture(url) == CaptureBase.UdpBackend then UdpServer.Start(UdpServer.Created, url).0
    else Ok(())
  }

  /** `DetectionStatus`: each flag with the millisecond time of its last positive (0 = never). */
  datatype Status = Status(person: bool, personTime: int, cup: bool, cupTime: int, active: bool, activeTime: int)

  const Cleared := Status(false, 0, false, 0, false, 0)

  /**
   * `_update_person_status` / `_update_cup_status` for a hold of `holdMs`:
   * a positive sets the flag and its time; a negative keeps the flag only
   * while it was set with a non-zero time no more than `holdMs` ago
   * (`(now - t) / 1000 > hold_s` compares exactly like `now - t > holdMs`).
   */
  function UpdateHeld(flag: bool, since: int, raw: bool, nowMs: int, holdMs: int): (r: (bool, int))
    ensures raw ==> r == (true, nowMs)
    ensures !raw ==> r.1 == since
    ensures !raw ==> (r.0 <==> flag && since > 0 && nowMs - since <= holdMs)
  {
    if raw then (true, nowMs)
    else if flag && since > 0 then
      (if nowMs - since > holdMs then false else flag, since)
    else (false, since)
  }

  /** One detector reading and the clock at which it was taken. */
  datatype Obs = Obs(raw: bool, nowMs: int)

  /** The flag and time after a run of readings, starting from a cleared status. */
  function Track(trace: seq<Obs>, holdMs: int): (bool, int)
  {
    if |trace| == 0 then (false, 0)
    else
      var prev := Track(trace[..|trace| - 1], holdMs);
      UpdateHeld(prev.0, prev.1, trace[|trace| - 1].raw, trace[|trace| - 1].nowMs, holdMs)
  }

  /** Index of the last positive reading. */
  function LastPositive(trace: seq<Obs>): (r: Option<nat>)
    ensures r.Some? ==> r.value < |trace| && trace[r.value].raw
    ensures r.Some? ==> forall j :: r.value < j < |trace| ==> !trace[j].raw
    ensures r.None? ==> forall j :: 0 <= j < |trace| ==> !trace[j].raw
  {
    if |trace| == 0 then None
    else if trace[|trace| - 1].raw then Some(|trace| - 1)
    else LastPositive(trace[..|trace| - 1])
  }

  /**
   * The hold rule stated without the loop: the flag is up iff there was a
   * positive, and either it is the latest reading or it had a non-zero time
   * and every later reading came within `holdMs` of it.
   */
  predicate HeldRef(trace: seq<Obs>, holdMs: int)
  {
    match LastPositive(trace)
    case None => false
    case Some(i) =>
      i == |trace| - 1 ||
      (trace[i].nowMs > 0 && forall j :: i < j < |trace| ==> trace[j].nowMs - trace[i].nowMs <= holdMs)
  }

  /** The debouncer computes exactly the hold rule, and remembers the time of the last positive. */
  lemma {:induction false} TrackIsHeld(trace: seq<Obs>, holdMs: int)
    ensures Track(trace, holdMs).0 == HeldRef(trace, holdMs)
    ensures Track(trace, holdMs).1 == match LastPositive(trace) case None => 0 case Some(i) => trace[i].nowMs
  {
    if |trace| > 0 {
      var n := |trace|;
      var prefix := trace[..n - 1];
      TrackIsHeld(prefix, holdMs);
      if !trace[n - 1].raw {
        assert LastPositive(trace) == LastPositive(prefix);
        match LastPositive(prefix)
        case None =>
        case Some(i) =>
          assert forall j :: i < j < n - 1 ==> prefix[j] == trace[j];
      }
    }
  }

  /**
   * `_update_activity_detect`: nothing changes with fewer than two frames
   * buffered; a difference above the threshold sets the flag and its time;
   * otherwise the flag drops only once it has a non-zero time more than 10 s old.
   */
  function UpdateActivity(s: Status, buffered: nat, moved: bool, nowMs: int): (s': Status)
    ensures buffered < 2 ==> s' == s
    ensures buffered >= 2 && moved ==> s'.active && s'.activeTime == nowMs
    ensures buffered >= 2 && !moved ==>
              && s'.activeTime == s.activeTime
              && (s'.active <==> s.active && !(s.activeTime > 0 && nowMs - s.activeTime > ACTIVE_HOLD_MS))
    ensures s'.person == s.person && s'.personTime == s.personTime
    ensures s'.cup == s.cup && s'.cupTime == s.cupTime
  {
    if buffered < 2 then s
    else if moved then s.(active := true, activeTime := nowMs)
    else if s.activeTime > 0 && nowMs - s.activeTime > ACTIVE_HOLD_MS then s.(active := false)
    else s
  }

  /** The status after a run of activity readings, each taken with at least two frames buffered. */
  function ActivityRun(s: Status, trace: seq<Obs>): Status
  {
    if |trace| == 0 then s
    else UpdateActivity(ActivityRun(s, trace[..|trace| - 1]), 2, trace[|trace| - 1].raw, trace[|trace| - 1].nowMs)
  }

  /**
   * The activity rule stated without the loop. Unlike the person and cup
   * rule, a flag raised at a time that is not positive is never dropped,
   * because only the `active_time > 0` test guards the drop.
   */
  predicate ActiveRef(trace: seq<Obs>)
  {
    match LastPositive(trace)
    case None => false
    case Some(i) =>
      || i == |trace| - 1
      || trace[i].nowMs <= 0
      || forall j :: i < j < |trace| ==> trace[j].nowMs - trace[i].nowMs <= ACTIVE_HOLD_MS
  }

  /** From a cleared status the activity flag follows the rule, and its time is that of the last movement. */
  lemma {:induction false} ActivityIsHeld(trace: seq<Obs>)
    ensures ActivityRun(Cleared, trace).active == ActiveRef(trace)
    ensures ActivityRun(Cleared, trace).activeTime == match LastPositive(trace) case None => 0 case Some(i) => trace[i].nowMs
  {
    if |trace| > 0 {
      var n := |trace|;
      var prefix := trace[..n - 1];
      ActivityIsHeld(prefix);
      if !trace[n - 1].raw {
        assert LastPositive(trace) == LastPositive(prefix);
        match LastPositive(prefix)
        case None =>
        case Some(i) =>
          assert forall j :: i < j < n - 1 ==> prefix[j] == trace[j];
      }
    }
  }

  /** With a positive clock throughout, activity is held by the same rule as the person and cup flags. */
  lemma ActivityMatchesHold(trace: seq<Obs>)
    requires forall j :: 0 <= j < |trace| ==> trace[j].nowMs > 0
    ensures ActivityRun(Cleared, trace).active == Track(trace, ACTIVE_HOLD_MS).0
    ensures ActivityRun(Cleared, trace).activeTime == Track(trace, ACTIVE_HOLD_MS).1
  {
    ActivityIsHeld(trace);
    TrackIsHeld(trace, ACTIVE_HOLD_MS);
  }

  /** `frame_buffer.append(frame)`, then `pop(0)` when longer than 30. */
  function Push(buf: seq<Image>, f: Image): (b: seq<Image>)
    requires |buf| <= WINDOW
    ensures |b| == Min(|buf| + 1, WINDOW)
    ensures b[|b| - 1] == f
    ensures b == (buf + [f])[|buf| + 1 - |b|..]
  {
    var b := buf + [f];
    if |b| > WINDOW then b[1..] else b
  }

  /** The last `min(30, n)` frames of a sequence. */
  function Window(frames: seq<Image>): (w: seq<Image>)
    ensures |w| == Min(|frames|, WINDOW)
  {
    frames[|frames| - Min(|frames|, WINDOW)..]
  }

  function PushAll(buf: seq<Image>, frames: seq<Image>): (b: seq<Image>)
    requires |buf| <= WINDOW
    ensures |b| <= WINDOW
  {
    if |frames| == 0 then buf else Push(PushAll(buf, frames[..|frames| - 1]), frames[|frames| - 1])
  }

  /** Starting empty, the buffer always holds the newest 30 frames in arrival order. */
  lemma {:induction false} BufferIsWindow(frames: seq<Image>)
    ensures PushAll([], frames) == Window(frames)
  {
    if |frames| > 0 {
      var n := |frames|;
      BufferIsWindow(frames[..n - 1]);
      WindowSnoc(frames[..n - 1], frames[n - 1]);
      assert frames[..n - 1] + [frames[n - 1]] == frames;
    }
  }

  /** One more frame moves the window by that frame. */
  lemma WindowSnoc(frames: seq<Image>, f: Image)
    ensures Push(Window(frames), f) == Window(frames + [f])
  {
    var w := Window(frames);
    var m := |frames| - |w|;
    assert w + [f] == (frames + [f])[m..];
    if |w| + 1 > WINDOW {
      assert (w + [f])[1..] == (frames + [f])[m + 1..];
    }
  }

  /**
   * The throttle `current_time_ms - last_processing_time < 1.0 / 5`: on
   * integer milliseconds it skips exactly when the clock has not advanced.
   */
  predicate Throttled(nowMs: int, lastMs: int)
  {
    (nowMs - lastMs) as real < 1.0 / 5.0
  }

  lemma ThrottleIsNoAdvance(nowMs: int, lastMs: int)
    ensures Throttled(nowMs, lastMs) <==> nowMs <= lastMs
  {
  }

  /** `latest_frame_time_ms if latest_frame_time_ms else inf`: a missing or zero stamp counts as infinitely old. */
  predicate HasStamp(stamp: Option<real>)
  {
    stamp.Some? && stamp.value != 0.0
  }

  /**
   * The age test as the loop writes it: the millisecond clock minus the
   * capture's stamp, which the capture takes in seconds.
   */
  predicate StaleAsWritten(nowMs: int, stamp: Option<real>)
  {
    !HasStamp(stamp) || nowMs as real - stamp.value > MAX_AGE
  }

  /** The age test with the stamp converted to milliseconds first. */
  predicate Stale(nowMs: int, stamp: Option<real>)
  {
    !HasStamp(stamp) || nowMs as real - stamp.value * 1000.0 > MAX_AGE
  }

  /**
   * As written, once the wall clock is past 2 s after the epoch, every frame
   * is stale, however recent its stamp: `nowMs` is the clock in milliseconds
   * (truncated), and the stamp was taken no later than now, in seconds.
   */
  lemma AsWrittenDropsEveryFrame(nowMs: int, nowSec: real, stampSec: real)
    requires nowSec >= 2.0 && stampSec <= nowSec
    requires nowSec * 1000.0 - 1.0 < nowMs as real <= nowSec * 1000.0
    ensures StaleAsWritten(nowMs, Some(stampSec))
  {
  }

  /** With the units made to agree, a frame stamped within the last 0.999 s is kept and one older than 1.001 s is dropped. */
  lemma StaleMeansOlderThanOneSecond(nowMs: int, nowSec: real, stampSec: real)
    requires stampSec > 0.0
    requires nowSec * 1000.0 - 1.0 < nowMs as real <= nowSec * 1000.0
    ensures nowSec - stampSec <= 0.999 ==> !Stale(nowMs, Some(stampSec))
    ensures nowSec - stampSec > 1.001 ==> Stale(nowMs, Some(stampSec))
  {
  }

  /**
   * The processor's fields that the loop reads and writes; `alive` says
   * whether the loop's thread is still running.
   */
  datatype Proc = Proc(status: Status, buffer: seq<Image>, index: nat, lastMs: int,
                       annotated: Option<Image>, yolo: bool, det: Live, alive: bool)

  predicate Valid(p: Proc)
  {
    |p.buffer| <= WINDOW
  }

  /**
   * Everything one pass consumes: the clock, the capture's `(frame, stamp)`,
   * the detector's model output and drawn copy, whether an exception was
   * raised inside the detection block, and whether the frame difference
   * exceeded 0.4 %.
   */
  datatype Sample = Sample(nowMs: int, frame: Option<Image>, stamp: Option<real>,
                           inf: Inference, drawn: Image, raised: bool, moved: bool)

  /**
   * Whether `_analyze_frame` ends the thread: its handler calls
   * `e.with_traceback` with a string, which raises a `TypeError` that no
   * frame above catches.
   */
  predicate Crashes(p: Proc, s: Sample)
  {
    p.yolo && s.raised
  }

  /**
   * `_analyze_frame` on a frame already appended to the buffer. A crash
   * ends the thread before the activity update, so only `alive` changes.
   */
  function Analyze(p: Proc, f: Image, s: Sample): (p': Proc)
    requires Valid(p)
    ensures Valid(p') && p'.buffer == p.buffer && p'.index == p.index && p'.lastMs == p.lastMs
    ensures p'.yolo == p.yolo
    ensures p'.alive <==> p.alive && !Crashes(p, s)
    ensures Crashes(p, s) ==> p' == p.(alive := false)
    ensures !p.yolo ==>
              && p'.annotated == Some(f)
              && p'.status.person == p.status.person && p'.status.personTime == p.status.personTime
              && p'.status.cup == p.status.cup && p'.status.cupTime == p.status.cupTime
    ensures p.yolo && !s.raised ==>
              var r := Detect(p.det, s.inf, s.drawn).1;
              && p'.annotated == r.annotated
              && (p'.status.person, p'.status.personTime) == UpdateHeld(p.status.person, p.status.personTime, r.person, s.nowMs, PERSON_HOLD_MS)
              && (p'.status.cup, p'.status.cupTime) == UpdateHeld(p.status.cup, p.status.cupTime, r.cup, s.nowMs, CUP_HOLD_MS)
    ensures !Crashes(p, s) ==>
              var a := UpdateActivity(p.status, |p.buffer|, s.moved, s.nowMs);
              p'.status.active == a.active && p'.status.activeTime == a.activeTime
  {
    if !p.yolo then
      var p1 := p.(annotated := Some(f));
      p1.(status := UpdateActivity(p1.status, |p1.buffer|, s.moved, s.nowMs))
    else if s.raised then p.(alive := false)
    else
      var (d', r) := Detect(p.det, s.inf, s.drawn);
      var (person, pt) := UpdateHeld(p.status.person, p.status.personTime, r.person, s.nowMs, PERSON_HOLD_MS);
      var (cup, ct) := UpdateHeld(p.status.cup, p.status.cupTime, r.cup, s.nowMs, CUP_HOLD_MS);
      var p1 := p.(det := d', annotated := r.annotated,
                   status := p.status.(person := person, personTime := pt, cup := cup, cupTime := ct));
      p1.(status := UpdateActivity(p1.status, |p1.buffer|, s.moved, s.nowMs))
  }

  /** What a pass did; `Dead` is a pass of a loop whose thread has ended. */
  datatype Outcome = Dead | Skipped | NoFrame | StaleFrame | Analysed | Crashed

  /**
   * One pass of `_process_video_loop`, with the age test supplied as
   * `stale`: the two loops below differ only in that test.
   */
  function Pass(p: Proc, s: Sample, stale: bool): (r: (Proc, Outcome))
    requires Valid(p)
    ensures Valid(r.0)
    ensures r.1 == Dead <==> !p.alive
    ensures r.1 == Dead ==> r.0 == p
    ensures r.1 == Skipped <==> p.alive && Throttled(s.nowMs, p.lastMs)
    ensures r.1 == Skipped ==> r.0 == p
    ensures r.1 !in {Dead, Skipped} ==> r.0.lastMs == s.nowMs
    ensures r.1 == NoFrame <==> p.alive && !Throttled(s.nowMs, p.lastMs) && s.frame.None?
    ensures r.1 == StaleFrame <==> p.alive && !Throttled(s.nowMs, p.lastMs) && s.frame.Some? && stale
    ensures r.1 in {NoFrame, StaleFrame} ==> r.0 == p.(lastMs := s.nowMs)
    ensures r.1 in {Analysed, Crashed} <==> p.alive && !Throttled(s.nowMs, p.lastMs) && s.frame.Some? && !stale
    ensures r.1 in {Analysed, Crashed} ==>
              && r.0.buffer == Push(p.buffer, s.frame.value)
              && r.0.index == p.index + 1
    ensures r.1 == Crashed <==> r.1 in {Analysed, Crashed} && Crashes(p, s)
    ensures r.1 == Crashed ==> r.0.status == p.status && !r.0.alive
    ensures r.0.alive <==> r.1 !in {Dead, Crashed}
  {
    if !p.alive then (p, Dead)
    else if Throttled(s.nowMs, p.lastMs) then (p, Skipped)
    else
      var p1 := p.(lastMs := s.nowMs);
      if s.frame.None? then (p1, NoFrame)
      else if stale then (p1, StaleFrame)
      else
        var p2 := p1.(buffer := Push(p1.buffer, s.frame.value), index := p1.index + 1);
        var p3 := Analyze(p2, s.frame.value, s);
        (p3, if p3.alive then Analysed else Crashed)
  }

  /** The loop as written: the age test mixes milliseconds and seconds. */
  function Tick(p: Proc, s: Sample): (r: (Proc, Outcome))
    requires Valid(p)
    ensures Valid(r.0)
    ensures !p.alive ==> r == (p, Dead)
    ensures r.1 == Skipped <==> p.alive && Throttled(s.nowMs, p.lastMs)
    ensures r.1 == StaleFrame <==> p.alive && !Throttled(s.nowMs, p.lastMs) && s.frame.Some? && StaleAsWritten(s.nowMs, s.stamp)
    ensures r.1 in {NoFrame, StaleFrame} ==> r.0 == p.(lastMs := s.nowMs)
    ensures r.1 in {Analysed, Crashed} <==> p.alive && !Throttled(s.nowMs, p.lastMs) && s.frame.Some? && !StaleAsWritten(s.nowMs, s.stamp)
    ensures r.1 in {Analysed, Crashed} ==> r.0.buffer == Push(p.buffer, s.frame.value) && r.0.index == p.index + 1
  {
    Pass(p, s, s.frame.Some? && StaleAsWritten(s.nowMs, s.stamp))
  }

  /** The loop with the stamp converted to milliseconds before the age test. */
  function TickIntended(p: Proc, s: Sample): (r: (Proc, Outcome))
    requires Valid(p)
    ensures Valid(r.0)
    ensures !p.alive ==> r == (p, Dead)
    ensures r.1 == Skipped <==> p.alive && Throttled(s.nowMs, p.lastMs)
    ensures r.1 == StaleFrame <==> p.alive && !Throttled(s.nowMs, p.lastMs) && s.frame.Some? && Stale(s.nowMs, s.stamp)
    ensures r.1 in {NoFrame, StaleFrame} ==> r.0 == p.(lastMs := s.nowMs)
    ensures r.1 in {Analysed, Crashed} <==> p.alive && !Throttled(s.nowMs, p.lastMs) && s.frame.Some? && !Stale(s.nowMs, s.stamp)
    ensures r.1 in {Analysed, Crashed} ==> r.0.buffer == Push(p.buffer, s.frame.value) && r.0.index == p.index + 1
  {
    Pass(p, s, s.frame.Some? && Stale(s.nowMs, s.stamp))
  }

  /** The loop as written over a run of passes. */
  function Run(p: Proc, ss: seq<Sample>): (p': Proc)
    requires Valid(p)
    ensures Valid(p')
    decreases |ss|
  {
    if |ss| == 0 then p else Run(Tick(p, ss[0]).0, ss[1..])
  }

  /** Once the thread has ended, no later pass changes anything. */
  lemma {:induction false} DeadLoopIsInert(p: Proc, ss: seq<Sample>)
    requires Valid(p) && !p.alive
    ensures Run(p, ss) == p
    decreases |ss|
  {
    if |ss| > 0 {
      DeadLoopIsInert(Tick(p, ss[0]).0, ss[1..]);
    }
  }

  /**
   * A crash inside the detection block is final: after it, whatever the
   * later samples, the status, the window and the frame counter are those
   * the crashing pass left.
   */
  lemma CrashIsFinal(p: Proc, s: Sample, ss: seq<Sample>)
    requires Valid(p) && Tick(p, s).1 == Crashed
    ensures Run(p, [s] + ss) == Tick(p, s).0
    ensures Run(p, [s] + ss).status == p.status && !Run(p, [s] + ss).alive
  {
    assert ([s] + ss)[1..] == ss;
    DeadLoopIsInert(Tick(p, s).0, ss);
  }

  /**
   * As written, a pass whose clock is past 2 s after the epoch never
   * analyses: it leaves the status, the window and the frame counter alone.
   */
  lemma AsWrittenNeverAnalyses(p: Proc, s: Sample, nowSec: real)
    requires Valid(p) && nowSec >= 2.0
    requires nowSec * 1000.0 - 1.0 < s.nowMs as real <= nowSec * 1000.0
    requires s.stamp.Some? ==> s.stamp.value <= nowSec
    ensures Tick(p, s).1 !in {Analysed, Crashed}
    ensures Tick(p, s).0.status == p.status && Tick(p, s).0.buffer == p.buffer && Tick(p, s).0.index == p.index
  {
    if s.stamp.Some? {
      AsWrittenDropsEveryFrame(s.nowMs, nowSec, s.stamp.value);
    }
  }

  /**
   * With the age test corrected, a live pass whose clock advanced analyses
   * (or crashes on) any frame stamped within the last 0.999 s.
   */
  lemma IntendedKeepsFreshFrames(p: Proc, s: Sample, nowSec: real)
    requires Valid(p) && p.alive && !Throttled(s.nowMs, p.lastMs)
    requires s.frame.Some? && s.stamp.Some? && s.stamp.value > 0.0 && nowSec - s.stamp.value <= 0.999
    requires nowSec * 1000.0 - 1.0 < s.nowMs as real <= nowSec * 1000.0
    ensures TickIntended(p, s).1 in {Analysed, Crashed}
    ensures TickIntended(p, s).0.buffer == Push(p.buffer, s.frame.value)
  {
    StaleMeansOlderThanOneSecond(s.nowMs, nowSec, s.stamp.value);
  }

  /** `get_latest_frame`: the annotated frame when there is one, otherwise the camera's. */
  function DisplayFrame(p: Proc, camera: Option<Image>): (r: Option<Image>)
    ensures p.annotated.Some? ==> r == p.annotated
    ensures p.annotated.None? ==> r == camera
  {
    if p.annotated.Some? then p.annotated else camera
  }

  /**
   * With the age test corrected, the live detector never clears its flags,
   * so once it has reported a person every later analysed frame keeps the
   * person status up, with its time refreshed to the pass's clock.
   */
  lemma PersonStaysOnceSeen(p: Proc, s: Sample)
    requires Valid(p) && p.yolo && !s.raised && p.det.hasModel && p.det.result.person
    requires TickIntended(p, s).1 == Analysed
    ensures TickIntended(p, s).0.status.person && TickIntended(p, s).0.status.personTime == s.nowMs
    ensures TickIntended(p, s).0.det.result.person
  {
    FlagsMonotone(p.det, s.inf, s.drawn);
  }

  /** A pass that does not analyse leaves the window, the frame counter and every flag alone. */
  lemma SkipLeavesStatus(p: Proc, s: Sample)
    requires Valid(p) && Tick(p, s).1 !in {Analysed, Crashed}
    ensures Tick(p, s).0.buffer == p.buffer && Tick(p, s).0.index == p.index
    ensures Tick(p, s).0.status == p.status
  {
  }
}

=== FILE: work_label.dfy ===
/**
 * The badge detector (`backend/detector/work_label.py`). Loading the hosted
 * model can leave `self.model` set, set to None, or never assigned, and
 * `detect` behaves differently in each case. Predictions below confidence
 * 0.5 are skipped; each kept one becomes a box from its centre and size,
 * truncated to integers, with the confidence as a percentage. The model
 * call and the environment are inputs.
 */
module WorkLabel {
  import opened Common
  import opened Detector

  const MIN_CONFIDENCE: real := 0.5
  const DEFAULT_CLASS_ID: int := 0
  const DEFAULT_CLASS_NAME: string := "work_label"

  /** `self.model` after `__init__`: never assigned, None, or a loaded model. */
  datatype ModelState = Unassigned | NoModel | Loaded

  /** How `get_model` ended. */
  datatype Load = LoadOk | LoadKeyError | LoadOtherError

  /**
   * `__init__`: without an API key it returns before touching `self.model`;
   * a `KeyError` while loading sets it to None; any other exception leaves it
   * unassigned.
   */
  function Init(hasKey: bool, load: Load): (m: ModelState)
    ensures m == Loaded <==> hasKey && load == LoadOk
    ensures m == NoModel <==> hasKey && load == LoadKeyError
    ensures m == Unassigned <==> !hasKey || load == LoadOtherError
  {
    if !hasKey then Unassigned
    else match load
      case LoadOk => Loaded
      case LoadKeyError => NoModel
      case LoadOtherError => Unassigned
  }

  /** One prediction: centre, size, confidence, and the optional class attributes. */
  datatype Prediction = Prediction(x: real, y: real, width: real, height: real, confidence: real,
                                   classId: Option<int>, className: Option<string>)

  /** `WorkLabelResult`. */
  datatype LabelResult = LabelResult(boxes: seq<Box>, hasLabel: bool)

  /**
   * Where an exception cut the loop short: at prediction `at`, either in the
   * confidence test (`inBox` false) or, once the prediction passed it and the
   * label flag was set, while building its box (`inBox` true).
   */
  datatype Fault = Fault(at: nat, inBox: bool)

  /** What the inference call did: raised before any prediction was read, or listed predictions, possibly with a fault. */
  datatype Inference = Raised | Predictions(preds: seq<Prediction>, fault: Option<Fault>)

  /** Python's `int()` on a float: truncation toward zero. */
  function Trunc(r: real): (i: int)
    ensures r >= 0.0 ==> i as real <= r < i as real + 1.0
    ensures r < 0.0 ==> i as real - 1.0 < r <= i as real
  {
    if r >= 0.0 then r.Floor else -((-r).Floor)
  }

  /** The box of a kept prediction. */
  function ToBox(p: Prediction): (b: Box)
    ensures b.confidence == p.confidence * 100.0
    ensures b.x1 == Trunc(p.x - p.width / 2.0) && b.x2 == Trunc(p.x + p.width / 2.0)
    ensures b.y1 == Trunc(p.y - p.height / 2.0) && b.y2 == Trunc(p.y + p.height / 2.0)
    ensures b.classId == (if p.classId.Some? then p.classId.value else DEFAULT_CLASS_ID)
    ensures b.className == (if p.className.Some? then p.className.value else DEFAULT_CLASS_NAME)
  {
    Box(Trunc(p.x - p.width / 2.0), Trunc(p.y - p.height / 2.0),
        Trunc(p.x + p.width / 2.0), Trunc(p.y + p.height / 2.0),
        p.confidence * 100.0,
        if p.classId.Some? then p.classId.value else DEFAULT_CLASS_ID,
        if p.className.Some? then p.className.value else DEFAULT_CLASS_NAME)
  }

  predicate Kept(p: Prediction)
  {
    !(p.confidence < MIN_CONFIDENCE)
  }

  /** Some prediction passes the confidence cut. */
  predicate AnyKept(ps: seq<Prediction>)
  {
    exists k :: 0 <= k < |ps| && Kept(ps[k])
  }

  /** The loop over the predictions, from an empty result. */
  function Scan(ps: seq<Prediction>): (r: LabelResult)
    ensures r.hasLabel <==> AnyKept(ps)
    ensures r.hasLabel <==> |r.boxes| > 0
    ensures |r.boxes| <= |ps|
  {
    if |ps| == 0 then LabelResult([], false)
    else
      var prev := Scan(ps[..|ps| - 1]);
      var p := ps[|ps| - 1];
      if !Kept(p) then prev else LabelResult(prev.boxes + [ToBox(p)], true)
  }

  /** `AttributeError` from reading `self.model` when it was never assigned. */
  datatype Failure = NoModelAttribute

  /**
   * `detect(frame)`: the stored and the returned result. A None model gives
   * an empty result; an exception during inference keeps what the loop had
   * built before it, including the label flag when it was set for the
   * prediction whose box then failed.
   */
  function Detect(m: ModelState, inf: Inference): (r: Result<LabelResult, Failure>)
    ensures m == Unassigned <==> r.Err?
    ensures m == NoModel ==> r == Ok(LabelResult([], false))
    ensures m == Loaded && inf.Raised? ==> r == Ok(LabelResult([], false))
    ensures m == Loaded && inf.Predictions? && inf.fault.None? ==> r == Ok(Scan(inf.preds))
    ensures m == Loaded && inf.Predictions? && inf.fault.Some? ==>
              var (k, ps) := (inf.fault.value.at, inf.preds);
              var before := Scan(ps[..Min(k, |ps|)]);
              && r.Ok? && r.value.boxes == before.boxes
              && (r.value.hasLabel <==> before.hasLabel || (inf.fault.value.inBox && k < |ps| && Kept(ps[k])))
    ensures r.Ok? && |r.value.boxes| > 0 ==> r.value.hasLabel
  {
    match m
    case Unassigned => Err(NoModelAttribute)
    case NoModel => Ok(LabelResult([], false))
    case Loaded =>
      match inf
      case Raised => Ok(LabelResult([], false))
      case Predictions(ps, None) => Ok(Scan(ps))
      case Predictions(ps, Some(Fault(k, inBox))) =>
        var before := Scan(ps[..Min(k, |ps|)]);
        var flagged := inBox && k < |ps| && Kept(ps[k]);
        Ok(before.(hasLabel := before.hasLabel || flagged))
  }

  /**
   * A failure while building the box of the first confident prediction
   * reports a label with no box.
   */
  lemma LabelWithoutBox(p: Prediction, rest: seq<Prediction>)
    requires Kept(p)
    ensures var r := Detect(Loaded, Predictions([p] + rest, Some(Fault(0, true))));
      r.Ok? && r.value.hasLabel && r.value.boxes == []
  {
    assert ([p] + rest)[..0] == [];
  }

  /** A failure in a confidence test never sets the flag beyond what the earlier predictions did. */
  lemma TestFaultAddsNothing(ps: seq<Prediction>, k: nat)
    ensures Detect(Loaded, Predictions(ps, Some(Fault(k, false)))) == Ok(Scan(ps[..Min(k, |ps|)]))
  {
  }

  /** `boxes` holds the box of each kept prediction, one for one, in order. */
  predicate BoxesOf(boxes: seq<Box>, kept: seq<Prediction>)
  {
    |boxes| == |kept| && forall k :: 0 <= k < |kept| ==> boxes[k] == ToBox(kept[k])
  }

  /** Kept predictions map to boxes one for one, in order. */
  lemma {:induction false} ScanBoxes(ps: seq<Prediction>)
    ensures BoxesOf(Scan(ps).boxes, Filter(ps, Kept))
  {
    if |ps| > 0 {
      var n := |ps| - 1;
      ScanBoxes(ps[..n]);
      FilterSnoc(ps, Kept);
      ScanSnoc(ps);
      BoxesOfStep(Scan(ps[..n]).boxes, Filter(ps[..n], Kept), ps[n], Scan(ps).boxes, Filter(ps, Kept));
    }
  }

  lemma ScanSnoc(ps: seq<Prediction>)
    requires |ps| > 0
    ensures var n := |ps| - 1;
      Scan(ps).boxes == Scan(ps[..n]).boxes + (if Kept(ps[n]) then [ToBox(ps[n])] else [])
  {
  }

  lemma BoxesOfStep(boxes: seq<Box>, kept: seq<Prediction>, p: Prediction, boxes': seq<Box>, kept': seq<Prediction>)
    requires BoxesOf(boxes, kept)
    requires boxes' == boxes + (if Kept(p) then [ToBox(p)] else [])
    requires kept' == kept + (if Kept(p) then [p] else [])
    ensures BoxesOf(boxes', kept')
  {
  }

  /**
   * Centre 10.5 with width 3 gives corners 9 and 12; centre -1.5 with width 2
   * gives -2 and 0, because `int()` cuts -2.5 and -0.5 toward zero.
   */
  lemma TruncExamples()
    ensures ToBox(Prediction(10.5, 0.0, 3.0, 0.0, 0.9, None, None)).x1 == 9
    ensures ToBox(Prediction(10.5, 0.0, 3.0, 0.0, 0.9, None, None)).x2 == 12
    ensures ToBox(Prediction(-1.5, 0.0, 2.0, 0.0, 0.9, None, None)).x1 == -2
    ensures ToBox(Prediction(-1.5, 0.0, 2.0, 0.0, 0.9, None, None)).x2 == 0
    ensures ToBox(Prediction(10.5, 0.0, 3.0, 0.0, 0.9, None, None)).className == "work_label"
  {
  }

  /** Without an API key every call fails; with a model that failed to load by `KeyError` every call is empty. */
  lemma InitPaths(load: Load, inf: Inference)
    ensures Detect(Init(false, load), inf).Err?
    ensures Detect(Init(true, LoadKeyError), inf) == Ok(LabelResult([], false))
    ensures Detect(Init(true, LoadOtherError), inf).Err?
  {
  }
}

=== FILE: ws_reconnect.dfy ===
/**
 * The WebSocket reconnect counter of `frontend/src/services/api.js`
 * (`connectWebSocket`). The module-level `ws`, `reconnectTimer` and
 * `reconnectCount` become a `Client` state; the browser's callbacks
 * (`onopen`, `onclose`, a timer firing) and the caller's `connectWebSocket`
 * and `close()` become events. The URL, logging and message handling are
 * left out. Sockets are counted, not named: `live` is the number of sockets
 * constructed whose `onclose` has not fired yet.
 *
 * `reconnectTimer` names only the latest timer: a second schedule while one
 * is pending overwrites the name, and `clearTimeout` then reaches only the
 * newer one, so older timers stay pending as `stray`.
 */
module WsReconnect {
  import opened Common

  const MAX_RECONNECT: nat := 5
  const RECONNECT_INTERVAL_MS: nat := 3000

  /**
   * `stopped` is the flag the corrected `close()` sets; the code as written
   * has no such flag, and its runs never set it.
   */
  datatype Client = Client(count: nat, latest: bool, stray: nat, live: nat, hasWs: bool, stopped: bool)

  const Start := Client(0, false, 0, 0, false, false)

  /** Timers scheduled and neither fired nor cleared. */
  function Pending(c: Client): nat
  {
    c.stray + (if c.latest then 1 else 0)
  }

  /** `setTimeout(..., RECONNECT_INTERVAL)` stored in `reconnectTimer`: one more pending timer, now the named one. */
  function Schedule(c: Client): (r: Client)
    ensures Pending(r) == Pending(c) + 1 && r.latest
    ensures r.count == c.count && r.live == c.live && r.hasWs == c.hasWs && r.stopped == c.stopped
  {
    c.(stray := Pending(c), latest := true)
  }

  /**
   * `connectWebSocket`: at the limit it returns before constructing anything
   * (and returns no handle). Otherwise a socket is constructed; when the
   * constructor throws, the count goes up and a reconnect is scheduled if the
   * new count is within the limit. The close of a previous `ws` only starts
   * the close; its `onclose` comes later as its own event. Returns the new
   * state and whether a construction was attempted.
   */
  function Connect(c: Client, constructs: bool): (r: (Client, bool))
    ensures c.count >= MAX_RECONNECT ==> r == (c, false)
    ensures c.count < MAX_RECONNECT && constructs ==> r == (c.(live := c.live + 1, hasWs := true), true)
    ensures c.count < MAX_RECONNECT && !constructs ==>
              && r.1 && r.0.count == c.count + 1 && r.0.live == c.live && r.0.latest
              && Pending(r.0) == Pending(c) + (if c.count + 1 <= MAX_RECONNECT then 1 else 0)
  {
    if c.count >= MAX_RECONNECT then (c, false)
    else if constructs then (c.(live := c.live + 1, hasWs := true), true)
    else
      var c' := c.(count := c.count + 1);
      (if c'.count <= MAX_RECONNECT then Schedule(c') else c', true)
  }

  /** `onopen`: the named timer is cleared and the count reset. */
  function OnOpen(c: Client): (r: Client)
    ensures r.count == 0 && !r.latest
    ensures r.stray == c.stray && r.live == c.live && r.hasWs == c.hasWs && r.stopped == c.stopped
  {
    c.(latest := false, count := 0)
  }

  /**
   * `onclose` of one live socket: the count goes up, and a reconnect is
   * scheduled exactly when the new count is within the limit. After the
   * corrected `close()`, nothing is counted or scheduled.
   */
  function OnClose(c: Client): (r: Client)
    requires c.live > 0
    ensures r.live == c.live - 1 && r.stopped == c.stopped && r.hasWs == c.hasWs
    ensures !c.stopped ==> r.count == c.count + 1
    ensures !c.stopped ==> Pending(r) == Pending(c) + (if c.count + 1 <= MAX_RECONNECT then 1 else 0)
    ensures c.stopped ==> r == c.(live := c.live - 1)
  {
    var c' := c.(live := c.live - 1);
    if c.stopped then c'
    else
      var c'' := c'.(count := c.count + 1);
      if c''.count <= MAX_RECONNECT then Schedule(c'') else c''
  }

  /** The returned `close()` as written: the named timer is cleared and the count reset; the socket's `onclose` is still to come. */
  function ReleaseAsWritten(c: Client): (r: Client)
    ensures r.count == 0 && !r.latest && r.stray == c.stray && r.live == c.live && r.stopped == c.stopped
  {
    c.(latest := false, count := 0)
  }

  /** The corrected `close()`: as written, and the client is marked stopped so that no later callback reconnects. */
  function Release(c: Client): (r: Client)
    ensures r.count == 0 && !r.latest && r.stray == c.stray && r.live == c.live && r.stopped
  {
    c.(latest := false, count := 0, stopped := true)
  }

  datatype Event =
    | Call(constructs: bool)              // the application calls connectWebSocket
    | Fire(named: bool, constructs: bool) // the named timer, or a stray one, fires
    | Open                                // onopen of a live socket
    | Close                               // onclose of a live socket
    | CloseHandle                         // the application calls the returned close()

  /** Whether the browser can deliver the event in this state; other events are ignored. */
  predicate Enabled(c: Client, e: Event)
  {
    match e
    case Call(_) => true
    case Fire(named, _) => if named then c.latest else c.stray > 0
    case Open => c.live > 0
    case Close => c.live > 0
    case CloseHandle => true
  }

  /** One event of the corrected client; returns the state and the number of constructions attempted (0 or 1). */
  function Step(c: Client, e: Event): (r: (Client, nat))
    ensures r.1 <= 1
    ensures r.1 == 1 ==> c.count < MAX_RECONNECT && (e.Call? || e.Fire?)
  {
    if !Enabled(c, e) then (c, 0)
    else
      match e
      case Call(ok) =>
        var (c', a) := Connect(c.(stopped := false), ok);
        (c', if a then 1 else 0)
      case Fire(named, ok) =>
        var c1 := if named then c.(latest := false) else c.(stray := c.stray - 1);
        if c1.stopped then (c1, 0)
        else
          var (c', a) := Connect(c1, ok);
          (c', if a then 1 else 0)
      case Open => (OnOpen(c), 0)
      case Close => (OnClose(c), 0)
      case CloseHandle => (Release(c), 0)
  }

  /** One event of the client as written: only the returned `close()` differs. */
  function StepAsWritten(c: Client, e: Event): (r: (Client, nat))
    ensures !e.CloseHandle? ==> r == Step(c, e)
    ensures e.CloseHandle? ==> r == (ReleaseAsWritten(c), 0)
  {
    if e.CloseHandle? then (ReleaseAsWritten(c), 0) else Step(c, e)
  }

  /** A run of events: the final state and the constructions attempted. */
  function Run(c: Client, t: seq<Event>): (Client, nat)
    decreases |t|
  {
    if |t| == 0 then (c, 0)
    else
      var (c', n) := Run(c, t[..|t| - 1]);
      var (c'', a) := Step(c', t[|t| - 1]);
      (c'', n + a)
  }

  function RunAsWritten(c: Client, t: seq<Event>): (Client, nat)
    decreases |t|
  {
    if |t| == 0 then (c, 0)
    else
      var (c', n) := RunAsWritten(c, t[..|t| - 1]);
      var (c'', a) := StepAsWritten(c', t[|t| - 1]);
      (c'', n + a)
  }

  /** At the limit, a call does nothing and returns no handle. */
  lemma RefusesAtLimit(c: Client, ok: bool)
    requires c.count >= MAX_RECONNECT && !c.stopped
    ensures Step(c, Call(ok)) == (c, 0)
  {
  }

  /** A constructor failure below the limit is counted and always schedules a reconnect, since the new count is at most the limit. */
  lemma FailureSchedules(c: Client)
    requires c.count < MAX_RECONNECT && !c.stopped
    ensures var r := Step(c, Call(false));
      && r.1 == 1 && r.0.count == c.count + 1 && Pending(r.0) == Pending(c) + 1
  {
  }

  /** The sixth failure in a row is the first that schedules nothing: its count exceeds the limit. */
  lemma SixthCloseStops(c: Client)
    requires c.count == MAX_RECONNECT && c.live > 0 && !c.stopped
    ensures OnClose(c).count == MAX_RECONNECT + 1 && Pending(OnClose(c)) == Pending(c)
  {
  }

  /** Events that neither reset the count nor stop the client. */
  predicate NoReset(t: seq<Event>)
  {
    forall k :: 0 <= k < |t| ==> !t[k].Open? && !t[k].CloseHandle?
  }

  /**
   * Without opens or closes of the handle, every construction attempt adds
   * one to the count or to the live sockets and every `onclose` moves one
   * from the live sockets to the count, so their sum grows by the attempts.
   */
  lemma {:induction false} Conservation(c: Client, t: seq<Event>)
    requires NoReset(t) && !c.stopped
    ensures var (c', n) := Run(c, t);
      && !c'.stopped
      && c'.count + c'.live == c.count + c.live + n
    decreases |t|
  {
    if |t| > 0 {
      var m := |t| - 1;
      assert NoReset(t[..m]) by {
        assert forall k :: 0 <= k < m ==> t[..m][k] == t[k];
      }
      Conservation(c, t[..m]);
      StepConserves(Run(c, t[..m]).0, t[m]);
    }
  }

  lemma StepConserves(c: Client, e: Event)
    requires !e.Open? && !e.CloseHandle? && !c.stopped
    ensures var (c', a) := Step(c, e);
      !c'.stopped && c'.count + c'.live == c.count + c.live + a
  {
    if Enabled(c, e) {
      match e
      case Call(ok) =>
      case Fire(named, ok) =>
      case Close =>
    }
  }

  /** Every construction attempt of the run happens with no socket live. */
  predicate Sequential(c: Client, t: seq<Event>)
  {
    forall k :: 0 <= k < |t| && (t[k].Call? || t[k].Fire?) ==> Run(c, t[..k]).0.live == 0
  }

  /**
   * When each attempt waits for the previous socket to close, as the
   * reconnect chain does, at most `MAX_RECONNECT` sockets are constructed
   * between two resets, fewer by what is already counted.
   */
  lemma {:induction false} SequentialBudget(c: Client, t: seq<Event>)
    requires NoReset(t) && !c.stopped && Sequential(c, t)
    ensures Run(c, t).1 + c.count + c.live <= if c.count + c.live <= MAX_RECONNECT then MAX_RECONNECT else c.count + c.live
    decreases |t|
  {
    if |t| > 0 {
      var m := |t| - 1;
      assert t[..m][..m] == t[..m];
      assert NoReset(t[..m]) by {
        assert forall k :: 0 <= k < m ==> t[..m][k] == t[k];
      }
      assert Sequential(c, t[..m]) by {
        forall k | 0 <= k < m && (t[..m][k].Call? || t[..m][k].Fire?)
          ensures Run(c, t[..m][..k]).0.live == 0
        {
          assert t[..m][k] == t[k] && t[..m][..k] == t[..k];
        }
      }
      SequentialBudget(c, t[..m]);
      Conservation(c, t[..m]);
      if t[m].Call? || t[m].Fire? {
        assert Run(c, t[..m]).0.live == 0;
      }
    }
  }

  /** From a fresh client, at most five sockets are constructed before the first open. */
  lemma AtMostFiveFromStart(t: seq<Event>)
    requires NoReset(t) && Sequential(Start, t)
    ensures Run(Start, t).1 <= MAX_RECONNECT
  {
    SequentialBudget(Start, t);
  }

  /** An open resets the count and cancels the named timer. */
  lemma OpenResets(c: Client)
    requires c.live > 0
    ensures var r := Step(c, Open).0;
      r.count == 0 && !r.latest && Pending(r) == c.stray
  {
  }

  /**
   * As written, closing through the handle does not stop the client: the
   * socket's own `onclose` arrives afterwards, counts 1, schedules a
   * reconnect, and the timer constructs a new socket.
   */
  lemma AsWrittenHandleReconnects(c: Client)
    requires c.live > 0 && !c.stopped
    ensures RunAsWritten(c, [CloseHandle, Close, Fire(true, true)]).1 == 1
  {
    var t := [CloseHandle, Close, Fire(true, true)];
    assert t[..2][..1] == [CloseHandle] && t[..2] == [CloseHandle, Close] && t[..1] == [CloseHandle];
    var c1 := ReleaseAsWritten(c);
    assert RunAsWritten(c, t[..1]) == (c1, 0);
    var c2 := OnClose(c1);
    assert c2.count == 1 && c2.latest;
    assert RunAsWritten(c, t[..2]) == (c2, 0);
  }

  /** Events the browser delivers on its own, without the application calling in again. */
  predicate NoCall(t: seq<Event>)
  {
    forall k :: 0 <= k < |t| ==> !t[k].Call?
  }

  /**
   * The corrected handle stops the client for good: whatever the browser
   * delivers afterwards, no socket is constructed until the application
   * calls `connectWebSocket` again.
   */
  lemma {:induction false} HandleStopsReconnects(c: Client, t: seq<Event>)
    requires NoCall(t)
    ensures Run(Release(c), t).0.stopped && Run(Release(c), t).1 == 0
    decreases |t|
  {
    if |t| > 0 {
      var m := |t| - 1;
      assert NoCall(t[..m]) by {
        assert forall k :: 0 <= k < m ==> t[..m][k] == t[k];
      }
      HandleStopsReconnects(c, t[..m]);
    }
  }
}

=== FILE: yolo_detector.dfy ===
/**
 * The detector package's YOLO wrapper (`backend/detector/yolo_detector.py`).
 * Unlike the live detector it builds a fresh result on every call: boxes
 * below confidence 0.5 are dropped, class 0 marks a person, classes 39
 * (bottle) and 41 (cup) mark a cup, and every kept box is recorded. The
 * model output is an input; a model call that raises leaves `result`
 * unbound, so `detect` itself fails.
 */
module YoloDetector {
  import opened Common
  import opened Detector

  const MIN_CONFIDENCE: real := 0.5
  const PERSON: int := 0
  const BOTTLE: int := 39
  const CUP: int := 41

  /** `YoloResult`: the kept boxes and the two flags. */
  datatype YoloResult = YoloResult(boxes: seq<Box>, person: bool, cup: bool)

  const Empty := YoloResult([], false, false)

  /** The detector: the model's class names when a model loaded, and the last result. */
  datatype Yolo = Yolo(names: Option<map<int, string>>, result: YoloResult)

  /** What the model call did: raised, or reported these boxes in order. */
  datatype ModelRun = ModelRaised | Boxes(boxes: seq<YoloBox>)

  /** `UnboundLocalError` from reading `result` after the model call raised. */
  datatype Failure = ResultUnbound

  predicate Kept(b: YoloBox)
  {
    !(b.conf < MIN_CONFIDENCE)
  }

  predicate IsCupClass(c: int)
  {
    c == BOTTLE || c == CUP
  }

  /** Some confident box is a person. */
  predicate SeesPerson(bs: seq<YoloBox>)
  {
    exists k :: 0 <= k < |bs| && Kept(bs[k]) && bs[k].cls == PERSON
  }

  /** Some confident box is a bottle or a cup. */
  predicate SeesCup(bs: seq<YoloBox>)
  {
    exists k :: 0 <= k < |bs| && Kept(bs[k]) && IsCupClass(bs[k].cls)
  }

  lemma SeesSnoc(bs: seq<YoloBox>)
    requires |bs| > 0
    ensures var b := bs[|bs| - 1];
      && (SeesPerson(bs) <==> SeesPerson(bs[..|bs| - 1]) || (Kept(b) && b.cls == PERSON))
      && (SeesCup(bs) <==> SeesCup(bs[..|bs| - 1]) || (Kept(b) && IsCupClass(b.cls)))
  {
    var init := bs[..|bs| - 1];
    assert forall k :: 0 <= k < |init| ==> init[k] == bs[k];
    if SeesPerson(bs) {
      var k :| 0 <= k < |bs| && Kept(bs[k]) && bs[k].cls == PERSON;
      if k < |init| {
        assert init[k] == bs[k];
      }
    }
    if SeesCup(bs) {
      var k :| 0 <= k < |bs| && Kept(bs[k]) && IsCupClass(bs[k].cls);
      if k < |init| {
        assert init[k] == bs[k];
      }
    }
  }

  /** The loop over the model's boxes, from a fresh result. */
  function Collect(bs: seq<YoloBox>, names: map<int, string>): (r: YoloResult)
    ensures r.person == SeesPerson(bs)
    ensures r.cup == SeesCup(bs)
    ensures |r.boxes| <= |bs|
  {
    if |bs| == 0 then Empty
    else
      var prev := Collect(bs[..|bs| - 1], names);
      var b := bs[|bs| - 1];
      SeesSnoc(bs);
      if !Kept(b) then prev
      else YoloResult(prev.boxes + [FromYoloBox(b, names)],
                      prev.person || b.cls == PERSON,
                      prev.cup || IsCupClass(b.cls))
  }

  /** `boxes` holds the converted box of each kept detection, one for one, in order. */
  predicate ConvertedFrom(boxes: seq<Box>, kept: seq<YoloBox>, names: map<int, string>)
  {
    |boxes| == |kept| && forall k :: 0 <= k < |kept| ==> boxes[k] == FromYoloBox(kept[k], names)
  }

  /** One recorded box per kept detection, converted in model order. */
  lemma {:induction false} CollectBoxes(bs: seq<YoloBox>, names: map<int, string>)
    ensures ConvertedFrom(Collect(bs, names).boxes, Filter(bs, Kept), names)
  {
    if |bs| > 0 {
      var n := |bs| - 1;
      CollectBoxes(bs[..n], names);
      FilterSnoc(bs, Kept);
      CollectSnoc(bs, names);
      ConvertedStep(Collect(bs[..n], names).boxes, Filter(bs[..n], Kept), bs[n], names,
                    Collect(bs, names).boxes, Filter(bs, Kept));
    }
  }

  lemma CollectSnoc(bs: seq<YoloBox>, names: map<int, string>)
    requires |bs| > 0
    ensures var n := |bs| - 1;
      Collect(bs, names).boxes == Collect(bs[..n], names).boxes + (if Kept(bs[n]) then [FromYoloBox(bs[n], names)] else [])
  {
  }

  lemma ConvertedStep(boxes: seq<Box>, kept: seq<YoloBox>, b: YoloBox, names: map<int, string>,
                      boxes': seq<Box>, kept': seq<YoloBox>)
    requires ConvertedFrom(boxes, kept, names)
    requires boxes' == boxes + (if Kept(b) then [FromYoloBox(b, names)] else [])
    requires kept' == kept + (if Kept(b) then [b] else [])
    ensures ConvertedFrom(boxes', kept', names)
  {
  }

  /** `detect(frame)`. */
  function Detect(y: Yolo, run: ModelRun): (r: (Yolo, Result<YoloResult, Failure>))
    ensures y.names.None? ==> r == (y, Ok(y.result))
    ensures y.names.Some? && run.ModelRaised? ==> r == (y, Err(ResultUnbound))
    ensures y.names.Some? && run.Boxes? ==>
              && r.1 == Ok(Collect(run.boxes, y.names.value))
              && r.0 == y.(result := r.1.value)
  {
    match y.names
    case None => (y, Ok(y.result))
    case Some(names) =>
      match run
      case ModelRaised => (y, Err(ResultUnbound))
      case Boxes(bs) =>
        var res := Collect(bs, names);
        (y.(result := res), Ok(res))
  }

  /** Each call starts afresh: with a model, the previous result has no influence on the new one. */
  lemma FreshEachCall(y1: Yolo, y2: Yolo, bs: seq<YoloBox>)
    requires y1.names.Some? && y1.names == y2.names
    ensures Detect(y1, Boxes(bs)).1 == Detect(y2, Boxes(bs)).1
  {
  }

  /** A low-confidence box changes nothing, wherever it appears. */
  lemma {:induction false} LowConfidenceIgnored(xs: seq<YoloBox>, b: YoloBox, ys: seq<YoloBox>, names: map<int, string>)
    requires !Kept(b)
    ensures Collect(xs + [b] + ys, names) == Collect(xs + ys, names)
    decreases |ys|
  {
    if |ys| == 0 {
      assert xs + [b] + ys == xs + [b];
      assert xs + ys == xs;
      CollectDropsLast(xs, b, names);
    } else {
      var m := |ys| - 1;
      LowConfidenceIgnored(xs, b, ys[..m], names);
      SplitLast(xs + [b], ys);
      SplitLast(xs, ys);
      CollectSameLast(xs + [b] + ys, xs + ys, names);
    }
  }

  /** Dropping the last element of `p + ys` drops it from `ys`. */
  lemma SplitLast<T>(p: seq<T>, ys: seq<T>)
    requires |ys| > 0
    ensures (p + ys)[..|p + ys| - 1] == p + ys[..|ys| - 1]
    ensures (p + ys)[|p + ys| - 1] == ys[|ys| - 1]
  {
  }

  lemma CollectDropsLast(xs: seq<YoloBox>, b: YoloBox, names: map<int, string>)
    requires !Kept(b)
    ensures Collect(xs + [b], names) == Collect(xs, names)
  {
    assert (xs + [b])[..|xs|] == xs;
  }

  lemma CollectSameLast(a: seq<YoloBox>, c: seq<YoloBox>, names: map<int, string>)
    requires |a| > 0 && |c| > 0 && a[|a| - 1] == c[|c| - 1]
    requires Collect(a[..|a| - 1], names) == Collect(c[..|c| - 1], names)
    ensures Collect(a, names) == Collect(c, names)
  {
  }

  /** A cup is reported for a bottle or a cup and for no other class. */
  lemma CupClasses(names: map<int, string>, c: int)
    ensures Collect([YoloBox(0, 0, 0, 0, 0.9, c)], names).cup <==> c == 39 || c == 41
    ensures Collect([YoloBox(0, 0, 0, 0, 0.9, c)], names).person <==> c == 0
  {
    assert [YoloBox(0, 0, 0, 0, 0.9, c)][..0] == [];
  }
}

=== FILE: yolo_live.dfy ===
/**
 * The live detector the video pipeline uses (`backend/yolo_detector.py`,
 * `YoloDetector.detect`). Its result record is created once and only ever
 * has flags set to true: class 0 sets `person_detected`, class 41 sets
 * `cup_detected`, with no confidence filter. The YOLO model is abstracted to
 * the list of class ids it reports and the point, if any, where the call
 * raised; the drawn copy of the frame is an input.
 */
module YoloLive {
  import opened Common

  const PERSON: int := 0
  const CUP: int := 41

  /** `self.result`: the two flags and the last annotated frame. */
  datatype LiveResult = LiveResult(person: bool, cup: bool, annotated: Option<Image>)

  /** The detector: whether a model was loaded, and the result record it keeps returning. */
  datatype Live = Live(hasModel: bool, result: LiveResult)

  const Unset := LiveResult(false, false, None)

  /**
   * What the model call produced: the class id of every box in model order,
   * and `raisedAt == Some(k)` when an exception cut the call short after the
   * flags of the first `k` boxes were set (`Some(0)` when the model itself raised).
   */
  datatype Inference = Inference(classes: seq<int>, raisedAt: Option<nat>)

  /** How many boxes had their flags applied. */
  function Handled(inf: Inference): (n: nat)
    ensures n <= |inf.classes|
  {
    match inf.raisedAt
    case None => |inf.classes|
    case Some(k) => Min(k, |inf.classes|)
  }

  /** True when one of the first `n` classes is `c`. */
  predicate SeenIn(classes: seq<int>, n: nat, c: int)
    requires n <= |classes|
  {
    exists k :: 0 <= k < n && classes[k] == c
  }

  /** The flag loop over the first `n` boxes, starting from `r`. */
  function SetFlags(r: LiveResult, classes: seq<int>, n: nat): (r': LiveResult)
    requires n <= |classes|
    ensures r'.person <==> r.person || SeenIn(classes, n, PERSON)
    ensures r'.cup <==> r.cup || SeenIn(classes, n, CUP)
    ensures r'.annotated == r.annotated
  {
    if n == 0 then r
    else
      var prev := SetFlags(r, classes, n - 1);
      var c := classes[n - 1];
      prev.(person := prev.person || c == PERSON, cup := prev.cup || c == CUP)
  }

  /**
   * `detect(frame)`: with no model the stored result comes back untouched;
   * otherwise the flags of the handled boxes are set, and only a call that
   * did not raise stores the drawn copy as the annotated frame.
   */
  function Detect(d: Live, inf: Inference, drawn: Image): (r: (Live, LiveResult))
    ensures r.1 == r.0.result && r.0.hasModel == d.hasModel
    ensures !d.hasModel ==> r.0 == d
    ensures d.hasModel ==>
              && (r.1.person <==> d.result.person || SeenIn(inf.classes, Handled(inf), PERSON))
              && (r.1.cup <==> d.result.cup || SeenIn(inf.classes, Handled(inf), CUP))
              && r.1.annotated == (if inf.raisedAt.None? then Some(drawn) else d.result.annotated)
  {
    if !d.hasModel then (d, d.result)
    else
      var flagged := SetFlags(d.result, inf.classes, Handled(inf));
      var res := if inf.raisedAt.None? then flagged.(annotated := Some(drawn)) else flagged;
      (d.(result := res), res)
  }

  /** A flag, once set, stays set on every later call. */
  lemma FlagsMonotone(d: Live, inf: Inference, drawn: Image)
    ensures d.result.person ==> Detect(d, inf, drawn).1.person
    ensures d.result.cup ==> Detect(d, inf, drawn).1.cup
  {
  }

  /** Calls in order, each with its own model output and drawn copy. */
  function DetectAll(d: Live, infs: seq<Inference>, drawn: seq<Image>): (r: Live)
    requires |infs| == |drawn|
    ensures r.hasModel == d.hasModel
  {
    if |infs| == 0 then d
    else Detect(DetectAll(d, infs[..|infs| - 1], drawn[..|drawn| - 1]), infs[|infs| - 1], drawn[|drawn| - 1]).0
  }

  /** Over a detector's lifetime the person flag is true iff some earlier call saw class 0. */
  lemma {:induction false} PersonLatches(d: Live, infs: seq<Inference>, drawn: seq<Image>)
    requires |infs| == |drawn| && d.hasModel
    ensures DetectAll(d, infs, drawn).result.person <==>
              d.result.person || exists i :: 0 <= i < |infs| && SeenIn(infs[i].classes, Handled(infs[i]), PERSON)
  {
    if |infs| > 0 {
      var n := |infs|;
      PersonLatches(d, infs[..n - 1], drawn[..n - 1]);
      assert forall i :: 0 <= i < n - 1 ==> infs[..n - 1][i] == infs[i];
    }
  }

  /** A box of a class other than 0 and 41 changes nothing. */
  lemma OtherClassesIgnored(d: Live, c: int, drawn: Image)
    requires d.hasModel && c != PERSON && c != CUP
    ensures Detect(d, Inference([c], None), drawn).1 == d.result.(annotated := Some(drawn))
  {
  }
}
